=== FILE: README.md ===
# event-service-gui: the rules behind the admin console, in Dafny

event-service-gui is the web console race officials use to prepare a
cross-country sprint event. They import contestants and age classes, merge
age classes into race classes, hand out and seed bibs, fill start lists,
shuffle the second round, adjust rest times between rounds, and watch a
checklist of what is left to do. The console keeps no data of its own. Each
action reads a snapshot from the backend services (contestants, race
classes, raceplans, start lists, time events, competition formats), decides
what to change, and writes the changes back one request at a time.

This project models those decisions and the writes they issue.

- **Backend stores as classes.** The backend stores become Dafny classes
  whose fields the operations update:
  - the contestant store (`ContestantsAdapter.ContestantStore`): records by
    id plus the store's own order;
  - the race-class store (`Classes.RaceclassStore`);
  - the race store (`Races.RaceStore`): races with their ordered start
    entries;
  - the start-list and time-event collections (`Tasks.Collection`);
  - the competition-format store (`Settings.FormatStore`).
- **Rules of the contestants adapter.** A contestant whose bib is in a
  start list is refused any change. Club names are cleaned before a create.
  A deletion lowers the race class's head count.
- **Views as methods.** Each view algorithm is a method over those stores.
  Its contract ties the new state to a specification function of the old
  state, and the properties the code promises are proved as lemmas about
  those functions.

Modules, in dependency order:

| module | file | models |
|---|---|---|
| `Common` | common.dfy | Python string and number helpers (`strip`, `replace`, `split`, `isnumeric`, `int`, `str`), posted forms |
| `Classes` | classes.dfy | race-class records and the race-class store |
| `ContestantsAdapter` | contestants_adapter.dfy | the contestant store with the adapter's rules |
| `Races` | races.dfy | races, start entries and the race store |
| `BibSwap` | bib_swap.dfy | `swap_bibs` |
| `HeatSeeding` | heat_seeding.dfy | `get_heat_separators` and the seeding of one class |
| `Seeding` | seeding.dfy | `perform_seeding`, `add_seeding_points`, `add_seeding_from_form` |
| `ViewUtils` | view_utils.dfy | display style, qualification text, next-race rows, passing markers, `create_start` |
| `StartAdapter` | start_adapter.dfy | start lookup by bib, `swap_starts`, `shuffle_round2` |
| `Raceplans` | raceplans.dfy | `set_min_rest_time` and the `update_one` branch |
| `ContestantsView` | contestants_view.dfy | available bib, start-list placement of a late entry, late-entry availability |
| `ContestantImport` | contestant_import.dfy | contestants from a form, from XML, and the CSV import |
| `Raceclasses` | raceclasses.dfy | `merge_ageclasses` and `update_one` of the race-class page |
| `Tasks` | tasks.dfy | `get_task_status`, `delete_start_lists`, `delete_time_events` |
| `Settings` | settings.dfy | `get_config_from_form` and the competition-format update |
| `XmlImport` | xml_import.dfy | the two `src/` XML readers |

Three behaviours of the code that a reader might not expect, which the
model keeps:

- `perform_seeding` with seeded contestants and no Q heat raises
  `ZeroDivisionError`; it does not skip the class.
- A swap of two bibs whose second bib has no holder leaves the first
  contestant without a bib. It is not a no-op.
- The second `src/` reader of age classes removes only the mis-decoded
  "Ã¥r", so a correctly decoded "år" survives in the raceclass name.

The two `src/` readers (`views/utils_xml.py` and `views/utils.py`) map
contestants and events the same way. `XmlImport` models both, and the
year word removed from raceclass names is a parameter.

## Model

| member | source | states |
|---|---|---|
| BibSwap.BibText | event_service_gui/views/utils.py:404-408 | a missing bib prints as "None"; a present bib prints as a text that `int()` reads back as that bib |
| BibSwap.SwapBibs | event_service_gui/views/utils.py:374-410 | the store ends exactly as `SwapRecords` says, from the records before the call: same order, still well formed, same result and message |
| BibSwap.HandOver | event_service_gui/views/utils.py:387-406 | the second half of a swap (holder of bib2 takes bib1, then contestant1 takes bib2) ends as `HandOverRecords` says |
| BibSwap.HolderMatches | event_service_gui/services/contestants_adapter.py:296-324 | the bib lookup finds nobody exactly when the bib is missing or no stored contestant holds it |
| BibSwap.SwapSameBib | event_service_gui/views/utils.py:374-377 | swapping a bib with itself writes nothing and returns "" |
| BibSwap.SwapFirstMissing | event_service_gui/views/utils.py:407-408 | nobody holds bib1: nothing is written and the message is "Bib {bib1} not found. " |
| BibSwap.SwapSecondMissing | event_service_gui/views/utils.py:381-406 | bib1 is held but bib2 is not: its holder is left with no bib, nobody else changes, and the message still names bib1 |
| BibSwap.SwapExchanges | event_service_gui/views/utils.py:381-404 | both bibs held: every write goes through exactly when neither bib is in a start list; then the two holders have exchanged bibs, nobody else changed, and the message is "Bibs swapped: ..."; the only possible refusal is a start-list refusal |
| BibSwap.SwapTwiceRestores | event_service_gui/views/utils.py:374-404 | a completed swap repeated restores every record |
| BibSwap.SwapKeepsWellformed | event_service_gui/views/utils.py:381-404 | whatever the outcome, bibs stay unique: clearing contestant1 first means the store never sees two holders |
| BibSwap.HandOverKeepsWellformed | event_service_gui/views/utils.py:387-403 | the second half of a swap keeps bibs unique |
| BibSwap.SwapFrame | event_service_gui/views/utils.py:381-404 | whatever the outcome, only bibs change, only on the holders of bib1 and bib2, and each ends with no bib or one of the two |
| BibSwap.HandOverFrame | event_service_gui/views/utils.py:387-404 | the same frame for the second half of a swap |
| ContestantsAdapter.Holder | event_service_gui/services/contestants_adapter.py:296-324 | the first contestant in store order holding the bib; nothing when the bib is missing or unheld |
| ContestantsAdapter.HolderIs | event_service_gui/services/contestants_adapter.py:322-324 | with unique bibs, the lookup returns the one holder |
| ContestantsAdapter.UpdateVerdict | event_service_gui/services/contestants_adapter.py:425-435 | the adapter refuses an id get_contestant cannot find and a current bib with a start entry; a write that passes those checks is refused only for a new bib another contestant holds, a rule of the contestant service and not of these lines (assumed, see "## Left out"); a refusal names the first rule broken |
| ContestantsAdapter.UpdateKeepsUnique | event_service_gui/services/contestants_adapter.py:417-459 | an accepted update keeps bibs unique |
| ContestantsAdapter.UpdateKeepsWellformed | event_service_gui/services/contestants_adapter.py:417-459 | an accepted update keeps the store well formed |
| ContestantsAdapter.NormaliseClub | event_service_gui/services/contestants_adapter.py:64-66 | the club sent has no '-'; a club with no '-' after stripping is sent stripped |
| ContestantsAdapter.NormaliseClubKeepsInnerBlank | event_service_gui/services/contestants_adapter.py:65-66 | stripping happens before the dashes go: a dash followed by a name with no dash and no trailing blank becomes that name, so "- IL" is sent as " IL", with a leading blank |
| ContestantsAdapter.AssignBibsUrl | event_service_gui/services/contestants_adapter.py:31-33 | "?start-bib=" is appended exactly when the start bib is truthy (given and non-zero), and the appended text reads back as that number |
| ContestantsAdapter.UnauthorizedReason | event_service_gui/services/contestants_adapter.py:40-41 | the reason of a 401 refusal starts with "401" and ends with the service name |
| ContestantsAdapter.ContestantStore.Get | event_service_gui/services/contestants_adapter.py:357-383 | the record filed under the id, present exactly when the id is stored |
| ContestantsAdapter.ContestantStore.FindByBib | event_service_gui/services/contestants_adapter.py:296-324 | a record is returned exactly when some stored contestant holds the bib; it is that contestant, and the only one |
| ContestantsAdapter.ContestantStore.Members | event_service_gui/services/contestants_adapter.py:326-355 | only stored contestants of the given age classes, each once |
| ContestantsAdapter.ContestantStore.Update | event_service_gui/services/contestants_adapter.py:417-459 | the result is the verdict on the old records; an accepted write replaces exactly the record with that id, and a refused one changes nothing |
| ContestantsAdapter.ContestantStore.Create | event_service_gui/services/contestants_adapter.py:51-82 | an accepted create appends the id and stores the record with its club normalised; a taken id or bib changes nothing |
| ContestantsAdapter.ContestantStore.Delete | event_service_gui/services/contestants_adapter.py:153-206 | the delete passes exactly when the id is stored and its bib has no start entry; then the record and its id go and the class the assumed lookup `get_raceclass_by_ageclass` returns, the first one holding its age class, counts one less; a refusal changes nothing |
| ContestantsAdapter.RemoveKeepsWellformed | event_service_gui/services/contestants_adapter.py:174-190 | removing a contestant keeps the store well formed |
| ContestantsAdapter.OneLessIn | event_service_gui/services/contestants_adapter.py:192-200 | same classes and ids; only the first class holding the age class, the one the assumed lookup `get_raceclass_by_ageclass` returns, counts one less |
| ContestantsAdapter.DecrementClassOf | event_service_gui/services/contestants_adapter.py:191-205 | the class store ends as OneLessIn of the old classes, under the assumed lookup and the assumed refusal of an unknown class id; no class holding the age class means no change |
| ContestantsAdapter.MembersOf | event_service_gui/services/contestants_adapter.py:326-355 | the records of the given age classes, in store order, no id twice |
| ContestantsAdapter.WithoutIdSeq | event_service_gui/services/contestants_adapter.py:174-190 | the order without the deleted id and with every other id |
| ContestantsAdapter.RemoveKeepsDistinct | event_service_gui/services/contestants_adapter.py:174-190 | removing an id keeps the order free of repeats |
| ContestantsAdapter.CreateVerdict | event_service_gui/services/contestants_adapter.py:68-81 | a create passes exactly when the id is new and the bib is missing or unheld; otherwise the refusal names the taken id or bib |
| ContestantsAdapter.CreateKeepsUnique | event_service_gui/services/contestants_adapter.py:51-82 | an accepted create keeps bibs unique |
| Classes.IndexOfId | event_service_gui/services/contestants_adapter.py:198-200 | the position of the class with that id, or proof that none has it |
| Classes.FirstWithAgeclass | event_service_gui/services/contestants_adapter.py:193-195 | the first class whose age classes include the given one, and no earlier class includes it |
| Classes.WithoutId | event_service_gui/views/raceclasses.py:159-165 | exactly the classes with another id are kept |
| Classes.WithRecord | event_service_gui/services/contestants_adapter.py:198-200 | the class with rc's id is replaced by rc and every other class stays |
| Classes.WithRecordHolds | event_service_gui/views/raceclasses.py:144-158 | after the replacement a class is rc or an untouched class; untouched classes stay; rc is present when its id was |
| Classes.WithoutIdHolds | event_service_gui/views/raceclasses.py:159-165 | a class survives the deletion exactly when it has another id |
| Classes.WithoutAbsentId | event_service_gui/views/raceclasses.py:159-165 | deleting an id nobody has changes nothing |
| Classes.RaceclassStore.Get | event_service_gui/views/raceclasses.py:129-134 | a class is returned exactly when one has the id, and it has that id |
| Classes.RaceclassStore.Update | event_service_gui/services/contestants_adapter.py:198-200 | an update of a stored id replaces that class and keeps the rest; an unknown id is refused and changes nothing, as the class service is assumed to do |
| Classes.RaceclassStore.Delete | event_service_gui/views/raceclasses.py:159-165 | the delete passes exactly when the id is stored, and then exactly the classes with other ids remain |
| Classes.WithoutIdKeepsDistinct | event_service_gui/views/raceclasses.py:159-165 | deleting keeps class ids distinct |
| HeatSeeding.QSizes | event_service_gui/views/utils.py:490-493 | the head counts of the Q races, no more entries than races |
| HeatSeeding.NatSumAppend | event_service_gui/views/utils.py:492 | adding one more head count adds it to the total |
| HeatSeeding.PrefixSumMonotone | event_service_gui/views/utils.py:489-493 | a longer prefix of head counts never sums to less |
| HeatSeeding.HeatSeparators | event_service_gui/views/utils.py:485-494 | one separator per Q race, separator h being the total head count of Q races 0..h |
| HeatSeeding.SeparatorsNonDecreasing | event_service_gui/views/utils.py:485-494 | the separators never decrease |
| HeatSeeding.SlotInHeat | event_service_gui/views/utils.py:467-472 | a rank that fits its heat gets a slot inside the block of slots of heat i % H |
| HeatSeeding.SlotsDistinct | event_service_gui/views/utils.py:467-472 | two ranks that fit their heats get different slots |
| HeatSeeding.SeededBelow | event_service_gui/views/utils.py:457 | exactly the indexes of contestants with truthy seeding points, in list order |
| HeatSeeding.InsertRank | event_service_gui/views/utils.py:458 | inserting a rank adds exactly it to the ranks |
| HeatSeeding.InsertRankSorted | event_service_gui/views/utils.py:458 | inserting into rank order keeps rank order |
| HeatSeeding.SortRanks | event_service_gui/views/utils.py:458 | sorting permutes the seeded indexes |
| HeatSeeding.SortRanksSorted | event_service_gui/views/utils.py:458 | the sort yields rank order: fewer points first, equal points in list order, as in a stable sort |
| HeatSeeding.SeedingOrder | event_service_gui/views/utils.py:457-458 | exactly the seeded contestants (seeding points neither None nor 0), each once, in rank order |
| HeatSeeding.MemberAt | event_service_gui/views/utils.py:465 | a contestant of the class list is a member |
| HeatSeeding.StartBibs | event_service_gui/views/utils.py:473 | the bibs of the class list as read before any swap |
| HeatSeeding.FramedAfter | event_service_gui/views/utils.py:465-479 | a write that only moves a bib of the class leaves everyone outside the class untouched |
| HeatSeeding.SnapshotBibsDistinct | event_service_gui/views/utils.py:473 | the bibs of the class list are distinct |
| HeatSeeding.HeldAfterExchange | event_service_gui/views/utils.py:479 | exchanging two members' bibs keeps the class's bibs as a multiset |
| HeatSeeding.ExchangeKeepsMultiset | event_service_gui/views/utils.py:479 | exchanging two elements keeps the multiset |
| HeatSeeding.PlacedAfterExchange | event_service_gui/views/utils.py:473-479 | after swap i, rank i holds its slot's bib and earlier ranks keep theirs |
| HeatSeeding.FramedStep | event_service_gui/views/utils.py:473-479 | one swap of the loop keeps the frame, whatever the store answers |
| HeatSeeding.HolderInClass | event_service_gui/views/utils.py:473-479 | while the class holds its starting bibs, each starting bib has a holder in the class |
| HeatSeeding.HeldIsSome | event_service_gui/views/utils.py:474-478 | under the same hypothesis every member still holds a bib |
| HeatSeeding.PlacedStep | event_service_gui/views/utils.py:465-479 | one swap of the loop keeps the class's bibs and places one more rank |
| HeatSeeding.DealBibs | event_service_gui/views/utils.py:465-479 | seeded contestants exist but there is no Q heat: `i % H` raises, exactly then; an out-of-range slot raises IndexError; when every member has a bib and every rank fits, rank i ends with the bib at Slot(i) of the class list; nobody outside the class changes |
| HeatSeeding.SeedClass | event_service_gui/views/utils.py:452-479 | the same promises, with the rank order and the separators computed from the store and the race list |
| Seeding.ClassNames | event_service_gui/views/utils.py:445-450 | every class by name when none is chosen, otherwise just the chosen one |
| Seeding.AgeclassesNamed | event_service_gui/views/utils.py:453-455 | the age classes of the class with that name; an unknown name selects nothing |
| Seeding.PerformSeeding | event_service_gui/views/utils.py:441-482 | only bibs change; a chosen class is seeded as SeedClass promises; more than one class gives the summary line |
| Seeding.NormalisedPoints | event_service_gui/views/utils.py:420-423 | "", "None" (and a missing value) compare as empty; anything else as itself |
| Seeding.PointsOf | event_service_gui/views/utils.py:429-432 | points are stored exactly when the value is numeric, and are then non-negative |
| Seeding.FieldEdit | event_service_gui/views/utils.py:417-425 | a field is an edit exactly when it is a seeding_points_ field whose normalised value differs from its old_ field |
| Seeding.LastEditWins | event_service_gui/views/utils.py:416-436 | the last edit of a contestant decides its points |
| Seeding.UneditedKeepsPoints | event_service_gui/views/utils.py:416-436 | a contestant no field edits keeps its points |
| Seeding.PointsStep | event_service_gui/views/utils.py:424-436 | storing one field's edit extends what the fields so far wrote |
| Seeding.WritePoints | event_service_gui/views/utils.py:426-437 | the contestant gets the points and nothing else changes; the text names the contestant; a refused write changes nothing |
| Seeding.ApplyPointsField | event_service_gui/views/utils.py:417-437 | a changed seeding_points_ field is written, any other field writes nothing |
| Seeding.AddSeedingPoints | event_service_gui/views/utils.py:413-438 | only seeding points change; each contestant ends with the points of its last edit; the message names each edited contestant |
| Seeding.FieldMove | event_service_gui/views/seeding.py:149-152 | a field is a move exactly when its key starts "bib_" and form[key], the first value posted under that key, is numeric; the contestant is the key minus "bib_", the bib that value |
| Seeding.MovesInfoStep | event_service_gui/views/seeding.py:173 | a move adds "{bib} {last_name}. " to the message |
| Seeding.MovesInfoSkip | event_service_gui/views/seeding.py:149-152 | a field that is no move adds nothing |
| Seeding.LastMoveWins | event_service_gui/views/seeding.py:149-171 | the last move to a contestant decides its bib unless a later move took the bib away |
| Seeding.OneWay | event_service_gui/views/seeding.py:154-171 | a contestant nobody moves keeps its bib or loses it; a previous holder never gets the mover's old bib |
| Seeding.MovesOnlyBibs | event_service_gui/views/seeding.py:149-171 | moves change bibs and nothing else |
| Seeding.MovesStep | event_service_gui/views/seeding.py:149-171 | carrying out one field extends what the fields so far wrote |
| Seeding.ClearedOnlyBibs | event_service_gui/views/seeding.py:157-161 | clearing a holder changes a bib and nothing else |
| Seeding.ClearHolder | event_service_gui/views/seeding.py:154-161 | the bib's current holder, if any, ends with no bib; the clear passes exactly when the bib is unheld or not in a start list |
| Seeding.GiveBib | event_service_gui/views/seeding.py:164-173 | the contestant gets the bib and the text "{bib} {last_name}. " |
| Seeding.ClearThenGive | event_service_gui/views/seeding.py:154-171 | clearing then giving leaves exactly one holder, the contestant, whose own old bib is cleared if it was that bib |
| Seeding.MoveBib | event_service_gui/views/seeding.py:153-173 | one move: the old holder is cleared and the contestant gets the bib; a refusal leaves the store as it was or only cleared |
| Seeding.AddSeedingFromForm | event_service_gui/views/seeding.py:146-174 | every key of the form, repeats included, is read as form[key]; only bibs change; the store ends as the moves of the form say; the message lists each move |
| ViewUtils.DisplayStyle | event_service_gui/views/utils.py:63-79 | red exactly when under 300 seconds to go, orange exactly from 300 to under 600, green exactly from 600 |
| ViewUtils.StyleEscalates | event_service_gui/views/utils.py:72-77 | as the clock runs towards the start, the header never goes back to a calmer colour |
| ViewUtils.TargetText | event_service_gui/views/utils.py:213-226 | one target raises TypeError exactly when its value is a word the branch does not know; otherwise it adds a line exactly when the value is a known word or a positive number |
| ViewUtils.QualificationText | event_service_gui/views/utils.py:204-211 | "R1" gives "Alle til runde 2"; "R2" and "F" give "" |
| ViewUtils.TargetsTextMeaning | event_service_gui/views/utils.py:213-226 | one key's targets raise exactly when one of them is unreadable; otherwise the text is non-empty exactly when one of them counts |
| ViewUtils.RuleTextRaises | event_service_gui/views/utils.py:212-226 | the rule table raises exactly when a semifinal or final target holds a word its branch does not know ("REST" for S; "ALL" or "REST" for F) |
| ViewUtils.RuleTextEmpty | event_service_gui/views/utils.py:212-226 | a readable table gives an empty text exactly when no S or F target is a known word or a positive number; other keys are ignored |
| ViewUtils.NextRaceOf | event_service_gui/views/utils.py:152-155 | any next race starting "Ute" reads "Ute"; any other is copied |
| ViewUtils.AppendRows | event_service_gui/views/utils.py:145-156 | the inner loop appends exactly the rows for place x, one per template of that rank, in list order |
| ViewUtils.NextRaceInfo | event_service_gui/views/utils.py:140-157 | the start list is the rows for places 1 to 8, place by place |
| ViewUtils.RowsForShape | event_service_gui/views/utils.py:145-156 | the rows for place x are all of this race at position x, and every template of rank x has its row |
| ViewUtils.PlacedStep | event_service_gui/views/utils.py:144-156 | place k adds one row per template of rank k |
| ViewUtils.RowsUpToCount | event_service_gui/views/utils.py:140-157 | there is one row per template whose rank is a place from 1 to k; other templates and non-templates give none |
| ViewUtils.RowsUpToOrdered | event_service_gui/views/utils.py:140-157 | every row is of this race, at a place from 1 to k, and the rows are in place order |
| ViewUtils.RowsUpToComplete | event_service_gui/views/utils.py:140-157 | every template whose rank is a place from 1 to k has its row |
| ViewUtils.PlacedNone | event_service_gui/views/utils.py:144 | no place, no row |
| ViewUtils.Reversed | event_service_gui/views/utils.py:169 | the list newest first, element by element |
| ViewUtils.ShownOfMembers | event_service_gui/views/utils.py:168-188 | an event is kept exactly when the action shows it |
| ViewUtils.SelectedMembers | event_service_gui/views/utils.py:168-188 | a listed passing is an event the action shows ("control": errors that are not templates, of the chosen class; "Template": templates of the class; otherwise all but templates), and every such event is listed |
| ViewUtils.MarkOne | event_service_gui/views/utils.py:192-200 | the marker pass never changes the event itself |
| ViewUtils.MarkHeats | event_service_gui/views/utils.py:190-200 | after the pass each passing is marked first where its race starts in the list and last where it ends, and no marker is cleared |
| ViewUtils.MarkersPair | event_service_gui/views/utils.py:190-200 | the first passing opens a heat and the last closes one; a heat closes exactly where the next opens, which is exactly where the race changes |
| ViewUtils.Passeringer | event_service_gui/views/utils.py:160-201 | the passings are the selected events, with the markers of the pass |
| ViewUtils.Unmarked | event_service_gui/views/utils.py:164-188 | the selected events as passings without markers |
| ViewUtils.RoundCheck | event_service_gui/views/utils.py:321-331 | every entry of the first start list returned for the bib is checked in order, whatever its bib: the start passes exactly when every one lies in a known race of another round; a start in the new race's round gives "405 Bib already exists in round - {round}", and when every race is known that is the only refusal |
| ViewUtils.RaceOf | event_service_gui/views/utils.py:325-327 | the race a listed start belongs to: found exactly when the plan has a race with its race id, and then that race |
| ViewUtils.Last8 | event_service_gui/views/utils.py:335 | the last eight characters, or all of a shorter text |
| ViewUtils.LatestFinish | event_service_gui/views/utils.py:341-354 | the loop keeps the bib's finish that `LatestFinishOf` calls latest |
| ViewUtils.LatestFinishFound | event_service_gui/views/utils.py:341-355 | there is a latest finish exactly when the bib has a finish, and it is one of the bib's finishes |
| ViewUtils.LatestFinishIsLatest | event_service_gui/views/utils.py:342-354 | the finish kept is the first with the highest registration time: every earlier finish is strictly earlier, none later is later |
| ViewUtils.NextRaceLabel | event_service_gui/views/utils.py:357-362 | a final is labelled round+index; any other race round+index+heat |
| ViewUtils.Forwarded | event_service_gui/views/utils.py:355-363 | the forwarded finish keeps its id, bib and registration time |
| ViewUtils.CreateStart | event_service_gui/views/utils.py:301-371 | the store ends as CreateStep says: a start is filed, with a fresh id, by position in its race exactly when the bib is a number, the contestant known, the race in the plan, the same-round check over every entry of the first start list returned for the bib passes and the position is free; a non-numeric bib, a missing race and a failed check each give their error; an unknown contestant gives the "Fant ikke deltaker" message; a filed start reports its time and points the latest finish, if any, at the new race |
| ViewUtils.ForwardFinish | event_service_gui/views/utils.py:335-368 | the notice names the start time; the bib's latest finish, when it has one, is pointed at the new race and position, and the notice says so |
| ViewUtils.WithStart | event_service_gui/views/utils.py:333 | the start is filed in the race with its race id, which gains exactly that entry, and every other race is unchanged |
| ViewUtils.AfterCreateFiles | event_service_gui/views/utils.py:301-334 | an accepted start is afterwards in its race with the form's bib and position and the contestant's name, and no race of another id changes; a start not accepted changes no race |
| Races.PositionTaken | event_service_gui/services/start_adapter.py:220-245 | a position is taken exactly when an entry of the race has it |
| Races.InsertionPoint | event_service_gui/services/start_adapter.py:220-245 | the race service files a new entry after every entry at its position or before, and before the first one after it |
| Races.InsertByPosition | event_service_gui/services/start_adapter.py:220-245 | filing adds exactly the new entry to the race's entries |
| Races.InsertedAt | event_service_gui/services/start_adapter.py:220-245 | the entries before the insertion point stay, the new entry follows, then the rest |
| Races.InsertKeepsValid | event_service_gui/services/start_adapter.py:220-245 | filing a fresh entry at a free position keeps the entries sorted by position, with unique positions and ids |
| Races.InsertBetween | event_service_gui/services/start_adapter.py:220-245 | an entry whose position lies between two runs lands between them |
| Races.InsertionPointOf | event_service_gui/services/start_adapter.py:220-245 | that insertion point is the end of the first run |
| Races.EntryIndex | event_service_gui/services/start_adapter.py:55-81 | the position of the entry with that id, or proof that none has it |
| Races.WithoutEntry | event_service_gui/services/start_adapter.py:55-81 | deleting an unknown entry changes nothing; deleting a known one removes exactly that entry, and the others keep their order |
| Races.DeleteThenInsertReplaces | event_service_gui/services/start_adapter.py:352-355 | deleting an entry and filing a new one at the same position puts the new one in its place |
| Races.IndexOfRace | event_service_gui/services/start_adapter.py:328-329 | the position of the race with that id, or proof that none has it |
| Races.IndexOfOrder | event_service_gui/views/raceplans.py:200-202 | the position of the race with that running order, or proof that none has it |
| Races.OfClass | event_service_gui/views/utils.py:488 | only races of the class, each from the plan |
| Races.TimeOfDayAfter | event_service_gui/views/raceplans.py:195-199 | the time of day d seconds later, always within one day |
| Races.TwoDigits | event_service_gui/views/raceplans.py:199 | two digits |
| Races.ClockText | event_service_gui/views/raceplans.py:199 | an HH:MM:SS text of eight characters |
| Races.RaceStore.Get | event_service_gui/services/start_adapter.py:328-329 | the race with that id, or nothing when no race has it |
| Races.RaceStore.DeleteStartEntry | event_service_gui/services/start_adapter.py:55-81 | the delete passes exactly when the race holds the entry; then exactly that entry goes from that race and nothing else changes; a refusal changes nothing |
| Races.RaceStore.CreateStartEntry | event_service_gui/services/start_adapter.py:220-245 | the create passes exactly when the race exists and the position is free; then the entry is filed by position under the next id and nothing else changes; a refusal changes nothing |
| Races.RaceStore.UpdateStartTime | event_service_gui/views/raceplans.py:200-202 | the update passes exactly when a race has that order; then the first such race gets the new time of day on its own date, and only start times change |
| Races.RaceStore.UpdateRace | event_service_gui/views/raceplans.py:129-131 | the update passes exactly when the race is known; then exactly that race is replaced |
| Races.DropKeepsValid | event_service_gui/services/start_adapter.py:55-81 | taking out one entry keeps the entries valid |
| StartAdapter.StartEntriesByBib | event_service_gui/services/start_adapter.py:193-195 | a reply with no start list gives no entry; otherwise every entry of the first start list, unfiltered, as the service returned it |
| StartAdapter.DeleteStart | event_service_gui/services/start_adapter.py:362-366 | the entry named by the form's race and id is deleted and the text is "Slettet start."; nothing else changes |
| StartAdapter.CreateStart | event_service_gui/services/start_adapter.py:369-382 | an entry with the form's slot and runner is filed under a fresh id and the text is "Lagt til nr {bib}"; nothing else changes |
| StartAdapter.Rebuilt | event_service_gui/services/start_adapter.py:334-351 | the rebuilt entry keeps its slot's start list, race, position and scheduled time, and takes the other entry's bib, name and club |
| StartAdapter.WithId | event_service_gui/services/start_adapter.py:220-245 | filing under an id changes neither slot nor runner |
| StartAdapter.Freed | event_service_gui/services/start_adapter.py:352-353 | deleting an entry frees its position |
| StartAdapter.ReadyToFile | event_service_gui/services/start_adapter.py:352-355 | after the two deletes each race has a free position for the entry rebuilt from its own slot |
| StartAdapter.Remove | event_service_gui/services/start_adapter.py:352-353 | deleting an entry found at a known place removes just it |
| StartAdapter.File | event_service_gui/services/start_adapter.py:354-355 | filing an entry at a free position of its race adds just it |
| StartAdapter.RemoveBoth | event_service_gui/services/start_adapter.py:352-353 | the two deletes of one step remove exactly the two entries |
| StartAdapter.FileBoth | event_service_gui/services/start_adapter.py:354-355 | the two creates of one step add exactly the two rebuilt entries |
| StartAdapter.ExchangeRunners | event_service_gui/services/start_adapter.py:332-355 | one index: the two entries exchange bib, name and club and keep their slots; no other race changes |
| StartAdapter.ExchangedStep | event_service_gui/services/start_adapter.py:330-355 | exchanging one more index extends the exchange done so far |
| StartAdapter.ExchangedSkip | event_service_gui/services/start_adapter.py:356-358 | an index past the end of a list is skipped, as the caught IndexError is, and the exchange so far stands |
| StartAdapter.SwapAt | event_service_gui/services/start_adapter.py:330-358 | one index on the entries read before the loop: exchanged when both lists have it, skipped otherwise |
| StartAdapter.SwapStarts | event_service_gui/services/start_adapter.py:324-359 | both races are read once; it passes exactly when both exist; with distinct indexes and two races, each listed index present in both lists holds the other race's runner in its own slot, and every other entry and race is as it was; the set of positions never changes |
| StartAdapter.R2InfoSound | event_service_gui/services/start_adapter.py:285-296 | every noted race is an R2 race of the list, paired with the race listed just before it, or with "" for the first race |
| StartAdapter.R2InfoComplete | event_service_gui/services/start_adapter.py:288-295 | every R2 race of the list is noted |
| StartAdapter.R2InfoPrevious | event_service_gui/services/start_adapter.py:285-296 | every noted race, and every paired race after the first note, is a race of the list |
| StartAdapter.CollectR2 | event_service_gui/services/start_adapter.py:285-296 | the loop notes the R2 races as `R2Info` does |
| StartAdapter.SwapFor | event_service_gui/services/start_adapter.py:303-318 | an odd heat swaps indexes [1, 3] with the previous race, any other heat [0, 2, 4] |
| StartAdapter.PlanSkipsFirst | event_service_gui/services/start_adapter.py:297-302 | the first R2 race is never swapped; call m is for R2 race m + 1 |
| StartAdapter.MovesCountsIndexes | event_service_gui/services/start_adapter.py:303-318 | swap_count grows by the number of indexes handed over, whether or not they could be swapped |
| StartAdapter.MovesZero | event_service_gui/services/start_adapter.py:297-318 | a class adds moves exactly when it has two or more R2 races, between 2 and 3 per race after the first |
| StartAdapter.SkeletonTail | event_service_gui/services/start_adapter.py:328-358 | dropping start entries commutes with taking the tail |
| StartAdapter.SkeletonCons | event_service_gui/services/start_adapter.py:328-358 | dropping start entries commutes with prepending a race |
| StartAdapter.OfClassSkeleton | event_service_gui/services/start_adapter.py:282-284 | plans that differ only in start entries give the same class races, entries aside |
| StartAdapter.R2InfoSkeleton | event_service_gui/services/start_adapter.py:285-296 | the R2 notes read ids, rounds and heats, never start entries |
| StartAdapter.ClassR2Stable | event_service_gui/services/start_adapter.py:280-318 | shuffling one class leaves every class's R2 notes as they were |
| StartAdapter.ClassRaceFound | event_service_gui/services/start_adapter.py:282-296 | an id from a class's race list names a race of the store and no race of another class |
| StartAdapter.PlanStep | event_service_gui/services/start_adapter.py:300-318 | one more R2 race extends the calls by its call and the count by 2 or 3, unless it is the first |
| StartAdapter.SwapWithPrevious | event_service_gui/services/start_adapter.py:303-318 | one R2 race after the first: both races are found, the call SwapFor gives is carried out, the two races exchanging the runners at its indexes and every other race unchanged, and it adds 2 or 3 moves; other classes do not change |
| StartAdapter.SwapR2Step | event_service_gui/services/start_adapter.py:300-318 | one pass of the loop extends the run of exchanges, and the count, by the plan's call for that R2 race, or by nothing for the first |
| StartAdapter.SwapR2Races | event_service_gui/services/start_adapter.py:297-318 | the loop carries out exactly the planned exchanges, in order, each on the entries the previous one left, and counts exactly the planned moves |
| StartAdapter.ShuffleClass | event_service_gui/services/start_adapter.py:281-318 | one unranked class: the races pass through a run of states in which every R2 race but the first, in list order, exchanges runners with the race listed before it, ending at the new races; other classes do not change |
| StartAdapter.OfClassDistinct | event_service_gui/services/start_adapter.py:282-284 | a class's races have distinct ids when the plan's races have |
| StartAdapter.R2InfoPairsDistinct | event_service_gui/services/start_adapter.py:285-296 | with distinct race ids, no R2 race after the first is paired with itself |
| StartAdapter.PerformedConcat | event_service_gui/services/start_adapter.py:297-318 | two runs of exchanges, the second starting where the first ended, make one run of all their calls |
| StartAdapter.ShuffleText | event_service_gui/services/start_adapter.py:319-320 | the text is empty exactly when nothing was moved |
| StartAdapter.UnrankedMovesZero | event_service_gui/services/start_adapter.py:279-320 | the summary text appears exactly when some unranked class has two or more R2 races |
| StartAdapter.UnrankedNamesStep | event_service_gui/services/start_adapter.py:280-281 | one more class adds its name to the shuffled names exactly when it is unranked |
| StartAdapter.ShuffleRound2 | event_service_gui/services/start_adapter.py:275-321 | the races pass through a run of states carrying out UnrankedPlan, class after class and call after call; ranked classes are never touched; the text reports the total moves of the unranked classes; the set of races and positions never changes |
| StartAdapter.ShuffleStep | event_service_gui/services/start_adapter.py:279-318 | one pass of the class loop: an unranked class extends the run of exchanges by its own and adds its moves to swap_count; a ranked one changes nothing |
| StartAdapter.UnrankedMovesCountsIndexes | event_service_gui/services/start_adapter.py:279-320 | the swap_count reported is the number of indexes handed to swap_starts over the whole shuffle |
| StartAdapter.RankedSkipped | event_service_gui/services/start_adapter.py:280-281 | a ranked class adds no call, no move and no shuffled name |
| StartAdapter.UnrankedFrameStep | event_service_gui/services/start_adapter.py:279-318 | shuffling one more unranked class keeps every race outside the unranked classes so far as it was |
| Raceplans.Adjustment | event_service_gui/views/raceplans.py:189-190 | a gate acts exactly when its pause is present, non-zero and below the limit, and then shifts by limit - pause, a positive amount |
| Raceplans.SemiHeatFormatted | event_service_gui/views/raceplans.py:193 | the semifinal target test is exactly the test on the formatted round and heat ("S1" or "R21") |
| Raceplans.IntToStringChars | event_service_gui/views/raceplans.py:193 | str() of a whole number has only digits and a leading minus |
| Raceplans.IntToStringReads | event_service_gui/views/raceplans.py:193 | str(heat) reads "1" only for 1 and "21" only for 21 |
| Raceplans.FirstTarget | event_service_gui/views/raceplans.py:191-193 | the first race of the class that the gate targets (S1/R21 or F), and no earlier race is one |
| Raceplans.Retimed | event_service_gui/views/raceplans.py:200-202 | a start-time update changes nothing but start times |
| Raceplans.GateRun | event_service_gui/views/raceplans.py:189-206 | one gate sends at most one update, changes nothing without one, and changes only start times |
| Raceplans.ClassRun | event_service_gui/views/raceplans.py:187-226 | both gates of one class send at most two updates and change only start times |
| Raceplans.RunUpTo | event_service_gui/views/raceplans.py:187-226 | the classes of the summary in order send at most two updates each and change only start times |
| Raceplans.AdjustGate | event_service_gui/views/raceplans.py:189-206 | one gate against the store ends as GateRun says, and the text is the acknowledgments of the updates sent |
| Raceplans.AdjustClass | event_service_gui/views/raceplans.py:188-226 | both gates against the store, the final gate seeing the semifinal shift, end as ClassRun says |
| Raceplans.SetMinRestTime | event_service_gui/views/raceplans.py:180-229 | the store ends as RunUpTo over the whole summary with a limit of min_rest_time minutes; the text is the acknowledgments, or "Ingen endringer." |
| Raceplans.AcksAppend | event_service_gui/views/raceplans.py:200-202 | acknowledgments concatenate in sending order |
| Raceplans.RestTimeTextNoChange | event_service_gui/views/raceplans.py:227-228 | the text is "Ingen endringer." exactly when no update was sent |
| Raceplans.AcksShape | event_service_gui/views/raceplans.py:200-202 | the acknowledgments are empty exactly when nothing was sent |
| Raceplans.TargetIgnoresTimes | event_service_gui/views/raceplans.py:204-225 | which race a gate targets does not depend on start times, so re-reading the plan after the semifinal shift finds the same final |
| Raceplans.GateActsIff | event_service_gui/views/raceplans.py:189-193 | a gate sends an update exactly when its pause is present, non-zero, below the limit, and the class has a target race |
| Raceplans.ShiftLands | event_service_gui/views/raceplans.py:190-202 | an acting gate sends exactly its target's order and moves exactly that race by limit - pause |
| Raceplans.GateRunAt | event_service_gui/views/raceplans.py:190-206 | the gate's run is the plan with race i moved and its order sent |
| Raceplans.OrderFindsRace | event_service_gui/views/raceplans.py:200-202 | with distinct orders, a race's order finds that race |
| Raceplans.ShiftWrapsAtMidnight | event_service_gui/views/raceplans.py:195-199 | a shift past midnight lands earlier on the same date, because only the time of day is sent |
| Raceplans.WithMax | event_service_gui/views/raceplans.py:126-128 | only the maximum may change; an empty field leaves the race as it was |
| Raceplans.UpdateOne | event_service_gui/views/raceplans.py:121-136 | with no race of that id nothing is saved; for the first race with the id, a missing maximum field raises KeyError and saves nothing, an empty field saves the race unchanged, and a non-empty one saves it with that maximum (or is refused, saving nothing, when int() cannot read it); a save reports the race's order |
| ContestantsView.HighestBib | event_service_gui/views/contestants.py:345-352 | the highest truthy bib, 0 when none; no held bib is above it |
| ContestantsView.HighestBibHeld | event_service_gui/views/contestants.py:348-351 | a non-zero highest bib is held by some contestant |
| ContestantsView.AvailableBib | event_service_gui/views/contestants.py:345-352 | one above the highest bib: at least 1, and held by no contestant |
| ContestantsView.AvailableBibLeast | event_service_gui/views/contestants.py:345-352 | the highest bib is 0 or held, and every held bib lies below the one offered |
| ContestantsView.FirstChoice | event_service_gui/views/contestants.py:233-240 | the first placement, when there is one, is a quarterfinal or round-1 race |
| ContestantsView.SecondChoice | event_service_gui/views/contestants.py:244-252 | the round-2 placement either keeps the first choice or is a round-2 race |
| ContestantsView.FirstChoiceIsFirstMinimum | event_service_gui/views/contestants.py:222-240 | no race is chosen exactly when every Q/R1 race has 999 or more; otherwise the chosen race has the fewest contestants, and every earlier Q/R1 race has more |
| ContestantsView.SecondChoiceIsLastMinimum | event_service_gui/views/contestants.py:244-252 | the first choice stays exactly when every R2 race has more; otherwise the chosen R2 race has the fewest, no more than the first choice, and every later R2 race has more |
| ContestantsView.FormFor | event_service_gui/views/contestants.py:223-240 | the request carries the first race's start list; no choice gives race "" at position 0; a choice gives its id and the position after its last entry |
| ContestantsView.StartRequests | event_service_gui/views/contestants.py:219-253 | no request without races or start entries in the first race; a second one exactly when the first choice is a round-1 race; all on the first race's start list |
| ContestantsView.SecondRequestRepeats | event_service_gui/views/contestants.py:244-253 | with no round-2 race as small as the first choice, the second request repeats the first |
| ContestantsView.ChooseFirst | event_service_gui/views/contestants.py:222-240 | the first loop chooses as FirstChoice and keeps its count |
| ContestantsView.ChooseSecond | event_service_gui/views/contestants.py:244-252 | the round-2 loop chooses as SecondChoice |
| ContestantsView.AddToStartlist | event_service_gui/views/contestants.py:216-255 | the requests sent are a prefix of StartRequests of the class's races, all of them when nothing is refused; the race store ends as AfterRequests of those requests, each a create_start on what the previous one left; with no request nothing changes and the text is empty |
| ContestantsView.PlaceInClass | event_service_gui/views/contestants.py:220-253 | with a first race holding entries, at least the first request is sent, all planned ones when nothing is refused, and the store ends as AfterRequests of what was sent |
| ContestantsView.RoundTwoRequest | event_service_gui/views/contestants.py:243-253 | after a round-1 first choice, the second request completes StartRequests and the store moves on by one more create_start |
| ContestantsView.Request | event_service_gui/views/contestants.py:241 | one create_start call moves the store on exactly as AfterRequests says for one more form |
| ContestantsView.AfterRequests | event_service_gui/views/contestants.py:241-253 | the create_start calls change start entries only, and the next entry id grows by at most one per call |
| ContestantsView.AfterRequestsStep | event_service_gui/views/contestants.py:241-253 | one more request is one more create_start on what the earlier requests left |
| ContestantsView.FirstFinal | event_service_gui/views/contestants.py:510-519 | the first final of the class, and no earlier one; none when the class has no final |
| ContestantsView.OpenSumNone | event_service_gui/views/contestants.py:497-507 | a sum over no counted race is 0 |
| ContestantsView.OpenSumNonNegative | event_service_gui/views/contestants.py:497-528 | with no race over its maximum, the open places are never negative |
| ContestantsView.OpenSumOfClass | event_service_gui/views/contestants.py:501-528 | summing over all races equals summing over the class's races |
| ContestantsView.OpenSumCons | event_service_gui/views/contestants.py:501-528 | the sum splits into the first race's part and the rest |
| ContestantsView.OpenSumPrefix | event_service_gui/views/contestants.py:501-528 | the sum over races[..k] reads only races[..k] |
| ContestantsView.AvailableUnranked | event_service_gui/views/contestants.py:521-528 | an unranked class offers the open places of its round-1 races, never negative |
| ContestantsView.AvailableRankedWithoutRaces | event_service_gui/views/contestants.py:499-519 | a ranked class with no C semifinal and no final offers 0 |
| ContestantsView.SemiCPlaces | event_service_gui/views/contestants.py:500-507 | the loop sums the class's C semifinals and reports whether one was found |
| ContestantsView.FinalPlaces | event_service_gui/views/contestants.py:509-519 | the loop takes the open places of the class's first final, 0 without one |
| ContestantsView.RoundOnePlaces | event_service_gui/views/contestants.py:522-528 | the loop sums the class's round-1 races |
| ContestantsView.AvailableEtteranmelding | event_service_gui/views/contestants.py:489-536 | one entry per raceclass in order, with its age classes and its open places as Available defines them |
| ContestantImport.OptionalNumber | event_service_gui/views/contestants.py:294-304 | an empty value gives None; an all-digit value gives its number |
| ContestantImport.FromForm | event_service_gui/views/contestants.py:292-322 | a registration exactly when every text field is present, carrying each of the ten fields under its own name, the event id and the local time; the bib and the seeding points are int() of a non-empty field, and None for a missing or empty field or one int() refuses |
| ContestantImport.FormBibReadsBack | event_service_gui/views/contestants.py:294-297 | a bib written as a number reads back as that number; an empty bib reads as none |
| ContestantImport.FromXml | event_service_gui/views/contestants.py:325-342 | a registration exactly when the attributes are present and @startno is a number; the attributes go to their fields, the team name to club, the abbreviation to team, @starttid to minidrett_id; no seeding points; the other fields empty |
| ContestantImport.CleanLine | event_service_gui/views/contestants.py:366-370 | a cleaned line holds no carriage return, line feed or byte-order mark |
| ContestantImport.Fields | event_service_gui/views/contestants.py:372-374 | at least one field, none holding ';' or what the clean-up removed |
| ContestantImport.FieldsClean | event_service_gui/views/contestants.py:372-374 | the comma replacement and the split keep the clean-up |
| ContestantImport.JoinHolds | event_service_gui/views/contestants.py:374 | every character of a part appears in the joined text |
| ContestantImport.FieldsSplitOn | event_service_gui/views/contestants.py:372-374 | a line with ';' is its fields joined by ';'; a line without has no ',' left in any field |
| ContestantImport.HeaderMap | event_service_gui/views/contestants.py:376-381 | every header maps to a column of the header row |
| ContestantImport.HeaderMapNames | event_service_gui/views/contestants.py:377-381 | every header names its column, or is "Startnr" mapped to a first column that ends with it |
| ContestantImport.HeaderMapLast | event_service_gui/views/contestants.py:377-381 | every field of the header row is a header mapped to its last column of that name |
| ContestantImport.ReadHeaders | event_service_gui/views/contestants.py:376-381 | the header loop builds HeaderMap |
| ContestantImport.CellOf | event_service_gui/views/contestants.py:416-419 | a cell can be read exactly when its header is known and the row reaches its column, and then it is that field |
| ContestantImport.TailWordsJoin | event_service_gui/views/contestants.py:421-425 | the words after the first, each followed by a space, are those words joined with spaces plus one space |
| ContestantImport.SplitName | event_service_gui/views/contestants.py:420-425 | the first word is the first name, the rest collect in the last name |
| ContestantImport.NamesOf | event_service_gui/views/contestants.py:415-428 | the names fail exactly when Fornavn or Etternavn cannot be read and neither can Navn; with both read they are Fornavn and the stripped Etternavn; the last name is stripped on either path |
| ContestantImport.NavnSplit | event_service_gui/views/contestants.py:419-428 | from Navn the first name is the first word, without spaces, and the name is that word, a space and the rest; the last name is the rest, stripped |
| ContestantImport.RowOf | event_service_gui/views/contestants.py:411-459 | a row exactly when the names, Klasse, Klubb and Krets can be read; a bib exactly when Startnr is all digits; seeding points only from a non-empty Seedet; without Påmeldt the local time; the last name is stripped |
| ContestantImport.ContestantRow | event_service_gui/views/contestants.py:411-459 | the view's steps give RowOf |
| ContestantImport.Checked | event_service_gui/views/contestants.py:401-403 | the import stops exactly when more than ten errors were counted, and keeps its bookkeeping sound |
| ContestantImport.Caught | event_service_gui/views/contestants.py:394-403 | an error text holding "401" stops the import without counting; any other counts one more error |
| ContestantImport.RowStep | event_service_gui/views/contestants.py:383-403 | one data row adds at most one contestant or one error and never changes the headers; a row that creates stores, under its new id, which the store did not hold, the contestant the row maps to with its club normalised, and appends the id; a failed row or a refused create leaves the records and ids as they were |
| ContestantImport.LineStep | event_service_gui/views/contestants.py:363-403 | a decoded header line adds nothing; any other line adds at most one contestant or error; a line decode("utf-8") refuses changes no record and no header, and counts one error unless its text holds "401" |
| ContestantImport.HeaderlessRowFails | event_service_gui/views/contestants.py:366-392 | with no headers, as an undecodable first line leaves them, every data row raises on the Navn column |
| ContestantImport.ImportFrom | event_service_gui/views/contestants.py:363-403 | the contestants created and the errors together never exceed the lines read; created ids are appended in order |
| ContestantImport.LineRecords | event_service_gui/views/contestants.py:363-403 | a line that creates nothing leaves records and ids as they were; one that creates is a decoded data line whose row stores its contestant, club normalised, under the line's new id |
| ContestantImport.NextLine | event_service_gui/views/contestants.py:363-403 | reading line k keeps every stored record, keeps the headers after line 0, and adds only the record line k made |
| ContestantImport.ImportFromHeaders | event_service_gui/views/contestants.py:363-392 | after the header line, the rest of the import never changes the headers |
| ContestantImport.ImportFromRecords | event_service_gui/views/contestants.py:363-403 | the rest of the import keeps every record the store held, and every record it adds is the normalised contestant of a later data line's row under the final headers, filed under that line's id |
| ContestantImport.ImportFromStartHeaders | event_service_gui/views/contestants.py:363-370 | an import from an empty tally ends with the headers of the first line, or none when it does not decode |
| ContestantImport.ImportFromStep | event_service_gui/views/contestants.py:363-403 | an import not yet stopped reads the next line |
| ContestantImport.ImportFromDone | event_service_gui/views/contestants.py:363-403 | an import that has read every line, or has stopped, reads nothing more |
| ContestantImport.Import | event_service_gui/views/contestants.py:355-403 | from an empty tally: created plus errors is at most the number of lines, and the ids grow by exactly the contestants created; the headers are the first line's; the old records are kept, and each new record is the normalised contestant of some data line's row under those headers, filed under that line's id |
| ContestantImport.Report | event_service_gui/views/contestants.py:405-407 | the report starts "Fil import: " |
| ContestantImport.StoreRow | event_service_gui/views/contestants.py:383-393 | the store and the tally end as RowStep says |
| ContestantImport.ImportLine | event_service_gui/views/contestants.py:363-403 | reading line k carries the import from line k to line k + 1 |
| ContestantImport.ImportContestants | event_service_gui/views/contestants.py:355-408 | the store ends as Import says, and the text is its report |
| Common.Strip | event_service_gui/services/contestants_adapter.py:65 | str.strip: a slice of the text with no whitespace, in the sense of str.isspace, at either end, and no non-whitespace dropped |
| Common.StripIdempotent | event_service_gui/views/contestants.py:428 | stripping twice is stripping once |
| Common.ReplaceKeepsOut | src/event_service_gui/views/utils_xml.py:18-24 | a character in neither the text nor the replacement is not in the result |
| Common.ReplaceDeletesChar | src/event_service_gui/views/utils_xml.py:18 | replacing a single character removes every copy of it |
| Common.ReplaceAfter | src/event_service_gui/views/utils_xml.py:24 | a prefix without the pattern's first character is left alone |
| Common.ReplaceIdentity | src/event_service_gui/views/utils_xml.py:18-24 | a text without the pattern's first character is unchanged |
| Common.Split | event_service_gui/views/contestants.py:374 | str.split on one character: at least one part, no part holding the separator, and the parts joined by it give the text back |
| Common.SplitJoin | event_service_gui/views/contestants.py:420 | splitting parts joined by a separator they do not hold gives the parts back |
| Common.NatToString | event_service_gui/views/tasks.py:114 | f"{n}" of a count: digits only, no leading zero |
| Common.ParseNatToString | event_service_gui/views/tasks.py:114 | a count written out reads back as itself |
| Common.IntToString | event_service_gui/views/raceplans.py:193 | str() of a whole number: non-empty, with a leading minus exactly when it is negative |
| Common.ParseInt | event_service_gui/views/contestants.py:295 | int() of a text: an all-digit text gives its number, and a blank text gives none |
| Common.ParseIntToString | event_service_gui/views/contestants.py:295 | int(str(i)) == i |
| Common.FormValue | event_service_gui/views/settings.py:179-180 | form[key]: none exactly when no field has the key; otherwise the value of a field with that key |
| Common.FormValueFirst | event_service_gui/views/settings.py:179-180 | form[key] is the value of the first field posted under key |
| Common.FormGet | event_service_gui/views/utils.py:419 | form.get(key, default): form[key] when the key is posted, the default otherwise |
| Common.FirstOfKeyValue | event_service_gui/views/raceclasses.py:101 | the field first posted under a key carries form[key], the value dict(form) keeps for it |
| Raceclasses.PickedIds | event_service_gui/views/raceclasses.py:131-132 | at most one id per form field read, fields repeating a key passed over as dict(form) does |
| Raceclasses.PickedFromDict | event_service_gui/views/raceclasses.py:131-132 | the picked ids are those of dict(form): every ageclass_ key is picked exactly once, its id being form[key], the first value posted under it |
| Raceclasses.CollectFetches | event_service_gui/views/raceclasses.py:131-138 | the selected classes are all fetched exactly when every selected id is known, one stored record per id in form order; otherwise the fetch names a selected id no class has |
| Raceclasses.CollectNext | event_service_gui/views/raceclasses.py:131-138 | one more field: an unselected field fetches nothing, a known selected id adds its class, an unknown one decides the whole fetch |
| Raceclasses.FetchSelected | event_service_gui/views/raceclasses.py:131-138 | the loop fetches as Collect does, its running count and age class list being the total and the concatenation of the fetched classes' |
| Raceclasses.CollectStaysMissing | event_service_gui/views/raceclasses.py:133-135 | once a selected class is missing, reading further fields does not change the outcome |
| Raceclasses.MergeFieldsAppend | event_service_gui/views/raceclasses.py:136-137 | the contestant total and the age class list add up over consecutive selections |
| Raceclasses.AgeclassesGathered | event_service_gui/views/raceclasses.py:137 | an age class is in the merged list exactly when some selected class has it |
| Raceclasses.Merged | event_service_gui/views/raceclasses.py:140-155 | the merged class keeps the first class's id, takes a name without spaces, all age classes and the contestant total |
| Raceclasses.WithoutAllKeeps | event_service_gui/views/raceclasses.py:161-165 | a class survives the deletes exactly when no deleted class has its id |
| Raceclasses.MergeOutcome | event_service_gui/views/raceclasses.py:143-165 | after a merge of two or more classes the merged class is stored, no other selected class remains, every unselected class stays, and nothing new appears |
| Raceclasses.MergeAgeclasses | event_service_gui/views/raceclasses.py:125-171 | on dict(form): an unknown selected id or a missing new name fails and changes nothing; one class or none writes nothing and says so; two or more end as AfterMerge, with the merged age classes in the text |
| Raceclasses.DeleteRemaining | event_service_gui/views/raceclasses.py:160-165 | every selected class but the first is deleted |
| Raceclasses.FormInt | event_service_gui/views/raceclasses.py:190-195 | int(form[key]): a number exactly when the key is present and int() takes its value |
| Raceclasses.ClassFromForm | event_service_gui/views/raceclasses.py:176-196 | a class exactly when every field can be read; ranking is on exactly when the form says "on"; seeding off; id, name and age classes from the form |
| Raceclasses.UpdateOne | event_service_gui/views/raceclasses.py:174-200 | an unreadable form fails and changes nothing; a known class is replaced by the edited one; an unknown one is refused and nothing changes |
| Tasks.NoBibCount | event_service_gui/views/tasks.py:137-140 | at most one per contestant |
| Tasks.NoBibCountZero | event_service_gui/views/tasks.py:137-151 | no bib missing exactly when every contestant has one |
| Tasks.NoOrderCount | event_service_gui/views/tasks.py:155-158 | at most one per raceclass |
| Tasks.NoOrderCountZero | event_service_gui/views/tasks.py:155-168 | no start order missing exactly when every raceclass has one |
| Tasks.Templates | event_service_gui/views/tasks.py:194-199 | exactly the time events at the "Template" point |
| Tasks.TaskStatusOf | event_service_gui/views/tasks.py:132-207 | each count and flag as the checklist defines it: done 5 and done 4 exactly when the list is non-empty and nothing is missing; a validation exactly when there are races and one raceplan; starts counted from the first start list; done 9 exactly when a template exists |
| Tasks.CountNoBib | event_service_gui/views/tasks.py:137-140 | the loop counts NoBibCount |
| Tasks.CountNoOrder | event_service_gui/views/tasks.py:155-158 | the loop counts NoOrderCount |
| Tasks.CollectTemplates | event_service_gui/views/tasks.py:194-199 | the loop gathers Templates |
| Tasks.Remaining | event_service_gui/views/tasks.py:106-129 | exactly the ids not deleted |
| Tasks.RemainingStep | event_service_gui/views/tasks.py:110-113 | deleting one more id removes it from what remains |
| Tasks.RemainingAll | event_service_gui/views/tasks.py:108 | before any deletion everything remains |
| Tasks.RemainingNone | event_service_gui/views/tasks.py:110-113 | nothing remains once every id was deleted |
| Tasks.Without | event_service_gui/views/tasks.py:111 | the id is gone and every other id stays |
| Tasks.Collection.Delete | event_service_gui/views/tasks.py:111 | the record with that id is gone |
| Tasks.DeleteEach | event_service_gui/views/tasks.py:108-113 | every record listed at the start is deleted, and the count is their number |
| Tasks.DeleteStartLists | event_service_gui/views/tasks.py:106-114 | no start list remains, and the text counts those deleted |
| Tasks.DeleteTimeEvents | event_service_gui/views/tasks.py:117-129 | no time event remains, and the text counts those deleted |
| Settings.JsonText | event_service_gui/views/settings.py:181-183 | the text json.loads receives holds no single quote |
| Settings.RowAt | event_service_gui/views/settings.py:180-192 | a filled row is read exactly when its three list fields are posted and int() takes its max, which it carries; its list fields hold no single quote |
| Settings.FilledIndices | event_service_gui/views/settings.py:178-180 | exactly the row numbers below k whose max is posted and filled, in increasing order |
| Settings.RowsFollowIndices | event_service_gui/views/settings.py:178-192 | the rows read are one per filled row number, in order, each read from its own row |
| Settings.RowsStayRaised | event_service_gui/views/settings.py:178-192 | once a row raises, later rows change nothing |
| Settings.ConfigFromForm | event_service_gui/views/settings.py:175-206 | rows 0 to 49, then the "new" row exactly when its max is filled; a missing "new" max raises |
| Settings.GetConfigFromForm | event_service_gui/views/settings.py:175-206 | the loop reads as ConfigFromForm |
| Settings.Texts | event_service_gui/views/settings.py:118-127 | the values are read exactly when every key is posted, each the value of its key |
| Settings.Int | event_service_gui/views/settings.py:126-131 | int(form[key]): a number only when the key is posted and int() takes its value |
| Settings.SprintBody | event_service_gui/views/settings.py:110-140 | a sprint body exactly when every field and both configurations can be read; it carries the form's id and datatype and both configurations |
| Settings.IntervalBody | event_service_gui/views/settings.py:141-156 | an interval body exactly when every field can be read; it carries the form's id and intervals |
| Settings.UpdateBody | event_service_gui/views/settings.py:108-156 | the body follows the datatype: sprint for "individual_sprint", interval for "interval_start", none for any other |
| Settings.FormatStore.Update | event_service_gui/views/settings.py:158-162 | a known format is replaced; an unknown one is refused and nothing changes, as the format service is assumed to do |
| Settings.Decide | event_service_gui/views/settings.py:108-162 | as written, only a sprint body is ever sent |
| Settings.IntervalStartNeverSent | event_service_gui/views/settings.py:141-157 | as written, an interval-start update is always refused, and a complete one fails at the log line |
| Settings.DecideFixed | event_service_gui/views/settings.py:108-162 | corrected, every body built is sent, with the form's datatype |
| Settings.IntervalStartSent | event_service_gui/views/settings.py:141-162 | corrected, a complete interval-start form is sent as an interval format |
| Settings.FixOnlyAffectsIntervalStart | event_service_gui/views/settings.py:108-162 | the correction agrees with the code on every form but an interval-start one |
| Settings.PostUpdate | event_service_gui/views/settings.py:108-166 | the update branch as corrected (DecideFixed, see Findings): a refused form changes nothing; a sent format replaces the stored one when known, and is refused otherwise |
| XmlImport.RaceclassName | src/event_service_gui/views/utils_xml.py:18-24 | a raceclass name holds no space |
| XmlImport.PlainName | src/event_service_gui/views/utils_xml.py:18-24 | a name with no space and no first letter of a shortened word only loses its year word |
| XmlImport.YearRemoved | src/event_service_gui/views/utils_xml.py:18-24 | a name without spaces or shortened words followed by "år" loses exactly the "år": "G12år" becomes "G12" |
| XmlImport.MisdecodedYearKept | src/event_service_gui/views/utils.py:13-20 | the reader of pre-parsed entries keeps such a name with "år" whole, since it removes only the mis-decoded year word |
| XmlImport.AgeclassesFromEntries | src/event_service_gui/views/utils_xml.py:8-35 | one age class per entry, numbered from 1 in document order, with its name, distance, event and derived raceclass name |
| XmlImport.BirthDateSplits | src/event_service_gui/views/utils_xml.py:65-68 | the birth date splits on '-' back into year, month and day |
| XmlImport.ContestantInfoOf | src/event_service_gui/views/utils_xml.py:60-92 | raises (None) exactly when the person lacks Name, Family, Given, BirthDate, Team, District, Email or Identity; otherwise the bib is empty, the age class and event are those passed in, and every other field (names, birth date, gender, club, team, region, email, identity) is copied from the person |
| XmlImport.ContestantFrom | src/event_service_gui/views/utils_xml.py:60-74 | a person element with every sub-element read gives its contestant; a text, or an element lacking one, raises |
| XmlImport.Listed | src/event_service_gui/views/utils_xml.py:43-49 | every competitor listed comes from an entry, under that entry's age class |
| XmlImport.AsWrittenRaises | src/event_service_gui/views/utils_xml.py:49-55 | as written, the import succeeds exactly when the file lists no competitor |
| XmlImport.AsIntendedReadsAll | src/event_service_gui/views/utils_xml.py:38-74 | as intended, the import succeeds exactly when every competitor has the sub-elements the reader reads, and then every competitor is read, in order, under its age class |
| XmlImport.EventInfoOf | src/event_service_gui/views/utils_xml.py:95-115 | raises (None) exactly when the Competition element, or its EventName, EventId, OrganizerName or CompetitionVenue, is missing; otherwise the body carries the competition's name, id, date, organiser and venue |

## Left out

- HTTP plumbing is not modelled: aiohttp request parsing, redirects, sessions, login checks and Jinja rendering. The views are modelled from the point where they hold the form and the snapshots.
- The REST adapters are not modelled as network clients. Each backend service is a Dafny class over its records. Status codes become `Outcome` values, and any other service failure is out of scope.
- Foreign parsing is not modelled:
  - XML (defusedxml, xmltodict) arrives as parsed records. A `Person` or `Competition` record names the sub-elements it has, so a missing one raises as in the readers. An `Entry` is assumed to have its EntryClass element with a shortName and its Exercise element; without them `get_ageclasses_from_xml` and `get_all_contestant_info_from_xml` raise AttributeError, which the model does not represent;
  - `json.loads` results stay as the texts it would parse (`Settings.RaceConfig`);
  - `ast.literal_eval` of a class's age-class list is a parameter `literal`.
- Wall-clock time is not modelled. The event's local time is a parameter `now`. A start time is a day and a second of the day, and `strftime("%X")` keeps only the time of day.
- The backend's cascade of start times after `update_start_time` is not modelled. That backend code is not part of this model, so an update moves only the target race.
- `get_raceplan_summary` is not part of this model. Its pauses (`min_pauseS`, `min_pauseF`) are inputs.
- The wording of backend replies is not modelled. The acknowledgment of a start-time update is a constant, and the text of a refused store write comes from a parameter (`detail`).
- The "default" branch of `Settings.post`, which recreates the default competition formats, is not modelled: `create_default_competition_format` is not part of this model.
- `update_order` of the race-class page and `create_one_contestant`'s class count are not modelled. The count decrement on delete is modelled in `ContestantsAdapter`.
- The loop of `create_contestants_from_emit` is not modelled; only its mapping `contestant_from_xml` is.
- The start service is not modelled. Whether a bib has a start entry is a set parameter `listed`, which the contestant store's guards consult.
- A form is a list of key/value pairs. `form[key]` reads the first pair with that key, iterating the form visits every pair's key, repeats included, and `dict(form)` keeps each key once with its first value. Nothing else of aiohttp's form handling is modelled.
- The start service's answer to `create_start`'s bib query is a parameter (`startlists`, and `firstReply`/`secondReply` of `add_to_startlist`). The model does not tie it to the start entries the race store holds.
- ParseInt: reads ASCII digits only, where `int()` also accepts underscores between digits and non-ASCII decimal digits.
- IsNumeric: accepts ASCII digits only, where `str.isnumeric` also accepts other Unicode digits and numerals (such as "²" and "½").
- PostUpdate models the update branch as corrected (see Findings): a complete interval-start form is sent, where the code as written raises KeyError first. `Settings.Decide` and `Settings.IntervalStartNeverSent` state the branch as written.
- Behaviour of the backend services is assumed, since their code is not part of this model:
  - the contestant service refuses a create with a taken id or bib (`ContestantStore.Create`, `CreateVerdict`);
  - the start service files a start entry by starting position and refuses a taken position (`Races.PositionTaken`, `InsertionPoint`, `InsertByPosition`, `RaceStore.CreateStartEntry`);
  - a bib lookup with no bib finds nobody (`BibSwap.HolderMatches`), where the code sends `?bib=None`;
  - the `?raceclass=` filter of the contestant service returns the members of the class's age classes (`Seeding.PerformSeeding`);
  - the race lookup `get_race_by_id` fails for a race id the plan lacks, both in `create_start` (`ViewUtils.RoundCheck`, `ViewUtils.CreateStart`) and in `swap_starts`, whose `RaceNotFound` refusal rests on it (`StartAdapter.SwapStarts`);
  - the contestant service answers `get_contestant` for an unknown id with an error status, which the adapter raises (`ContestantsAdapter.UpdateVerdict`, `ContestantStore.Delete`);
  - the contestant service refuses an update that gives a contestant a bib another contestant holds (`ContestantsAdapter.UpdateVerdict`, `ContestantStore.Update`, `UpdateKeepsUnique`); `update_contestant` itself checks only the start list before it sends the record;
  - `get_raceclass_by_ageclass`, which `delete_contestant` calls and which the classes adapter here does not define, returns the first class whose age classes include the given one (`Classes.FirstWithAgeclass`, `ContestantStore.Delete`, `OneLessIn`, `DecrementClassOf`);
  - the class service's `update_raceclass` refuses an unknown class id and changes nothing (`Classes.RaceclassStore.Update`, and through it `Raceclasses.UpdateOne`);
  - the format service's `update_competition_format` refuses an unknown format id and changes nothing (`Settings.FormatStore.Update`, and through it `Settings.PostUpdate`);
  - the race service stores int() of the maximum text `update_one` sends, and refuses a text int() cannot read (`Raceplans.UpdateOne`).
- The Python list repr of age-class names in the merge message (`ListRepr`) does not escape quotes inside a name.
- Concurrency is not modelled. The awaits run one after another, so they are modelled as sequential calls.
- Deep copies in the adapters are not modelled separately: every record is a value, so a caller's record never changes.
- Seeding.PerformSeeding: for a run over every class it states only that bibs alone change. The per-class result is stated when one class is chosen, and by `HeatSeeding.SeedClass`.
- HeatSeeding.DealBibs: the placement of every rank is proved only when every member of the class holds a bib and every rank fits its heat. Otherwise only the frame and the error cases are stated.
- ContestantImport.Report: states only the fixed opening of the report; the counts it prints are those of `ContestantImport.Import`.

## Findings

| source | as written | input that shows it | evidently intended | confidence | as-written member | corrected member |
|---|---|---|---|---|---|---|
| event_service_gui/views/settings.py:157 | after building the request body, the update branch logs `request_body["race_config_ranked"]`, which only the sprint body has | an "update" form with datatype "interval_start" and every field filled: the lookup raises KeyError and the format is never sent | the interval-start body is sent to the format service like the sprint body | high, not executed | Settings.IntervalStartNeverSent | Settings.IntervalStartSent |
| src/event_service_gui/views/utils_xml.py:51 | each competitor's Person element is passed through `str()`, so `get_one_contestant_info_from_xml` receives a text and `find("Name")` is `str.find` | a file with one Entry holding one Competitor: the call on the number that `str.find` returns raises AttributeError, so the import fails | the Person element itself is passed, and every competitor that has the sub-elements the reader reads is read under its entry's age class | high, not executed | XmlImport.AsWrittenRaises | XmlImport.AsIntendedReadsAll |

=== FILE: bib_swap.dfy ===
/** swap_bibs: two contestants exchange bibs in three writes. The holder of
    the first bib is cleared first, so the store never sees two holders of one
    bib; then the holder of the second bib takes the first bib, and the first
    contestant takes the second. */
module BibSwap {
  import opened Common
  import opened ContestantsAdapter

  /** str() of an optional bib, as the messages print it. */
  function BibText(b: Option<int>): (s: string)
    ensures b.None? ==> s == "None"
    ensures b.Some? ==> ParseInt(s) == b
  {
    if b.None? then "None" else ParseIntToString(b.value); IntToString(b.value)
  }

  function NotFoundText(bib1: Option<int>): string {
    "Bib " + BibText(bib1) + " not found. "
  }

  function SwappedText(bib1: Option<int>, bib2: Option<int>): string {
    "Bibs swapped: " + BibText(bib1) + " <> " + BibText(bib2) + ". "
  }

  /** What swap_bibs ends with: whether every write went through, the records
      afterwards, and the message. A refused write raises in the adapter, so
      the writes before it stay and no message is produced. */
  datatype SwapOutcome = SwapOutcome(result: Outcome<StoreError>, records: map<string, Contestant>, info: string)

  function SwapRecords(ids: seq<string>, m: map<string, Contestant>, listed: set<int>,
                       bib1: Option<int>, bib2: Option<int>): SwapOutcome
    requires forall i | 0 <= i < |ids| :: ids[i] in m
  {
    if bib1 == bib2 then SwapOutcome(Pass, m, "")
    else match Holder(ids, m, bib1)
      case None => SwapOutcome(Pass, m, NotFoundText(bib1))
      case Some(id1) =>
        var c1 := m[id1].(bib := None);
        var v1 := UpdateVerdict(m, c1, listed);
        if v1.Fail? then SwapOutcome(v1, m, "")
        else HandOverRecords(ids, m[id1 := c1], listed, c1, bib1, bib2)
  }

  /** The second half of swap_bibs, once the first contestant c1 has been
      cleared: the holder of the second bib takes the first bib, and c1 takes
      the second. */
  function HandOverRecords(ids: seq<string>, m1: map<string, Contestant>, listed: set<int>,
                           c1: Contestant, bib1: Option<int>, bib2: Option<int>): SwapOutcome
    requires forall i | 0 <= i < |ids| :: ids[i] in m1
  {
    match Holder(ids, m1, bib2)
    case None => SwapOutcome(Pass, m1, NotFoundText(bib1))
    case Some(id2) =>
      var c2 := m1[id2].(bib := bib1);
      var v2 := UpdateVerdict(m1, c2, listed);
      if v2.Fail? then SwapOutcome(v2, m1, "")
      else
        var m2 := m1[id2 := c2];
        var c1' := c1.(bib := bib2);
        var v3 := UpdateVerdict(m2, c1', listed);
        if v3.Fail? then SwapOutcome(v3, m2, "")
        else SwapOutcome(Pass, m2[c1.id := c1'], SwappedText(bib1, bib2))
  }

  /** The store-facing procedure: three lookups and up to three updates. */
  method SwapBibs(store: ContestantStore, listed: set<int>, bib1: Option<int>, bib2: Option<int>)
    returns (info: string, r: Outcome<StoreError>)
    requires store.Valid()
    modifies store
    ensures store.Valid() && store.ids == old(store.ids)
    ensures var s := SwapRecords(old(store.ids), old(store.records), listed, bib1, bib2);
            r == s.result && store.records == s.records && info == s.info
  {
    ghost var ids, m := store.ids, store.records;
    info := "";
    r := Pass;
    if bib1 != bib2 {
      var found1 := store.FindByBib(bib1);
      if found1.Some? {
        var contestant1 := found1.value.(bib := None);
        r := store.Update(contestant1, listed);
        if r.Fail? {
          return;
        }
        info, r := HandOver(store, listed, contestant1, bib1, bib2);
      } else {
        info := info + NotFoundText(bib1);
      }
    }
  }

  /** The second half of swap_bibs against the store. */
  method HandOver(store: ContestantStore, listed: set<int>, contestant1: Contestant, bib1: Option<int>, bib2: Option<int>)
    returns (info: string, r: Outcome<StoreError>)
    requires store.Valid()
    modifies store
    ensures store.Valid() && store.ids == old(store.ids)
    ensures var s := HandOverRecords(old(store.ids), old(store.records), listed, contestant1, bib1, bib2);
            r == s.result && store.records == s.records && info == s.info
  {
    info := "";
    var found2 := store.FindByBib(bib2);
    if found2.Some? {
      var contestant2 := found2.value.(bib := bib1);
      r := store.Update(contestant2, listed);
      if r.Fail? {
        return;
      }
      r := store.Update(contestant1.(bib := bib2), listed);
      if r.Fail? {
        return;
      }
      info := SwappedText(bib1, bib2);
    } else {
      r := Pass;
      info := NotFoundText(bib1);
    }
  }

  /** FindByBib answers with the record Holder names. */
  lemma HolderMatches(ids: seq<string>, m: map<string, Contestant>, bib: Option<int>)
    requires Wellformed(ids, m)
    ensures Holder(ids, m, bib).None? <==> (bib.None? || forall id | id in m :: m[id].bib != bib)
  {
    if Holder(ids, m, bib).None? && bib.Some? {
      forall id | id in m ensures m[id].bib != bib {
        var i :| 0 <= i < |ids| && ids[i] == id;
      }
    }
  }

  // ---------------------------------------------------------------------
  // What a swap does

  /** Swapping a bib with itself writes nothing and says nothing. */
  lemma SwapSameBib(ids: seq<string>, m: map<string, Contestant>, listed: set<int>, bib: Option<int>)
    requires Wellformed(ids, m)
    ensures SwapRecords(ids, m, listed, bib, bib) == SwapOutcome(Pass, m, "")
  {
  }

  /** Nobody holds the first bib: nothing is written. */
  lemma SwapFirstMissing(ids: seq<string>, m: map<string, Contestant>, listed: set<int>, bib1: Option<int>, bib2: Option<int>)
    requires Wellformed(ids, m)
    requires bib1 != bib2
    requires bib1.None? || forall id | id in m :: m[id].bib != bib1
    ensures SwapRecords(ids, m, listed, bib1, bib2) == SwapOutcome(Pass, m, NotFoundText(bib1))
  {
    HolderMatches(ids, m, bib1);
  }

  /** Someone holds the first bib but nobody the second: that contestant is
      left without a bib, and the message names the first bib. */
  lemma {:induction false} SwapSecondMissing(ids: seq<string>, m: map<string, Contestant>, listed: set<int>,
                                             bib1: Option<int>, bib2: Option<int>, y: string)
    requires Wellformed(ids, m)
    requires bib1 != bib2 && bib1.Some?
    requires y in m && m[y].bib == bib1
    requires m[y].bib.value !in listed
    requires bib2.None? || forall id | id in m :: m[id].bib != bib2
    ensures SwapRecords(ids, m, listed, bib1, bib2) == SwapOutcome(Pass, m[y := m[y].(bib := None)], NotFoundText(bib1))
  {
    HolderIs(ids, m, bib1, y);
    var m1 := m[y := m[y].(bib := None)];
    assert UpdateVerdict(m, m[y].(bib := None), listed).Pass?;
    UpdateKeepsUnique(m, m[y].(bib := None), listed);
    assert Wellformed(ids, m1);
    HolderMatches(ids, m1, bib2);
  }

  /** Both bibs held, by y and x: when every write goes through, y ends with
      the second bib and x with the first, and nobody else changes. The only
      refusal possible is a start-list refusal; the store never sees a second
      holder of a bib. */
  lemma {:induction false} SwapExchanges(ids: seq<string>, m: map<string, Contestant>, listed: set<int>,
                                         bib1: Option<int>, bib2: Option<int>, y: string, x: string)
    requires Wellformed(ids, m)
    requires bib1 != bib2 && bib1.Some? && bib2.Some?
    requires y in m && m[y].bib == bib1
    requires x in m && m[x].bib == bib2
    ensures var s := SwapRecords(ids, m, listed, bib1, bib2);
            s.result.Fail? ==> s.result.error.InStartList?
    ensures var s := SwapRecords(ids, m, listed, bib1, bib2);
            s.result.Pass? ==> s.records == m[y := m[y].(bib := bib2)][x := m[x].(bib := bib1)] &&
                               s.info == SwappedText(bib1, bib2)
    ensures var s := SwapRecords(ids, m, listed, bib1, bib2);
            s.result.Pass? <==> bib1.value !in listed && bib2.value !in listed
  {
    HolderIs(ids, m, bib1, y);
    var c1 := m[y].(bib := None);
    if bib1.value !in listed {
      assert UpdateVerdict(m, c1, listed).Pass?;
      UpdateKeepsUnique(m, c1, listed);
      var m1 := m[y := c1];
      assert Wellformed(ids, m1);
      HolderIs(ids, m1, bib2, x);
      var c2 := m1[x].(bib := bib1);
      if bib2.value !in listed {
        assert !HeldByOther(m1, x, bib1.value) by {
          forall other | other in m1 && other != x ensures m1[other].bib != bib1 {
            if other != y {
              assert m[other].bib != m[y].bib;
            }
          }
        }
        assert UpdateVerdict(m1, c2, listed).Pass?;
        UpdateKeepsUnique(m1, c2, listed);
        var m2 := m1[x := c2];
        var c1' := c1.(bib := bib2);
        assert !HeldByOther(m2, y, bib2.value) by {
          forall other | other in m2 && other != y ensures m2[other].bib != bib2 {
            if other != x {
              assert m[other].bib != m[x].bib;
            }
          }
        }
        assert UpdateVerdict(m2, c1', listed).Pass?;
        assert m2[y := c1'] == m[y := m[y].(bib := bib2)][x := m[x].(bib := bib1)];
      } else {
        assert UpdateVerdict(m1, c2, listed).Fail?;
      }
    } else {
      assert UpdateVerdict(m, c1, listed).Fail?;
    }
  }

  /** Swapping the same two bibs twice puts every record back. */
  lemma SwapTwiceRestores(ids: seq<string>, m: map<string, Contestant>, listed: set<int>,
                          bib1: Option<int>, bib2: Option<int>, y: string, x: string)
    requires Wellformed(ids, m)
    requires bib1 != bib2 && bib1.Some? && bib2.Some?
    requires y in m && m[y].bib == bib1
    requires x in m && m[x].bib == bib2
    requires SwapRecords(ids, m, listed, bib1, bib2).result.Pass?
    ensures var once := SwapRecords(ids, m, listed, bib1, bib2).records;
            SwapRecords(ids, once, listed, bib1, bib2) == SwapOutcome(Pass, m, SwappedText(bib1, bib2))
  {
    SwapExchanges(ids, m, listed, bib1, bib2, y, x);
    SwapKeepsWellformed(ids, m, listed, bib1, bib2);
    var once := m[y := m[y].(bib := bib2)][x := m[x].(bib := bib1)];
    assert SwapRecords(ids, m, listed, bib1, bib2).records == once;
    SwapBack(ids, m, once, listed, bib1, bib2, y, x);
  }

  lemma SwapBack(ids: seq<string>, m: map<string, Contestant>, once: map<string, Contestant>, listed: set<int>,
                 bib1: Option<int>, bib2: Option<int>, y: string, x: string)
    requires Wellformed(ids, once)
    requires bib1 != bib2 && bib1.Some? && bib2.Some?
    requires bib1.value !in listed && bib2.value !in listed
    requires y in m && m[y].bib == bib1
    requires x in m && m[x].bib == bib2
    requires once == m[y := m[y].(bib := bib2)][x := m[x].(bib := bib1)]
    ensures SwapRecords(ids, once, listed, bib1, bib2) == SwapOutcome(Pass, m, SwappedText(bib1, bib2))
  {
    assert x != y;
    SwapExchanges(ids, once, listed, bib1, bib2, x, y);
    ExchangeUndone(m, once, y, x);
  }

  lemma ExchangeUndone(m: map<string, Contestant>, once: map<string, Contestant>, y: string, x: string)
    requires y in m && x in m && x != y
    requires once == m[y := m[y].(bib := m[x].bib)][x := m[x].(bib := m[y].bib)]
    ensures once[x := once[x].(bib := m[x].bib)][y := once[y].(bib := m[y].bib)] == m
  {
    var twice := once[x := once[x].(bib := m[x].bib)][y := once[y].(bib := m[y].bib)];
    forall id | id in m ensures twice[id] == m[id] {
    }
  }

  /** Whatever happens, the records stay well formed: bibs stay unique. */
  lemma SwapKeepsWellformed(ids: seq<string>, m: map<string, Contestant>, listed: set<int>,
                            bib1: Option<int>, bib2: Option<int>)
    requires Wellformed(ids, m)
    ensures Wellformed(ids, SwapRecords(ids, m, listed, bib1, bib2).records)
  {
    if bib1 != bib2 && Holder(ids, m, bib1).Some? {
      var id1 := Holder(ids, m, bib1).value;
      var c1 := m[id1].(bib := None);
      if UpdateVerdict(m, c1, listed).Pass? {
        UpdateKeepsWellformed(ids, m, c1, listed);
        HandOverKeepsWellformed(ids, m[id1 := c1], listed, c1, bib1, bib2);
      }
    }
  }

  lemma HandOverKeepsWellformed(ids: seq<string>, m1: map<string, Contestant>, listed: set<int>,
                                c1: Contestant, bib1: Option<int>, bib2: Option<int>)
    requires Wellformed(ids, m1)
    ensures Wellformed(ids, HandOverRecords(ids, m1, listed, c1, bib1, bib2).records)
  {
    var h := HandOverRecords(ids, m1, listed, c1, bib1, bib2);
    if Holder(ids, m1, bib2).Some? {
      var id2 := Holder(ids, m1, bib2).value;
      var c2 := m1[id2].(bib := bib1);
      if UpdateVerdict(m1, c2, listed).Pass? {
        UpdateKeepsWellformed(ids, m1, c2, listed);
        var m2 := m1[id2 := c2];
        var c1' := c1.(bib := bib2);
        if UpdateVerdict(m2, c1', listed).Pass? {
          UpdateKeepsWellformed(ids, m2, c1', listed);
          assert h.records == m2[c1'.id := c1'];
        } else {
          assert h.records == m2;
        }
      } else {
        assert h.records == m1;
      }
    } else {
      assert h.records == m1;
    }
  }

  /** Only bibs change, and only on records that held one of the two bibs;
      each of those ends with no bib or one of the two. */
  predicate OnlyHoldersChange(m: map<string, Contestant>, s: map<string, Contestant>, bib1: Option<int>, bib2: Option<int>) {
    s.Keys == m.Keys &&
    forall id | id in m ::
      s[id] == m[id].(bib := s[id].bib) &&
      (s[id] != m[id] ==> m[id].bib.Some? && (m[id].bib == bib1 || m[id].bib == bib2) &&
                          (s[id].bib.None? || s[id].bib == bib1 || s[id].bib == bib2))
  }

  lemma RewriteHolders(m: map<string, Contestant>, y: string, x: string, bib1: Option<int>, bib2: Option<int>,
                       toY: Option<int>, toX: Option<int>)
    requires y in m && x in m && x != y
    requires m[y].bib == bib1 && bib1.Some?
    requires m[x].bib == bib2 && bib2.Some?
    requires toY.None? || toY == bib1 || toY == bib2
    requires toX.None? || toX == bib1 || toX == bib2
    ensures OnlyHoldersChange(m, m[y := m[y].(bib := toY)], bib1, bib2)
    ensures OnlyHoldersChange(m, m[y := m[y].(bib := toY)][x := m[x].(bib := toX)], bib1, bib2)
  {
  }

  /** Whatever happens, only bibs change, and only the records that held one
      of the two bibs. */
  lemma SwapFrame(ids: seq<string>, m: map<string, Contestant>, listed: set<int>,
                  bib1: Option<int>, bib2: Option<int>)
    requires Wellformed(ids, m)
    ensures OnlyHoldersChange(m, SwapRecords(ids, m, listed, bib1, bib2).records, bib1, bib2)
  {
    if bib1 == bib2 || Holder(ids, m, bib1).None? {
      assert SwapRecords(ids, m, listed, bib1, bib2).records == m;
      return;
    }
    var id1 := Holder(ids, m, bib1).value;
    var c1 := m[id1].(bib := None);
    if UpdateVerdict(m, c1, listed).Fail? {
      assert SwapRecords(ids, m, listed, bib1, bib2).records == m;
      return;
    }
    assert SwapRecords(ids, m, listed, bib1, bib2) == HandOverRecords(ids, m[id1 := c1], listed, c1, bib1, bib2);
    HandOverFrame(ids, m, listed, id1, bib1, bib2);
  }

  /** The frame of the second half of a swap. */
  lemma HandOverFrame(ids: seq<string>, m: map<string, Contestant>, listed: set<int>,
                      id1: string, bib1: Option<int>, bib2: Option<int>)
    requires forall i | 0 <= i < |ids| :: ids[i] in m
    requires id1 in m && bib1.Some? && m[id1].bib == bib1 && m[id1].id == id1 && bib1 != bib2
    ensures var c1 := m[id1].(bib := None);
            OnlyHoldersChange(m, HandOverRecords(ids, m[id1 := c1], listed, c1, bib1, bib2).records, bib1, bib2)
  {
    var c1 := m[id1].(bib := None);
    var m1 := m[id1 := c1];
    if Holder(ids, m1, bib2).None? {
      assert HandOverRecords(ids, m1, listed, c1, bib1, bib2).records == m1;
      assert OnlyHoldersChange(m, m1, bib1, bib2);
    } else {
      var id2 := Holder(ids, m1, bib2).value;
      assert id2 != id1 && m[id2].bib == bib2;
      HandOverWrites(ids, m, m1, listed, id1, id2, bib1, bib2);
    }
  }

  lemma HandOverWrites(ids: seq<string>, m: map<string, Contestant>, m1: map<string, Contestant>, listed: set<int>,
                       id1: string, id2: string, bib1: Option<int>, bib2: Option<int>)
    requires forall i | 0 <= i < |ids| :: ids[i] in m
    requires id1 in m && bib1.Some? && m[id1].bib == bib1 && m[id1].id == id1 && bib1 != bib2
    requires id2 in m && id2 != id1 && m[id2].bib == bib2
    requires m1 == m[id1 := m[id1].(bib := None)]
    requires Holder(ids, m1, bib2) == Some(id2)
    ensures var c1 := m[id1].(bib := None);
            OnlyHoldersChange(m, HandOverRecords(ids, m1, listed, c1, bib1, bib2).records, bib1, bib2)
  {
    var c1 := m[id1].(bib := None);
    var c2 := m1[id2].(bib := bib1);
    var m2 := m1[id2 := c2];
    var h := HandOverRecords(ids, m1, listed, c1, bib1, bib2);
    RewriteHolders(m, id1, id2, bib1, bib2, None, bib1);
    if UpdateVerdict(m1, c2, listed).Fail? {
      assert h.records == m1;
    } else if UpdateVerdict(m2, c1.(bib := bib2), listed).Fail? {
      assert h.records == m2;
    } else {
      WritesBack(m, id1, id2, bib1, bib2);
      assert h.records == m2[id1 := c1.(bib := bib2)];
    }
  }

  /** The three writes of a completed swap, in their order. */
  lemma WritesBack(m: map<string, Contestant>, id1: string, id2: string, bib1: Option<int>, bib2: Option<int>)
    requires id1 in m && id2 in m && id1 != id2
    requires m[id1].bib == bib1 && bib1.Some?
    requires m[id2].bib == bib2 && bib2.Some?
    ensures OnlyHoldersChange(m, m[id1 := m[id1].(bib := None)][id2 := m[id2].(bib := bib1)][id1 := m[id1].(bib := bib2)], bib1, bib2)
  {
  }
}

=== FILE: classes.dfy ===
/** The raceclass records of one event, as the raceclass service keeps them. */
module Classes {
  import opened Common

  /** A race class: a competition category made of one or more age classes. */
  datatype Raceclass = Raceclass(
    id: string,
    name: string,
    distance: string,
    group: int,
    order: Option<int>,
    ranking: bool,
    seeding: bool,
    ageclasses: seq<string>,
    noOfContestants: int)

  predicate DistinctIds(cs: seq<Raceclass>) {
    forall i, j | 0 <= i < j < |cs| :: cs[i].id != cs[j].id
  }

  /** Index of the record with the given id, if any. */
  function IndexOfId(cs: seq<Raceclass>, id: string): (r: Option<nat>)
    ensures r.Some? ==> r.value < |cs| && cs[r.value].id == id
    ensures r.None? ==> forall i | 0 <= i < |cs| :: cs[i].id != id
  {
    if cs == [] then None
    else if cs[0].id == id then Some(0)
    else match IndexOfId(cs[1..], id)
      case None => None
      case Some(k) => Some(k + 1)
  }

  /** The first class whose age classes include the given one. */
  function FirstWithAgeclass(cs: seq<Raceclass>, ageclass: string): (r: Option<nat>)
    ensures r.Some? ==> r.value < |cs| && ageclass in cs[r.value].ageclasses &&
                        forall i | 0 <= i < r.value :: ageclass !in cs[i].ageclasses
    ensures r.None? ==> forall i | 0 <= i < |cs| :: ageclass !in cs[i].ageclasses
  {
    if cs == [] then None
    else if ageclass in cs[0].ageclasses then Some(0)
    else match FirstWithAgeclass(cs[1..], ageclass)
      case None => None
      case Some(k) => Some(k + 1)
  }

  /** The records left after removing every one with the given id. */
  function WithoutId(cs: seq<Raceclass>, id: string): (r: seq<Raceclass>)
    ensures forall i | 0 <= i < |r| :: r[i].id != id && r[i] in cs
    ensures forall c | c in cs && c.id != id :: c in r
    ensures |r| <= |cs|
  {
    if cs == [] then []
    else if cs[0].id == id then WithoutId(cs[1..], id)
    else [cs[0]] + WithoutId(cs[1..], id)
  }

  /** The records with the one whose id is rc's replaced by rc. */
  function WithRecord(cs: seq<Raceclass>, rc: Raceclass): (r: seq<Raceclass>)
    ensures |r| == |cs|
    ensures forall i | 0 <= i < |cs| :: r[i] == if cs[i].id == rc.id then rc else cs[i]
  {
    if cs == [] then []
    else [if cs[0].id == rc.id then rc else cs[0]] + WithRecord(cs[1..], rc)
  }

  /** With distinct ids, rewriting the record of an existing id replaces
      exactly that record. */
  lemma WithRecordAt(cs: seq<Raceclass>, k: nat, rc: Raceclass)
    requires DistinctIds(cs) && k < |cs| && cs[k].id == rc.id
    ensures WithRecord(cs, rc) == cs[k := rc]
  {
    assert forall i | 0 <= i < |cs| :: WithRecord(cs, rc)[i] == cs[k := rc][i];
  }

  /** A record is in the rewritten list when it is rc or an untouched record. */
  lemma WithRecordHolds(cs: seq<Raceclass>, rc: Raceclass, c: Raceclass)
    ensures c in WithRecord(cs, rc) ==> c == rc || c in cs
    ensures c in cs && c.id != rc.id ==> c in WithRecord(cs, rc)
    ensures c == rc && (exists i | 0 <= i < |cs| :: cs[i].id == rc.id) ==> c in WithRecord(cs, rc)
  {
    var r := WithRecord(cs, rc);
    if c in r {
      var i :| 0 <= i < |r| && r[i] == c;
    }
    if c in cs && c.id != rc.id {
      var i :| 0 <= i < |cs| && cs[i] == c;
      assert r[i] == c;
    }
    if c == rc && (exists i | 0 <= i < |cs| :: cs[i].id == rc.id) {
      var i :| 0 <= i < |cs| && cs[i].id == rc.id;
      assert r[i] == c;
    }
  }

  /** A record survives the deletion exactly when it has another id. */
  lemma {:induction false} WithoutIdHolds(cs: seq<Raceclass>, id: string, c: Raceclass)
    ensures c in WithoutId(cs, id) <==> c in cs && c.id != id
  {
    if cs != [] {
      WithoutIdHolds(cs[1..], id, c);
      assert c in cs <==> c == cs[0] || c in cs[1..];
    }
  }

  /** Removing an id nobody has changes nothing. */
  lemma {:induction false} WithoutAbsentId(cs: seq<Raceclass>, id: string)
    requires forall i | 0 <= i < |cs| :: cs[i].id != id
    ensures WithoutId(cs, id) == cs
  {
    if cs != [] {
      WithoutAbsentId(cs[1..], id);
    }
  }

  datatype ClassError = ClassNotFound(id: string)

  class RaceclassStore {
    var classes: seq<Raceclass>

    ghost predicate Valid()
      reads this
    {
      DistinctIds(classes)
    }

    constructor (cs: seq<Raceclass>)
      requires DistinctIds(cs)
      ensures Valid() && classes == cs
    {
      classes := cs;
    }

    /** get_raceclass: the record with this id. */
    function Get(id: string): (r: Option<Raceclass>)
      reads this
      ensures r.Some? <==> exists i | 0 <= i < |classes| :: classes[i].id == id
      ensures r.Some? ==> r.value in classes && r.value.id == id
    {
      match IndexOfId(classes, id)
      case None => None
      case Some(i) => Some(classes[i])
    }

    /** update_raceclass: the record with rc's id is replaced by rc; a missing
        id is refused. */
    method Update(rc: Raceclass) returns (r: Outcome<ClassError>)
      requires Valid()
      modifies this
      ensures Valid()
      ensures r.Pass? <==> exists i | 0 <= i < |old(classes)| :: old(classes)[i].id == rc.id
      ensures r.Fail? ==> classes == old(classes) && r.error == ClassNotFound(rc.id)
      ensures |classes| == |old(classes)|
      ensures r.Pass? ==> classes == WithRecord(old(classes), rc)
    {
      match IndexOfId(classes, rc.id)
      case None =>
        r := Fail(ClassNotFound(rc.id));
      case Some(i) =>
        classes := classes[i := rc];
        r := Pass;
    }

    /** delete_raceclass: the record with this id disappears. */
    method Delete(id: string) returns (r: Outcome<ClassError>)
      requires Valid()
      modifies this
      ensures Valid()
      ensures r.Pass? <==> exists i | 0 <= i < |old(classes)| :: old(classes)[i].id == id
      ensures r.Fail? ==> classes == old(classes)
      ensures r.Pass? ==> classes == WithoutId(old(classes), id)
    {
      match IndexOfId(classes, id)
      case None =>
        r := Fail(ClassNotFound(id));
      case Some(i) =>
        WithoutIdKeepsDistinct(classes, id);
        classes := WithoutId(classes, id);
        r := Pass;
    }
  }

  lemma {:induction false} WithoutIdKeepsDistinct(cs: seq<Raceclass>, id: string)
    requires DistinctIds(cs)
    ensures DistinctIds(WithoutId(cs, id))
  {
    if cs != [] {
      WithoutIdKeepsDistinct(cs[1..], id);
      if cs[0].id != id {
        var rest := WithoutId(cs[1..], id);
        forall i | 0 <= i < |rest| ensures rest[i].id != cs[0].id {
          assert rest[i] in cs[1..];
        }
      }
    }
  }
}

=== FILE: common.dfy ===
/** Small value types and the Python string and number operations that the
    console relies on (str.replace, str.strip, str.split, str.isnumeric, int()). */
module Common {

  datatype Option<+T> = None | Some(value: T)

  /** The outcome of a store write: it either went through or was refused. */
  datatype Outcome<+E> = Pass | Fail(error: E)

  // ---------------------------------------------------------------------
  // Whitespace and str.strip()

  /** The characters Python's str.strip() removes, those str.isspace()
      accepts: tab to carriage return, the four separators \x1c-\x1f, space,
      next line, no-break space, the ogham space mark, the spaces U+2000 to
      U+200A, the line and paragraph separators, the narrow no-break space,
      the medium mathematical space and the ideographic space. */
  predicate IsWhitespace(c: char) {
    ('\U{0009}' <= c <= '\U{000D}') || ('\U{001C}' <= c <= '\U{0020}') || c == '\U{0085}' || c == '\U{00A0}' ||
    c == '\U{1680}' || ('\U{2000}' <= c <= '\U{200A}') || c == '\U{2028}' || c == '\U{2029}' ||
    c == '\U{202F}' || c == '\U{205F}' || c == '\U{3000}'
  }

  function LeadingWhitespace(s: string): (n: nat)
    ensures n <= |s|
    ensures forall i | 0 <= i < n :: IsWhitespace(s[i])
    ensures n < |s| ==> !IsWhitespace(s[n])
  {
    if s == [] || !IsWhitespace(s[0]) then 0 else 1 + LeadingWhitespace(s[1..])
  }

  function TrailingWhitespace(s: string): (n: nat)
    ensures n <= |s|
    ensures forall i | |s| - n <= i < |s| :: IsWhitespace(s[i])
    ensures n < |s| ==> !IsWhitespace(s[|s| - n - 1])
  {
    if s == [] || !IsWhitespace(s[|s| - 1]) then 0 else 1 + TrailingWhitespace(s[..|s| - 1])
  }

  /** Python's str.strip(): the text between the leading and trailing whitespace. */
  function Strip(s: string): (r: string)
    ensures r == [] || (!IsWhitespace(r[0]) && !IsWhitespace(r[|r| - 1]))
    ensures exists i, j :: 0 <= i <= j <= |s| && r == s[i..j] &&
                           (forall k | 0 <= k < i :: IsWhitespace(s[k])) &&
                           (forall k | j <= k < |s| :: IsWhitespace(s[k]))
  {
    var a := LeadingWhitespace(s);
    var t := s[a..];
    var b := TrailingWhitespace(t);
    assert t[..|t| - b] == s[a..|s| - b];
    t[..|t| - b]
  }

  /** A text with no whitespace at either end strips to itself. */
  lemma StripUnchanged(s: string)
    requires s == [] || (!IsWhitespace(s[0]) && !IsWhitespace(s[|s| - 1]))
    ensures Strip(s) == s
  {
    assert LeadingWhitespace(s) == 0;
    assert s[0..] == s;
    assert TrailingWhitespace(s) == 0;
  }

  /** Stripping twice is stripping once. */
  lemma StripIdempotent(s: string)
    ensures Strip(Strip(s)) == Strip(s)
  {
    StripUnchanged(Strip(s));
  }

  /** Python's s.startswith(prefix). */
  predicate StartsWith(s: string, prefix: string) {
    |prefix| <= |s| && s[..|prefix|] == prefix
  }

  /** Python's s.endswith(suffix). */
  predicate EndsWith(s: string, suffix: string) {
    |suffix| <= |s| && s[|s| - |suffix|..] == suffix
  }

  /** Python's `sub in s` for texts. */
  predicate Contains(s: string, sub: string) {
    exists i | 0 <= i <= |s| :: StartsWith(s[i..], sub)
  }

  // ---------------------------------------------------------------------
  // str.replace()

  /** Python's str.replace(pat, rep): every occurrence of pat, found left to
      right without overlap, becomes rep. The source never passes an empty pat. */
  function Replace(s: string, pat: string, rep: string): (r: string)
    requires pat != []
    decreases |s|
  {
    if |s| < |pat| then s
    else if s[..|pat|] == pat then rep + Replace(s[|pat|..], pat, rep)
    else [s[0]] + Replace(s[1..], pat, rep)
  }

  /** Replacing cannot bring in a character that neither s nor rep holds. */
  lemma {:induction false} ReplaceKeepsOut(s: string, pat: string, rep: string, c: char)
    requires pat != []
    requires c !in s && c !in rep
    ensures c !in Replace(s, pat, rep)
    decreases |s|
  {
    if |s| < |pat| {
    } else if s[..|pat|] == pat {
      assert forall k | 0 <= k < |s[|pat|..]| :: s[|pat|..][k] == s[|pat| + k];
      ReplaceKeepsOut(s[|pat|..], pat, rep, c);
    } else {
      assert forall k | 0 <= k < |s[1..]| :: s[1..][k] == s[1 + k];
      ReplaceKeepsOut(s[1..], pat, rep, c);
    }
  }

  /** Replacing a one-character pattern by a text without that character
      removes every copy of it. */
  lemma {:induction false} ReplaceDeletesChar(s: string, c: char, rep: string)
    requires c !in rep
    ensures c !in Replace(s, [c], rep)
    decreases |s|
  {
    if |s| < 1 {
    } else if s[..1] == [c] {
      ReplaceDeletesChar(s[1..], c, rep);
    } else {
      assert s[0] != c by { assert s[..1] == [s[0]]; }
      ReplaceDeletesChar(s[1..], c, rep);
    }
  }

  /** A prefix without the pattern's first character is passed over unchanged. */
  lemma {:induction false} ReplaceAfter(a: string, b: string, pat: string, rep: string)
    requires pat != [] && pat[0] !in a
    ensures Replace(a + b, pat, rep) == a + Replace(b, pat, rep)
    decreases |a|
  {
    if a != [] {
      var s := a + b;
      assert s[0] == a[0];
      if |s| >= |pat| {
        assert s[..|pat|][0] == a[0];
        assert s[1..] == a[1..] + b;
        ReplaceAfter(a[1..], b, pat, rep);
      } else {
        assert Replace(b, pat, rep) == b;
      }
    } else {
      assert a + b == b;
    }
  }

  /** A text without the pattern's first character passes through unchanged. */
  lemma {:induction false} ReplaceIdentity(s: string, pat: string, rep: string)
    requires pat != [] && pat[0] !in s
    ensures Replace(s, pat, rep) == s
    decreases |s|
  {
    if |s| >= |pat| {
      assert s[..|pat|][0] == s[0];
      assert s[0] in s;
      assert forall k | 0 <= k < |s[1..]| :: s[1..][k] == s[1 + k];
      ReplaceIdentity(s[1..], pat, rep);
      assert [s[0]] + s[1..] == s;
    }
  }

  // ---------------------------------------------------------------------
  // str.split(sep) and its inverse, sep.join()

  /** sep.join(parts) for a non-empty list of parts. */
  function Join(parts: seq<string>, sep: char): (r: string)
    requires parts != []
  {
    if |parts| == 1 then parts[0] else parts[0] + [sep] + Join(parts[1..], sep)
  }

  function IndexOf(s: string, c: char): (i: nat)
    requires c in s
    ensures i < |s| && s[i] == c && c !in s[..i]
  {
    if s[0] == c then 0 else 1 + IndexOf(s[1..], c)
  }

  /** Python's s.split(sep) with a one-character separator: never empty, and
      empty pieces are kept ("a  b".split(" ") has three parts). */
  function Split(s: string, sep: char): (r: seq<string>)
    ensures r != []
    ensures forall k | 0 <= k < |r| :: sep !in r[k]
    ensures Join(r, sep) == s
    decreases |s|
  {
    if sep !in s then [s]
    else
      var i := IndexOf(s, sep);
      var rest := Split(s[i + 1..], sep);
      assert Join([s[..i]] + rest, sep) == s[..i] + [sep] + Join(rest, sep);
      assert s == s[..i] + [sep] + s[i + 1..];
      [s[..i]] + rest
  }

  /** Splitting a join of separator-free pieces gives the pieces back. */
  lemma {:induction false} SplitJoin(parts: seq<string>, sep: char)
    requires parts != []
    requires forall k | 0 <= k < |parts| :: sep !in parts[k]
    ensures Split(Join(parts, sep), sep) == parts
    decreases |parts|
  {
    if |parts| == 1 {
    } else {
      var s := Join(parts, sep);
      var p0 := parts[0];
      assert s == p0 + [sep] + Join(parts[1..], sep);
      assert s[|p0|] == sep;
      assert sep in s;
      var i := IndexOf(s, sep);
      assert s[..|p0|] == p0;
      assert i == |p0|;
      assert s[i + 1..] == Join(parts[1..], sep);
      SplitJoin(parts[1..], sep);
    }
  }

  // ---------------------------------------------------------------------
  // Digits: str.isnumeric(), int() and str() on whole numbers

  predicate IsDigit(c: char) { '0' <= c <= '9' }

  /** str.isnumeric(), restricted to ASCII digits: at least one character,
      every one a digit. */
  predicate IsNumeric(s: string) {
    |s| > 0 && forall i | 0 <= i < |s| :: IsDigit(s[i])
  }

  function DigitValue(c: char): (d: nat)
    requires IsDigit(c)
    ensures d < 10
  {
    (c as int - '0' as int) as nat
  }

  function DigitChar(d: nat): (c: char)
    requires d < 10
    ensures IsDigit(c) && DigitValue(c) == d
  {
    (d + '0' as int) as char
  }

  /** int(s) for a string of ASCII digits (leading zeros allowed). */
  function ParseNat(s: string): nat
    requires forall i | 0 <= i < |s| :: IsDigit(s[i])
  {
    if s == [] then 0 else ParseNat(s[..|s| - 1]) * 10 + DigitValue(s[|s| - 1])
  }

  /** str(n) for a non-negative whole number: decimal digits, no leading zero. */
  function NatToString(n: nat): (r: string)
    ensures IsNumeric(r)
    ensures |r| > 1 ==> r[0] != '0'
  {
    if n < 10 then [DigitChar(n)] else NatToString(n / 10) + [DigitChar(n % 10)]
  }

  /** Reading back what str() wrote gives the number. */
  lemma {:induction false} ParseNatToString(n: nat)
    ensures ParseNat(NatToString(n)) == n
  {
    if n >= 10 {
      var r := NatToString(n);
      assert r[..|r| - 1] == NatToString(n / 10);
      ParseNatToString(n / 10);
    }
  }

  /** str(i) for any whole number. */
  function IntToString(i: int): (r: string)
    ensures r != []
    ensures i < 0 <==> r[0] == '-'
  {
    if i < 0 then "-" + NatToString(-i) else NatToString(i)
  }

  /** int(s) on a form value: surrounding whitespace, an optional sign and
      ASCII digits; anything else raises ValueError (None here). Underscores
      between digits and non-ASCII decimal digits, which int() also takes,
      are not read. */
  function ParseInt(s: string): (r: Option<int>)
    ensures IsNumeric(s) ==> r == Some(ParseNat(s))
    ensures r.Some? ==> Strip(s) != []
  {
    var t := Strip(s);
    if IsNumeric(t) then
      assert IsNumeric(s) ==> t == s by {
        if IsNumeric(s) {
          assert LeadingWhitespace(s) == 0;
          assert s[0..] == s;
          assert TrailingWhitespace(s) == 0;
        }
      }
      Some(ParseNat(t))
    else if |t| > 1 && (t[0] == '+' || t[0] == '-') && IsNumeric(t[1..]) then
      Some(if t[0] == '-' then 0 - ParseNat(t[1..]) as int else ParseNat(t[1..]))
    else None
  }

  /** int(str(i)) == i. */
  lemma ParseIntToString(i: int)
    ensures ParseInt(IntToString(i)) == Some(i)
  {
    if i < 0 {
      ParseIntNegative(-i);
    } else {
      ParseIntNatural(i);
    }
  }

  /** int(str(n)) == n for a natural n. */
  lemma ParseIntNatural(n: nat)
    ensures ParseInt(NatToString(n)) == Some(n)
  {
    ParseNatToString(n);
  }

  /** int("-" + str(n)) == -n for a positive n. */
  lemma ParseIntNegative(n: nat)
    requires n > 0
    ensures ParseInt("-" + NatToString(n)) == Some(-(n as int))
  {
    var digits := NatToString(n);
    var r := "-" + digits;
    assert IsDigit(digits[|digits| - 1]) && r[|r| - 1] == digits[|digits| - 1];
    StripUnchanged(r);
    assert !IsNumeric(r) by { assert !IsDigit(r[0]); }
    assert r[1..] == digits;
    ParseNatToString(n);
    assert |r| > 1 && r[0] == '-' && IsNumeric(r[1..]);
  }

  // ---------------------------------------------------------------------
  // Posted forms

  /** A posted form: its key/value pairs in the order they were sent. */
  type Form = seq<(string, string)>

  /** Field i is the first posted under its key: the field dict(form)
      keeps, at the place the key first appears. */
  predicate FirstOfKey(form: Form, i: nat)
    requires i < |form|
  {
    forall j | 0 <= j < i :: form[j].0 != form[i].0
  }

  /** form[key]: the first value posted under key; None where Python raises
      KeyError. */
  function FormValue(form: Form, key: string): (v: Option<string>)
    ensures v.None? <==> forall i | 0 <= i < |form| :: form[i].0 != key
    ensures v.Some? ==> exists i | 0 <= i < |form| :: form[i] == (key, v.value)
  {
    if form == [] then None
    else if form[0].0 == key then Some(form[0].1)
    else FormValue(form[1..], key)
  }

  /** form[key] is the value of the first field posted under key. */
  lemma {:induction false} FormValueFirst(form: Form, key: string)
    ensures FormValue(form, key).Some? ==>
              exists i | 0 <= i < |form| :: form[i] == (key, FormValue(form, key).value) && FirstOfKey(form, i)
  {
    if form != [] && form[0].0 != key && FormValue(form, key).Some? {
      FormValueFirst(form[1..], key);
      var i :| 0 <= i < |form[1..]| && form[1..][i] == (key, FormValue(form, key).value) && FirstOfKey(form[1..], i);
      assert FirstOfKey(form, i + 1) by {
        forall j | 0 <= j < i + 1 ensures form[j].0 != key {
          if j > 0 { assert form[j] == form[1..][j - 1]; }
        }
      }
    }
  }

  /** The field first posted under a key carries form[key]. */
  lemma FirstOfKeyValue(form: Form, i: nat)
    requires i < |form| && FirstOfKey(form, i)
    ensures FormValue(form, form[i].0) == Some(form[i].1)
  {
    var key := form[i].0;
    FormValueFirst(form, key);
    var f :| 0 <= f < |form| && form[f] == (key, FormValue(form, key).value) && FirstOfKey(form, f);
    assert !(i < f);
  }


  /** form.get(key, default): the first value posted under key. */
  function FormGet(form: Form, key: string, default: string): (v: string)
    ensures v == if FormValue(form, key).Some? then FormValue(form, key).value else default
  {
    if form == [] then default
    else if form[0].0 == key then form[0].1
    else FormGet(form[1..], key, default)
  }

  // ---------------------------------------------------------------------
  // Sequences

  /** No element occurs twice. */
  predicate Distinct<T(==)>(s: seq<T>) {
    forall i, j | 0 <= i < j < |s| :: s[i] != s[j]
  }

  // ---------------------------------------------------------------------
  // Sums

  function Sum(xs: seq<int>): int {
    if xs == [] then 0 else Sum(xs[..|xs| - 1]) + xs[|xs| - 1]
  }
}

=== FILE: contestant_import.dfy ===
/** How the contestants page turns its inputs into contestants: the
    late-entry form, an XML start record, and the lines of a CSV file, which
    are imported one by one into the contestant store. */
module ContestantImport {
  import opened Common
  import opened ContestantsAdapter

  /** A contestant as a form, a file row or an XML record describes it. */
  datatype Registration = Registration(
    bib: Option<int>,
    firstName: string,
    lastName: string,
    birthDate: string,
    gender: string,
    ageclass: string,
    region: string,
    club: string,
    eventId: string,
    email: string,
    team: string,
    seedingPoints: Option<int>,
    minidrettId: string,
    registered: string)

  /** The store's record of a registration under the id the service gives it. */
  function ToContestant(reg: Registration, id: string): Contestant {
    Contestant(id, reg.bib, reg.seedingPoints, reg.firstName, reg.lastName, reg.club, reg.ageclass)
  }

  // ---------------------------------------------------------------------
  // get_contestant_from_form

  /** int(v) for a non-empty value, None for an empty one or one int()
      refuses. */
  function OptionalNumber(v: string): (r: Option<int>)
    ensures v == [] ==> r.None?
    ensures IsNumeric(v) ==> r == Some(ParseNat(v))
  {
    if |v| > 0 then ParseInt(v) else None
  }

  /** The form fields get_contestant_from_form reads without a fallback. */
  predicate HasFormFields(form: map<string, string>) {
    "first_name" in form && "last_name" in form && "birth_date" in form && "gender" in form &&
    "ageclass" in form && "region" in form && "club" in form && "email" in form &&
    "team" in form && "minidrett_id" in form
  }

  /** get_contestant_from_form: a missing text field raises (None here); the
      bib and seeding points fall back to None when missing, empty or not a
      number. The registration time is the event's local time, `now`. */
  function FromForm(eventId: string, form: map<string, string>, now: string): (r: Option<Registration>)
    ensures r.Some? <==> HasFormFields(form)
    ensures r.Some? ==> r.value.eventId == eventId && r.value.registered == now &&
                        r.value.firstName == form["first_name"] && r.value.lastName == form["last_name"] &&
                        r.value.ageclass == form["ageclass"] && r.value.club == form["club"]
    ensures r.Some? ==> r.value.birthDate == form["birth_date"] && r.value.gender == form["gender"] &&
                        r.value.region == form["region"] && r.value.email == form["email"] &&
                        r.value.team == form["team"] && r.value.minidrettId == form["minidrett_id"]
    ensures r.Some? ==> r.value.bib == if "bib" in form && |form["bib"]| > 0 then ParseInt(form["bib"]) else None
    ensures r.Some? ==> r.value.seedingPoints ==
                        if "seeding_points" in form && |form["seeding_points"]| > 0
                        then ParseInt(form["seeding_points"]) else None
    ensures r.Some? && r.value.bib.Some? ==> "bib" in form && Strip(form["bib"]) != []
    ensures r.Some? && r.value.seedingPoints.Some? ==> "seeding_points" in form && Strip(form["seeding_points"]) != []
  {
    if !HasFormFields(form) then None
    else
      var bib := if "bib" in form then OptionalNumber(form["bib"]) else None;
      var points := if "seeding_points" in form then OptionalNumber(form["seeding_points"]) else None;
      Some(Registration(bib, form["first_name"], form["last_name"], form["birth_date"], form["gender"],
                        form["ageclass"], form["region"], form["club"], eventId, form["email"], form["team"],
                        points, form["minidrett_id"], now))
  }

  /** A bib written as str(n) in the form comes back as n; an empty field
      gives no bib. */
  lemma FormBibReadsBack(eventId: string, form: map<string, string>, now: string, n: int)
    requires HasFormFields(form) && "bib" in form
    ensures form["bib"] == IntToString(n) ==> FromForm(eventId, form, now).value.bib == Some(n)
    ensures form["bib"] == "" ==> FromForm(eventId, form, now).value.bib.None?
  {
    ParseIntToString(n);
  }

  // ---------------------------------------------------------------------
  // contestant_from_xml

  predicate HasXmlFields(xml: map<string, string>) {
    "@startno" in xml && "@fornavn" in xml && "@etternavn" in xml && "@klasse" in xml &&
    "@team" in xml && "@teamabb" in xml && "@starttid" in xml
  }

  /** contestant_from_xml: int(@startno) must succeed (otherwise it raises,
      None here); the attributes are copied, the team name goes to the club
      and its abbreviation to the team, and @starttid fills minidrett_id. No
      seeding points, and the fields the record lacks are empty. */
  function FromXml(xml: map<string, string>, eventId: string, now: string): (r: Option<Registration>)
    ensures r.Some? <==> HasXmlFields(xml) && ParseInt(xml["@startno"]).Some?
    ensures r.Some? ==> r.value.bib == ParseInt(xml["@startno"]) && r.value.seedingPoints.None? &&
                        r.value.firstName == xml["@fornavn"] && r.value.lastName == xml["@etternavn"] &&
                        r.value.ageclass == xml["@klasse"] && r.value.club == xml["@team"] &&
                        r.value.team == xml["@teamabb"] && r.value.minidrettId == xml["@starttid"] &&
                        r.value.birthDate == "" && r.value.gender == "" && r.value.region == "" && r.value.email == ""
  {
    if !HasXmlFields(xml) then None
    else match ParseInt(xml["@startno"])
      case None => None
      case Some(bib) =>
        Some(Registration(Some(bib), xml["@fornavn"], xml["@etternavn"], "", "", xml["@klasse"], "",
                          xml["@team"], eventId, "", xml["@teamabb"], None, xml["@starttid"], now))
  }

  // ---------------------------------------------------------------------
  // The lines of an imported file

  const ByteMark: char := '\U{FEFF}'

  /** The clean-up every line gets: "b'", carriage returns, line feeds and
      the byte-order mark are removed, in that order. */
  function CleanLine(line: string): (r: string)
    ensures '\r' !in r && '\n' !in r && ByteMark !in r
  {
    var a := Replace(line, "b'", "");
    var b := Replace(a, "\r", "");
    ReplaceDeletesChar(a, '\r', "");
    var c := Replace(b, "\n", "");
    ReplaceDeletesChar(b, '\n', "");
    ReplaceKeepsOut(b, "\n", "", '\r');
    var d := Replace(c, [ByteMark], "");
    ReplaceDeletesChar(c, ByteMark, "");
    ReplaceKeepsOut(c, [ByteMark], "", '\r');
    ReplaceKeepsOut(c, [ByteMark], "", '\n');
    d
  }

  /** The fields of a line: split on ';', or on ',' when the line has no ';'
      (every ',' becomes ';' first). */
  function Fields(line: string): (r: seq<string>)
    ensures r != []
    ensures forall k | 0 <= k < |r| :: '\r' !in r[k] && '\n' !in r[k] && ByteMark !in r[k] && ';' !in r[k]
  {
    var t := CleanLine(line);
    var u := if ';' !in t then Replace(t, ",", ";") else t;
    FieldsClean(t, u);
    Split(u, ';')
  }

  lemma FieldsClean(t: string, u: string)
    requires '\r' !in t && '\n' !in t && ByteMark !in t
    requires u == if ';' !in t then Replace(t, ",", ";") else t
    ensures '\r' !in u && '\n' !in u && ByteMark !in u
    ensures forall k | 0 <= k < |Split(u, ';')| :: '\r' !in Split(u, ';')[k] && '\n' !in Split(u, ';')[k] && ByteMark !in Split(u, ';')[k]
  {
    if ';' !in t {
      ReplaceKeepsOut(t, ",", ";", '\r');
      ReplaceKeepsOut(t, ",", ";", '\n');
      ReplaceKeepsOut(t, ",", ";", ByteMark);
    }
    var r := Split(u, ';');
    forall k | 0 <= k < |r|
      ensures '\r' !in r[k] && '\n' !in r[k] && ByteMark !in r[k]
    {
      JoinHolds(r, ';', k);
    }
  }

  /** Every piece of a join is part of the joined text. */
  lemma {:induction false} JoinHolds(parts: seq<string>, sep: char, k: nat)
    requires parts != [] && k < |parts|
    ensures forall c | c in parts[k] :: c in Join(parts, sep)
  {
    if k > 0 {
      JoinHolds(parts[1..], sep, k - 1);
    }
  }

  /** A line with a ';' is split on ';' alone: joining its fields with ';'
      gives the cleaned line back. A line without one is split on ',', and
      no field holds a ','. */
  lemma FieldsSplitOn(line: string)
    ensures ';' in CleanLine(line) ==> Join(Fields(line), ';') == CleanLine(line)
    ensures ';' !in CleanLine(line) ==> forall k | 0 <= k < |Fields(line)| :: ',' !in Fields(line)[k]
  {
    var t := CleanLine(line);
    if ';' !in t {
      var u := Replace(t, ",", ";");
      ReplaceDeletesChar(t, ',', ";");
      var r := Split(u, ';');
      forall k | 0 <= k < |r|
        ensures ',' !in r[k]
      {
        JoinHolds(r, ';', k);
      }
    }
  }

  // ---------------------------------------------------------------------
  // The header row

  /** The header map after the first k fields: each field maps to its
      column, a later copy overwriting an earlier one; a first field ending
      in "Startnr" also maps "Startnr" to column 0. */
  function HeaderMap(fields: seq<string>, k: nat): (h: map<string, nat>)
    requires k <= |fields|
    ensures forall key | key in h :: h[key] < k
  {
    if k == 0 then map[]
    else
      var h := HeaderMap(fields, k - 1);
      var e := fields[k - 1];
      var marked := if k - 1 == 0 && EndsWith(e, "Startnr") then h["Startnr" := 0] else h;
      marked[e := k - 1]
  }

  /** Every header names its column; "Startnr" may instead name a first
      column that ends with it. */
  lemma {:induction false} HeaderMapNames(fields: seq<string>, k: nat)
    requires k <= |fields|
    ensures forall key | key in HeaderMap(fields, k) ::
              fields[HeaderMap(fields, k)[key]] == key ||
              (key == "Startnr" && HeaderMap(fields, k)[key] == 0 && EndsWith(fields[0], "Startnr"))
  {
    if k > 0 {
      HeaderMapNames(fields, k - 1);
    }
  }

  /** Every field of the header row is a header, and its column is the last
      one with that name. */
  lemma {:induction false} HeaderMapLast(fields: seq<string>, k: nat)
    requires k <= |fields|
    ensures forall i | 0 <= i < k :: fields[i] in HeaderMap(fields, k) && HeaderMap(fields, k)[fields[i]] >= i &&
              forall j | HeaderMap(fields, k)[fields[i]] < j < k :: fields[j] != fields[i]
  {
    if k > 0 {
      HeaderMapLast(fields, k - 1);
    }
  }

  /** The header loop of the import. */
  method ReadHeaders(fields: seq<string>) returns (headers: map<string, nat>)
    ensures headers == HeaderMap(fields, |fields|)
  {
    headers := map[];
    for i := 0 to |fields|
      invariant headers == HeaderMap(fields, i)
    {
      if i == 0 && EndsWith(fields[i], "Startnr") {
        headers := headers["Startnr" := 0];
      }
      headers := headers[fields[i] := i];
    }
  }

  // ---------------------------------------------------------------------
  // get_contestant_dict

  /** What reading a cell can raise: a KeyError for a column the header row
      lacks, an IndexError for a row too short. */
  datatype RowError = MissingColumn(key: string) | RowTooShort

  datatype Cell = Value(text: string) | Raised(error: RowError)

  /** elements[headers[key]]. */
  function CellOf(elements: seq<string>, headers: map<string, nat>, key: string): (c: Cell)
    ensures c.Value? <==> key in headers && headers[key] < |elements|
    ensures c.Value? ==> c.text == elements[headers[key]]
  {
    if key !in headers then Raised(MissingColumn(key))
    else if headers[key] >= |elements| then Raised(RowTooShort)
    else Value(elements[headers[key]])
  }

  /** The exception's text as str() gives it. */
  function RowErrorText(e: RowError): string {
    match e
    case MissingColumn(key) => "'" + key + "'"
    case RowTooShort => "list index out of range"
  }

  /** What the loop over the words of a name adds to the last name: every
      word after the first, each followed by a space. */
  function TailWords(words: seq<string>): (r: string)
    decreases |words|
  {
    if words == [] then "" else words[0] + " " + TailWords(words[1..])
  }

  /** The remaining words followed by a space are the words joined with
      spaces, plus one trailing space. */
  lemma {:induction false} TailWordsJoin(words: seq<string>)
    requires words != []
    ensures TailWords(words) == Join(words, ' ') + " "
    decreases |words|
  {
    if |words| > 1 {
      TailWordsJoin(words[1..]);
    }
  }

  /** The name loop of get_contestant_dict: the first word is the first
      name, the rest collect in the last name. */
  method SplitName(name: string) returns (firstName: string, lastName: string)
    ensures firstName == Split(name, ' ')[0]
    ensures lastName == TailWords(Split(name, ' ')[1..])
  {
    var words := Split(name, ' ');
    firstName, lastName := words[0], "";
    for i := 1 to |words|
      invariant lastName + TailWords(words[i..]) == TailWords(words[1..])
    {
      assert words[i..][1..] == words[i + 1..];
      lastName := lastName + words[i] + " ";
    }
    assert words[|words|..] == [];
  }

  /** The name columns: Fornavn and Etternavn when both can be read,
      otherwise the Navn column split on spaces, whose reading can raise.
      The last name is stripped either way. */
  function NamesOf(elements: seq<string>, headers: map<string, nat>): (r: Option<(string, string)>)
    ensures r.None? <==>
              (CellOf(elements, headers, "Fornavn").Raised? || CellOf(elements, headers, "Etternavn").Raised?) &&
              CellOf(elements, headers, "Navn").Raised?
    ensures CellOf(elements, headers, "Fornavn").Value? && CellOf(elements, headers, "Etternavn").Value? ==>
              r == Some((CellOf(elements, headers, "Fornavn").text, Strip(CellOf(elements, headers, "Etternavn").text)))
    ensures r.Some? ==> r.value.1 == Strip(r.value.1)
  {
    match (CellOf(elements, headers, "Fornavn"), CellOf(elements, headers, "Etternavn"))
    case (Value(first), Value(last)) => StripIdempotent(last); Some((first, Strip(last)))
    case _ =>
      match CellOf(elements, headers, "Navn")
      case Raised(_) => None
      case Value(name) =>
        var words := Split(name, ' ');
        StripIdempotent(TailWords(words[1..]));
        Some((words[0], Strip(TailWords(words[1..]))))
  }

  /** A name of several words: the first is the first name, and the name is
      the first name, a space and the rest; the last name is the rest,
      stripped. */
  lemma NavnSplit(elements: seq<string>, headers: map<string, nat>)
    requires CellOf(elements, headers, "Fornavn").Raised? || CellOf(elements, headers, "Etternavn").Raised?
    requires CellOf(elements, headers, "Navn").Value?
    ensures NamesOf(elements, headers).Some?
    ensures var name := CellOf(elements, headers, "Navn").text;
            var words := Split(name, ' ');
            var names := NamesOf(elements, headers).value;
            names.0 == words[0] && ' ' !in names.0 &&
            (|words| == 1 ==> names == (name, "")) &&
            (|words| > 1 ==> name == names.0 + " " + Join(words[1..], ' ') &&
                             names.1 == Strip(Join(words[1..], ' ') + " "))
  {
    var name := CellOf(elements, headers, "Navn").text;
    var words := Split(name, ' ');
    if |words| > 1 {
      TailWordsJoin(words[1..]);
    } else {
      assert Strip("") == "";
    }
  }

  datatype RowResult = Row(reg: Registration) | Failed(error: RowError)

  /** The optional columns' fallbacks. */
  function BibOf(elements: seq<string>, headers: map<string, nat>): Option<int> {
    match CellOf(elements, headers, "Startnr")
    case Value(t) => if IsNumeric(t) then Some(ParseNat(t)) else None
    case Raised(_) => None
  }

  function TextOr(c: Cell, fallback: string): string {
    if c.Value? then c.text else fallback
  }

  /** get_contestant_dict over a row's fields: the names, then Klasse, Klubb
      and Krets in that order, each of which must be readable; Startnr sets
      the bib only when it is all digits; Seedet gives the seeding points
      when int() takes it; Påmeldt gives the registration time, else the
      event's local time `now`. */
  function RowOf(elements: seq<string>, headers: map<string, nat>, eventId: string, now: string): (r: RowResult)
    ensures r.Row? <==> NamesOf(elements, headers).Some? && CellOf(elements, headers, "Klasse").Value? &&
                        CellOf(elements, headers, "Klubb").Value? && CellOf(elements, headers, "Krets").Value?
    ensures r.Failed? && NamesOf(elements, headers).None? ==> r.error == CellOf(elements, headers, "Navn").error
    ensures r.Row? ==>
              r.reg.ageclass == elements[headers["Klasse"]] && r.reg.club == elements[headers["Klubb"]] &&
              r.reg.region == elements[headers["Krets"]] && r.reg.eventId == eventId
    ensures r.Row? ==>
              (r.reg.bib.Some? <==> "Startnr" in headers && headers["Startnr"] < |elements| &&
                                    IsNumeric(elements[headers["Startnr"]]))
    ensures r.Row? && r.reg.seedingPoints.Some? ==>
              "Seedet" in headers && headers["Seedet"] < |elements| && Strip(elements[headers["Seedet"]]) != []
    ensures r.Row? && CellOf(elements, headers, "Påmeldt").Raised? ==> r.reg.registered == now
    ensures r.Row? ==> r.reg.lastName == Strip(r.reg.lastName)
  {
    match NamesOf(elements, headers)
    case None => Failed(CellOf(elements, headers, "Navn").error)
    case Some(names) =>
      match (CellOf(elements, headers, "Klasse"), CellOf(elements, headers, "Klubb"), CellOf(elements, headers, "Krets"))
      case (Raised(e), _, _) => Failed(e)
      case (Value(_), Raised(e), _) => Failed(e)
      case (Value(_), Value(_), Raised(e)) => Failed(e)
      case (Value(ageclass), Value(club), Value(region)) =>
        var seeded := CellOf(elements, headers, "Seedet");
        Row(Registration(BibOf(elements, headers), names.0, names.1, "", "", ageclass, region, club, eventId,
                         "", "", if seeded.Value? then ParseInt(seeded.text) else None, "",
                         TextOr(CellOf(elements, headers, "Påmeldt"), now)))
  }

  /** get_contestant_dict as the view runs it, with its name loop. */
  method ContestantRow(elements: seq<string>, headers: map<string, nat>, eventId: string, now: string)
    returns (r: RowResult)
    ensures r == RowOf(elements, headers, eventId, now)
  {
    var first := CellOf(elements, headers, "Fornavn");
    var last := CellOf(elements, headers, "Etternavn");
    var names: (string, string);
    if first.Value? && last.Value? {
      names := (first.text, Strip(last.text));
    } else {
      var navn := CellOf(elements, headers, "Navn");
      if navn.Raised? {
        return Failed(navn.error);
      }
      var firstName, lastName := SplitName(navn.text);
      names := (firstName, Strip(lastName));
    }
    var ageclass := CellOf(elements, headers, "Klasse");
    if ageclass.Raised? {
      return Failed(ageclass.error);
    }
    var club := CellOf(elements, headers, "Klubb");
    if club.Raised? {
      return Failed(club.error);
    }
    var region := CellOf(elements, headers, "Krets");
    if region.Raised? {
      return Failed(region.error);
    }
    var seeded := CellOf(elements, headers, "Seedet");
    var points := if seeded.Value? then ParseInt(seeded.text) else None;
    r := Row(Registration(BibOf(elements, headers), names.0, names.1, "", "", ageclass.text, region.text,
                          club.text, eventId, "", "", points, "", TextOr(CellOf(elements, headers, "Påmeldt"), now)));
  }

  // ---------------------------------------------------------------------
  // create_contestants_from_excel

  const NoAccessText := "Ingen tilgang, vennligst logg inn på nytt. "
  const TooManyText := "For mange feil i filen - avsluttet import. "

  /** What the import loop carries from line to line. */
  datatype Tally = Tally(headers: map<string, nat>, created: nat, errors: nat, errorText: string, stopped: bool)

  /** The loop's tally together with the contestant store it fills. */
  datatype ImportState = ImportState(tally: Tally, ids: seq<string>, records: map<string, Contestant>)

  /** The tally's bookkeeping: more than ten errors have stopped the
      import, and the error text is empty exactly while nothing failed. */
  predicate Sound(t: Tally) {
    t.errors <= 11 && (t.errors > 10 ==> t.stopped) &&
    (t.errorText == [] <==> t.errors == 0 && !t.stopped)
  }

  /** The check after each line: more than ten errors end the import. */
  function Checked(t: Tally): (r: Tally)
    requires t.errors <= 11 && (t.errorText == [] <==> t.errors == 0 && !t.stopped)
    ensures Sound(r)
    ensures r.headers == t.headers && r.created == t.created && r.errors == t.errors
    ensures r.stopped <==> t.stopped || t.errors > 10
  {
    if t.errors > 10 then t.(errorText := TooManyText + t.errorText, stopped := true) else t
  }

  /** An exception in a line: one whose text holds "401" ends the import
      with a request to log in again; any other is one more error, appended
      to the error text. */
  function Caught(t: Tally, text: string): (r: Tally)
    requires Sound(t) && !t.stopped
    ensures Sound(r)
    ensures r.headers == t.headers && r.created == t.created
    ensures r.errors == if Contains(text, "401") then t.errors else t.errors + 1
  {
    if Contains(text, "401") then t.(errorText := NoAccessText + text, stopped := true)
    else Checked(t.(errors := t.errors + 1, errorText := t.errorText + "<br>" + text))
  }

  /** The record the store keeps for a registration created under id: the
      registration as a contestant, with its club normalised. */
  function Made(reg: Registration, id: string): Contestant {
    ToContestant(reg, id).(club := NormaliseClub(reg.club))
  }

  /** A data row once mapped: a row that raised counts as an error; a
      good row is created in the store unless the service refuses the token
      or the record. `authorized` says whether the service accepts the
      user's token; `detail` is the text the service's refusal carries. */
  function RowStep(s: ImportState, row: RowResult, newId: string, authorized: bool,
                   detail: StoreError -> string): (r: ImportState)
    requires Sound(s.tally) && !s.tally.stopped
    ensures Sound(r.tally)
    ensures r.tally.created >= s.tally.created && r.tally.errors >= s.tally.errors
    ensures r.tally.created + r.tally.errors <= s.tally.created + s.tally.errors + 1
    ensures |r.ids| == |s.ids| + (r.tally.created - s.tally.created) && r.ids[..|s.ids|] == s.ids
    ensures r.tally.headers == s.tally.headers
    ensures r.tally.created == s.tally.created ==> r.records == s.records && r.ids == s.ids
    ensures r.tally.created > s.tally.created ==>
              row.Row? && newId !in s.records &&
              r.records == s.records[newId := Made(row.reg, newId)] && r.ids == s.ids + [newId]
  {
    match row
    case Failed(e) => s.(tally := Caught(s.tally, RowErrorText(e)))
    case Row(reg) =>
      if !authorized then s.(tally := Caught(s.tally, UnauthorizedReason("create_contestant")))
      else
        var c := ToContestant(reg, newId);
        match CreateVerdict(s.records, c)
        case Fail(e) => s.(tally := Caught(s.tally, detail(e)))
        case Pass =>
          ImportState(Checked(s.tally.(created := s.tally.created + 1)), s.ids + [newId],
                      s.records[newId := Made(reg, newId)])
  }

  /** A line of the uploaded file: the bytes decode("utf-8") turns into
      text, or bytes it refuses, with the text of the exception it raises. */
  datatype FileLine = Decoded(text: string) | Undecodable(reason: string)

  /** Line k of the file: a line that does not decode is caught like any
      other exception in the loop; otherwise the first gives the headers and
      every later one is mapped to a contestant, which goes to the store. */
  function LineStep(s: ImportState, k: nat, line: FileLine, newId: string, eventId: string, now: string,
                    authorized: bool, detail: StoreError -> string): (r: ImportState)
    requires Sound(s.tally) && !s.tally.stopped
    ensures Sound(r.tally)
    ensures r.tally.created >= s.tally.created && r.tally.errors >= s.tally.errors
    ensures r.tally.created + r.tally.errors <=
            s.tally.created + s.tally.errors + if k == 0 && line.Decoded? then 0 else 1
    ensures |r.ids| == |s.ids| + (r.tally.created - s.tally.created) && r.ids[..|s.ids|] == s.ids
    ensures line.Undecodable? ==>
              r.ids == s.ids && r.records == s.records && r.tally.headers == s.tally.headers &&
              r.tally.created == s.tally.created &&
              r.tally.errors == (if Contains(line.reason, "401") then s.tally.errors else s.tally.errors + 1)
    ensures k > 0 ==> r.tally.headers == s.tally.headers
  {
    match line
    case Undecodable(reason) => s.(tally := Caught(s.tally, reason))
    case Decoded(text) =>
      var fields := Fields(text);
      if k == 0 then s.(tally := Checked(s.tally.(headers := HeaderMap(fields, |fields|))))
      else RowStep(s, RowOf(fields, s.tally.headers, eventId, now), newId, authorized, detail)
  }

  /** What a line does to the records: nothing unless it creates a
      contestant, and then it adds the one record its data row made, under
      the line's new id, which the store did not hold. */
  lemma LineRecords(s: ImportState, k: nat, line: FileLine, newId: string, eventId: string, now: string,
                    authorized: bool, detail: StoreError -> string)
    requires Sound(s.tally) && !s.tally.stopped
    ensures var r := LineStep(s, k, line, newId, eventId, now, authorized, detail);
            r.tally.created == s.tally.created ==> r.records == s.records && r.ids == s.ids
    ensures var r := LineStep(s, k, line, newId, eventId, now, authorized, detail);
            r.tally.created > s.tally.created ==>
              k > 0 && line.Decoded? && newId !in s.records &&
              RowOf(Fields(line.text), s.tally.headers, eventId, now).Row? &&
              r.records == s.records[newId := Made(RowOf(Fields(line.text), s.tally.headers, eventId, now).reg, newId)] &&
              r.ids == s.ids + [newId]
  {
  }

  /** Without headers, which is where an undecodable first line leaves the
      import, every data row raises on its Navn column and counts as an
      error. */
  lemma HeaderlessRowFails(elements: seq<string>, eventId: string, now: string)
    ensures RowOf(elements, map[], eventId, now) == Failed(MissingColumn("Navn"))
  {
    assert CellOf(elements, map[], "Fornavn").Raised? && CellOf(elements, map[], "Navn").Raised?;
  }

  /** Line j, a data line, is the one that created the record under id:
      the service gave it id, it decoded and mapped to a row under the
      headers, and the record is that row's contestant. */
  predicate MadeByLine(records: map<string, Contestant>, id: string, lines: seq<FileLine>, newIds: seq<string>,
                       j: nat, headers: map<string, nat>, eventId: string, now: string)
  {
    0 < j < |lines| && j < |newIds| && newIds[j] == id && lines[j].Decoded? &&
    RowOf(Fields(lines[j].text), headers, eventId, now).Row? &&
    id in records && records[id] == Made(RowOf(Fields(lines[j].text), headers, eventId, now).reg, id)
  }

  /** The import of lines[k..] from state s; the line the service would
      give id newIds[k] is line k. Once stopped, later lines are not read. */
  function ImportFrom(s: ImportState, lines: seq<FileLine>, newIds: seq<string>, k: nat, eventId: string,
                      now: string, authorized: bool, detail: StoreError -> string): (r: ImportState)
    requires k <= |lines| == |newIds| && Sound(s.tally)
    ensures Sound(r.tally)
    ensures r.tally.created >= s.tally.created && r.tally.errors >= s.tally.errors
    ensures r.tally.created + r.tally.errors <= s.tally.created + s.tally.errors + (|lines| - k)
    ensures |r.ids| == |s.ids| + (r.tally.created - s.tally.created) && r.ids[..|s.ids|] == s.ids
    decreases |lines| - k
  {
    if k == |lines| || s.tally.stopped then s
    else
      var next := LineStep(s, k, lines[k], newIds[k], eventId, now, authorized, detail);
      var r := ImportFrom(next, lines, newIds, k + 1, eventId, now, authorized, detail);
      PrefixOfPrefix(s.ids, next.ids, r.ids);
      r
  }

  /** A prefix of a prefix is a prefix. */
  lemma PrefixOfPrefix(a: seq<string>, b: seq<string>, c: seq<string>)
    requires |a| <= |b| <= |c| && b[..|a|] == a && c[..|b|] == b
    ensures c[..|a|] == a
  {
    assert c[..|a|] == c[..|b|][..|a|];
  }

  /** Reading line k of an import not yet stopped: the state it leaves,
      from which the rest of the import goes on. The line keeps every record
      the store already held, sets the headers only when it is line 0, and
      adds at most one record, under the line's new id, which its row
      made. */
  lemma NextLine(s: ImportState, lines: seq<FileLine>, newIds: seq<string>, k: nat, eventId: string, now: string,
                 authorized: bool, detail: StoreError -> string)
    returns (next: ImportState)
    requires k < |lines| == |newIds| && Sound(s.tally) && !s.tally.stopped
    ensures Sound(next.tally)
    ensures ImportFrom(s, lines, newIds, k, eventId, now, authorized, detail) ==
            ImportFrom(next, lines, newIds, k + 1, eventId, now, authorized, detail)
    ensures k > 0 ==> next.tally.headers == s.tally.headers
    ensures forall id | id in s.records :: id in next.records && next.records[id] == s.records[id]
    ensures forall id | id in next.records && id !in s.records ::
              MadeByLine(next.records, id, lines, newIds, k, s.tally.headers, eventId, now)
  {
    next := LineStep(s, k, lines[k], newIds[k], eventId, now, authorized, detail);
    ImportFromStep(s, lines, newIds, k, eventId, now, authorized, detail);
    LineRecords(s, k, lines[k], newIds[k], eventId, now, authorized, detail);
    if next.tally.created > s.tally.created {
      assert newIds[k] !in s.records;
    }
  }

  /** Only line 0 sets the headers: an import from a later line ends with
      the headers it started with. */
  lemma {:induction false} ImportFromHeaders(s: ImportState, lines: seq<FileLine>, newIds: seq<string>, k: nat,
                                             eventId: string, now: string, authorized: bool,
                                             detail: StoreError -> string)
    requires 0 < k <= |lines| == |newIds| && Sound(s.tally)
    ensures ImportFrom(s, lines, newIds, k, eventId, now, authorized, detail).tally.headers == s.tally.headers
    decreases |lines| - k
  {
    if k < |lines| && !s.tally.stopped {
      var next := NextLine(s, lines, newIds, k, eventId, now, authorized, detail);
      ImportFromHeaders(next, lines, newIds, k + 1, eventId, now, authorized, detail);
    }
  }

  /** An import at the end of the file, or one already stopped, reads no
      more lines. */
  lemma ImportFromDone(s: ImportState, lines: seq<FileLine>, newIds: seq<string>, k: nat, eventId: string,
                       now: string, authorized: bool, detail: StoreError -> string)
    requires k <= |lines| == |newIds| && Sound(s.tally) && (k == |lines| || s.tally.stopped)
    ensures ImportFrom(s, lines, newIds, k, eventId, now, authorized, detail) == s
  {
  }

  /** The records the import of lines[k..] leaves: every record the store
      already held is kept as it was, and every record it adds was created
      by a data line from k on, under the headers the import ends with. */
  lemma {:induction false} ImportFromRecords(s: ImportState, lines: seq<FileLine>, newIds: seq<string>, k: nat,
                                             eventId: string, now: string, authorized: bool,
                                             detail: StoreError -> string)
    requires k <= |lines| == |newIds| && Sound(s.tally)
    ensures var r := ImportFrom(s, lines, newIds, k, eventId, now, authorized, detail);
            forall id | id in s.records :: id in r.records && r.records[id] == s.records[id]
    ensures var r := ImportFrom(s, lines, newIds, k, eventId, now, authorized, detail);
            forall id | id in r.records && id !in s.records ::
              exists j | k <= j < |lines| :: MadeByLine(r.records, id, lines, newIds, j, r.tally.headers, eventId, now)
    decreases |lines| - k
  {
    if k < |lines| && !s.tally.stopped {
      var next := NextLine(s, lines, newIds, k, eventId, now, authorized, detail);
      var r := ImportFrom(next, lines, newIds, k + 1, eventId, now, authorized, detail);
      ImportFromRecords(next, lines, newIds, k + 1, eventId, now, authorized, detail);
      ImportFromHeaders(next, lines, newIds, k + 1, eventId, now, authorized, detail);
      forall id | id in r.records && id !in s.records
        ensures exists j | k <= j < |lines| :: MadeByLine(r.records, id, lines, newIds, j, r.tally.headers, eventId, now)
      {
        if id in next.records {
          assert MadeByLine(r.records, id, lines, newIds, k, r.tally.headers, eventId, now);
        }
      }
    } else {
      ImportFromDone(s, lines, newIds, k, eventId, now, authorized, detail);
    }
  }

  /** One more line read. */
  lemma ImportFromStep(s: ImportState, lines: seq<FileLine>, newIds: seq<string>, k: nat, eventId: string,
                       now: string, authorized: bool, detail: StoreError -> string)
    requires k < |lines| == |newIds| && Sound(s.tally) && !s.tally.stopped
    ensures ImportFrom(s, lines, newIds, k, eventId, now, authorized, detail) ==
            ImportFrom(LineStep(s, k, lines[k], newIds[k], eventId, now, authorized, detail), lines, newIds, k + 1,
                       eventId, now, authorized, detail)
  {
  }

  /** The headers of a file: those of its first line when that line
      decodes, and none otherwise. */
  function FileHeaders(lines: seq<FileLine>): map<string, nat> {
    if |lines| > 0 && lines[0].Decoded? then HeaderMap(Fields(lines[0].text), |Fields(lines[0].text)|) else map[]
  }

  /** The import from an empty tally ends with the file's headers. */
  lemma ImportFromStartHeaders(s: ImportState, lines: seq<FileLine>, newIds: seq<string>, eventId: string,
                               now: string, authorized: bool, detail: StoreError -> string)
    requires |lines| == |newIds| && s.tally == Tally(map[], 0, 0, "", false)
    ensures ImportFrom(s, lines, newIds, 0, eventId, now, authorized, detail).tally.headers == FileHeaders(lines)
  {
    if |lines| > 0 {
      var next := LineStep(s, 0, lines[0], newIds[0], eventId, now, authorized, detail);
      ImportFromStep(s, lines, newIds, 0, eventId, now, authorized, detail);
      if 1 <= |lines| {
        ImportFromHeaders(next, lines, newIds, 1, eventId, now, authorized, detail);
      }
    }
  }

  /** The whole import, from a store holding ids0 and records0: the records
      it held are kept, and every record it adds is the contestant of a data
      line's row under the file's headers, stored under that line's id. */
  function Import(lines: seq<FileLine>, newIds: seq<string>, ids0: seq<string>, records0: map<string, Contestant>,
                  eventId: string, now: string, authorized: bool, detail: StoreError -> string): (r: ImportState)
    requires |lines| == |newIds|
    ensures Sound(r.tally)
    ensures r.tally.created + r.tally.errors <= |lines|
    ensures |r.ids| == |ids0| + r.tally.created && r.ids[..|ids0|] == ids0
    ensures r.tally.headers == FileHeaders(lines)
    ensures forall id | id in records0 :: id in r.records && r.records[id] == records0[id]
    ensures forall id | id in r.records && id !in records0 ::
              exists j | 0 <= j < |lines| :: MadeByLine(r.records, id, lines, newIds, j, FileHeaders(lines), eventId, now)
  {
    var s := ImportState(Tally(map[], 0, 0, "", false), ids0, records0);
    ImportFromRecords(s, lines, newIds, 0, eventId, now, authorized, detail);
    ImportFromStartHeaders(s, lines, newIds, eventId, now, authorized, detail);
    ImportFrom(s, lines, newIds, 0, eventId, now, authorized, detail)
  }

  /** The text the import hands back. */
  function Report(t: Tally): (text: string)
    ensures StartsWith(text, "Fil import: ")
  {
    "Fil import: " + NatToString(t.created) + " opprettet og " + NatToString(t.errors) + " feil." +
    (if t.errorText != [] then "<br>Error: " + t.errorText else "")
  }

  /** The store side of one data row. */
  method StoreRow(store: ContestantStore, t: Tally, row: RowResult, newId: string, authorized: bool,
                  detail: StoreError -> string) returns (next: Tally)
    requires store.Valid() && Sound(t) && !t.stopped
    modifies store
    ensures store.Valid()
    ensures var s := RowStep(ImportState(t, old(store.ids), old(store.records)), row, newId, authorized, detail);
            next == s.tally && store.ids == s.ids && store.records == s.records
  {
    if row.Failed? {
      return Caught(t, RowErrorText(row.error));
    }
    if !authorized {
      return Caught(t, UnauthorizedReason("create_contestant"));
    }
    var r := store.Create(ToContestant(row.reg, newId));
    if r.Fail? {
      return Caught(t, detail(r.error));
    }
    next := Checked(t.(created := t.created + 1));
  }

  /** One line of the import loop: reading line k carries the import from
      line k on to line k + 1. */
  method ImportLine(store: ContestantStore, t: Tally, lines: seq<FileLine>, newIds: seq<string>, k: nat,
                    eventId: string, now: string, authorized: bool, detail: StoreError -> string)
    returns (next: Tally)
    requires k < |lines| == |newIds| && store.Valid() && Sound(t) && !t.stopped
    modifies store
    ensures store.Valid() && Sound(next)
    ensures ImportFrom(ImportState(next, store.ids, store.records), lines, newIds, k + 1, eventId, now, authorized,
                       detail) ==
            ImportFrom(ImportState(t, old(store.ids), old(store.records)), lines, newIds, k, eventId, now,
                       authorized, detail)
  {
    ImportFromStep(ImportState(t, store.ids, store.records), lines, newIds, k, eventId, now, authorized, detail);
    if lines[k].Undecodable? {
      return Caught(t, lines[k].reason);
    }
    var fields := Fields(lines[k].text);
    if k == 0 {
      var headers := ReadHeaders(fields);
      return Checked(t.(headers := headers));
    }
    var row := ContestantRow(fields, t.headers, eventId, now);
    next := StoreRow(store, t, row, newIds[k], authorized, detail);
  }

  /** create_contestants_from_excel over the file's lines: the lines are
      read in order until one stops the import, and the report counts the
      contestants created and the errors. */
  method ImportContestants(store: ContestantStore, eventId: string, lines: seq<FileLine>, newIds: seq<string>,
                           now: string, authorized: bool, detail: StoreError -> string)
    returns (informasjon: string)
    requires store.Valid() && |newIds| == |lines|
    modifies store
    ensures store.Valid()
    ensures var s := Import(lines, newIds, old(store.ids), old(store.records), eventId, now, authorized, detail);
            store.ids == s.ids && store.records == s.records && informasjon == Report(s.tally)
  {
    ghost var final := Import(lines, newIds, store.ids, store.records, eventId, now, authorized, detail);
    var t := Tally(map[], 0, 0, "", false);
    var i := 0;
    while i < |lines| && !t.stopped
      invariant i <= |lines| && store.Valid() && Sound(t)
      invariant ImportFrom(ImportState(t, store.ids, store.records), lines, newIds, i, eventId, now, authorized,
                           detail) == final
    {
      t := ImportLine(store, t, lines, newIds, i, eventId, now, authorized, detail);
      i := i + 1;
    }
    informasjon := Report(t);
  }
}

=== FILE: contestants_adapter.dfy ===
/** The contestant records of one event as the event service keeps them, with
    the rules the contestants adapter enforces in front of it: a contestant
    whose bib is in a start list cannot be changed or deleted, club names are
    cleaned before a create, and deleting a contestant lowers its raceclass's
    head count. */
module ContestantsAdapter {
  import opened Common
  import Classes

  datatype Contestant = Contestant(
    id: string,
    bib: Option<int>,
    seedingPoints: Option<int>,
    firstName: string,
    lastName: string,
    club: string,
    ageclass: string)

  datatype StoreError =
    | NotFound(id: string)
    | InStartList(bib: int)
    | BibTaken(bib: int)
    | IdTaken(id: string)

  /** No bib is held by two contestants. */
  ghost predicate UniqueBibs(records: map<string, Contestant>) {
    forall a, b | a in records && b in records && a != b && records[a].bib.Some? ::
      records[a].bib != records[b].bib
  }

  /** The store's order lists each record once, records are filed under
      their own id, and bibs are unique. */
  ghost predicate Wellformed(ids: seq<string>, records: map<string, Contestant>) {
    Distinct(ids) &&
    (forall i | 0 <= i < |ids| :: ids[i] in records) &&
    (forall id | id in records :: id in ids && records[id].id == id) &&
    UniqueBibs(records)
  }

  /** Someone other than `id` holds this bib. */
  predicate HeldByOther(records: map<string, Contestant>, id: string, bib: int) {
    exists other | other in records :: other != id && records[other].bib == Some(bib)
  }

  /** The first contestant, in store order, holding this bib; a missing bib
      (None) is held by nobody. */
  function Holder(ids: seq<string>, records: map<string, Contestant>, bib: Option<int>): (r: Option<string>)
    requires forall i | 0 <= i < |ids| :: ids[i] in records
    ensures r.Some? ==> bib.Some? && r.value in ids && records[r.value].bib == bib
    ensures r.None? ==> bib.None? || forall i | 0 <= i < |ids| :: records[ids[i]].bib != bib
  {
    if bib.None? || ids == [] then None
    else if records[ids[0]].bib == bib then Some(ids[0])
    else Holder(ids[1..], records, bib)
  }

  /** With unique bibs, the holder found is the one contestant holding the bib. */
  lemma {:induction false} HolderIs(ids: seq<string>, records: map<string, Contestant>, bib: Option<int>, x: string)
    requires forall i | 0 <= i < |ids| :: ids[i] in records
    requires UniqueBibs(records)
    requires bib.Some? && x in ids && records[x].bib == bib
    ensures Holder(ids, records, bib) == Some(x)
  {
    if ids[0] != x {
      assert records[ids[0]].bib != bib;
      HolderIs(ids[1..], records, bib, x);
    }
  }

  /** What update_contestant decides for the record `c` given the bibs that
      have start entries: an unknown id and a stored bib in a start list are
      refused, and the store refuses a bib another contestant holds. */
  function UpdateVerdict(records: map<string, Contestant>, c: Contestant, listed: set<int>): (v: Outcome<StoreError>)
    ensures v.Pass? <==>
              c.id in records && (records[c.id].bib.None? || records[c.id].bib.value !in listed) &&
              (c.bib.None? || !HeldByOther(records, c.id, c.bib.value))
    ensures v.Fail? ==>
              v.error == (if c.id !in records then NotFound(c.id)
                          else if records[c.id].bib.Some? && records[c.id].bib.value in listed
                          then InStartList(records[c.id].bib.value)
                          else BibTaken(c.bib.value))
  {
    if c.id !in records then Fail(NotFound(c.id))
    else if records[c.id].bib.Some? && records[c.id].bib.value in listed then Fail(InStartList(records[c.id].bib.value))
    else if c.bib.Some? && HeldByOther(records, c.id, c.bib.value) then Fail(BibTaken(c.bib.value))
    else Pass
  }

  /** A write that passes the verdict keeps bibs unique. */
  lemma UpdateKeepsUnique(records: map<string, Contestant>, c: Contestant, listed: set<int>)
    requires UniqueBibs(records)
    requires UpdateVerdict(records, c, listed).Pass?
    ensures UniqueBibs(records[c.id := c])
  {
    var m := records[c.id := c];
    forall a, b | a in m && b in m && a != b && m[a].bib.Some? ensures m[a].bib != m[b].bib {
      if a == c.id {
        assert !HeldByOther(records, c.id, c.bib.value);
        assert records[b].bib != Some(c.bib.value);
      } else if b == c.id && c.bib.Some? {
        assert records[a].bib != Some(c.bib.value);
      }
    }
  }

  /** A write that passes the verdict keeps the store well formed. */
  lemma UpdateKeepsWellformed(ids: seq<string>, records: map<string, Contestant>, c: Contestant, listed: set<int>)
    requires Wellformed(ids, records)
    requires UpdateVerdict(records, c, listed).Pass?
    ensures Wellformed(ids, records[c.id := c])
  {
    UpdateKeepsUnique(records, c, listed);
  }

  /** The club name create_contestant sends: surrounding whitespace stripped,
      then every '-' removed. */
  function NormaliseClub(club: string): (r: string)
    ensures '-' !in r
    ensures '-' !in Strip(club) ==> r == Strip(club)
  {
    var t := Strip(club);
    assert '-' !in Replace(t, "-", "") by { ReplaceDeletesChar(t, '-', ""); }
    assert '-' !in t ==> Replace(t, "-", "") == t by {
      if '-' !in t { ReplaceIdentity(t, "-", ""); }
    }
    Replace(t, "-", "")
  }

  /** The stripping happens before the dashes go, so a dash that shielded a
      blank leaves that blank at the edge of the name: "- IL" becomes " IL". */
  lemma NormaliseClubKeepsInnerBlank(s: string)
    requires s != [] && !IsWhitespace(s[|s| - 1]) && '-' !in s
    ensures NormaliseClub("-" + s) == s
  {
    var t := "-" + s;
    assert LeadingWhitespace(t) == 0;
    assert TrailingWhitespace(t[0..]) == 0 by { assert t[0..][|t| - 1] == s[|s| - 1]; }
    assert Strip(t) == t;
    ReplaceIdentity(s, "-", "");
    assert Replace(t, "-", "") == "" + Replace(s, "-", "") by { assert t[1..] == s; }
  }

  function AssignBibsBase(service: string, eventId: string): string {
    service + "/events/" + eventId + "/contestants/assign-bibs"
  }

  /** The assign-bibs endpoint: the start bib rides along as a query parameter
      only when it is given and non-zero, and reads back as that number. */
  function AssignBibsUrl(service: string, eventId: string, startBib: Option<int>): (url: string)
    ensures var base := AssignBibsBase(service, eventId);
            if startBib.Some? && startBib.value != 0 then
              |url| > |base| + 11 && url[..|base| + 11] == base + "?start-bib=" &&
              ParseInt(url[|base| + 11..]) == startBib
            else url == base
  {
    var base := AssignBibsBase(service, eventId);
    if startBib.Some? && startBib.value != 0 then
      var url := base + "?start-bib=" + IntToString(startBib.value);
      assert url[|base| + 11..] == IntToString(startBib.value);
      ParseIntToString(startBib.value);
      url
    else base
  }

  /** The reason of the bad request a 401 answer becomes. */
  function UnauthorizedReason(servicename: string): (reason: string)
    ensures |reason| >= 3 && reason[..3] == "401"
    ensures |reason| >= |servicename| && reason[|reason| - |servicename|..] == servicename
  {
    "401 Unathorized - " + servicename
  }

  class ContestantStore {
    /** Contestant ids in the store's own order. */
    var ids: seq<string>
    var records: map<string, Contestant>

    ghost predicate Valid()
      reads this
    {
      Wellformed(ids, records)
    }

    constructor (order: seq<string>, contents: map<string, Contestant>)
      requires Wellformed(order, contents)
      ensures Valid() && ids == order && records == contents
    {
      ids := order;
      records := contents;
    }

    /** get_contestant. */
    function Get(id: string): (r: Option<Contestant>)
      reads this
      requires Valid()
      ensures r.Some? <==> id in ids
      ensures r.Some? ==> r.value.id == id && r.value == records[id]
    {
      if id in records then Some(records[id]) else None
    }

    /** get_contestant_by_bib: the matching record, or nothing ({} in the
        adapter). Because bibs are unique there is at most one match. */
    function FindByBib(bib: Option<int>): (r: Option<Contestant>)
      reads this
      requires Valid()
      ensures r.Some? <==> bib.Some? && exists id | id in records :: records[id].bib == bib
      ensures r.Some? ==> r.value.id in records && records[r.value.id] == r.value && r.value.bib == bib
      ensures r.Some? ==> forall id | id in records && records[id].bib == bib :: id == r.value.id
    {
      match Holder(ids, records, bib)
      case None => None
      case Some(id) => Some(records[id])
    }

    /** The contestants whose age class is one of the given ones, in store
        order (get_contestants_by_raceclass). */
    function Members(ageclasses: seq<string>): (r: seq<Contestant>)
      reads this
      requires Valid()
      ensures forall k | 0 <= k < |r| :: r[k].ageclass in ageclasses && r[k].id in records && records[r[k].id] == r[k]
      ensures forall k, l | 0 <= k < l < |r| :: r[k].id != r[l].id
    {
      MembersOf(ids, records, ageclasses)
    }

    /** update_contestant: the record with c's id is replaced by c, unless the
        stored record's bib has a start entry or another contestant holds c's
        bib. */
    method Update(c: Contestant, listed: set<int>) returns (r: Outcome<StoreError>)
      requires Valid()
      modifies this
      ensures Valid() && ids == old(ids)
      ensures r == UpdateVerdict(old(records), c, listed)
      ensures r.Pass? ==> records == old(records)[c.id := c]
      ensures r.Fail? ==> records == old(records)
    {
      r := UpdateVerdict(records, c, listed);
      if r.Pass? {
        UpdateKeepsUnique(records, c, listed);
        records := records[c.id := c];
      }
    }

    /** create_contestant: the record is added with its club normalised; the
        store refuses a taken id or bib. */
    method Create(c: Contestant) returns (r: Outcome<StoreError>)
      requires Valid()
      modifies this
      ensures Valid()
      ensures r == CreateVerdict(old(records), c)
      ensures r.Pass? ==> ids == old(ids) + [c.id] && records == old(records)[c.id := c.(club := NormaliseClub(c.club))]
      ensures r.Fail? ==> ids == old(ids) && records == old(records)
    {
      r := CreateVerdict(records, c);
      if r.Fail? {
        return;
      }
      var sent := c.(club := NormaliseClub(c.club));
      CreateKeepsUnique(records, sent);
      ids := ids + [c.id];
      records := records[c.id := sent];
      r := Pass;
    }

    /** delete_contestant: refused when the stored record's bib has a start
        entry; otherwise the record goes, and the first raceclass holding the
        given age class loses one from its count (a missing class is only
        logged by the adapter). */
    method Delete(c: Contestant, listed: set<int>, classes: Classes.RaceclassStore) returns (r: Outcome<StoreError>)
      requires Valid() && classes.Valid()
      modifies this, classes
      ensures Valid() && classes.Valid()
      ensures r.Pass? <==> c.id in old(records) &&
                           (old(records)[c.id].bib.None? || old(records)[c.id].bib.value !in listed)
      ensures r.Fail? ==> ids == old(ids) && records == old(records) && classes.classes == old(classes.classes)
      ensures r.Pass? ==> records == old(records) - {c.id} && ids == WithoutIdSeq(old(ids), c.id)
      ensures r.Pass? ==> classes.classes == OneLessIn(old(classes.classes), c.ageclass)
    {
      if c.id !in records {
        return Fail(NotFound(c.id));
      }
      var current := records[c.id];
      if current.bib.Some? && current.bib.value in listed {
        return Fail(InStartList(current.bib.value));
      }
      RemoveKeepsWellformed(ids, records, c.id);
      ids := WithoutIdSeq(ids, c.id);
      records := records - {c.id};
      DecrementClassOf(classes, c.ageclass);
      r := Pass;
    }
  }

  /** Removing a contestant from the order and the records keeps the store
      well formed. */
  lemma RemoveKeepsWellformed(ids: seq<string>, records: map<string, Contestant>, id: string)
    requires Wellformed(ids, records)
    ensures Wellformed(WithoutIdSeq(ids, id), records - {id})
  {
    RemoveKeepsDistinct(ids, id);
    var rest := WithoutIdSeq(ids, id);
    forall i | 0 <= i < |rest| ensures rest[i] in records - {id} {
      assert rest[i] in rest;
    }
  }

  /** The raceclass records after one contestant of the age class left: the
      first class holding the age class counts one contestant less, and the
      other records stay. */
  function OneLessIn(cs: seq<Classes.Raceclass>, ageclass: string): (r: seq<Classes.Raceclass>)
    ensures |r| == |cs|
    ensures forall i | 0 <= i < |cs| :: r[i].id == cs[i].id
    ensures forall i | 0 <= i < |cs| ::
              r[i] == if Classes.FirstWithAgeclass(cs, ageclass) == Some(i)
                      then cs[i].(noOfContestants := cs[i].noOfContestants - 1) else cs[i]
  {
    match Classes.FirstWithAgeclass(cs, ageclass)
    case None => cs
    case Some(k) => cs[k := cs[k].(noOfContestants := cs[k].noOfContestants - 1)]
  }

  /** The raceclass-count step of delete_contestant: the first class holding
      the age class loses one contestant; without such a class nothing changes. */
  method DecrementClassOf(classes: Classes.RaceclassStore, ageclass: string)
    requires classes.Valid()
    modifies classes
    ensures classes.Valid()
    ensures classes.classes == OneLessIn(old(classes.classes), ageclass)
  {
    var k := Classes.FirstWithAgeclass(classes.classes, ageclass);
    if k.Some? {
      var klasse := classes.classes[k.value];
      Classes.WithRecordAt(classes.classes, k.value, klasse.(noOfContestants := klasse.noOfContestants - 1));
      var _ := classes.Update(klasse.(noOfContestants := klasse.noOfContestants - 1));
    }
  }

  function MembersOf(ids: seq<string>, records: map<string, Contestant>, ageclasses: seq<string>): (r: seq<Contestant>)
    requires forall i | 0 <= i < |ids| :: ids[i] in records && records[ids[i]].id == ids[i]
    requires Distinct(ids)
    ensures forall k | 0 <= k < |r| :: r[k].ageclass in ageclasses && r[k].id in ids && records[r[k].id] == r[k]
    ensures forall k, l | 0 <= k < l < |r| :: r[k].id != r[l].id
  {
    if ids == [] then []
    else
      var rest := MembersOf(ids[1..], records, ageclasses);
      if records[ids[0]].ageclass in ageclasses then
        assert forall k | 0 <= k < |rest| :: rest[k].id in ids[1..];
        [records[ids[0]]] + rest
      else rest
  }

  function WithoutIdSeq(ids: seq<string>, id: string): (r: seq<string>)
    ensures forall x :: x in r <==> x in ids && x != id
  {
    if ids == [] then []
    else if ids[0] == id then WithoutIdSeq(ids[1..], id)
    else [ids[0]] + WithoutIdSeq(ids[1..], id)
  }

  lemma {:induction false} RemoveKeepsDistinct(ids: seq<string>, id: string)
    requires Distinct(ids)
    ensures Distinct(WithoutIdSeq(ids, id))
  {
    if ids != [] {
      RemoveKeepsDistinct(ids[1..], id);
      var rest := WithoutIdSeq(ids[1..], id);
      if ids[0] != id {
        assert ids[0] !in ids[1..] by {
          forall k | 0 <= k < |ids[1..]| ensures ids[1..][k] != ids[0] {
            assert ids[1..][k] == ids[k + 1];
          }
        }
        assert ids[0] !in rest;
        var r := [ids[0]] + rest;
        forall i, j | 0 <= i < j < |r| ensures r[i] != r[j] {
          if i == 0 {
            assert r[j] == rest[j - 1];
            assert rest[j - 1] in rest;
          } else {
            assert r[i] == rest[i - 1] && r[j] == rest[j - 1];
          }
        }
      }
    }
  }

  /** The event service's answer to a create: a taken id or a bib someone
      else holds is refused. */
  function CreateVerdict(records: map<string, Contestant>, c: Contestant): (v: Outcome<StoreError>)
    ensures v.Pass? <==> c.id !in records && (c.bib.None? || !HeldByOther(records, c.id, c.bib.value))
    ensures v.Fail? ==> v.error == IdTaken(c.id) || (c.bib.Some? && v.error == BibTaken(c.bib.value))
  {
    if c.id in records then Fail(IdTaken(c.id))
    else if c.bib.Some? && HeldByOther(records, c.id, c.bib.value) then Fail(BibTaken(c.bib.value))
    else Pass
  }

  lemma CreateKeepsUnique(records: map<string, Contestant>, c: Contestant)
    requires UniqueBibs(records)
    requires c.id !in records
    requires c.bib.None? || !HeldByOther(records, c.id, c.bib.value)
    ensures UniqueBibs(records[c.id := c])
  {
    var m := records[c.id := c];
    forall a, b | a in m && b in m && a != b && m[a].bib.Some? ensures m[a].bib != m[b].bib {
      if a == c.id {
        assert records[b].bib != Some(c.bib.value);
      } else if b == c.id && c.bib.Some? {
        assert records[a].bib != Some(c.bib.value);
      }
    }
  }
}

=== FILE: contestants_view.dfy ===
/** The contestants page's computations over races and contestants: the next
    free bib, where a late entry is placed in the start lists, and how many
    places each raceclass still has open for late entries. */
module ContestantsView {
  import opened Common
  import opened Races
  import opened ContestantsAdapter
  import Classes
  import ViewUtils
  import StartAdapter

  // ---------------------------------------------------------------------
  // get_available_bib

  /** Python truthiness of a bib: present and not 0. */
  predicate Truthy(b: Option<int>) {
    b.Some? && b.value != 0
  }

  /** The running maximum the loop keeps: 0, raised by every truthy bib. */
  function HighestBib(cs: seq<Contestant>): (h: int)
    ensures h >= 0
    ensures forall i | 0 <= i < |cs| && Truthy(cs[i].bib) :: cs[i].bib.value <= h
  {
    if cs == [] then 0
    else
      var n := |cs| - 1;
      var p := HighestBib(cs[..n]);
      assert forall i | 0 <= i < n :: cs[..n][i] == cs[i];
      var b := cs[n].bib;
      if Truthy(b) && b.value > p then b.value else p
  }

  /** The highest bib is 0 or a bib somebody holds. */
  lemma {:induction false} HighestBibHeld(cs: seq<Contestant>)
    ensures HighestBib(cs) != 0 ==> exists i | 0 <= i < |cs| :: cs[i].bib == Some(HighestBib(cs))
  {
    if cs != [] {
      var n := |cs| - 1;
      HighestBibHeld(cs[..n]);
      if HighestBib(cs) != 0 && HighestBib(cs) == HighestBib(cs[..n]) {
        var i :| 0 <= i < n && cs[..n][i].bib == Some(HighestBib(cs));
        assert cs[i] == cs[..n][i];
      }
    }
  }

  /** get_available_bib over the contestants in store order: one above the
      highest bib, so a bib nobody holds. */
  method AvailableBib(contestants: seq<Contestant>) returns (bib: int)
    ensures bib == HighestBib(contestants) + 1
    ensures bib >= 1
    ensures forall i | 0 <= i < |contestants| :: contestants[i].bib != Some(bib)
  {
    var highest := 0;
    for i := 0 to |contestants|
      invariant highest == HighestBib(contestants[..i])
    {
      assert contestants[..i + 1][..i] == contestants[..i];
      var b := contestants[i].bib;
      if Truthy(b) && b.value > highest {
        highest := b.value;
      }
    }
    assert contestants[..|contestants|] == contestants;
    bib := highest + 1;
  }

  /** The bib handed out is the least one above every bib in use: one below
      it is 0 or held. */
  lemma AvailableBibLeast(cs: seq<Contestant>)
    ensures HighestBib(cs) == 0 || exists i | 0 <= i < |cs| :: cs[i].bib == Some(HighestBib(cs))
    ensures forall i | 0 <= i < |cs| && cs[i].bib.Some? :: cs[i].bib.value < HighestBib(cs) + 1
  {
    HighestBibHeld(cs);
  }

  // ---------------------------------------------------------------------
  // add_to_startlist: choosing the races

  /** The start count a choice stands for: the chosen race's, or 999 before
      any race is chosen. */
  function Level(races: seq<Race>, c: Option<nat>): int
    requires c.Some? ==> c.value < |races|
  {
    if c.None? then 999 else races[c.value].noOfContestants
  }

  predicate InFirstRound(r: Race) {
    r.round == "Q" || r.round == "R1"
  }

  /** The race chosen for the first placement after scanning races[..k]: a
      quarterfinal or round-1 race replaces the choice when it has strictly
      fewer contestants. */
  function FirstChoice(races: seq<Race>, k: nat): (c: Option<nat>)
    requires k <= |races|
    ensures c.Some? ==> c.value < k && InFirstRound(races[c.value])
  {
    if k == 0 then None
    else
      var c := FirstChoice(races, k - 1);
      if InFirstRound(races[k - 1]) && races[k - 1].noOfContestants < Level(races, c) then Some(k - 1) else c
  }

  /** The race chosen for the round-2 placement after scanning races[..k],
      starting from the first choice: a round-2 race replaces the choice
      when it has no more contestants. */
  function SecondChoice(races: seq<Race>, k: nat, start: Option<nat>): (c: Option<nat>)
    requires k <= |races| && (start.Some? ==> start.value < |races|)
    ensures c.Some? ==> c.value < |races|
    ensures c != start ==> c.Some? && c.value < k && races[c.value].round == "R2"
  {
    if k == 0 then start
    else
      var c := SecondChoice(races, k - 1, start);
      if races[k - 1].round == "R2" && races[k - 1].noOfContestants <= Level(races, c) then Some(k - 1) else c
  }

  /** The first choice is the first race with the fewest contestants among
      the quarterfinal and round-1 races, and no race with 999 or more is
      ever chosen. */
  lemma {:induction false} FirstChoiceIsFirstMinimum(races: seq<Race>, k: nat)
    requires k <= |races|
    ensures FirstChoice(races, k).None? <==>
              forall j | 0 <= j < k && InFirstRound(races[j]) :: races[j].noOfContestants >= 999
    ensures FirstChoice(races, k).Some? ==>
              var c := FirstChoice(races, k).value;
              races[c].noOfContestants < 999 &&
              (forall j | 0 <= j < k && InFirstRound(races[j]) :: races[j].noOfContestants >= races[c].noOfContestants) &&
              (forall j | 0 <= j < c && InFirstRound(races[j]) :: races[j].noOfContestants > races[c].noOfContestants)
  {
    if k > 0 {
      FirstChoiceIsFirstMinimum(races, k - 1);
    }
  }

  /** The round-2 choice is the last round-2 race with the fewest
      contestants, provided it has no more than the first choice; when no
      round-2 race qualifies the first choice stays. */
  lemma {:induction false} SecondChoiceIsLastMinimum(races: seq<Race>, k: nat, start: Option<nat>)
    requires k <= |races| && (start.Some? ==> start.value < |races| && races[start.value].round != "R2")
    ensures SecondChoice(races, k, start) == start <==>
              forall j | 0 <= j < k && races[j].round == "R2" :: races[j].noOfContestants > Level(races, start)
    ensures SecondChoice(races, k, start) != start ==>
              var c := SecondChoice(races, k, start).value;
              races[c].noOfContestants <= Level(races, start) &&
              (forall j | 0 <= j < k && races[j].round == "R2" :: races[j].noOfContestants >= races[c].noOfContestants) &&
              (forall j | c < j < k && races[j].round == "R2" :: races[j].noOfContestants > races[c].noOfContestants)
  {
    if k > 0 {
      SecondChoiceIsLastMinimum(races, k - 1, start);
    }
  }

  // ---------------------------------------------------------------------
  // add_to_startlist: the start requests

  /** The create-start form for the chosen race: the race's id, the next
      starting position and the race's start time. Before any race is
      chosen the form names no race, position 0 and an empty time. */
  function FormFor(races: seq<Race>, c: Option<nat>, startlistId: string, bib: int): (f: ViewUtils.StartForm)
    requires c.Some? ==> c.value < |races|
    ensures f.startlistId == startlistId
    ensures c.None? ==> f.raceId == "" && f.startingPosition == 0
    ensures c.Some? ==> f.raceId == races[c.value].id && f.startingPosition == |races[c.value].startEntries| + 1
  {
    if c.None? then ViewUtils.StartForm(IntToString(bib), startlistId, "", 0, 0, "")
    else
      var race := races[c.value];
      ViewUtils.StartForm(IntToString(bib), startlistId, race.id, |race.startEntries| + 1,
                          Instant(race.startTime), ClockText(race.startTime))
  }

  /** The start requests add_to_startlist sends for a class's races: none
      unless the first race has start entries; then one for the first
      choice (which names no race when none qualified), and a second one
      when the first choice is a round-1 race. */
  function StartRequests(races: seq<Race>, bib: int): (r: seq<ViewUtils.StartForm>)
    ensures r == [] <==> races == [] || races[0].startEntries == []
    ensures |r| <= 2
    ensures |r| == 2 <==> r != [] && FirstChoice(races, |races|).Some? &&
                          races[FirstChoice(races, |races|).value].round == "R1"
    ensures forall k | 0 <= k < |r| :: r[k].startlistId == races[0].startEntries[0].startlistId
  {
    if races == [] || races[0].startEntries == [] then []
    else
      var sl := races[0].startEntries[0].startlistId;
      var c := FirstChoice(races, |races|);
      var first := FormFor(races, c, sl, bib);
      if c.Some? && races[c.value].round == "R1" then
        [first, FormFor(races, SecondChoice(races, |races|, c), sl, bib)]
      else [first]
  }

  /** When the first choice is a round-1 race and no round-2 race has as few
      contestants, the second request repeats the first. */
  lemma SecondRequestRepeats(races: seq<Race>, bib: int)
    requires |StartRequests(races, bib)| == 2
    requires forall j | 0 <= j < |races| && races[j].round == "R2" ::
               races[j].noOfContestants > Level(races, FirstChoice(races, |races|))
    ensures StartRequests(races, bib)[1] == StartRequests(races, bib)[0]
  {
    SecondChoiceIsLastMinimum(races, |races|, FirstChoice(races, |races|));
  }

  /** The first loop, as the view runs it. */
  method ChooseFirst(races: seq<Race>) returns (chosen: Option<nat>, startMinCount: int)
    ensures chosen == FirstChoice(races, |races|)
    ensures startMinCount == Level(races, chosen)
  {
    chosen := None;
    startMinCount := 999;
    for i := 0 to |races|
      invariant chosen == FirstChoice(races, i)
      invariant startMinCount == Level(races, chosen)
    {
      if (races[i].round == "Q" || races[i].round == "R1") && races[i].noOfContestants < startMinCount {
        startMinCount := races[i].noOfContestants;
        chosen := Some(i);
      }
    }
  }

  /** The round-2 loop, continuing from the first loop's minimum. */
  method ChooseSecond(races: seq<Race>, start: Option<nat>, startMinCount: int) returns (chosen: Option<nat>)
    requires start.Some? ==> start.value < |races|
    requires startMinCount == Level(races, start)
    ensures chosen == SecondChoice(races, |races|, start)
  {
    chosen := start;
    var minCount := startMinCount;
    for i := 0 to |races|
      invariant chosen == SecondChoice(races, i, start)
      invariant minCount == Level(races, chosen)
    {
      if races[i].round == "R2" && races[i].noOfContestants <= minCount {
        minCount := races[i].noOfContestants;
        chosen := Some(i);
      }
    }
  }

  /** The races and the store's next entry id after the create_start calls
      for forms, in order, each on what the previous one left; replies[k] is
      the start service's answer to the k-th call's bib query. */
  function AfterRequests(races: seq<Race>, nextId: nat, forms: seq<ViewUtils.StartForm>,
                         contestant: Option<Contestant>, replies: seq<seq<StartAdapter.Startlist>>): (r: (seq<Race>, nat))
    requires |forms| <= |replies|
    ensures Skeleton(r.0) == Skeleton(races) && nextId <= r.1 <= nextId + |forms|
  {
    if forms == [] then (races, nextId)
    else
      var k := |forms| - 1;
      var prev := AfterRequests(races, nextId, forms[..k], contestant, replies);
      ViewUtils.CreateStep(prev.0, prev.1, forms[k], contestant, replies[k])
  }

  /** Sending one more form is one more create_start on what the earlier
      forms left. */
  lemma AfterRequestsStep(races: seq<Race>, nextId: nat, sent: seq<ViewUtils.StartForm>, form: ViewUtils.StartForm,
                          contestant: Option<Contestant>, replies: seq<seq<StartAdapter.Startlist>>)
    requires |sent| < |replies|
    ensures var prev := AfterRequests(races, nextId, sent, contestant, replies);
            AfterRequests(races, nextId, sent + [form], contestant, replies) ==
              ViewUtils.CreateStep(prev.0, prev.1, form, contestant, replies[|sent|])
  {
    assert (sent + [form])[..|sent|] == sent;
  }

  /** One create_start call of add_to_startlist, with reply the start
      service's answer to its bib query: the store moves on to what
      AfterRequests gives once the form is sent. */
  method Request(store: RaceStore, form: ViewUtils.StartForm, contestant: Option<Contestant>,
                 timeEvents: seq<ViewUtils.TimeEvent>, reply: seq<StartAdapter.Startlist>,
                 ghost races0: seq<Race>, ghost id0: nat, ghost sent: seq<ViewUtils.StartForm>,
                 ghost replies: seq<seq<StartAdapter.Startlist>>)
    returns (text: string, r: Outcome<ViewUtils.CreateStartError>, updated: Option<ViewUtils.TimeEvent>)
    requires store.Valid() && |sent| < |replies| && replies[|sent|] == reply
    requires (store.races, store.nextEntryId) == AfterRequests(races0, id0, sent, contestant, replies)
    modifies store
    ensures store.Valid()
    ensures (store.races, store.nextEntryId) == AfterRequests(races0, id0, sent + [form], contestant, replies)
  {
    AfterRequestsStep(races0, id0, sent, form, contestant, replies);
    text, r, updated := ViewUtils.CreateStart(store, form, contestant, timeEvents, reply);
  }

  /** The round-2 request of add_to_startlist, once the first choice was a
      round-1 race: the form for the second choice goes through create_start
      and completes the planned requests. */
  method RoundTwoRequest(store: RaceStore, races: seq<Race>, bib: int, chosen: Option<nat>, startMinCount: int,
                         contestant: Option<Contestant>, timeEvents: seq<ViewUtils.TimeEvent>,
                         reply: seq<StartAdapter.Startlist>, ghost races0: seq<Race>, ghost id0: nat,
                         ghost sent: seq<ViewUtils.StartForm>, ghost replies: seq<seq<StartAdapter.Startlist>>)
    returns (text: string, r: Outcome<ViewUtils.CreateStartError>, updated: Option<ViewUtils.TimeEvent>,
             ghost sent': seq<ViewUtils.StartForm>)
    requires store.Valid() && races != [] && races[0].startEntries != []
    requires chosen == FirstChoice(races, |races|) && chosen.Some? && races[chosen.value].round == "R1"
    requires startMinCount == Level(races, chosen)
    requires sent == StartRequests(races, bib)[..1] && |replies| == 2 && replies[1] == reply
    requires (store.races, store.nextEntryId) == AfterRequests(races0, id0, sent, contestant, replies)
    modifies store
    ensures store.Valid() && sent' == StartRequests(races, bib)
    ensures (store.races, store.nextEntryId) == AfterRequests(races0, id0, sent', contestant, replies)
  {
    var second := ChooseSecond(races, chosen, startMinCount);
    var form := FormFor(races, second, races[0].startEntries[0].startlistId, bib);
    text, r, updated := Request(store, form, contestant, timeEvents, reply, races0, id0, sent, replies);
    sent' := sent + [form];
  }

  /** The placement of add_to_startlist in a class whose first race has
      start entries: the first request, then the round-2 one when the first
      choice is a round-1 race. */
  method PlaceInClass(store: RaceStore, races: seq<Race>, bib: int, contestant: Option<Contestant>,
                      timeEvents: seq<ViewUtils.TimeEvent>, replies: seq<seq<StartAdapter.Startlist>>)
    returns (informasjon: string, r: Outcome<ViewUtils.CreateStartError>, updates: seq<ViewUtils.TimeEvent>,
             ghost sent: seq<ViewUtils.StartForm>)
    requires store.Valid() && races != [] && races[0].startEntries != [] && |replies| == 2
    modifies store
    ensures store.Valid()
    ensures sent != [] && sent <= StartRequests(races, bib)
    ensures r.Pass? ==> sent == StartRequests(races, bib)
    ensures (store.races, store.nextEntryId) ==
              AfterRequests(old(store.races), old(store.nextEntryId), sent, contestant, replies)
    ensures |updates| <= |sent|
  {
    ghost var races0, id0 := store.races, store.nextEntryId;
    var chosen, startMinCount := ChooseFirst(races);
    var form := FormFor(races, chosen, races[0].startEntries[0].startlistId, bib);
    ghost var planned := StartRequests(races, bib);
    assert planned[..1] == [form];
    var updated;
    informasjon, r, updated := Request(store, form, contestant, timeEvents, replies[0], races0, id0, [], replies);
    sent := [form];
    updates := if updated.Some? then [updated.value] else [];
    if r.Fail? {
      return;
    }
    if chosen.Some? && races[chosen.value].round == "R1" {
      var text;
      text, r, updated, sent := RoundTwoRequest(store, races, bib, chosen, startMinCount, contestant, timeEvents,
                                                replies[1], races0, id0, sent, replies);
      if r.Fail? {
        return;
      }
      informasjon := informasjon + text;
      updates := updates + if updated.Some? then [updated.value] else [];
    } else {
      assert planned == sent;
    }
  }

  /** add_to_startlist: the class's races are read once; each start request
      goes through create_start, whose replies are concatenated. A refused
      create stops the placement (the view lets its error through). The
      contestant is looked up by bib in the contestant store, the bib's time
      events are the same for both requests, and firstReply and secondReply
      are the start service's answers to the two calls' bib queries. */
  method AddToStartlist(store: RaceStore, contestants: ContestantStore, klasse: string, bib: int,
                        timeEvents: seq<ViewUtils.TimeEvent>,
                        firstReply: seq<StartAdapter.Startlist>, secondReply: seq<StartAdapter.Startlist>)
    returns (informasjon: string, r: Outcome<ViewUtils.CreateStartError>, updates: seq<ViewUtils.TimeEvent>,
             ghost sent: seq<ViewUtils.StartForm>)
    requires store.Valid() && contestants.Valid()
    modifies store
    ensures store.Valid()
    ensures sent <= StartRequests(OfClass(old(store.races), klasse), bib)
    ensures r.Pass? ==> sent == StartRequests(OfClass(old(store.races), klasse), bib)
    ensures r.Fail? ==> sent != []
    ensures (store.races, store.nextEntryId) ==
              AfterRequests(old(store.races), old(store.nextEntryId), sent, contestants.FindByBib(Some(bib)),
                            [firstReply, secondReply])
    ensures sent == [] ==> informasjon == "" && updates == []
    ensures |updates| <= |sent|
  {
    var races := OfClass(store.races, klasse);
    if races == [] || races[0].startEntries == [] {
      return "", Pass, [], [];
    }
    var contestant := contestants.FindByBib(Some(bib));
    informasjon, r, updates, sent := PlaceInClass(store, races, bib, contestant, timeEvents, [firstReply, secondReply]);
  }

  // ---------------------------------------------------------------------
  // get_available_etteranmelding

  /** The open places of a race. */
  function Open(race: Race): int {
    race.maxNoOfContestants - race.noOfContestants
  }

  /** The C semifinal: round and index together read "SC". */
  predicate IsSemiC(race: Race) {
    race.round + race.index == "SC"
  }

  /** Which races a class's open places are summed over: the C semifinals
      of a ranked class, the round-1 races of an unranked one. */
  datatype Gauge = SemiC | FirstRound

  predicate Counts(race: Race, name: string, g: Gauge) {
    race.raceclass == name && (if g == SemiC then IsSemiC(race) else race.round == "R1")
  }

  /** The open places summed over races[..k] of the class and gauge. */
  function OpenSum(races: seq<Race>, k: nat, name: string, g: Gauge): int
    requires k <= |races|
  {
    if k == 0 then 0
    else OpenSum(races, k - 1, name, g) + if Counts(races[k - 1], name, g) then Open(races[k - 1]) else 0
  }

  /** Some race of races[..k] is counted. */
  predicate AnyCounted(races: seq<Race>, k: nat, name: string, g: Gauge)
    requires k <= |races|
  {
    exists j | 0 <= j < k :: Counts(races[j], name, g)
  }

  /** The first final of the class in races[..k]. */
  function FirstFinal(races: seq<Race>, k: nat, name: string): (r: Option<nat>)
    requires k <= |races|
    ensures r.Some? ==> r.value < k && races[r.value].raceclass == name && races[r.value].round == "F"
    ensures r.Some? ==> forall j | 0 <= j < r.value :: !(races[j].raceclass == name && races[j].round == "F")
    ensures r.None? ==> forall j | 0 <= j < k :: !(races[j].raceclass == name && races[j].round == "F")
  {
    if k == 0 then None
    else
      var r := FirstFinal(races, k - 1, name);
      if r.None? && races[k - 1].raceclass == name && races[k - 1].round == "F" then Some(k - 1) else r
  }

  /** The places a class has open for late entries: a ranked class counts
      its C semifinals or, without one, its first final; an unranked class
      counts its round-1 races. */
  function Available(c: Classes.Raceclass, races: seq<Race>): int {
    if !c.ranking then OpenSum(races, |races|, c.name, FirstRound)
    else if AnyCounted(races, |races|, c.name, SemiC) then OpenSum(races, |races|, c.name, SemiC)
    else match FirstFinal(races, |races|, c.name)
      case None => 0
      case Some(i) => Open(races[i])
  }

  datatype Availability = Availability(ageclasses: seq<string>, availablePlaces: int)

  /** A sum over no counted race is 0. */
  lemma {:induction false} OpenSumNone(races: seq<Race>, k: nat, name: string, g: Gauge)
    requires k <= |races| && !AnyCounted(races, k, name, g)
    ensures OpenSum(races, k, name, g) == 0
  {
    if k > 0 {
      OpenSumNone(races, k - 1, name, g);
    }
  }

  /** When no counted race is over its maximum, the sum is not negative. */
  lemma {:induction false} OpenSumNonNegative(races: seq<Race>, k: nat, name: string, g: Gauge)
    requires k <= |races|
    requires forall j | 0 <= j < |races| :: races[j].noOfContestants <= races[j].maxNoOfContestants
    ensures OpenSum(races, k, name, g) >= 0
  {
    if k > 0 {
      OpenSumNonNegative(races, k - 1, name, g);
    }
  }

  /** Only the class's own races count: availability over the whole race
      list equals availability over the class's races. */
  lemma {:induction false} OpenSumOfClass(races: seq<Race>, name: string, g: Gauge)
    ensures OpenSum(races, |races|, name, g) == OpenSum(OfClass(races, name), |OfClass(races, name)|, name, g)
  {
    if races != [] {
      OpenSumOfClass(races[1..], name, g);
      OpenSumCons(races, name, g);
      var all := OfClass(races, name);
      if races[0].raceclass == name {
        OpenSumCons(all, name, g);
        assert all[1..] == OfClass(races[1..], name);
      }
    }
  }

  /** The sum splits into the first race's part and the rest. */
  lemma {:induction false} OpenSumCons(races: seq<Race>, name: string, g: Gauge)
    requires races != []
    ensures OpenSum(races, |races|, name, g) ==
              (if Counts(races[0], name, g) then Open(races[0]) else 0) + OpenSum(races[1..], |races| - 1, name, g)
  {
    var n := |races| - 1;
    if n > 0 {
      OpenSumCons(races[..n], name, g);
      OpenSumPrefix(races, n, name, g);
      OpenSumPrefix(races[1..], n - 1, name, g);
      assert races[1..][..n - 1] == races[..n][1..];
    }
  }

  /** The sum over a prefix is the sum over the first k elements. */
  lemma {:induction false} OpenSumPrefix(races: seq<Race>, k: nat, name: string, g: Gauge)
    requires k <= |races|
    ensures OpenSum(races, k, name, g) == OpenSum(races[..k], k, name, g)
    decreases k
  {
    if k > 0 {
      OpenSumPrefix(races, k - 1, name, g);
      OpenSumPrefix(races[..k], k - 1, name, g);
      assert races[..k][..k - 1] == races[..k - 1];
    }
  }

  /** An unranked class's availability is the open places of its round-1
      races alone, and is not negative when no race is over its maximum. */
  lemma AvailableUnranked(c: Classes.Raceclass, races: seq<Race>)
    requires !c.ranking
    requires forall j | 0 <= j < |races| :: races[j].noOfContestants <= races[j].maxNoOfContestants
    ensures Available(c, races) == OpenSum(OfClass(races, c.name), |OfClass(races, c.name)|, c.name, FirstRound)
    ensures Available(c, races) >= 0
  {
    OpenSumOfClass(races, c.name, FirstRound);
    OpenSumNonNegative(races, |races|, c.name, FirstRound);
  }

  /** A ranked class without a C semifinal and without a final has no open
      places. */
  lemma AvailableRankedWithoutRaces(c: Classes.Raceclass, races: seq<Race>)
    requires c.ranking
    requires forall j | 0 <= j < |races| && races[j].raceclass == c.name :: !IsSemiC(races[j]) && races[j].round != "F"
    ensures Available(c, races) == 0
  {
  }

  /** The C-semifinal loop: the sum and whether any was found. */
  method SemiCPlaces(races: seq<Race>, name: string) returns (places: int, found: bool)
    ensures places == OpenSum(races, |races|, name, SemiC)
    ensures found == AnyCounted(races, |races|, name, SemiC)
  {
    places, found := 0, false;
    for i := 0 to |races|
      invariant places == OpenSum(races, i, name, SemiC)
      invariant found == AnyCounted(races, i, name, SemiC)
    {
      if name == races[i].raceclass && races[i].round + races[i].index == "SC" {
        places := places + (races[i].maxNoOfContestants - races[i].noOfContestants);
        found := true;
      }
    }
  }

  /** The first-final loop, which stops at the first final of the class. */
  method FinalPlaces(races: seq<Race>, name: string) returns (places: int)
    ensures places == match FirstFinal(races, |races|, name) case None => 0 case Some(i) => Open(races[i])
  {
    places := 0;
    var i := 0;
    while i < |races|
      invariant i <= |races| && FirstFinal(races, i, name).None?
    {
      if name == races[i].raceclass && races[i].round == "F" {
        places := races[i].maxNoOfContestants - races[i].noOfContestants;
        return;
      }
      i := i + 1;
    }
  }

  /** The round-1 loop of an unranked class. */
  method RoundOnePlaces(races: seq<Race>, name: string) returns (places: int)
    ensures places == OpenSum(races, |races|, name, FirstRound)
  {
    places := 0;
    for i := 0 to |races|
      invariant places == OpenSum(races, i, name, FirstRound)
    {
      if name == races[i].raceclass && races[i].round == "R1" {
        places := places + (races[i].maxNoOfContestants - races[i].noOfContestants);
      }
    }
  }

  /** get_available_etteranmelding: one entry per raceclass, in order, with
      its age classes and its open places. */
  method AvailableEtteranmelding(raceclasses: seq<Classes.Raceclass>, races: seq<Race>)
    returns (availability: seq<Availability>)
    ensures |availability| == |raceclasses|
    ensures forall k | 0 <= k < |raceclasses| ::
              availability[k] == Availability(raceclasses[k].ageclasses, Available(raceclasses[k], races))
  {
    availability := [];
    for k := 0 to |raceclasses|
      invariant |availability| == k
      invariant forall j | 0 <= j < k ::
                  availability[j] == Availability(raceclasses[j].ageclasses, Available(raceclasses[j], races))
    {
      var c := raceclasses[k];
      var places := 0;
      if c.ranking {
        var found;
        places, found := SemiCPlaces(races, c.name);
        if !found {
          places := FinalPlaces(races, c.name);
        }
      } else {
        places := RoundOnePlaces(races, c.name);
      }
      availability := availability + [Availability(c.ageclasses, places)];
    }
  }
}

=== FILE: heat_seeding.dfy ===
/** Seeding of a race class (perform_seeding, get_heat_separators,
    add_seeding_points): contestants with seeding points are ranked by their
    points, and rank i is given the bib that sat in slot Slot(i) of the class's
    contestant list, where ranks are dealt round-robin over the Q heats. */
module HeatSeeding {
  import opened Common
  import opened Races
  import opened ContestantsAdapter
  import opened BibSwap
  import Classes

  // ---------------------------------------------------------------------
  // Heat sizes and separators

  /** no_of_contestants of the class's Q races, in list order. */
  function QSizes(races: seq<Race>): (r: seq<nat>)
    ensures |r| <= |races|
  {
    if races == [] then []
    else
      var last := races[|races| - 1];
      QSizes(races[..|races| - 1]) + (if last.round == "Q" then [last.noOfContestants] else [])
  }

  function NatSum(xs: seq<nat>): (s: nat) {
    if xs == [] then 0 else NatSum(xs[..|xs| - 1]) + xs[|xs| - 1]
  }

  lemma {:induction false} NatSumAppend(xs: seq<nat>, v: nat)
    ensures NatSum(xs + [v]) == NatSum(xs) + v
  {
    assert (xs + [v])[..|xs|] == xs;
  }

  /** A longer prefix of head counts never sums to less. */
  lemma {:induction false} PrefixSumMonotone(xs: seq<nat>, i: nat, j: nat)
    requires i <= j <= |xs|
    ensures NatSum(xs[..i]) <= NatSum(xs[..j])
    decreases j - i
  {
    if i < j {
      PrefixSumMonotone(xs, i, j - 1);
      assert xs[..j][..j - 1] == xs[..j - 1];
    }
  }

  /** get_heat_separators: the running totals of the Q-race head counts. */
  method HeatSeparators(races: seq<Race>) returns (seps: seq<nat>)
    ensures |seps| == |QSizes(races)|
    ensures forall h | 0 <= h < |seps| :: seps[h] == NatSum(QSizes(races)[..h + 1])
  {
    seps := [];
    var count: nat := 0;
    for k := 0 to |races|
      invariant |seps| == |QSizes(races[..k])|
      invariant forall h | 0 <= h < |seps| :: seps[h] == NatSum(QSizes(races[..k])[..h + 1])
      invariant count == NatSum(QSizes(races[..k]))
    {
      assert races[..k + 1][..k] == races[..k];
      var before := QSizes(races[..k]);
      if races[k].round == "Q" {
        count := count + races[k].noOfContestants;
        seps := seps + [count];
        assert QSizes(races[..k + 1]) == before + [races[k].noOfContestants];
        NatSumAppend(before, races[k].noOfContestants);
        forall h | 0 <= h < |seps| ensures seps[h] == NatSum(QSizes(races[..k + 1])[..h + 1]) {
          if h < |before| {
            assert QSizes(races[..k + 1])[..h + 1] == before[..h + 1];
          } else {
            assert QSizes(races[..k + 1])[..h + 1] == before + [races[k].noOfContestants];
          }
        }
      } else {
        assert QSizes(races[..k + 1]) == before;
      }
    }
    assert races[..|races|] == races;
  }

  /** The separators never decrease. */
  lemma SeparatorsNonDecreasing(sizes: seq<nat>, seps: seq<nat>, g: nat, h: nat)
    requires |seps| == |sizes|
    requires forall k | 0 <= k < |seps| :: seps[k] == NatSum(sizes[..k + 1])
    requires g <= h < |seps|
    ensures seps[g] <= seps[h]
  {
    PrefixSumMonotone(sizes, g + 1, h + 1);
  }

  // ---------------------------------------------------------------------
  // The slot a rank is dealt to

  /** First slot of heat h: the head count of the heats before it. */
  function HeatStart(sizes: seq<nat>, h: nat): nat
    requires h <= |sizes|
  {
    NatSum(sizes[..h])
  }

  /** Rank i goes to heat i % H at position i / H. */
  function Slot(sizes: seq<nat>, i: nat): nat
    requires |sizes| > 0
  {
    HeatStart(sizes, i % |sizes|) + i / |sizes|
  }

  /** Every rank below n finds room in its heat. */
  predicate Fits(sizes: seq<nat>, n: nat) {
    n == 0 || (|sizes| > 0 && forall i | 0 <= i < n :: i / |sizes| < sizes[i % |sizes|])
  }

  /** A rank that fits its heat lies inside that heat's block of slots. */
  lemma SlotInHeat(sizes: seq<nat>, i: nat)
    requires |sizes| > 0 && i / |sizes| < sizes[i % |sizes|]
    ensures HeatStart(sizes, i % |sizes|) <= Slot(sizes, i) < HeatStart(sizes, i % |sizes| + 1)
  {
    var h := i % |sizes|;
    assert sizes[..h + 1] == sizes[..h] + [sizes[h]];
    NatSumAppend(sizes[..h], sizes[h]);
  }

  /** Ranks that fit their heats are dealt to different slots. */
  lemma SlotsDistinct(sizes: seq<nat>, i: nat, j: nat)
    requires |sizes| > 0
    requires i / |sizes| < sizes[i % |sizes|] && j / |sizes| < sizes[j % |sizes|]
    requires i != j
    ensures Slot(sizes, i) != Slot(sizes, j)
  {
    var H := |sizes|;
    var hi, hj := i % H, j % H;
    if hi == hj {
      assert i == (i / H) * H + hi && j == (j / H) * H + hj;
    } else {
      SlotInHeat(sizes, i);
      SlotInHeat(sizes, j);
      if hi < hj {
        PrefixSumMonotone(sizes, hi + 1, hj);
      } else {
        PrefixSumMonotone(sizes, hj + 1, hi);
      }
    }
  }

  // ---------------------------------------------------------------------
  // The seeding order

  /** A contestant is seeded when its seeding points are truthy: present and
      non-zero. */
  predicate Seeded(c: Contestant) {
    c.seedingPoints.Some? && c.seedingPoints.value != 0
  }

  /** Indexes below n of the seeded contestants, in list order. */
  function SeededBelow(snap: seq<Contestant>, n: nat): (r: seq<nat>)
    requires n <= |snap|
    ensures forall k | 0 <= k < |r| :: r[k] < n && Seeded(snap[r[k]])
    ensures forall k | 0 <= k < n :: Seeded(snap[k]) ==> k in r
    ensures forall a, b | 0 <= a < b < |r| :: r[a] < r[b]
  {
    if n == 0 then []
    else SeededBelow(snap, n - 1) + (if Seeded(snap[n - 1]) then [n - 1] else [])
  }

  /** Rank order: fewer points first; equal points keep list order, as a
      stable sort does. */
  predicate RanksBefore(snap: seq<Contestant>, a: nat, b: nat)
    requires a < |snap| && b < |snap| && Seeded(snap[a]) && Seeded(snap[b])
  {
    snap[a].seedingPoints.value < snap[b].seedingPoints.value ||
    (snap[a].seedingPoints.value == snap[b].seedingPoints.value && a < b)
  }

  predicate SeededIndexes(snap: seq<Contestant>, ks: seq<nat>) {
    forall k | 0 <= k < |ks| :: ks[k] < |snap| && Seeded(snap[ks[k]])
  }

  predicate RankSorted(snap: seq<Contestant>, ks: seq<nat>)
    requires SeededIndexes(snap, ks)
  {
    forall a, b | 0 <= a < b < |ks| :: RanksBefore(snap, ks[a], ks[b])
  }

  function InsertRank(snap: seq<Contestant>, k: nat, ks: seq<nat>): (r: seq<nat>)
    requires SeededIndexes(snap, ks) && k < |snap| && Seeded(snap[k])
    ensures SeededIndexes(snap, r)
    ensures multiset(r) == multiset(ks) + multiset{k}
    ensures |r| == |ks| + 1
  {
    if ks == [] || RanksBefore(snap, k, ks[0]) then [k] + ks
    else
      assert ks == [ks[0]] + ks[1..];
      [ks[0]] + InsertRank(snap, k, ks[1..])
  }

  lemma {:induction false} InsertRankSorted(snap: seq<Contestant>, k: nat, ks: seq<nat>)
    requires SeededIndexes(snap, ks) && k < |snap| && Seeded(snap[k])
    requires RankSorted(snap, ks) && k !in ks
    ensures RankSorted(snap, InsertRank(snap, k, ks))
  {
    if ks != [] && !RanksBefore(snap, k, ks[0]) {
      InsertRankSorted(snap, k, ks[1..]);
      var r := InsertRank(snap, k, ks);
      forall b | 1 <= b < |r| ensures RanksBefore(snap, r[0], r[b]) {
        assert r[b] in multiset(InsertRank(snap, k, ks[1..]));
        assert r[b] == k || r[b] in multiset(ks[1..]);
        if r[b] != k {
          var c :| 0 <= c < |ks[1..]| && ks[1..][c] == r[b];
          assert ks[c + 1] == r[b];
        }
      }
    }
  }

  /** list.sort by seeding points, written as an insertion sort. */
  function SortRanks(snap: seq<Contestant>, ks: seq<nat>): (r: seq<nat>)
    requires SeededIndexes(snap, ks)
    ensures SeededIndexes(snap, r)
    ensures multiset(r) == multiset(ks)
  {
    if ks == [] then []
    else
      assert ks == [ks[0]] + ks[1..];
      InsertRank(snap, ks[0], SortRanks(snap, ks[1..]))
  }

  lemma {:induction false} SortRanksSorted(snap: seq<Contestant>, ks: seq<nat>)
    requires SeededIndexes(snap, ks) && Distinct(ks)
    ensures RankSorted(snap, SortRanks(snap, ks))
  {
    if ks != [] {
      assert Distinct(ks[1..]) by {
        forall a, b | 0 <= a < b < |ks[1..]| ensures ks[1..][a] != ks[1..][b] {
          assert ks[1..][a] == ks[a + 1] && ks[1..][b] == ks[b + 1];
        }
      }
      SortRanksSorted(snap, ks[1..]);
      var rest := SortRanks(snap, ks[1..]);
      assert ks[0] !in ks[1..] by {
        forall c | 0 <= c < |ks[1..]| ensures ks[1..][c] != ks[0] {
          assert ks[1..][c] == ks[c + 1];
        }
      }
      assert ks[0] !in multiset(rest);
      InsertRankSorted(snap, ks[0], rest);
    }
  }

  /** The seeded contestants of the class in rank order: exactly the seeded
      ones, each once, fewer points first, and ties in list order. */
  function SeedingOrder(snap: seq<Contestant>): (order: seq<nat>)
    ensures SeededIndexes(snap, order)
    ensures forall k | 0 <= k < |snap| :: Seeded(snap[k]) <==> k in order
    ensures RankSorted(snap, order)
    ensures Distinct(order)
  {
    var ks := SeededBelow(snap, |snap|);
    assert Distinct(ks);
    SortRanksSorted(snap, ks);
    var order := SortRanks(snap, ks);
    forall k | 0 <= k < |snap| ensures Seeded(snap[k]) <==> k in order {
      assert k in order <==> k in multiset(ks);
    }
    forall a, b | 0 <= a < b < |order| ensures order[a] != order[b] {
      assert RanksBefore(snap, order[a], order[b]);
    }
    order
  }

  // ---------------------------------------------------------------------
  // Dealing the bibs

  datatype SeedError =
    | ZeroDivision          // seeded contestants but no Q race: i % 0
    | IndexError(slot: nat) // the slot lies past the end of the class list
    | Refused(error: StoreError)

  /** Some member of the class list has this id. */
  predicate IsMember(snap: seq<Contestant>, id: string) {
    snap != [] && (snap[|snap| - 1].id == id || IsMember(snap[..|snap| - 1], id))
  }

  lemma {:induction false} MemberAt(snap: seq<Contestant>, k: nat)
    requires k < |snap|
    ensures IsMember(snap, snap[k].id)
  {
    if k < |snap| - 1 {
      MemberAt(snap[..|snap| - 1], k);
    }
  }

  /** The class list is a list of distinct stored records. */
  ghost predicate SnapshotOf(s0: map<string, Contestant>, snap: seq<Contestant>) {
    (forall k | 0 <= k < |snap| :: snap[k].id in s0 && s0[snap[k].id] == snap[k]) &&
    (forall k, l | 0 <= k < l < |snap| :: snap[k].id != snap[l].id)
  }

  /** Since s0: the same contestants, only bibs changed, and nobody outside
      the class changed. */
  ghost predicate Framed(s0: map<string, Contestant>, snap: seq<Contestant>, m: map<string, Contestant>) {
    m.Keys == s0.Keys &&
    (forall id | id in s0 :: m[id] == s0[id].(bib := m[id].bib)) &&
    (forall id | id in s0 && !IsMember(snap, id) :: m[id] == s0[id])
  }

  /** The bibs the members of the class list held at the start, in list order. */
  function StartBibs(snap: seq<Contestant>): (r: seq<Option<int>>)
    ensures |r| == |snap| && forall k | 0 <= k < |snap| :: r[k] == snap[k].bib
  {
    seq(|snap|, k requires 0 <= k < |snap| => snap[k].bib)
  }

  /** The bibs the members of the class list hold in m, in list order. */
  ghost function HeldBibs(snap: seq<Contestant>, m: map<string, Contestant>): (r: seq<Option<int>>)
    requires forall k | 0 <= k < |snap| :: snap[k].id in m
    ensures |r| == |snap| && forall k | 0 <= k < |snap| :: r[k] == m[snap[k].id].bib
  {
    seq(|snap|, k requires 0 <= k < |snap| && snap[k].id in m => m[snap[k].id].bib)
  }

  /** The members hold exactly the bibs they held at the start, redistributed. */
  ghost predicate AllHeld(snap: seq<Contestant>, m: map<string, Contestant>)
    requires forall k | 0 <= k < |snap| :: snap[k].id in m
  {
    multiset(HeldBibs(snap, m)) == multiset(StartBibs(snap))
  }

  /** Ranks below i hold the bib of their slot. */
  ghost predicate Placed(snap: seq<Contestant>, order: seq<nat>, sizes: seq<nat>, m: map<string, Contestant>, i: nat)
    requires i <= |order| && (i > 0 ==> |sizes| > 0)
    requires forall j | 0 <= j < |order| :: order[j] < |snap| && snap[order[j]].id in m
  {
    forall j | 0 <= j < i :: Slot(sizes, j) < |snap| && m[snap[order[j]].id].bib == snap[Slot(sizes, j)].bib
  }

  /** A write that only moves a bib some member held at the start and the
      bib a member holds now keeps the frame: both holders are members. */
  lemma FramedAfter(ids: seq<string>, s0: map<string, Contestant>, snap: seq<Contestant>,
                    m: map<string, Contestant>, s: map<string, Contestant>, k1: nat, x: string,
                    bib1: Option<int>, bib2: Option<int>)
    requires Wellformed(ids, s0) && Wellformed(ids, m)
    requires SnapshotOf(s0, snap) && Framed(s0, snap, m)
    requires OnlyHoldersChange(m, s, bib1, bib2)
    requires k1 < |snap| && bib1 == snap[k1].bib
    requires x in m && IsMember(snap, x) && m[x].bib == bib2
    ensures Framed(s0, snap, s)
  {
    forall id | id in s0 && !IsMember(snap, id) ensures s[id] == s0[id] {
      if s[id] != m[id] {
        if m[id].bib != bib2 {
          assert s0[snap[k1].id].bib == s0[id].bib;
          MemberAt(snap, k1);
        }
        assert false;
      }
    }
  }

  /** The bibs the class held at the start are distinct. */
  lemma SnapshotBibsDistinct(ids: seq<string>, s0: map<string, Contestant>, snap: seq<Contestant>, k: nat, l: nat)
    requires Wellformed(ids, s0) && SnapshotOf(s0, snap)
    requires k < |snap| && l < |snap| && k != l && snap[k].bib.Some?
    ensures snap[k].bib != snap[l].bib
  {
    assert s0[snap[k].id] == snap[k] && s0[snap[l].id] == snap[l];
  }

  /** Exchanging the bibs of two members keeps the bibs the class holds. */
  lemma HeldAfterExchange(snap: seq<Contestant>, m: map<string, Contestant>, s: map<string, Contestant>,
                          kx: nat, ky: nat)
    requires forall k | 0 <= k < |snap| :: snap[k].id in m
    requires forall k, l | 0 <= k < l < |snap| :: snap[k].id != snap[l].id
    requires kx < |snap| && ky < |snap| && kx != ky
    requires var x, y := snap[kx].id, snap[ky].id;
             s == m[y := m[y].(bib := m[x].bib)][x := m[x].(bib := m[y].bib)]
    requires AllHeld(snap, m)
    ensures forall k | 0 <= k < |snap| :: snap[k].id in s
    ensures AllHeld(snap, s)
  {
    var held := HeldBibs(snap, m);
    var swapped := held[ky := held[kx]][kx := held[ky]];
    forall k | 0 <= k < |snap| ensures HeldBibs(snap, s)[k] == swapped[k] {
      if k != kx && k != ky {
        assert snap[k].id != snap[kx].id && snap[k].id != snap[ky].id;
      }
    }
    assert HeldBibs(snap, s) == swapped;
    ExchangeKeepsMultiset(held, kx, ky);
  }

  lemma ExchangeKeepsMultiset<T>(a: seq<T>, i: nat, j: nat)
    requires i < |a| && j < |a|
    ensures multiset(a[j := a[i]][i := a[j]]) == multiset(a)
  {
    calc {
      multiset(a[j := a[i]][i := a[j]]);
      multiset(a[j := a[i]]) - multiset{a[j := a[i]][i]} + multiset{a[j]};
      multiset(a) - multiset{a[j]} + multiset{a[i]} - multiset{a[j := a[i]][i]} + multiset{a[j]};
      multiset(a);
    }
  }
 /** One round of the dealing loop when every rank fits its heat, in the
      case where rank i's member and the holder of its slot's bib exchange
      bibs: rank i is placed, and the ranks before it keep their bibs. */
  lemma PlacedAfterExchange(ids: seq<string>, s0: map<string, Contestant>, snap: seq<Contestant>, order: seq<nat>,
                            sizes: seq<nat>, m: map<string, Contestant>, s: map<string, Contestant>, i: nat, l: nat)
    requires Wellformed(ids, s0) && SnapshotOf(s0, snap)
    requires forall k | 0 <= k < |snap| :: snap[k].id in m
    requires i < |order| && |sizes| > 0 && Fits(sizes, |order|)
    requires forall j | 0 <= j < |order| :: order[j] < |snap|
    requires Distinct(order)
    requires Placed(snap, order, sizes, m, i)
    requires Slot(sizes, i) < |snap| && snap[Slot(sizes, i)].bib.Some?
    requires l < |snap| && m[snap[l].id].bib == snap[Slot(sizes, i)].bib
    requires snap[l].id != snap[order[i]].id
    requires var x, y := snap[order[i]].id, snap[l].id;
             s == m[y := m[y].(bib := m[x].bib)][x := m[x].(bib := m[y].bib)]
    ensures forall k | 0 <= k < |snap| :: snap[k].id in s
    ensures Placed(snap, order, sizes, s, i + 1)
  {
    var x, y := snap[order[i]].id, snap[l].id;
    forall j | 0 <= j < i ensures s[snap[order[j]].id] == m[snap[order[j]].id] {
      var z := snap[order[j]].id;
      assert z != x by {
        assert order[j] != order[i];
      }
      assert z != y by {
        SlotsDistinct(sizes, j, i);
        SnapshotBibsDistinct(ids, s0, snap, Slot(sizes, i), Slot(sizes, j));
      }
    }
  }

  /** One round of the dealing loop keeps the frame, whatever the store
      answers. */
  lemma FramedStep(ids: seq<string>, s0: map<string, Contestant>, snap: seq<Contestant>,
                   m: map<string, Contestant>, listed: set<int>, slot: nat, x: string)
    requires Wellformed(ids, s0) && Wellformed(ids, m)
    requires SnapshotOf(s0, snap) && Framed(s0, snap, m)
    requires slot < |snap| && x in m && IsMember(snap, x)
    ensures Framed(s0, snap, SwapRecords(ids, m, listed, snap[slot].bib, m[x].bib).records)
  {
    var newBib, oldBib := snap[slot].bib, m[x].bib;
    SwapFrame(ids, m, listed, newBib, oldBib);
    FramedAfter(ids, s0, snap, m, SwapRecords(ids, m, listed, newBib, oldBib).records, slot, x, newBib, oldBib);
  }

  /** When the class holds its starting bibs, each of them has a holder in
      the class. */
  lemma HolderInClass(snap: seq<Contestant>, m: map<string, Contestant>, k: nat) returns (l: nat)
    requires forall j | 0 <= j < |snap| :: snap[j].id in m
    requires AllHeld(snap, m) && k < |snap|
    ensures l < |snap| && m[snap[l].id].bib == snap[k].bib
  {
    assert StartBibs(snap)[k] == snap[k].bib;
    assert snap[k].bib in multiset(HeldBibs(snap, m));
    l :| 0 <= l < |snap| && HeldBibs(snap, m)[l] == snap[k].bib;
  }

  /** When every starting bib is a bib and the class holds its starting
      bibs, every member holds a bib. */
  lemma HeldIsSome(snap: seq<Contestant>, m: map<string, Contestant>, k: nat)
    requires forall j | 0 <= j < |snap| :: snap[j].id in m
    requires forall j | 0 <= j < |snap| :: snap[j].bib.Some?
    requires AllHeld(snap, m) && k < |snap|
    ensures m[snap[k].id].bib.Some?
  {
    assert HeldBibs(snap, m)[k] == m[snap[k].id].bib;
    assert m[snap[k].id].bib in multiset(StartBibs(snap));
  }

  /** One round of the dealing loop when every member holds a bib and every
      rank fits its heat: if the store accepts the swap, rank i holds the bib
      of its slot, the ranks before it keep theirs, and the class still holds
      its starting bibs. */
  lemma PlacedStep(ids: seq<string>, s0: map<string, Contestant>, snap: seq<Contestant>, order: seq<nat>,
                   sizes: seq<nat>, m: map<string, Contestant>, listed: set<int>, i: nat)
    requires Wellformed(ids, s0) && Wellformed(ids, m)
    requires SnapshotOf(s0, snap) && forall k | 0 <= k < |snap| :: snap[k].id in m
    requires forall k | 0 <= k < |snap| :: snap[k].bib.Some?
    requires i < |order| && |sizes| > 0 && Fits(sizes, |order|)
    requires forall j | 0 <= j < |order| :: order[j] < |snap|
    requires Distinct(order)
    requires AllHeld(snap, m) && Placed(snap, order, sizes, m, i)
    requires Slot(sizes, i) < |snap|
    ensures var s := SwapRecords(ids, m, listed, snap[Slot(sizes, i)].bib, m[snap[order[i]].id].bib);
            s.result.Pass? ==>
              (forall k | 0 <= k < |snap| :: snap[k].id in s.records) &&
              AllHeld(snap, s.records) && Placed(snap, order, sizes, s.records, i + 1)
  {
    var slot := Slot(sizes, i);
    var x := snap[order[i]].id;
    var newBib, oldBib := snap[slot].bib, m[x].bib;
    var s := SwapRecords(ids, m, listed, newBib, oldBib);
    if s.result.Pass? {
      if newBib == oldBib {
        SwapSameBib(ids, m, listed, newBib);
      } else {
        var l := HolderInClass(snap, m, slot);
        HeldIsSome(snap, m, order[i]);
        SwapExchanges(ids, m, listed, newBib, oldBib, snap[l].id, x);
        HeldAfterExchange(snap, m, s.records, order[i], l);
        PlacedAfterExchange(ids, s0, snap, order, sizes, m, s.records, i, l);
      }
    }
  }

  /** The dealing loop of perform_seeding: rank i is given the bib at slot
      Slot(i) of the class list by swapping it with the rank's current bib,
      re-read from the store each time. */
  method DealBibs(store: ContestantStore, listed: set<int>, snap: seq<Contestant>, order: seq<nat>,
                  seps: seq<nat>, ghost sizes: seq<nat>)
    returns (info: string, r: Outcome<SeedError>)
    requires store.Valid() && SnapshotOf(store.records, snap)
    requires forall j | 0 <= j < |order| :: order[j] < |snap|
    requires Distinct(order)
    requires |seps| == |sizes| && forall h | 0 <= h < |seps| :: seps[h] == NatSum(sizes[..h + 1])
    modifies store
    ensures store.Valid() && store.ids == old(store.ids)
    ensures Framed(old(store.records), snap, store.records)
    ensures r == Fail(ZeroDivision) <==> |order| > 0 && |sizes| == 0
    ensures r.Fail? && r.error.IndexError? ==> r.error.slot >= |snap|
    ensures r.Pass? && |order| > 0 && (forall k | 0 <= k < |snap| :: snap[k].bib.Some?) && Fits(sizes, |order|) ==>
              |sizes| > 0 &&
              forall i | 0 <= i < |order| ::
                Slot(sizes, i) < |snap| && store.records[snap[order[i]].id].bib == snap[Slot(sizes, i)].bib
  {
    ghost var s0 := store.records;
    var H := |seps|;
    ghost var hyp := |order| > 0 && (forall k | 0 <= k < |snap| :: snap[k].bib.Some?) && Fits(sizes, |order|);
    assert HeldBibs(snap, s0) == StartBibs(snap);
    info := "";
    r := Pass;
    var i := 0;
    while i < |order|
      invariant 0 <= i <= |order|
      invariant store.Valid() && store.ids == old(store.ids)
      invariant Framed(s0, snap, store.records)
      invariant i > 0 ==> H > 0
      invariant hyp ==> AllHeld(snap, store.records) && Placed(snap, order, sizes, store.records, i)
    {
      if H == 0 {
        r := Fail(ZeroDivision);
        return;
      }
      var heat := i % H;
      var position := i / H;
      var slot := if heat == 0 then position else seps[heat - 1] + position;
      assert slot == Slot(sizes, i) by {
        assert sizes[..0] == [];
      }
      if slot >= |snap| {
        r := Fail(IndexError(slot));
        return;
      }
      var newBib := snap[slot].bib;
      var x := snap[order[i]].id;
      var latest := store.Get(x);
      var oldBib := latest.value.bib;
      ghost var m := store.records;
      MemberAt(snap, order[i]);
      FramedStep(store.ids, s0, snap, m, listed, slot, x);
      if hyp {
        PlacedStep(store.ids, s0, snap, order, sizes, m, listed, i);
      }
      var msg, res := SwapBibs(store, listed, newBib, oldBib);
      if res.Fail? {
        r := Fail(Refused(res.error));
        return;
      }
      info := info + msg;
      i := i + 1;
    }
  }

  /** perform_seeding for one class: rank the seeded members of the class
      list by seeding points and deal them the bibs of the class list so
      that rank i starts in heat i mod H, H being the number of Q heats. */
  method SeedClass(store: ContestantStore, listed: set<int>, ageclasses: seq<string>, races: seq<Race>)
    returns (info: string, r: Outcome<SeedError>)
    requires store.Valid()
    modifies store
    ensures store.Valid() && store.ids == old(store.ids)
    ensures Framed(old(store.records), old(store.Members(ageclasses)), store.records)
    ensures var order := SeedingOrder(old(store.Members(ageclasses)));
            r == Fail(ZeroDivision) <==> |order| > 0 && |QSizes(races)| == 0
    ensures r.Fail? && r.error.IndexError? ==> r.error.slot >= |old(store.Members(ageclasses))|
    ensures var snap := old(store.Members(ageclasses));
            var order := SeedingOrder(snap);
            var sizes := QSizes(races);
            r.Pass? && |order| > 0 && (forall k | 0 <= k < |snap| :: snap[k].bib.Some?) && Fits(sizes, |order|) ==>
              |sizes| > 0 &&
              forall i | 0 <= i < |order| ::
                Slot(sizes, i) < |snap| && store.records[snap[order[i]].id].bib == snap[Slot(sizes, i)].bib
  {
    var snap := store.Members(ageclasses);
    var order := SeedingOrder(snap);
    var seps := HeatSeparators(races);
    assert SnapshotOf(store.records, snap);
    info, r := DealBibs(store, listed, snap, order, seps, QSizes(races));
  }
}

=== FILE: raceclasses.dfy ===
/** The raceclass page's rules: merging the selected race classes into one
    (merge_ageclasses) and saving one edited class (update_one). */
module Raceclasses {
  import opened Common
  import opened Classes

  // ---------------------------------------------------------------------
  // merge_ageclasses

  /** Form keys that select a class to merge; the value is the class id. */
  const SelectPrefix := "ageclass_"

  const NoMergeText := "Slå sammen klasser - ingen endringer utført"

  datatype MergeError =
    | NoSuchClass(id: string)   // get_raceclass finds no class with this id
    | MissingName               // KeyError on "new_raceclass_name"

  /** Field i selects a class: an ageclass_ key, seen once as in dict(form). */
  predicate Selects(form: Form, i: nat)
    requires i < |form|
  {
    StartsWith(form[i].0, SelectPrefix) && FirstOfKey(form, i)
  }

  /** The ids the first k form fields select, in form order. */
  function PickedIds(form: Form, k: nat): (ids: seq<string>)
    requires k <= |form|
    ensures |ids| <= k
  {
    if k == 0 then []
    else PickedIds(form, k - 1) + if Selects(form, k - 1) then [form[k - 1].1] else []
  }

  /** The keys of those selecting fields, in the same order. */
  function PickedKeys(form: Form, k: nat): (keys: seq<string>)
    requires k <= |form|
  {
    if k == 0 then []
    else PickedKeys(form, k - 1) + if Selects(form, k - 1) then [form[k - 1].0] else []
  }

  /** The picked ids are those of dict(form): each ageclass_ key among the
      first k fields is picked exactly once, and its id is form[key], the
      first value posted under it. */
  lemma {:induction false} PickedFromDict(form: Form, k: nat)
    requires k <= |form|
    ensures |PickedKeys(form, k)| == |PickedIds(form, k)|
    ensures Distinct(PickedKeys(form, k))
    ensures forall j | 0 <= j < |PickedIds(form, k)| ::
              StartsWith(PickedKeys(form, k)[j], SelectPrefix) &&
              FormValue(form, PickedKeys(form, k)[j]) == Some(PickedIds(form, k)[j])
    ensures forall j | 0 <= j < |PickedKeys(form, k)| :: exists i | 0 <= i < k :: form[i].0 == PickedKeys(form, k)[j]
    ensures forall i | 0 <= i < k && StartsWith(form[i].0, SelectPrefix) :: form[i].0 in PickedKeys(form, k)
  {
    if k > 0 {
      PickedFromDict(form, k - 1);
      var keys, ids := PickedKeys(form, k - 1), PickedIds(form, k - 1);
      if Selects(form, k - 1) {
        FirstOfKeyValue(form, k - 1);
        assert PickedKeys(form, k) == keys + [form[k - 1].0];
        assert PickedIds(form, k) == ids + [form[k - 1].1];
        forall j | 0 <= j < |keys| ensures keys[j] != form[k - 1].0 {
          var i :| 0 <= i < k - 1 && form[i].0 == keys[j];
        }
      } else if StartsWith(form[k - 1].0, SelectPrefix) {
        var i :| 0 <= i < k - 1 && form[i].0 == form[k - 1].0;
        assert form[i].0 in keys;
      }
    }
  }

  predicate Known(classes: seq<Raceclass>, id: string) {
    exists i | 0 <= i < |classes| :: classes[i].id == id
  }

  /** What fetching the selected classes gives: their records, or the first
      id that names no class. */
  datatype Fetch = Fetched(records: seq<Raceclass>) | Missing(id: string)

  /** The classes the first k form fields fetch, in form order. */
  function Collect(classes: seq<Raceclass>, form: Form, k: nat): Fetch
    requires k <= |form|
  {
    if k == 0 then Fetched([])
    else match Collect(classes, form, k - 1)
      case Missing(id) => Missing(id)
      case Fetched(rs) =>
        if !Selects(form, k - 1) then Fetched(rs)
        else match IndexOfId(classes, form[k - 1].1)
          case None => Missing(form[k - 1].1)
          case Some(i) => Fetched(rs + [classes[i]])
  }

  /** The selected classes are all fetched exactly when every selected id is
      known, one record per id in form order; otherwise the fetch names a
      selected id that is not known. */
  lemma {:induction false} CollectFetches(classes: seq<Raceclass>, form: Form, k: nat)
    requires k <= |form|
    ensures Collect(classes, form, k).Fetched? <==>
              forall j | 0 <= j < |PickedIds(form, k)| :: Known(classes, PickedIds(form, k)[j])
    ensures Collect(classes, form, k).Fetched? ==>
              |Collect(classes, form, k).records| == |PickedIds(form, k)| &&
              forall j | 0 <= j < |PickedIds(form, k)| ::
                Collect(classes, form, k).records[j] in classes &&
                Collect(classes, form, k).records[j].id == PickedIds(form, k)[j]
    ensures Collect(classes, form, k).Missing? ==>
              Collect(classes, form, k).id in PickedIds(form, k) && !Known(classes, Collect(classes, form, k).id)
  {
    if k > 0 {
      CollectFetches(classes, form, k - 1);
      var ids := PickedIds(form, k - 1);
      assert forall j | 0 <= j < |ids| :: PickedIds(form, k)[j] == ids[j];
      if Collect(classes, form, k - 1).Fetched? && Selects(form, k - 1) {
        assert PickedIds(form, k)[|ids|] == form[k - 1].1;
      }
    }
  }

  /** Once a selected id names no class, the rest of the form changes nothing. */
  lemma {:induction false} CollectStaysMissing(classes: seq<Raceclass>, form: Form, i: nat, k: nat)
    requires i <= k <= |form| && Collect(classes, form, i).Missing?
    ensures Collect(classes, form, k) == Collect(classes, form, i)
    decreases k
  {
    if k > i {
      CollectStaysMissing(classes, form, i, k - 1);
      assert Collect(classes, form, k - 1).Missing?;
    }
  }

  /** The sum of the classes' contestant counts. */
  function Total(cs: seq<Raceclass>): int {
    if cs == [] then 0 else Total(cs[..|cs| - 1]) + cs[|cs| - 1].noOfContestants
  }

  /** The classes' age classes, one list after the other. */
  function AllAgeclasses(cs: seq<Raceclass>): seq<string> {
    if cs == [] then [] else AllAgeclasses(cs[..|cs| - 1]) + cs[|cs| - 1].ageclasses
  }

  /** Counts add up and age classes concatenate over consecutive selections,
      so the merge follows form order. */
  lemma {:induction false} MergeFieldsAppend(a: seq<Raceclass>, b: seq<Raceclass>)
    ensures Total(a + b) == Total(a) + Total(b)
    ensures AllAgeclasses(a + b) == AllAgeclasses(a) + AllAgeclasses(b)
    decreases |b|
  {
    if b != [] {
      var b' := b[..|b| - 1];
      assert (a + b)[..|a + b| - 1] == a + b';
      assert (a + b)[|a + b| - 1] == b[|b| - 1];
      MergeFieldsAppend(a, b');
    } else {
      assert a + b == a;
    }
  }

  /** An age class is in the merged list exactly when one of the classes has it. */
  lemma {:induction false} AgeclassesGathered(cs: seq<Raceclass>, ageclass: string)
    ensures ageclass in AllAgeclasses(cs) <==> exists j | 0 <= j < |cs| :: ageclass in cs[j].ageclasses
  {
    if cs != [] {
      var front := cs[..|cs| - 1];
      AgeclassesGathered(front, ageclass);
      assert forall j | 0 <= j < |front| :: front[j] == cs[j];
    }
  }

  /** The surviving class: the first selected class's id, distance, group,
      order and ranking, under the new name without spaces, not seeded,
      holding every selected age class and contestant. */
  function Merged(cs: seq<Raceclass>, name: string): (rc: Raceclass)
    requires cs != []
    ensures rc.id == cs[0].id && ' ' !in rc.name
    ensures rc.ageclasses == AllAgeclasses(cs) && rc.noOfContestants == Total(cs)
  {
    ReplaceDeletesChar(name, ' ', "");
    cs[0].(name := Replace(name, " ", ""), seeding := false, ageclasses := AllAgeclasses(cs),
           noOfContestants := Total(cs))
  }

  /** The records left once each of rs's ids is deleted in turn. */
  function WithoutAll(cs: seq<Raceclass>, rs: seq<Raceclass>): seq<Raceclass> {
    if rs == [] then cs else WithoutId(WithoutAll(cs, rs[..|rs| - 1]), rs[|rs| - 1].id)
  }

  /** A record survives the deletions exactly when none of rs has its id. */
  lemma {:induction false} WithoutAllKeeps(cs: seq<Raceclass>, rs: seq<Raceclass>, c: Raceclass)
    ensures c in WithoutAll(cs, rs) <==> c in cs && forall j | 0 <= j < |rs| :: c.id != rs[j].id
  {
    if rs != [] {
      var front := rs[..|rs| - 1];
      var id := rs[|rs| - 1].id;
      WithoutAllKeeps(cs, front, c);
      WithoutIdHolds(WithoutAll(cs, front), id, c);
      assert forall j | 0 <= j < |front| :: front[j] == rs[j];
      assert (forall j | 0 <= j < |rs| :: c.id != rs[j].id) <==>
             (forall j | 0 <= j < |front| :: c.id != front[j].id) && c.id != id;
    }
  }

  /** The store after the merge: the first class rewritten, the others deleted. */
  function AfterMerge(classes: seq<Raceclass>, cs: seq<Raceclass>, name: string): seq<Raceclass>
    requires cs != []
  {
    WithoutAll(WithRecord(classes, Merged(cs, name)), cs[1..])
  }

  /** What the merge leaves: the merged class, no other selected class, and
      every class not selected untouched; nothing else appears. */
  lemma MergeOutcome(classes: seq<Raceclass>, cs: seq<Raceclass>, name: string)
    requires DistinctIds(cs) && |cs| > 1
    requires forall j | 0 <= j < |cs| :: cs[j] in classes
    ensures Merged(cs, name) in AfterMerge(classes, cs, name)
    ensures forall c | c in AfterMerge(classes, cs, name) :: forall j | 1 <= j < |cs| :: c.id != cs[j].id
    ensures forall c | c in classes && (forall j | 0 <= j < |cs| :: c.id != cs[j].id) ::
              c in AfterMerge(classes, cs, name)
    ensures forall c | c in AfterMerge(classes, cs, name) :: c == Merged(cs, name) || c in classes
  {
    var m := Merged(cs, name);
    var updated := WithRecord(classes, m);
    var rest := cs[1..];
    assert forall j | 0 <= j < |rest| :: rest[j] == cs[j + 1];
    assert AfterMerge(classes, cs, name) == WithoutAll(updated, rest);
    assert cs[0] in classes;
    WithRecordHolds(classes, m, m);
    WithoutAllKeeps(updated, rest, m);
    forall c | c in AfterMerge(classes, cs, name)
      ensures (forall j | 1 <= j < |cs| :: c.id != cs[j].id) && (c == m || c in classes)
    {
      WithoutAllKeeps(updated, rest, c);
      WithRecordHolds(classes, m, c);
    }
    forall c | c in classes && (forall j | 0 <= j < |cs| :: c.id != cs[j].id)
      ensures c in AfterMerge(classes, cs, name)
    {
      WithRecordHolds(classes, m, c);
      WithoutAllKeeps(updated, rest, c);
    }
  }

  /** Python's repr of a list of strings without quotes or backslashes. */
  function ListRepr(xs: seq<string>): string {
    "[" + Items(xs) + "]"
  }

  function Items(xs: seq<string>): string {
    if xs == [] then ""
    else if |xs| == 1 then "'" + xs[0] + "'"
    else "'" + xs[0] + "', " + Items(xs[1..])
  }

  function MergedText(ageclasses: seq<string>): string {
    "Slått sammen klasser " + ListRepr(ageclasses) + ". Husk å sette rekkefølge på nytt."
  }

  /** One more form field: a field that selects nothing fetches nothing, a
      selected known id adds its class, and a selected unknown id is what
      the whole form fetches. */
  lemma CollectNext(classes: seq<Raceclass>, form: Form, i: nat, olds: seq<Raceclass>)
    requires i < |form| && Collect(classes, form, i) == Fetched(olds)
    ensures !Selects(form, i) ==> Collect(classes, form, i + 1) == Fetched(olds)
    ensures Selects(form, i) && IndexOfId(classes, form[i].1).None? ==>
              Collect(classes, form, |form|) == Missing(form[i].1)
    ensures Selects(form, i) && IndexOfId(classes, form[i].1).Some? ==>
              Collect(classes, form, i + 1) == Fetched(olds + [classes[IndexOfId(classes, form[i].1).value]])
  {
    if Selects(form, i) && IndexOfId(classes, form[i].1).None? {
      CollectStaysMissing(classes, form, i + 1, |form|);
    }
  }

  /** The fetch loop of merge_ageclasses: get_raceclass for each selected
      id in turn, summing the contestant counts and gathering the age
      classes; the first unknown id stops it. */
  method FetchSelected(store: RaceclassStore, form: Form) returns (f: Fetch, count: int, merged: seq<string>)
    requires store.Valid()
    ensures f == Collect(store.classes, form, |form|)
    ensures f.Fetched? ==> count == Total(f.records) && merged == AllAgeclasses(f.records)
  {
    var olds: seq<Raceclass> := [];
    count, merged := 0, [];
    for i := 0 to |form|
      invariant Collect(store.classes, form, i) == Fetched(olds)
      invariant count == Total(olds) && merged == AllAgeclasses(olds)
    {
      CollectNext(store.classes, form, i, olds);
      if Selects(form, i) {
        var klasse := store.Get(form[i].1);
        ghost var at := IndexOfId(store.classes, form[i].1);
        if klasse.None? {
          assert at.None?;
          return Missing(form[i].1), count, merged;
        }
        assert at.Some? && klasse.value == store.classes[at.value];
        assert (olds + [klasse.value])[..|olds|] == olds;
        count := count + klasse.value.noOfContestants;
        merged := merged + klasse.value.ageclasses;
        olds := olds + [klasse.value];
      }
    }
    f := Fetched(olds);
  }

  /** merge_ageclasses on dict(form): fetch the selected classes in the
      order their keys first appear, each key once; when more than one was
      selected, rewrite the first as the merged class and delete the others;
      otherwise write nothing. */
  method MergeAgeclasses(store: RaceclassStore, form: Form) returns (r: Outcome<MergeError>, informasjon: string)
    requires store.Valid()
    modifies store
    ensures store.Valid()
    ensures var f := Collect(old(store.classes), form, |form|);
            var name := FormValue(form, "new_raceclass_name");
            if f.Missing? then r == Fail(NoSuchClass(f.id)) && store.classes == old(store.classes)
            else if name.None? then r == Fail(MissingName) && store.classes == old(store.classes)
            else if |f.records| <= 1 then r == Pass && informasjon == NoMergeText && store.classes == old(store.classes)
            else r == Pass && informasjon == MergedText(AllAgeclasses(f.records)) &&
                 store.classes == AfterMerge(old(store.classes), f.records, name.value)
  {
    informasjon := "";
    var f, count, merged := FetchSelected(store, form);
    if f.Missing? {
      return Fail(NoSuchClass(f.id)), informasjon;
    }
    var olds := f.records;
    var name := FormValue(form, "new_raceclass_name");
    if name.None? {
      return Fail(MissingName), informasjon;
    }
    if |olds| > 1 {
      var newName := Replace(name.value, " ", "");
      var surviving := olds[0].(name := newName, seeding := false, ageclasses := merged, noOfContestants := count);
      CollectFetches(store.classes, form, |form|);
      assert surviving == Merged(olds, name.value) && olds[0] in store.classes;
      var _ := store.Update(surviving);
      DeleteRemaining(store, olds);
      informasjon := MergedText(merged);
    } else {
      informasjon := NoMergeText;
    }
    r := Pass;
  }

  /** The delete loop of merge_ageclasses: every selected class but the first
      is deleted in turn; a refused delete is only logged. */
  method DeleteRemaining(store: RaceclassStore, olds: seq<Raceclass>)
    requires store.Valid() && olds != []
    modifies store
    ensures store.Valid()
    ensures store.classes == WithoutAll(old(store.classes), olds[1..])
  {
    ghost var start := store.classes;
    var rest := olds[1..];
    for j := 0 to |rest|
      invariant store.Valid()
      invariant store.classes == WithoutAll(start, rest[..j])
    {
      ghost var before := store.classes;
      var res := store.Delete(rest[j].id);
      if res.Fail? {
        WithoutAbsentId(before, rest[j].id);
      }
      assert rest[..j + 1][..j] == rest[..j];
    }
    assert rest[..|rest|] == rest;
  }

  // ---------------------------------------------------------------------
  // update_one

  datatype FormError =
    | MissingKey(key: string)   // KeyError
    | NotAnInt(text: string)    // ValueError from int()
    | NotALiteral(text: string) // ast.literal_eval refused the age classes

  datatype Edited = Edited(rc: Raceclass) | Refused(error: FormError)

  /** A form value read with int(). */
  datatype Number = Number(value: int) | Bad(error: FormError)

  function FormInt(form: Form, key: string): (n: Number)
    ensures n.Number? <==> FormValue(form, key).Some? && ParseInt(FormValue(form, key).value).Some?
    ensures n.Number? ==> Some(n.value) == ParseInt(FormValue(form, key).value)
  {
    match FormValue(form, key)
    case None => Bad(MissingKey(key))
    case Some(text) =>
      match ParseInt(text)
      case None => Bad(NotAnInt(text))
      case Some(v) => Number(v)
  }

  /** The class record update_one builds from the form, in the order it
      reads the fields; `literal` stands for ast.literal_eval on the age
      class list. */
  function ClassFromForm(form: Form, literal: string -> Option<seq<string>>): (e: Edited)
    ensures e.Edited? ==> (e.rc.ranking <==> FormValue(form, "ranking") == Some("on"))
    ensures e.Edited? ==> !e.rc.seeding && e.rc.order.Some?
    ensures e.Edited? <==>
              FormValue(form, "id").Some? && FormValue(form, "ageclasses").Some? &&
              literal(FormValue(form, "ageclasses").value).Some? &&
              FormValue(form, "name").Some? && FormValue(form, "distance").Some? &&
              FormInt(form, "group").Number? && FormInt(form, "order").Number? &&
              FormInt(form, "no_of_contestants").Number?
    ensures e.Edited? ==> e.rc.id == FormValue(form, "id").value && e.rc.name == FormValue(form, "name").value &&
                          e.rc.ageclasses == literal(FormValue(form, "ageclasses").value).value
  {
    if FormValue(form, "id").None? then Refused(MissingKey("id"))
    else if FormValue(form, "ageclasses").None? then Refused(MissingKey("ageclasses"))
    else
      var text := FormValue(form, "ageclasses").value;
      if literal(text).None? then Refused(NotALiteral(text))
      else if FormValue(form, "name").None? then Refused(MissingKey("name"))
      else if FormValue(form, "distance").None? then Refused(MissingKey("distance"))
      else match (FormInt(form, "group"), FormInt(form, "order"), FormInt(form, "no_of_contestants"))
        case (Bad(err), _, _) => Refused(err)
        case (_, Bad(err), _) => Refused(err)
        case (_, _, Bad(err)) => Refused(err)
        case (Number(group), Number(order), Number(count)) =>
          Edited(Raceclass(
            FormValue(form, "id").value, FormValue(form, "name").value, FormValue(form, "distance").value,
            group, Some(order), FormValue(form, "ranking") == Some("on"), false, literal(text).value, count))
  }

  datatype UpdateError = BadForm(formError: FormError) | StoreRefused(storeError: ClassError)

  /** update_one: the edited class replaces the stored one with its id; a
      form that cannot be read changes nothing. */
  method UpdateOne(store: RaceclassStore, form: Form, literal: string -> Option<seq<string>>)
    returns (r: Outcome<UpdateError>)
    requires store.Valid()
    modifies store
    ensures store.Valid()
    ensures match ClassFromForm(form, literal)
            case Refused(err) => r == Fail(BadForm(err)) && store.classes == old(store.classes)
            case Edited(rc) =>
              if Known(old(store.classes), rc.id) then r == Pass && store.classes == WithRecord(old(store.classes), rc)
              else r == Fail(StoreRefused(ClassNotFound(rc.id))) && store.classes == old(store.classes)
  {
    var edited := ClassFromForm(form, literal);
    if edited.Refused? {
      return Fail(BadForm(edited.error));
    }
    var res := store.Update(edited.rc);
    if res.Fail? {
      return Fail(StoreRefused(res.error));
    }
    r := Pass;
  }
}

=== FILE: raceplans.dfy ===
/** The race plan page's two rules that change races: raising the rest time
    before a class's semifinal (or round 2) and final to a minimum, and saving a
    new maximum number of contestants on one race. Times and pauses are whole
    seconds; the race service is the RaceStore of module Races. */
module Raceplans {
  import opened Common
  import opened Races

  // ---------------------------------------------------------------------
  // set_min_rest_time

  /** One class's line of the race plan summary: the shortest pause its
      contestants get before the semifinal / round 2 and before the final.
      None is a pause the summary leaves empty. */
  datatype PauseSummary = PauseSummary(name: string, minPauseS: Option<int>, minPauseF: Option<int>)

  /** The two checkpoints of a class: before the semifinal / round 2, and
      before the final. */
  datatype Gate = Semi | Final

  function PauseAt(c: PauseSummary, g: Gate): Option<int> {
    if g == Semi then c.minPauseS else c.minPauseF
  }

  /** The time adjustment a gate calls for: the shortfall of the pause below
      the limit. An empty pause and a pause of zero length are both skipped. */
  function Adjustment(pause: Option<int>, limit: int): (d: Option<int>)
    ensures d.Some? ==> pause.Some? && 0 < d.value && pause.value + d.value == limit
    ensures pause.Some? && pause.value != 0 && pause.value < limit ==> d.Some?
    ensures pause == Some(0) ==> d.None?
  {
    if pause.Some? && pause.value != 0 && pause.value < limit then Some(limit - pause.value) else None
  }

  /** A round and heat whose round followed by its heat reads "S1" or "R21":
      semifinal heat 1, round 2 heat 1, and also a round "R" with heat 21
      (see SemiHeatFormatted). */
  predicate IsSemiHeat(round: string, heat: int) {
    (heat == 1 && (round == "S" || round == "R2")) || (round == "R" && heat == 21)
  }

  /** The race a gate moves: one of the class, in the semifinal / round 2
      first heat (semifinal gate) or with round "F" (final gate). */
  predicate IsTarget(r: Race, name: string, g: Gate) {
    r.raceclass == name &&
    match g
    case Semi => IsSemiHeat(r.round, r.heat)
    case Final => r.round == "F"
  }

  /** The semifinal test is the source's test on the formatted round and heat. */
  lemma SemiHeatFormatted(round: string, heat: int)
    ensures (round + IntToString(heat) == "S1" || round + IntToString(heat) == "R21") <==> IsSemiHeat(round, heat)
  {
    var t := IntToString(heat);
    IntToStringChars(heat);
    var u := round + t;
    assert u[..|round|] == round && u[|round|..] == t;
    if u == "S1" {
      assert u[0] == 'S';
      assert round == u[..1] && t == u[1..];
      IntToStringReads(heat);
    } else if u == "R21" {
      assert u[0] == 'R';
      assert round == u[..|round|] && t == u[|round|..];
      IntToStringReads(heat);
    }
    if IsSemiHeat(round, heat) {
      assert IntToString(1) == "1";
      assert IntToString(21) == "21" by {
        assert NatToString(21) == NatToString(2) + [DigitChar(1)];
      }
    }
  }

  /** str() of a whole number has only digits and a leading minus. */
  lemma IntToStringChars(i: int)
    ensures forall k | 0 <= k < |IntToString(i)| :: IsDigit(IntToString(i)[k]) || IntToString(i)[k] == '-'
  {
    if i < 0 {
      var r := IntToString(i);
      assert r == "-" + NatToString(-i);
      forall k | 0 <= k < |r| ensures IsDigit(r[k]) || r[k] == '-' {
        if k > 0 {
          assert r[k] == NatToString(-i)[k - 1];
        }
      }
    }
  }

  /** str(i) reads "1" only for 1, and "21" only for 21. */
  lemma IntToStringReads(i: int)
    ensures IntToString(i) == "1" ==> i == 1
    ensures IntToString(i) == "21" ==> i == 21
  {
    if i >= 0 {
      ParseNatToString(i);
      assert ParseNat("1") == 1;
      assert ParseNat("21") == 21 by {
        assert "21"[..1] == "2";
      }
    }
  }

  /** The first race in the plan that a gate targets. */
  function FirstTarget(races: seq<Race>, name: string, g: Gate): (ix: Option<nat>)
    ensures ix.Some? ==> ix.value < |races| && IsTarget(races[ix.value], name, g)
    ensures ix.Some? ==> forall j | 0 <= j < ix.value :: !IsTarget(races[j], name, g)
    ensures ix.None? ==> forall j | 0 <= j < |races| :: !IsTarget(races[j], name, g)
  {
    if races == [] then None
    else if IsTarget(races[0], name, g) then Some(0)
    else match FirstTarget(races[1..], name, g)
      case None => None
      case Some(k) => Some(k + 1)
  }

  /** The plan with every start time blanked out. */
  function Untimed(races: seq<Race>): seq<Race> {
    seq(|races|, i requires 0 <= i < |races| => races[i].(startTime := Clock(0, 0)))
  }

  /** Two plans that differ at most in start times. */
  predicate SameButTimes(a: seq<Race>, b: seq<Race>) {
    Untimed(a) == Untimed(b)
  }

  /** What update_start_time does to the plan: the first race with this order
      moves to the given time of day on its own date. */
  function Retimed(races: seq<Race>, order: int, timeOfDay: int): (r: seq<Race>)
    ensures SameButTimes(races, r)
  {
    var r :=
      match IndexOfOrder(races, order)
      case None => races
      case Some(k) => races[k := races[k].(startTime := races[k].startTime.(second := timeOfDay))];
    assert forall i | 0 <= i < |races| :: Untimed(races)[i] == Untimed(r)[i];
    r
  }

  /** The plan after race i was sent its start plus d, as a time of day. */
  function Moved(races: seq<Race>, i: nat, d: int): seq<Race>
    requires i < |races|
  {
    Retimed(races, races[i].order, TimeOfDayAfter(races[i].startTime, d))
  }

  /** One gate of one class: the plan after it and the orders it sent to
      update_start_time. */
  function GateRun(races: seq<Race>, c: PauseSummary, g: Gate, limit: int): (r: (seq<Race>, seq<int>))
    ensures |r.1| <= 1 && |r.0| == |races|
    ensures r.1 == [] ==> r.0 == races
    ensures SameButTimes(races, r.0)
  {
    var d := Adjustment(PauseAt(c, g), limit);
    var ix := FirstTarget(races, c.name, g);
    if d.None? || ix.None? then (races, [])
    else (Moved(races, ix.value, d.value), [races[ix.value].order])
  }

  /** Both gates of one class; the final gate works on the plan as the
      semifinal gate left it. */
  function ClassRun(races: seq<Race>, c: PauseSummary, limit: int): (r: (seq<Race>, seq<int>))
    ensures |r.1| <= 2 && |r.0| == |races|
    ensures SameButTimes(races, r.0)
  {
    var s := GateRun(races, c, Semi, limit);
    var f := GateRun(s.0, c, Final, limit);
    (f.0, s.1 + f.1)
  }

  /** The first k classes of the summary, in summary order. */
  function RunUpTo(summary: seq<PauseSummary>, k: nat, races: seq<Race>, limit: int): (r: (seq<Race>, seq<int>))
    requires k <= |summary|
    ensures |r.1| <= 2 * k && |r.0| == |races|
    ensures SameButTimes(races, r.0)
  {
    if k == 0 then (races, [])
    else
      var p := RunUpTo(summary, k - 1, races, limit);
      var c := ClassRun(p.0, summary[k - 1], limit);
      (c.0, p.1 + c.1)
  }

  /** The acknowledgments of the updates, in the order they were sent. */
  function Acks(orders: seq<int>): string {
    if orders == [] then "" else Acks(orders[..|orders| - 1]) + StartTimeAck
  }

  function RestTimeText(orders: seq<int>): string {
    if Acks(orders) == "" then "Ingen endringer." else Acks(orders)
  }

  /** One gate of one class against the store: find the first target race and
      send it its new time, or do nothing when the pause is long enough, empty
      or zero, or when the class has no such race. */
  method AdjustGate(store: RaceStore, c: PauseSummary, g: Gate, limit: int) returns (ack: string, ghost sent: seq<int>)
    requires store.Valid()
    modifies store
    ensures store.Valid() && store.nextEntryId == old(store.nextEntryId)
    ensures (store.races, sent) == GateRun(old(store.races), c, g, limit)
    ensures ack == Acks(sent)
  {
    var d := Adjustment(PauseAt(c, g), limit);
    if d.None? {
      return "", [];
    }
    var races := store.races;
    var i := 0;
    while i < |races|
      invariant i <= |races|
      invariant forall j | 0 <= j < i :: !IsTarget(races[j], c.name, g)
    {
      if IsTarget(races[i], c.name, g) {
        assert FirstTarget(races, c.name, g) == Some(i);
        var r;
        ack, r := store.UpdateStartTime(races[i].order, TimeOfDayAfter(races[i].startTime, d.value));
        sent := [races[i].order];
        assert Acks(sent) == Acks([]) + StartTimeAck;
        return;
      }
      i := i + 1;
    }
    return "", [];
  }

  /** Both gates of one class against the store, the final gate after the
      plan has been read again. */
  method AdjustClass(store: RaceStore, c: PauseSummary, limit: int) returns (ack: string, ghost sent: seq<int>)
    requires store.Valid()
    modifies store
    ensures store.Valid() && store.nextEntryId == old(store.nextEntryId)
    ensures (store.races, sent) == ClassRun(old(store.races), c, limit)
    ensures ack == Acks(sent)
  {
    var ackS, ackF;
    ghost var sentS, sentF;
    ackS, sentS := AdjustGate(store, c, Semi, limit);
    ackF, sentF := AdjustGate(store, c, Final, limit);
    AcksAppend(sentS, sentF);
    ack, sent := ackS + ackF, sentS + sentF;
  }

  /** set_min_rest_time: every class of the summary, in order, through both
      gates against the plan as it stands after the previous updates. The
      summary itself is the one read before the first update. */
  method SetMinRestTime(store: RaceStore, summary: seq<PauseSummary>, minRestTime: int)
    returns (informasjon: string, ghost sent: seq<int>)
    requires store.Valid()
    modifies store
    ensures store.Valid() && store.nextEntryId == old(store.nextEntryId)
    ensures (store.races, sent) == RunUpTo(summary, |summary|, old(store.races), minRestTime * 60)
    ensures informasjon == RestTimeText(sent)
  {
    var limit := minRestTime * 60;
    ghost var races0 := store.races;
    informasjon := "";
    sent := [];
    for i := 0 to |summary|
      invariant store.Valid() && store.nextEntryId == old(store.nextEntryId)
      invariant (store.races, sent) == RunUpTo(summary, i, races0, limit)
      invariant informasjon == Acks(sent)
    {
      var ack;
      ghost var sentC;
      ack, sentC := AdjustClass(store, summary[i], limit);
      AcksAppend(sent, sentC);
      sent, informasjon := sent + sentC, informasjon + ack;
    }
    if informasjon == "" {
      informasjon := "Ingen endringer.";
    }
  }

  /** The acknowledgments of two runs of updates, one after the other. */
  lemma {:induction false} AcksAppend(a: seq<int>, b: seq<int>)
    ensures Acks(a + b) == Acks(a) + Acks(b)
  {
    if b == [] {
      assert a + b == a;
    } else {
      var b' := b[..|b| - 1];
      AcksAppend(a, b');
      assert (a + b)[..|a + b| - 1] == a + b';
    }
  }

  // ---------------------------------------------------------------------
  // Properties

  /** Each update adds a non-empty acknowledgment, so the text is "Ingen
      endringer." exactly when no update was sent. */
  lemma {:induction false} RestTimeTextNoChange(sent: seq<int>)
    ensures RestTimeText(sent) == "Ingen endringer." <==> sent == []
    ensures sent != [] ==> RestTimeText(sent) == Acks(sent)
  {
    AcksShape(sent);
  }

  lemma {:induction false} AcksShape(sent: seq<int>)
    ensures sent == [] <==> Acks(sent) == ""
    ensures sent != [] ==> Acks(sent)[0] == 'O'
  {
    if sent != [] {
      AcksShape(sent[..|sent| - 1]);
    }
  }

  /** Which race a gate targets does not depend on start times: the final
      gate finds the same final race after the semifinal shift. */
  lemma TargetIgnoresTimes(a: seq<Race>, b: seq<Race>, name: string, g: Gate)
    requires SameButTimes(a, b)
    ensures FirstTarget(a, name, g) == FirstTarget(b, name, g)
  {
    assert |a| == |Untimed(a)| == |Untimed(b)| == |b|;
    forall j | 0 <= j < |a| ensures IsTarget(a[j], name, g) == IsTarget(b[j], name, g) {
      assert Untimed(a)[j] == Untimed(b)[j];
    }
  }

  /** A gate sends an update exactly when its pause is filled, not zero and
      below the limit, and the class has a race the gate targets. */
  lemma GateActsIff(races: seq<Race>, c: PauseSummary, g: Gate, limit: int)
    ensures GateRun(races, c, g, limit).1 != [] <==>
              PauseAt(c, g).Some? && PauseAt(c, g).value != 0 && PauseAt(c, g).value < limit &&
              exists j | 0 <= j < |races| :: IsTarget(races[j], c.name, g)
  {
    var ix := FirstTarget(races, c.name, g);
    if ix.Some? {
      assert IsTarget(races[ix.value], c.name, g);
    }
  }

  /** An acting gate moves exactly its target race, later by the limit minus
      the pause, when the target's order leads back to it (as it does when
      orders are distinct, see OrderFindsRace) and the shift stays within the
      day. */
  lemma ShiftLands(races: seq<Race>, c: PauseSummary, g: Gate, limit: int, i: nat)
    requires FirstTarget(races, c.name, g) == Some(i)
    requires IndexOfOrder(races, races[i].order) == Some(i)
    requires Adjustment(PauseAt(c, g), limit).Some?
    requires 0 <= races[i].startTime.second
    requires races[i].startTime.second + (limit - PauseAt(c, g).value) < SecondsPerDay
    ensures GateRun(races, c, g, limit).1 == [races[i].order]
    ensures GateRun(races, c, g, limit).0 ==
            races[i := races[i].(startTime := races[i].startTime.(second := races[i].startTime.second + (limit - PauseAt(c, g).value)))]
  {
    var d := limit - PauseAt(c, g).value;
    assert Adjustment(PauseAt(c, g), limit) == Some(d);
    GateRunAt(races, c, g, limit, i, d);
  }

  lemma GateRunAt(races: seq<Race>, c: PauseSummary, g: Gate, limit: int, i: nat, d: int)
    requires FirstTarget(races, c.name, g) == Some(i)
    requires Adjustment(PauseAt(c, g), limit) == Some(d)
    ensures i < |races|
    ensures GateRun(races, c, g, limit) == (Moved(races, i, d), [races[i].order])
  {
  }

  /** With distinct orders, a race's own order finds that race. */
  lemma OrderFindsRace(races: seq<Race>, i: nat)
    requires i < |races|
    requires forall j, k | 0 <= j < k < |races| :: races[j].order != races[k].order
    ensures IndexOfOrder(races, races[i].order) == Some(i)
  {
  }

  /** A shift past midnight lands on the same date, earlier in the day: the
      time of day is all update_start_time is sent. */
  lemma ShiftWrapsAtMidnight(c: Clock, d: int)
    requires 0 <= c.second < SecondsPerDay && 0 <= d < SecondsPerDay
    requires SecondsPerDay <= c.second + d
    ensures TimeOfDayAfter(c, d) == c.second + d - SecondsPerDay
    ensures TimeOfDayAfter(c, d) < c.second
  {
    var x := c.second + d;
    assert x / SecondsPerDay == 1;
  }

  // ---------------------------------------------------------------------
  // Raceplans.post, update_one

  /** The race with the form's max field applied: a filled field replaces the
      maximum, an empty one leaves the race as it is. */
  function WithMax(race: Race, newMax: Option<int>): (r: Race)
    ensures r.(maxNoOfContestants := race.maxNoOfContestants) == race
    ensures newMax.None? ==> r == race
    ensures newMax.Some? ==> r.maxNoOfContestants == newMax.value
  {
    if newMax.Some? then race.(maxNoOfContestants := newMax.value) else race
  }

  /** Why update_one raises: the form has no maximum field (KeyError), or
      the race service cannot read the text sent as the maximum. */
  datatype UpdateOneError = MissingField(key: string) | UnreadableMax(text: string)

  const MaxField := "new_max_no_of_contestants"

  /** update_one: the first race with the form's id is saved back, with the
      form's maximum field applied when that text is non-empty (truthy); the
      page reports the race's order. `field` is the form's text, None when
      the form lacks it, which raises KeyError once the race is found. A
      non-empty text is sent as it is; the race service stores int() of it
      and refuses a text int() cannot read. With no such race nothing is
      saved and both texts stay empty. The race service's reply that the
      page shows inside the text is given as `reply`. */
  method UpdateOne(store: RaceStore, raceId: string, field: Option<string>, reply: string)
    returns (informasjon: string, action: string, r: Outcome<UpdateOneError>)
    requires store.Valid()
    modifies store
    ensures store.Valid() && store.nextEntryId == old(store.nextEntryId)
    ensures IndexOfRace(old(store.races), raceId).None? ==>
              store.races == old(store.races) && informasjon == "" && action == "" && r.Pass?
    ensures IndexOfRace(old(store.races), raceId).Some? && field.None? ==>
              r == Fail(MissingField(MaxField)) && store.races == old(store.races) && informasjon == "" && action == ""
    ensures IndexOfRace(old(store.races), raceId).Some? && field.Some? && field.value != [] &&
            ParseInt(field.value).None? ==>
              r == Fail(UnreadableMax(field.value)) && store.races == old(store.races) &&
              informasjon == "" && action == ""
    ensures IndexOfRace(old(store.races), raceId).Some? && field.Some? &&
            (field.value == [] || ParseInt(field.value).Some?) ==>
              var k := IndexOfRace(old(store.races), raceId).value;
              var newMax := if field.value == [] then None else ParseInt(field.value);
              r.Pass? &&
              store.races == old(store.races)[k := WithMax(old(store.races)[k], newMax)] &&
              informasjon == "Race er oppdatert(" + reply + ") - race nr " + IntToString(old(store.races)[k].order) &&
              action == "edit_mode"
  {
    informasjon, action, r := "", "", Pass;
    var races := store.races;
    var i := 0;
    while i < |races|
      invariant i <= |races|
      invariant forall j | 0 <= j < i :: races[j].id != raceId
    {
      if races[i].id == raceId {
        if field.None? {
          return "", "", Fail(MissingField(MaxField));
        }
        var newMax: Option<int> := None;
        if field.value != [] {
          newMax := ParseInt(field.value);
          if newMax.None? {
            return "", "", Fail(UnreadableMax(field.value));
          }
        }
        var race := WithMax(races[i], newMax);
        assert EntriesValid(races[i].id, races[i].startEntries, store.nextEntryId);
        assert IndexOfRace(races, raceId) == Some(i) by {
          assert forall j | 0 <= j < |races| && j != i :: races[j].id != races[i].id;
        }
        var u := store.UpdateRace(race);
        informasjon := "Race er oppdatert(" + reply + ") - race nr " + IntToString(race.order);
        action := "edit_mode";
        return;
      }
      i := i + 1;
    }
  }
}

=== FILE: races.dfy ===
/** The races of one event with their start entries, as the race service keeps
    them. Within a race the start entries are kept in starting-position order,
    positions are unique, and every entry has an id the service handed out. */
module Races {
  import opened Common

  /** One contestant's slot in one race. The slot is (startlistId, raceId,
      startingPosition, scheduledStartTime); the identity in it is (bib, name, club). */
  datatype StartEntry = StartEntry(
    id: nat,
    startlistId: string,
    raceId: string,
    bib: int,
    startingPosition: int,
    scheduledStartTime: int,
    name: string,
    club: string)

  /** A start time: the date as a day number and the time of day in seconds
      after midnight. */
  datatype Clock = Clock(day: int, second: int)

  /** A heat. `order` is the race's place in the event's global running order. */
  datatype Race = Race(
    id: string,
    raceclass: string,
    round: string,
    index: string,
    heat: int,
    order: int,
    startTime: Clock,
    noOfContestants: nat,
    maxNoOfContestants: int,
    startEntries: seq<StartEntry>)

  const SecondsPerDay := 86400

  // ---------------------------------------------------------------------
  // Start entries kept in starting-position order

  predicate SortedByPosition(es: seq<StartEntry>) {
    forall i, j | 0 <= i < j < |es| :: es[i].startingPosition < es[j].startingPosition
  }

  predicate EntriesValid(raceId: string, es: seq<StartEntry>, nextId: nat) {
    SortedByPosition(es) &&
    (forall i, j | 0 <= i < j < |es| :: es[i].id != es[j].id) &&
    (forall i | 0 <= i < |es| :: es[i].id < nextId && es[i].raceId == raceId)
  }

  function PositionTaken(es: seq<StartEntry>, pos: int): (b: bool)
    ensures b <==> exists i | 0 <= i < |es| :: es[i].startingPosition == pos
  {
    if es == [] then false
    else es[0].startingPosition == pos || PositionTaken(es[1..], pos)
  }

  /** Where the race service files a new entry: after every entry whose
      starting position is not later than the new one's. */
  function InsertionPoint(es: seq<StartEntry>, e: StartEntry): (k: nat)
    ensures k <= |es|
    ensures forall i | 0 <= i < k :: es[i].startingPosition <= e.startingPosition
    ensures k < |es| ==> e.startingPosition < es[k].startingPosition
  {
    if es == [] || e.startingPosition < es[0].startingPosition then 0
    else 1 + InsertionPoint(es[1..], e)
  }

  function InsertByPosition(es: seq<StartEntry>, e: StartEntry): (r: seq<StartEntry>)
    ensures |r| == |es| + 1
    ensures multiset(r) == multiset(es) + multiset{e}
  {
    var k := InsertionPoint(es, e);
    assert es == es[..k] + es[k..];
    es[..k] + [e] + es[k..]
  }

  lemma InsertedAt(es: seq<StartEntry>, e: StartEntry, i: nat)
    requires i <= |es|
    ensures var k := InsertionPoint(es, e);
            InsertByPosition(es, e)[i] == if i < k then es[i] else if i == k then e else es[i - 1]
  {
  }

  /** A fresh entry at a free position keeps the entries valid. */
  lemma InsertKeepsValid(raceId: string, es: seq<StartEntry>, e: StartEntry, nextId: nat)
    requires EntriesValid(raceId, es, nextId)
    requires !PositionTaken(es, e.startingPosition)
    requires e.id == nextId && e.raceId == raceId
    ensures EntriesValid(raceId, InsertByPosition(es, e), nextId + 1)
  {
    var k := InsertionPoint(es, e);
    var r := InsertByPosition(es, e);
    forall i, j | 0 <= i < j < |r|
      ensures r[i].startingPosition < r[j].startingPosition && r[i].id != r[j].id
    {
      InsertedAt(es, e, i);
      InsertedAt(es, e, j);
      if i < k && j != k {
        assert es[i].startingPosition != e.startingPosition;
      } else if i < k {
        assert es[i].startingPosition != e.startingPosition;
      }
    }
    forall i | 0 <= i < |r| ensures r[i].id < nextId + 1 && r[i].raceId == raceId {
      InsertedAt(es, e, i);
    }
  }

  /** Inserting between two runs puts the entry exactly between them. */
  lemma {:induction false} InsertBetween(a: seq<StartEntry>, b: seq<StartEntry>, e: StartEntry)
    requires forall i | 0 <= i < |a| :: a[i].startingPosition < e.startingPosition
    requires b != [] ==> e.startingPosition < b[0].startingPosition
    ensures InsertByPosition(a + b, e) == a + [e] + b
  {
    InsertionPointOf(a, b, e);
    var k := |a|;
    assert (a + b)[..k] == a && (a + b)[k..] == b;
  }

  lemma {:induction false} InsertionPointOf(a: seq<StartEntry>, b: seq<StartEntry>, e: StartEntry)
    requires forall i | 0 <= i < |a| :: a[i].startingPosition < e.startingPosition
    requires b != [] ==> e.startingPosition < b[0].startingPosition
    ensures InsertionPoint(a + b, e) == |a|
  {
    if a != [] {
      assert (a + b)[0] == a[0];
      assert (a + b)[1..] == a[1..] + b;
      InsertionPointOf(a[1..], b, e);
    } else {
      assert a + b == b;
    }
  }

  function EntryIndex(es: seq<StartEntry>, id: nat): (r: Option<nat>)
    ensures r.Some? ==> r.value < |es| && es[r.value].id == id
    ensures r.None? ==> forall i | 0 <= i < |es| :: es[i].id != id
  {
    if es == [] then None
    else if es[0].id == id then Some(0)
    else match EntryIndex(es[1..], id)
      case None => None
      case Some(k) => Some(k + 1)
  }

  /** The entries without the one with this id (ids are unique). */
  function WithoutEntry(es: seq<StartEntry>, id: nat): (r: seq<StartEntry>)
    ensures EntryIndex(es, id).None? ==> r == es
    ensures EntryIndex(es, id).Some? ==> |r| == |es| - 1
    ensures EntryIndex(es, id).Some? ==>
              forall i | 0 <= i < |r| :: r[i] == if i < EntryIndex(es, id).value then es[i] else es[i + 1]
  {
    match EntryIndex(es, id)
    case None => es
    case Some(k) => es[..k] + es[k + 1..]
  }

  /** Deleting the entry at index k and filing a new entry with the same
      starting position puts the new entry at index k: delete-then-create
      replaces the entry in its slot. */
  lemma DeleteThenInsertReplaces(es: seq<StartEntry>, k: nat, e: StartEntry)
    requires k < |es|
    requires SortedByPosition(es)
    requires forall i, j | 0 <= i < j < |es| :: es[i].id != es[j].id
    requires e.startingPosition == es[k].startingPosition
    ensures InsertByPosition(WithoutEntry(es, es[k].id), e) == es[k := e]
  {
    assert EntryIndex(es, es[k].id) == Some(k);
    var before, after := es[..k], es[k + 1..];
    forall i | 0 <= i < |before| ensures before[i].startingPosition < e.startingPosition {
      assert before[i] == es[i];
    }
    if after != [] {
      assert after[0] == es[k + 1];
    }
    InsertBetween(before, after, e);
    var joined := before + [e] + after;
    assert |joined| == |es|;
    forall i | 0 <= i < |es| ensures joined[i] == es[k := e][i] {
      if i < k {
        assert joined[i] == before[i];
      } else if i > k {
        assert joined[i] == after[i - k - 1];
      }
    }
    assert joined == es[k := e];
  }

  // ---------------------------------------------------------------------
  // Race lists

  function IndexOfRace(races: seq<Race>, id: string): (r: Option<nat>)
    ensures r.Some? ==> r.value < |races| && races[r.value].id == id
    ensures r.None? ==> forall i | 0 <= i < |races| :: races[i].id != id
  {
    if races == [] then None
    else if races[0].id == id then Some(0)
    else match IndexOfRace(races[1..], id)
      case None => None
      case Some(k) => Some(k + 1)
  }

  function IndexOfOrder(races: seq<Race>, order: int): (r: Option<nat>)
    ensures r.Some? ==> r.value < |races| && races[r.value].order == order
    ensures r.None? ==> forall i | 0 <= i < |races| :: races[i].order != order
  {
    if races == [] then None
    else if races[0].order == order then Some(0)
    else match IndexOfOrder(races[1..], order)
      case None => None
      case Some(k) => Some(k + 1)
  }

  /** get_races_by_racesclass: the class's races in the service's order. */
  function OfClass(races: seq<Race>, raceclass: string): (r: seq<Race>)
    ensures forall i | 0 <= i < |r| :: r[i].raceclass == raceclass && r[i] in races
    ensures |r| <= |races|
  {
    if races == [] then []
    else if races[0].raceclass == raceclass then [races[0]] + OfClass(races[1..], raceclass)
    else OfClass(races[1..], raceclass)
  }

  /** The time of day d seconds after c, as strftime('%X') shows it. */
  function TimeOfDayAfter(c: Clock, d: int): (s: int)
    ensures 0 <= s < SecondsPerDay
  {
    (c.second + d) % SecondsPerDay
  }

  /** A start time as one count of seconds, the form a start entry's
      scheduled time takes. */
  function Instant(c: Clock): int {
    c.day * SecondsPerDay + c.second
  }

  function TwoDigits(n: nat): (r: string)
    requires n < 100
    ensures |r| == 2 && IsNumeric(r)
  {
    [DigitChar(n / 10), DigitChar(n % 10)]
  }

  /** The last eight characters of a start time as the race service writes
      it: the time of day as HH:MM:SS. */
  function ClockText(c: Clock): (r: string)
    ensures |r| == 8 && r[2] == ':' && r[5] == ':'
  {
    var s := TimeOfDayAfter(c, 0);
    TwoDigits(s / 3600) + ":" + TwoDigits(s % 3600 / 60) + ":" + TwoDigits(s % 60)
  }

  /** The same races, blind to their start entries. */
  function Skeleton(races: seq<Race>): seq<Race> {
    seq(|races|, i requires 0 <= i < |races| => races[i].(startEntries := []))
  }

  /** The acknowledgment update_start_time hands back. The race service's own
      wording is not part of this model; only that it is never empty is
      relied on. */
  const StartTimeAck: string := "Oppdatert starttid. "

  datatype RaceError = RaceNotFound | EntryNotFound | PositionInUse | OrderNotFound

  class RaceStore {
    var races: seq<Race>
    var nextEntryId: nat

    ghost predicate Valid()
      reads this
    {
      (forall i, j | 0 <= i < j < |races| :: races[i].id != races[j].id) &&
      (forall i {:trigger EntriesValid(races[i].id, races[i].startEntries, nextEntryId)} | 0 <= i < |races| ::
         EntriesValid(races[i].id, races[i].startEntries, nextEntryId))
    }

    constructor (rs: seq<Race>, nextId: nat)
      requires forall i, j | 0 <= i < j < |rs| :: rs[i].id != rs[j].id
      requires forall i | 0 <= i < |rs| :: EntriesValid(rs[i].id, rs[i].startEntries, nextId)
      ensures Valid() && races == rs && nextEntryId == nextId
    {
      races := rs;
      nextEntryId := nextId;
    }

    /** get_race_by_id. */
    function Get(id: string): (r: Option<Race>)
      reads this
      ensures r.Some? ==> r.value in races && r.value.id == id
      ensures r.None? ==> forall i | 0 <= i < |races| :: races[i].id != id
    {
      match IndexOfRace(races, id)
      case None => None
      case Some(i) => Some(races[i])
    }

    /** delete_start_entry: the entry with this id leaves the race. */
    method DeleteStartEntry(raceId: string, entryId: nat) returns (r: Outcome<RaceError>)
      requires Valid()
      modifies this
      ensures Valid() && nextEntryId == old(nextEntryId)
      ensures Skeleton(races) == Skeleton(old(races))
      ensures r.Fail? ==> races == old(races)
      ensures r.Pass? <==>
        exists i | 0 <= i < |old(races)| ::
          old(races)[i].id == raceId &&
          exists k | 0 <= k < |old(races)[i].startEntries| :: old(races)[i].startEntries[k].id == entryId
      ensures r.Pass? ==> forall i | 0 <= i < |races| ::
                races[i] == (if old(races)[i].id == raceId
                             then old(races)[i].(startEntries := WithoutEntry(old(races)[i].startEntries, entryId))
                             else old(races)[i])
    {
      var ix := IndexOfRace(races, raceId);
      if ix.None? {
        return Fail(RaceNotFound);
      }
      var i := ix.value;
      var es := races[i].startEntries;
      var found := EntryIndex(es, entryId);
      if found.None? {
        return Fail(EntryNotFound);
      }
      var kept := WithoutEntry(es, entryId);
      DropKeepsValid(raceId, es, found.value, nextEntryId);
      races := races[i := races[i].(startEntries := kept)];
      r := Pass;
      assert Skeleton(races) == Skeleton(old(races));
    }

    /** create_start_entry: the service gives the entry a fresh id and files it
        in its race by starting position; a taken position is refused. */
    method CreateStartEntry(e: StartEntry) returns (r: Outcome<RaceError>)
      requires Valid()
      modifies this
      ensures Valid()
      ensures Skeleton(races) == Skeleton(old(races))
      ensures r.Fail? ==> races == old(races) && nextEntryId == old(nextEntryId)
      ensures r.Pass? <==>
        exists i | 0 <= i < |old(races)| ::
          old(races)[i].id == e.raceId && !PositionTaken(old(races)[i].startEntries, e.startingPosition)
      ensures r.Pass? ==> nextEntryId == old(nextEntryId) + 1
      ensures r.Pass? ==> forall i | 0 <= i < |races| ::
                  races[i] == (if old(races)[i].id == e.raceId
                               then old(races)[i].(startEntries :=
                                      InsertByPosition(old(races)[i].startEntries, e.(id := old(nextEntryId))))
                               else old(races)[i])
    {
      var ix := IndexOfRace(races, e.raceId);
      if ix.None? {
        return Fail(RaceNotFound);
      }
      var i := ix.value;
      var es := races[i].startEntries;
      if PositionTaken(es, e.startingPosition) {
        return Fail(PositionInUse);
      }
      var filed := e.(id := nextEntryId);
      var es' := InsertByPosition(es, filed);
      InsertKeepsValid(e.raceId, es, filed, nextEntryId);
      races := races[i := races[i].(startEntries := es')];
      nextEntryId := nextEntryId + 1;
      forall j | 0 <= j < |races| ensures EntriesValid(races[j].id, races[j].startEntries, nextEntryId) {
        if j != i {
          assert EntriesValid(races[j].id, races[j].startEntries, nextEntryId - 1);
        }
      }
      r := Pass;
      assert Skeleton(races) == Skeleton(old(races));
    }

    /** update_start_time: the first race with this order moves to the given
        time of day on its own date. What else the race service may shift after
        it is not part of this model. */
    method UpdateStartTime(order: int, timeOfDay: int) returns (ack: string, r: Outcome<RaceError>)
      requires Valid()
      requires 0 <= timeOfDay < SecondsPerDay
      modifies this
      ensures Valid() && nextEntryId == old(nextEntryId)
      ensures r.Pass? <==> IndexOfOrder(old(races), order).Some?
      ensures r.Pass? ==> ack == StartTimeAck
      ensures r.Pass? ==>
                var k := IndexOfOrder(old(races), order).value;
                races == old(races)[k := old(races)[k].(startTime := old(races)[k].startTime.(second := timeOfDay))]
      ensures r.Fail? ==> races == old(races)
    {
      if IndexOfOrder(races, order).None? {
        return "", Fail(OrderNotFound);
      }
      var k := IndexOfOrder(races, order).value;
      races := races[k := races[k].(startTime := races[k].startTime.(second := timeOfDay))];
      ack := StartTimeAck;
      r := Pass;
    }

    /** update_race: the race with this id is replaced by the given record. */
    method UpdateRace(race: Race) returns (r: Outcome<RaceError>)
      requires Valid()
      requires EntriesValid(race.id, race.startEntries, nextEntryId)
      modifies this
      ensures Valid() && nextEntryId == old(nextEntryId)
      ensures r.Pass? <==> IndexOfRace(old(races), race.id).Some?
      ensures r.Fail? ==> races == old(races)
      ensures r.Pass? ==> races == old(races)[IndexOfRace(old(races), race.id).value := race]
    {
      var ix := IndexOfRace(races, race.id);
      if ix.None? {
        return Fail(RaceNotFound);
      }
      races := races[ix.value := race];
      r := Pass;
    }
  }

  /** Taking out one entry keeps the entries valid. */
  lemma DropKeepsValid(raceId: string, es: seq<StartEntry>, k: nat, nextId: nat)
    requires k < |es|
    requires EntriesValid(raceId, es, nextId)
    ensures EntriesValid(raceId, es[..k] + es[k + 1..], nextId)
  {
    var r := es[..k] + es[k + 1..];
    assert forall i | 0 <= i < |r| :: r[i] == if i < k then es[i] else es[i + 1];
  }
}

=== FILE: seeding.dfy ===
/** The actions of the seeding page: seeding one class or all of them
    (perform_seeding), storing edited seeding points (add_seeding_points) and
    moving bibs by hand (add_seeding_from_form). */
module Seeding {
  import opened Common
  import opened Races
  import opened ContestantsAdapter
  import opened HeatSeeding
  import Classes

  /** Only the bibs and nothing else of any contestant changed since s0. */
  ghost predicate OnlyBibsChanged(s0: map<string, Contestant>, m: map<string, Contestant>) {
    m.Keys == s0.Keys && forall id | id in s0 :: m[id] == s0[id].(bib := m[id].bib)
  }

  // ---------------------------------------------------------------------
  // perform_seeding

  const AllSeededText := " Alle klasser er seedet basert på innleste seeding poeng."

  /** The classes to seed: every class by name when none is chosen, otherwise
      just the chosen one. */
  function ClassNames(classes: seq<Classes.Raceclass>, chosen: string): (names: seq<string>)
    ensures chosen != "" ==> names == [chosen]
    ensures chosen == "" ==> |names| == |classes| && forall i | 0 <= i < |classes| :: names[i] == classes[i].name
  {
    if chosen == "" then seq(|classes|, i requires 0 <= i < |classes| => classes[i].name) else [chosen]
  }

  /** The age classes of the first class with this name; a name no class has
      selects no contestant. */
  function AgeclassesNamed(classes: seq<Classes.Raceclass>, name: string): (r: seq<string>)
    ensures (forall i | 0 <= i < |classes| :: classes[i].name != name) ==> r == []
    ensures classes != [] && classes[0].name == name ==> r == classes[0].ageclasses
  {
    if classes == [] then []
    else if classes[0].name == name then classes[0].ageclasses
    else AgeclassesNamed(classes[1..], name)
  }

  /** What seeding one class promises about the new state m, given the class
      list snap and the Q-heat sizes as they were before. */
  ghost predicate DealtAsSeeded(snap: seq<Contestant>, sizes: seq<nat>, m: map<string, Contestant>)
    requires forall k | 0 <= k < |snap| :: snap[k].id in m
  {
    var order := SeedingOrder(snap);
    |order| > 0 && (forall k | 0 <= k < |snap| :: snap[k].bib.Some?) && Fits(sizes, |order|) ==>
      |sizes| > 0 &&
      forall i | 0 <= i < |order| :: Slot(sizes, i) < |snap| && m[snap[order[i]].id].bib == snap[Slot(sizes, i)].bib
  }

  /** perform_seeding: seed each class in turn from the store as the previous
      class left it; after more than one class the collected messages are
      replaced by a summary line. A failing class stops the run. */
  method PerformSeeding(store: ContestantStore, listed: set<int>, classes: seq<Classes.Raceclass>,
                        races: seq<Race>, chosen: string)
    returns (info: string, r: Outcome<SeedError>)
    requires store.Valid()
    modifies store
    ensures store.Valid() && store.ids == old(store.ids)
    ensures OnlyBibsChanged(old(store.records), store.records)
    ensures r.Pass? && |ClassNames(classes, chosen)| > 1 ==> info == AllSeededText
    ensures chosen != "" ==>
              var snap := old(store.Members(AgeclassesNamed(classes, chosen)));
              var sizes := QSizes(OfClass(races, chosen));
              Framed(old(store.records), snap, store.records) &&
              (r == Fail(ZeroDivision) <==> |SeedingOrder(snap)| > 0 && |sizes| == 0) &&
              (r.Pass? ==> DealtAsSeeded(snap, sizes, store.records))
  {
    ghost var s0 := store.records;
    ghost var snap0 := store.Members(AgeclassesNamed(classes, chosen));
    var names := ClassNames(classes, chosen);
    info := "";
    r := Pass;
    var i := 0;
    while i < |names|
      invariant 0 <= i <= |names|
      invariant store.Valid() && store.ids == old(store.ids)
      invariant OnlyBibsChanged(s0, store.records)
      invariant i == 0 ==> store.records == s0
      invariant chosen != "" && i == 1 ==>
                  var sizes := QSizes(OfClass(races, chosen));
                  Framed(s0, snap0, store.records) &&
                  (r == Fail(ZeroDivision) <==> |SeedingOrder(snap0)| > 0 && |sizes| == 0) &&
                  (r.Pass? ==> DealtAsSeeded(snap0, sizes, store.records))
      invariant r.Pass?
    {
      var name := names[i];
      ghost var before := store.records;
      var msg, res := SeedClass(store, listed, AgeclassesNamed(classes, name), OfClass(races, name));
      r := res;
      if r.Fail? {
        return;
      }
      info := info + msg;
      i := i + 1;
    }
    if |names| > 1 {
      info := AllSeededText;
    }
  }

  // ---------------------------------------------------------------------
  // add_seeding_points

  const PointsInfoText := "Seeding poeng oppdatert: "
  const PointsKeyPrefix := "seeding_points_"

  /** A seeding-points value as compared: the text "None" counts as empty. */
  function NormalisedPoints(v: string): (r: string)
    ensures r == "" <==> v == "" || v == "None"
    ensures r != "" ==> r == v
  {
    if v == "None" then "" else v
  }

  /** The seeding points a form value stands for: its number when it is all
      digits, otherwise none. */
  function PointsOf(v: string): (p: Option<int>)
    ensures p.Some? <==> IsNumeric(v)
    ensures p.Some? ==> p.value >= 0
  {
    if IsNumeric(v) then Some(ParseNat(v)) else None
  }

  /** The field is a seeding_points_ field whose value differs from its old_
      twin, "None" and a missing twin both reading as empty. */
  predicate IsPointEdit(form: Form, field: (string, string)) {
    StartsWith(field.0, PointsKeyPrefix) &&
    NormalisedPoints(field.1) != NormalisedPoints(FormGet(form, "old_" + field.0, ""))
  }

  /** The contestant a seeding_points_ field is about. */
  function EditedId(field: (string, string)): string
    requires StartsWith(field.0, PointsKeyPrefix)
  {
    field.0[|PointsKeyPrefix|..]
  }

  /** An edit: the contestant to write and the points it gets. */
  type PointEdit = (string, Option<int>)

  /** The edit field k asks for, if any: a changed seeding_points_ field. */
  function FieldEdit(form: Form, k: nat): (r: Option<PointEdit>)
    requires k < |form|
    ensures r.Some? <==> IsPointEdit(form, form[k])
  {
    var field := form[k];
    if IsPointEdit(form, field) then Some((EditedId(field), PointsOf(NormalisedPoints(field.1)))) else None
  }

  /** "{first_name} {last_name}. " */
  function NameText(c: Contestant): string {
    c.firstName + " " + c.lastName + ". "
  }

  /** The message after the first k fields: the heading, then NameText of
      each stored contestant an edit is about, in form order. */
  function PointsInfo(s0: map<string, Contestant>, form: Form, k: nat): string
    requires k <= |form|
  {
    if k == 0 then PointsInfoText
    else
      PointsInfo(s0, form, k - 1) +
      match FieldEdit(form, k - 1)
      case Some(e) => if e.0 in s0 then NameText(s0[e.0]) else ""
      case None => ""
  }

  /** Only the seeding points and nothing else of any contestant changed since s0. */
  ghost predicate OnlyPointsChanged(s0: map<string, Contestant>, m: map<string, Contestant>) {
    m.Keys == s0.Keys && forall id | id in s0 :: m[id] == s0[id].(seedingPoints := m[id].seedingPoints)
  }

  /** Field f of the first k is no edit of contestant id. */
  predicate NotEditOf(form: Form, f: nat, id: string)
    requires f < |form|
  {
    FieldEdit(form, f).None? || FieldEdit(form, f).value.0 != id
  }

  /** The points contestant id holds after the first k fields: those of its
      last edit, or `current` when no edit is about it. */
  function LatestPoints(form: Form, k: nat, id: string, current: Option<int>): Option<int>
    requires k <= |form|
  {
    if k == 0 then current
    else if !NotEditOf(form, k - 1, id) then FieldEdit(form, k - 1).value.1
    else LatestPoints(form, k - 1, id, current)
  }

  /** The last edit of a contestant decides its points. */
  lemma {:induction false} LastEditWins(form: Form, j: nat, k: nat, current: Option<int>)
    requires j < k <= |form| && FieldEdit(form, j).Some?
    requires forall f | j < f < k :: NotEditOf(form, f, FieldEdit(form, j).value.0)
    ensures LatestPoints(form, k, FieldEdit(form, j).value.0, current) == FieldEdit(form, j).value.1
  {
    if j < k - 1 {
      LastEditWins(form, j, k - 1, current);
    }
  }

  /** A contestant no edit is about keeps its points. */
  lemma {:induction false} UneditedKeepsPoints(form: Form, k: nat, id: string, current: Option<int>)
    requires k <= |form|
    requires forall f | 0 <= f < k :: NotEditOf(form, f, id)
    ensures LatestPoints(form, k, id, current) == current
  {
    if k > 0 {
      UneditedKeepsPoints(form, k - 1, id, current);
    }
  }

  /** What the first k fields leave behind in m, starting from s0: each
      contestant holds the points of its last edit and is otherwise unchanged. */
  ghost predicate PointsWritten(form: Form, k: nat, s0: map<string, Contestant>, m: map<string, Contestant>)
    requires k <= |form|
  {
    m.Keys == s0.Keys &&
    forall id | id in s0 :: m[id] == s0[id].(seedingPoints := LatestPoints(form, k, id, s0[id].seedingPoints))
  }

  /** Storing field k's edit, or nothing for a field that is none, extends
      what the first k fields left behind to the first k + 1. */
  lemma PointsStep(form: Form, k: nat, s0: map<string, Contestant>, m: map<string, Contestant>,
                   m': map<string, Contestant>)
    requires k < |form| && PointsWritten(form, k, s0, m)
    requires FieldEdit(form, k).None? ==> m' == m
    requires FieldEdit(form, k).Some? ==>
               var e := FieldEdit(form, k).value;
               e.0 in m && m' == m[e.0 := m[e.0].(seedingPoints := e.1)]
    ensures PointsWritten(form, k + 1, s0, m')
  {
  }

  /** One write of add_seeding_points: contestant id gets the given points,
      unless it is unknown or its bib is in a start list. */
  method WritePoints(store: ContestantStore, listed: set<int>, id: string, points: Option<int>)
    returns (text: string, r: Outcome<StoreError>)
    requires store.Valid()
    modifies store
    ensures store.Valid() && store.ids == old(store.ids)
    ensures r.Pass? <==> id in old(store.records) &&
                         (old(store.records)[id].bib.None? || old(store.records)[id].bib.value !in listed)
    ensures r.Pass? ==> text == NameText(old(store.records)[id]) &&
                        store.records == old(store.records)[id := old(store.records)[id].(seedingPoints := points)]
    ensures r.Fail? ==> store.records == old(store.records)
  {
    var found := store.Get(id);
    if found.None? {
      text, r := "", Fail(NotFound(id));
      return;
    }
    text := NameText(found.value);
    r := store.Update(found.value.(seedingPoints := points), listed);
  }

  /** One field of add_seeding_points: a changed seeding_points_ field is
      written to its contestant; any other field writes nothing. */
  method ApplyPointsField(store: ContestantStore, listed: set<int>, form: Form, k: nat)
    returns (text: string, r: Outcome<StoreError>)
    requires store.Valid() && k < |form|
    modifies store
    ensures store.Valid() && store.ids == old(store.ids)
    ensures r.Fail? ==> FieldEdit(form, k).Some? && store.records == old(store.records)
    ensures r.Pass? ==>
              match FieldEdit(form, k)
              case None => store.records == old(store.records) && text == ""
              case Some(e) =>
                e.0 in old(store.records) && text == NameText(old(store.records)[e.0]) &&
                store.records == old(store.records)[e.0 := old(store.records)[e.0].(seedingPoints := e.1)]
  {
    var (key, value) := form[k];
    text, r := "", Pass;
    if StartsWith(key, PointsKeyPrefix) {
      var newPoints := NormalisedPoints(value);
      var oldPoints := NormalisedPoints(FormGet(form, "old_" + key, ""));
      if newPoints != oldPoints {
        var id := key[|PointsKeyPrefix|..];
        text, r := WritePoints(store, listed, id, PointsOf(newPoints));
      }
    }
  }

  /** add_seeding_points: every seeding_points_ field whose value changed is
      written to its contestant, as a number when it is all digits and as no
      points otherwise; untouched contestants keep their records, and the
      message names each contestant written. A refused write stops the run. */
  method AddSeedingPoints(store: ContestantStore, listed: set<int>, form: Form)
    returns (info: string, r: Outcome<StoreError>)
    requires store.Valid()
    modifies store
    ensures store.Valid() && store.ids == old(store.ids)
    ensures OnlyPointsChanged(old(store.records), store.records)
    ensures r.Pass? ==> info == PointsInfo(old(store.records), form, |form|)
    ensures r.Pass? ==> PointsWritten(form, |form|, old(store.records), store.records)
  {
    ghost var s0 := store.records;
    info := PointsInfoText;
    r := Pass;
    for i := 0 to |form|
      invariant store.Valid() && store.ids == old(store.ids)
      invariant OnlyPointsChanged(s0, store.records)
      invariant PointsWritten(form, i, s0, store.records)
      invariant info == PointsInfo(s0, form, i)
    {
      ghost var m := store.records;
      var text, res := ApplyPointsField(store, listed, form, i);
      if res.Fail? {
        r := res;
        return;
      }
      info := info + text;
      PointsStep(form, i, s0, m, store.records);
      if FieldEdit(form, i).Some? {
        assert NameText(m[FieldEdit(form, i).value.0]) == NameText(s0[FieldEdit(form, i).value.0]);
      }
    }
  }

  // ---------------------------------------------------------------------
  // add_seeding_from_form: moving bibs by hand

  const MovesInfoText := "Flyttet på løpere: "
  const MoveKeyPrefix := "bib_"

  /** A move: the contestant to get the bib, and the bib. */
  type BibMove = (string, nat)

  /** The move field k asks for, if any: a bib_ field whose value is a
      number. The value is read as form[key], the first value posted under
      the field's key, which a key posted twice makes differ from the
      field's own. */
  function FieldMove(form: Form, k: nat): (r: Option<BibMove>)
    requires k < |form|
    ensures FormValue(form, form[k].0).Some?
    ensures r.Some? <==> StartsWith(form[k].0, MoveKeyPrefix) && IsNumeric(FormValue(form, form[k].0).value)
    ensures r.Some? ==> r.value == (form[k].0[|MoveKeyPrefix|..], ParseNat(FormValue(form, form[k].0).value))
  {
    var key := form[k].0;
    var value := FormValue(form, key).value;
    if StartsWith(key, MoveKeyPrefix) && IsNumeric(value) then Some((key[|MoveKeyPrefix|..], ParseNat(value))) else None
  }

  /** "{bib} {last_name}. " */
  function MoveText(c: Contestant, bib: nat): string {
    NatToString(bib) + " " + c.lastName + ". "
  }

  /** The message after the first k fields: the heading, then MoveText of
      each move to a stored contestant, in form order. */
  function MovesInfo(s0: map<string, Contestant>, form: Form, k: nat): string
    requires k <= |form|
  {
    if k == 0 then MovesInfoText
    else
      MovesInfo(s0, form, k - 1) +
      match FieldMove(form, k - 1)
      case Some(mv) => if mv.0 in s0 then MoveText(s0[mv.0], mv.1) else ""
      case None => ""
  }

  lemma MovesInfoStep(s0: map<string, Contestant>, form: Form, k: nat, id: string, bib: nat)
    requires k < |form| && FieldMove(form, k) == Some((id, bib)) && id in s0
    ensures MovesInfo(s0, form, k + 1) == MovesInfo(s0, form, k) + MoveText(s0[id], bib)
  {
  }

  lemma MovesInfoSkip(s0: map<string, Contestant>, form: Form, k: nat)
    requires k < |form| && FieldMove(form, k).None?
    ensures MovesInfo(s0, form, k + 1) == MovesInfo(s0, form, k)
  {
  }

  /** The bib contestant id holds after the first k fields, starting from
      `current`: a move to id gives it the moved bib, and a move of the bib
      id holds to someone else leaves id without one. */
  function BibAfter(form: Form, k: nat, id: string, current: Option<int>): Option<int>
    requires k <= |form|
  {
    if k == 0 then current
    else
      var before := BibAfter(form, k - 1, id, current);
      match FieldMove(form, k - 1)
      case None => before
      case Some(mv) =>
        if mv.0 == id then Some(mv.1)
        else if before == Some(mv.1) then None
        else before
  }

  /** The last move to a contestant decides its bib unless a later move
      takes that bib to someone else. */
  lemma {:induction false} LastMoveWins(form: Form, j: nat, k: nat, current: Option<int>)
    requires j < k <= |form| && FieldMove(form, j).Some?
    requires forall f | j < f < k && FieldMove(form, f).Some? ::
               FieldMove(form, f).value.0 != FieldMove(form, j).value.0 &&
               FieldMove(form, f).value.1 != FieldMove(form, j).value.1
    ensures BibAfter(form, k, FieldMove(form, j).value.0, current) == Some(FieldMove(form, j).value.1)
  {
    if j < k - 1 {
      LastMoveWins(form, j, k - 1, current);
    }
  }

  /** Moves are one-way: a contestant no move is to either keeps its bib or
      loses it, and it only loses a bib some move handed on. */
  lemma {:induction false} OneWay(form: Form, k: nat, id: string, current: Option<int>)
    requires k <= |form|
    requires forall f | 0 <= f < k && FieldMove(form, f).Some? :: FieldMove(form, f).value.0 != id
    ensures BibAfter(form, k, id, current) == current || BibAfter(form, k, id, current).None?
    ensures BibAfter(form, k, id, current).None? && current.Some? ==>
              exists f | 0 <= f < k :: FieldMove(form, f).Some? && FieldMove(form, f).value.1 == current.value
  {
    if k > 0 {
      OneWay(form, k - 1, id, current);
      if BibAfter(form, k, id, current).None? && current.Some? && BibAfter(form, k - 1, id, current).Some? {
        assert FieldMove(form, k - 1).Some? && FieldMove(form, k - 1).value.1 == current.value;
      }
    }
  }

  /** What the first k fields leave behind in m, starting from s0: each
      contestant holds BibAfter and is otherwise unchanged. */
  ghost predicate MovesWritten(form: Form, k: nat, s0: map<string, Contestant>, m: map<string, Contestant>)
    requires k <= |form|
  {
    m.Keys == s0.Keys &&
    forall id | id in s0 :: m[id] == s0[id].(bib := BibAfter(form, k, id, s0[id].bib))
  }

  /** Moves change bibs and nothing else. */
  lemma MovesOnlyBibs(form: Form, k: nat, s0: map<string, Contestant>, m: map<string, Contestant>)
    requires k <= |form| && MovesWritten(form, k, s0, m)
    ensures OnlyBibsChanged(s0, m)
  {
  }

  /** The records after moving bib to contestant id: id holds it, its
      previous holder holds none, and nobody else changes. */
  ghost predicate MovedTo(m: map<string, Contestant>, id: string, bib: nat, m': map<string, Contestant>) {
    id in m && m'.Keys == m.Keys &&
    forall y | y in m ::
      m'[y] == (if y == id then m[y].(bib := Some(bib))
                else if m[y].bib == Some(bib) then m[y].(bib := None)
                else m[y])
  }

  /** Carrying out field k's move, or nothing for a field that is none,
      extends what the first k fields left behind to the first k + 1. */
  lemma MovesStep(form: Form, k: nat, s0: map<string, Contestant>, m: map<string, Contestant>,
                  m': map<string, Contestant>)
    requires k < |form| && MovesWritten(form, k, s0, m)
    requires FieldMove(form, k).None? ==> m' == m
    requires FieldMove(form, k).Some? ==> MovedTo(m, FieldMove(form, k).value.0, FieldMove(form, k).value.1, m')
    ensures MovesWritten(form, k + 1, s0, m')
  {
  }

  /** Some contestant holds the bib. */
  predicate Holds(m: map<string, Contestant>, bib: nat) {
    exists y | y in m :: m[y].bib == Some(bib)
  }

  /** The records after the bib's holder, if any, gave it up. */
  ghost predicate Cleared(m: map<string, Contestant>, bib: nat, m': map<string, Contestant>) {
    m'.Keys == m.Keys &&
    forall y | y in m :: m'[y] == (if m[y].bib == Some(bib) then m[y].(bib := None) else m[y])
  }

  /** Clearing a holder changes a bib and nothing else. */
  lemma ClearedOnlyBibs(s0: map<string, Contestant>, m: map<string, Contestant>, bib: nat, m': map<string, Contestant>)
    requires OnlyBibsChanged(s0, m) && Cleared(m, bib, m')
    ensures OnlyBibsChanged(s0, m')
  {
  }

  /** The first half of a move: the current holder of the bib, if any, is
      written back without a bib; refused when the bib is in a start list. */
  method ClearHolder(store: ContestantStore, listed: set<int>, bib: nat) returns (r: Outcome<StoreError>)
    requires store.Valid()
    modifies store
    ensures store.Valid() && store.ids == old(store.ids)
    ensures r.Pass? <==> (Holds(old(store.records), bib) ==> bib !in listed)
    ensures r.Pass? ==> Cleared(old(store.records), bib, store.records)
    ensures r.Fail? ==> store.records == old(store.records)
  {
    var holder := store.FindByBib(Some(bib));
    if holder.Some? {
      r := store.Update(holder.value.(bib := None), listed);
    } else {
      r := Pass;
    }
  }

  /** The second half of a move: contestant id, which nobody else's bib
      stands in the way of, is written back with the bib; refused for an
      unknown id or a stored bib in a start list. */
  method GiveBib(store: ContestantStore, listed: set<int>, id: string, bib: nat)
    returns (text: string, r: Outcome<StoreError>)
    requires store.Valid() && !Holds(store.records, bib)
    modifies store
    ensures store.Valid() && store.ids == old(store.ids)
    ensures r.Pass? <==> id in old(store.records) &&
                         (old(store.records)[id].bib.None? || old(store.records)[id].bib.value !in listed)
    ensures r.Pass? ==> text == MoveText(old(store.records)[id], bib) &&
                        store.records == old(store.records)[id := old(store.records)[id].(bib := Some(bib))]
    ensures r.Fail? ==> store.records == old(store.records)
  {
    text := "";
    var c := store.Get(id);
    if c.None? {
      r := Fail(NotFound(id));
      return;
    }
    text := MoveText(c.value, bib);
    r := store.Update(c.value.(bib := Some(bib)), listed);
  }

  /** Clearing the holder and then giving the bib to id is the move. */
  lemma ClearThenGive(m0: map<string, Contestant>, m1: map<string, Contestant>, id: string, bib: nat)
    requires Cleared(m0, bib, m1) && id in m0
    ensures !Holds(m1, bib)
    ensures MovedTo(m0, id, bib, m1[id := m1[id].(bib := Some(bib))])
    ensures m1[id].bib == (if m0[id].bib == Some(bib) then None else m0[id].bib)
  {
  }

  /** One move of add_seeding_from_form: the current holder of the bib, if
      any, is cleared first, then contestant id is given the bib. Either
      write is refused when the contestant's stored bib is in a start list;
      a refused second write leaves the first in place. */
  method MoveBib(store: ContestantStore, listed: set<int>, id: string, bib: nat)
    returns (text: string, r: Outcome<StoreError>)
    requires store.Valid()
    modifies store
    ensures store.Valid() && store.ids == old(store.ids)
    ensures r.Pass? <==> id in old(store.records) &&
                         (Holds(old(store.records), bib) ==> bib !in listed) &&
                         (old(store.records)[id].bib.None? || old(store.records)[id].bib.value !in listed)
    ensures r.Pass? ==> text == MoveText(old(store.records)[id], bib) &&
                        MovedTo(old(store.records), id, bib, store.records)
    ensures r.Fail? ==> store.records == old(store.records) || Cleared(old(store.records), bib, store.records)
  {
    ghost var m0 := store.records;
    text := "";
    r := ClearHolder(store, listed, bib);
    if r.Fail? {
      return;
    }
    ghost var m1 := store.records;
    if id in m0 {
      ClearThenGive(m0, m1, id, bib);
    } else {
      assert !Holds(m1, bib);
    }
    text, r := GiveBib(store, listed, id, bib);
  }

  /** add_seeding_from_form: every bib_ field whose value is a number moves
      that bib to the contestant the key names, in form order; the message
      lists each move. A refused write stops the run. */
  method AddSeedingFromForm(store: ContestantStore, listed: set<int>, form: Form)
    returns (info: string, r: Outcome<StoreError>)
    requires store.Valid()
    modifies store
    ensures store.Valid() && store.ids == old(store.ids)
    ensures OnlyBibsChanged(old(store.records), store.records)
    ensures r.Pass? ==> info == MovesInfo(old(store.records), form, |form|)
    ensures r.Pass? ==> MovesWritten(form, |form|, old(store.records), store.records)
  {
    ghost var s0 := store.records;
    info := MovesInfoText;
    r := Pass;
    for i := 0 to |form|
      invariant store.Valid() && store.ids == old(store.ids)
      invariant MovesWritten(form, i, s0, store.records)
      invariant info == MovesInfo(s0, form, i)
    {
      ghost var m := store.records;
      var key := form[i].0;
      var value := FormValue(form, key).value;
      if StartsWith(key, MoveKeyPrefix) && IsNumeric(value) {
        var id := key[|MoveKeyPrefix|..];
        var text, res := MoveBib(store, listed, id, ParseNat(value));
        if res.Fail? {
          MovesOnlyBibs(form, i, s0, m);
          if store.records != m {
            ClearedOnlyBibs(s0, m, ParseNat(value), store.records);
          }
          r := res;
          return;
        }
        assert text == MoveText(s0[id], ParseNat(value)) by {
          assert m[id].lastName == s0[id].lastName;
        }
        MovesInfoStep(s0, form, i, id, ParseNat(value));
        info := info + text;
      } else {
        MovesInfoSkip(s0, form, i);
      }
      MovesStep(form, i, s0, m, store.records);
    }
    MovesOnlyBibs(form, |form|, s0, store.records);
  }
}

=== FILE: settings.dfy ===
/** The global settings page: reading a sprint format's race configuration
    rows from the posted form (get_config_from_form) and the update branch of
    Settings.post. */
module Settings {
  import opened Common

  // ---------------------------------------------------------------------
  // get_config_from_form

  /** One race-configuration row. The three list fields are kept as the JSON
      texts json.loads would read, after the quote replacement. */
  datatype RaceConfig = RaceConfig(maxNoOfContestants: int, rounds: string, noOfHeats: string, fromTo: string)

  datatype SettingsError =
    | MissingKey(key: string)   // KeyError
    | NotAnInt(text: string)    // ValueError from int()

  datatype Read<T> = Got(value: T) | Raised(error: SettingsError)

  /** The form rows scanned are numbered 0 to 49. */
  const RowCount := 50

  /** The form key of one field of one row: f"{rank_type}_{tag}_{field}". */
  function Key(rankType: string, tag: string, field: string): string {
    rankType + "_" + tag + "_" + field
  }

  function MaxKey(rankType: string, tag: string): string {
    Key(rankType, tag, "max_no_of_contestants")
  }

  /** A list field as json.loads receives it: single quotes made double. */
  function JsonText(s: string): (r: string)
    ensures '\'' !in r
  {
    ReplaceDeletesChar(s, '\'', "\"");
    Replace(s, "'", "\"")
  }

  /** A row is read when its max is posted and not empty. */
  predicate Filled(form: Form, rankType: string, tag: string) {
    FormValue(form, MaxKey(rankType, tag)).Some? && FormValue(form, MaxKey(rankType, tag)).value != ""
  }

  /** One row, read in the order the source reads it: rounds, no_of_heats and
      from_to, then int() of the max. */
  function RowAt(form: Form, rankType: string, tag: string): (r: Read<RaceConfig>)
    requires Filled(form, rankType, tag)
    ensures r.Got? <==> FormValue(form, Key(rankType, tag, "rounds")).Some? &&
                        FormValue(form, Key(rankType, tag, "no_of_heats")).Some? &&
                        FormValue(form, Key(rankType, tag, "from_to")).Some? &&
                        ParseInt(FormValue(form, MaxKey(rankType, tag)).value).Some?
    ensures r.Got? ==> Some(r.value.maxNoOfContestants) == ParseInt(FormValue(form, MaxKey(rankType, tag)).value)
    ensures r.Got? ==> '\'' !in r.value.rounds && '\'' !in r.value.noOfHeats && '\'' !in r.value.fromTo
  {
    var rounds := FormValue(form, Key(rankType, tag, "rounds"));
    var heats := FormValue(form, Key(rankType, tag, "no_of_heats"));
    var fromTo := FormValue(form, Key(rankType, tag, "from_to"));
    var max := FormValue(form, MaxKey(rankType, tag)).value;
    if rounds.None? then Raised(MissingKey(Key(rankType, tag, "rounds")))
    else if heats.None? then Raised(MissingKey(Key(rankType, tag, "no_of_heats")))
    else if fromTo.None? then Raised(MissingKey(Key(rankType, tag, "from_to")))
    else match ParseInt(max)
      case None => Raised(NotAnInt(max))
      case Some(n) => Got(RaceConfig(n, JsonText(rounds.value), JsonText(heats.value), JsonText(fromTo.value)))
  }

  /** The rows of indices 0 to k - 1, or the first error raised. */
  function RowsUpTo(form: Form, rankType: string, k: nat): Read<seq<RaceConfig>>
    requires k <= RowCount
  {
    if k == 0 then Got([])
    else match RowsUpTo(form, rankType, k - 1)
      case Raised(e) => Raised(e)
      case Got(rows) =>
        var tag := NatToString(k - 1);
        if !Filled(form, rankType, tag) then Got(rows)
        else match RowAt(form, rankType, tag)
          case Raised(e) => Raised(e)
          case Got(row) => Got(rows + [row])
  }

  /** The indices below k whose row is read, in increasing order. */
  function FilledIndices(form: Form, rankType: string, k: nat): (ix: seq<nat>)
    ensures forall j | 0 <= j < |ix| :: ix[j] < k && Filled(form, rankType, NatToString(ix[j]))
    ensures forall j, l | 0 <= j < l < |ix| :: ix[j] < ix[l]
    ensures forall i | 0 <= i < k && Filled(form, rankType, NatToString(i)) :: i in ix
  {
    if k == 0 then []
    else FilledIndices(form, rankType, k - 1) + if Filled(form, rankType, NatToString(k - 1)) then [k - 1] else []
  }

  /** Rows keep index order: there is one row per filled index, and the
      j-th row read is the row of the j-th filled index. */
  lemma {:induction false} RowsFollowIndices(form: Form, rankType: string, k: nat, j: nat)
    requires k <= RowCount && RowsUpTo(form, rankType, k).Got?
    ensures |RowsUpTo(form, rankType, k).value| == |FilledIndices(form, rankType, k)|
    ensures j < |RowsUpTo(form, rankType, k).value| ==>
              RowAt(form, rankType, NatToString(FilledIndices(form, rankType, k)[j])) ==
              Got(RowsUpTo(form, rankType, k).value[j])
  {
    if k > 0 {
      RowsFollowIndices(form, rankType, k - 1, j);
      var rows := RowsUpTo(form, rankType, k - 1).value;
      var ix := FilledIndices(form, rankType, k - 1);
      var tag := NatToString(k - 1);
      if Filled(form, rankType, tag) {
        assert RowsUpTo(form, rankType, k).value == rows + [RowAt(form, rankType, tag).value];
        assert FilledIndices(form, rankType, k) == ix + [k - 1];
      } else {
        assert RowsUpTo(form, rankType, k).value == rows;
        assert FilledIndices(form, rankType, k) == ix;
      }
    }
  }

  /** Once a row raises, the later rows change nothing. */
  lemma {:induction false} RowsStayRaised(form: Form, rankType: string, i: nat, k: nat)
    requires i <= k <= RowCount && RowsUpTo(form, rankType, i).Raised?
    ensures RowsUpTo(form, rankType, k) == RowsUpTo(form, rankType, i)
    decreases k
  {
    if k > i {
      RowsStayRaised(form, rankType, i, k - 1);
    }
  }

  /** get_config_from_form: rows 0 to 49, then the "new" row, which is read
      only when its max is filled but whose max key must be posted. */
  function ConfigFromForm(form: Form, rankType: string): (r: Read<seq<RaceConfig>>)
    ensures r.Got? ==> RowsUpTo(form, rankType, RowCount).Got?
    ensures r.Got? && !Filled(form, rankType, "new") ==> r.value == RowsUpTo(form, rankType, RowCount).value
    ensures r.Got? && Filled(form, rankType, "new") ==>
              RowAt(form, rankType, "new").Got? &&
              r.value == RowsUpTo(form, rankType, RowCount).value + [RowAt(form, rankType, "new").value]
    ensures FormValue(form, MaxKey(rankType, "new")).None? ==> r.Raised?
  {
    match RowsUpTo(form, rankType, RowCount)
    case Raised(e) => Raised(e)
    case Got(rows) =>
      if FormValue(form, MaxKey(rankType, "new")).None? then Raised(MissingKey(MaxKey(rankType, "new")))
      else if !Filled(form, rankType, "new") then Got(rows)
      else match RowAt(form, rankType, "new")
        case Raised(e) => Raised(e)
        case Got(row) => Got(rows + [row])
  }

  /** The loop of get_config_from_form. */
  method GetConfigFromForm(form: Form, rankType: string) returns (r: Read<seq<RaceConfig>>)
    ensures r == ConfigFromForm(form, rankType)
  {
    var rows: seq<RaceConfig> := [];
    for i := 0 to RowCount
      invariant RowsUpTo(form, rankType, i) == Got(rows)
    {
      var tag := NatToString(i);
      var max := FormValue(form, MaxKey(rankType, tag));
      if max.Some? && max.value != "" {
        var row := RowAt(form, rankType, tag);
        if row.Raised? {
          RowsStayRaised(form, rankType, i + 1, RowCount);
          return Raised(row.error);
        }
        rows := rows + [row.value];
      }
    }
    var newMax := FormValue(form, MaxKey(rankType, "new"));
    if newMax.None? {
      return Raised(MissingKey(MaxKey(rankType, "new")));
    }
    if newMax.value != "" {
      var row := RowAt(form, rankType, "new");
      if row.Raised? {
        return Raised(row.error);
      }
      rows := rows + [row.value];
    }
    r := Got(rows);
  }

  // ---------------------------------------------------------------------
  // Settings.post, "update"

  /** A competition format as the update branch sends it. */
  datatype CompetitionFormat =
    | Sprint(id: string, name: string, startingOrder: string, startProcedure: string, datatypeName: string,
             timeBetweenGroups: string, timeBetweenRounds: string, timeBetweenHeats: string,
             maxInRaceclass: int, maxInRace: int, roundsRanked: string, roundsNonRanked: string,
             configRanked: seq<RaceConfig>, configNonRanked: seq<RaceConfig>)
    | Interval(id: string, name: string, startingOrder: string, startProcedure: string,
               timeBetweenGroups: string, intervals: string, maxInRaceclass: int, maxInRace: int,
               datatypeName: string)

  /** The form values under keys, read in order; the first missing key raises. */
  function Texts(form: Form, keys: seq<string>): (r: Read<seq<string>>)
    ensures r.Got? ==> |r.value| == |keys| &&
                       forall j | 0 <= j < |keys| :: FormValue(form, keys[j]) == Some(r.value[j])
    ensures r.Got? <==> forall j | 0 <= j < |keys| :: FormValue(form, keys[j]).Some?
  {
    if keys == [] then Got([])
    else match FormValue(form, keys[0])
      case None => Raised(MissingKey(keys[0]))
      case Some(v) =>
        match Texts(form, keys[1..])
        case Raised(e) => Raised(e)
        case Got(vs) =>
          assert forall j | 1 <= j < |keys| :: keys[j] == keys[1..][j - 1];
          Got([v] + vs)
  }

  function Int(form: Form, key: string): (r: Read<int>)
    ensures r.Got? ==> FormValue(form, key).Some? && ParseInt(FormValue(form, key).value) == Some(r.value)
  {
    match FormValue(form, key)
    case None => Raised(MissingKey(key))
    case Some(v) =>
      match ParseInt(v)
      case None => Raised(NotAnInt(v))
      case Some(n) => Got(n)
  }

  /** The request body the update branch builds, in the order it reads the form. */
  datatype Body = Body(format: CompetitionFormat) | BadForm(error: SettingsError) | NoBody

  const SprintKeys := ["rounds_ranked_classes", "rounds_non_ranked_classes", "id", "name", "starting_order",
                       "start_procedure", "datatype", "time_between_groups", "time_between_rounds",
                       "time_between_heats"]

  const IntervalKeys := ["id", "name", "starting_order", "start_procedure", "time_between_groups", "intervals"]

  function SprintBody(form: Form): (b: Body)
    ensures b.Body? <==> Texts(form, SprintKeys).Got? && Int(form, "max_no_of_contestants_in_raceclass").Got? &&
                         Int(form, "max_no_of_contestants_in_race").Got? &&
                         ConfigFromForm(form, "ranked").Got? && ConfigFromForm(form, "non_ranked").Got?
    ensures b.Body? ==> b.format.Sprint? && Some(b.format.id) == FormValue(form, "id") &&
                        Some(b.format.datatypeName) == FormValue(form, "datatype") &&
                        b.format.configRanked == ConfigFromForm(form, "ranked").value &&
                        b.format.configNonRanked == ConfigFromForm(form, "non_ranked").value
  {
    match Texts(form, SprintKeys)
    case Raised(e) => BadForm(e)
    case Got(t) =>
      match (Int(form, "max_no_of_contestants_in_raceclass"), Int(form, "max_no_of_contestants_in_race"))
      case (Raised(e), _) => BadForm(e)
      case (_, Raised(e)) => BadForm(e)
      case (Got(maxClass), Got(maxRace)) =>
        match (ConfigFromForm(form, "ranked"), ConfigFromForm(form, "non_ranked"))
        case (Raised(e), _) => BadForm(e)
        case (_, Raised(e)) => BadForm(e)
        case (Got(ranked), Got(nonRanked)) =>
          Body(Sprint(t[2], t[3], t[4], t[5], t[6], t[7], t[8], t[9], maxClass, maxRace,
                      JsonText(t[0]), JsonText(t[1]), ranked, nonRanked))
  }

  function IntervalBody(form: Form): (b: Body)
    ensures b.Body? <==> Texts(form, IntervalKeys).Got? && Int(form, "max_no_of_contestants_in_raceclass").Got? &&
                         Int(form, "max_no_of_contestants_in_race").Got?
    ensures b.Body? ==> b.format.Interval? && b.format.datatypeName == "interval_start" &&
                        Some(b.format.id) == FormValue(form, "id") &&
                        Some(b.format.intervals) == FormValue(form, "intervals")
  {
    match Texts(form, IntervalKeys)
    case Raised(e) => BadForm(e)
    case Got(t) =>
      match (Int(form, "max_no_of_contestants_in_raceclass"), Int(form, "max_no_of_contestants_in_race"))
      case (Raised(e), _) => BadForm(e)
      case (_, Raised(e)) => BadForm(e)
      case (Got(maxClass), Got(maxRace)) =>
        Body(Interval(t[0], t[1], t[2], t[3], t[4], t[5], maxClass, maxRace, "interval_start"))
  }

  /** The body for the posted datatype; any other datatype builds none. */
  function UpdateBody(form: Form): (b: Body)
    requires FormValue(form, "datatype").Some?
    ensures b.Body? ==> b.format.datatypeName == FormValue(form, "datatype").value
    ensures FormValue(form, "datatype").value == "individual_sprint" && b.Body? ==> b.format.Sprint?
    ensures FormValue(form, "datatype").value == "interval_start" && b.Body? ==> b.format.Interval?
    ensures FormValue(form, "datatype").value !in {"individual_sprint", "interval_start"} ==> b.NoBody?
  {
    var kind := FormValue(form, "datatype").value;
    if kind == "individual_sprint" then
      var b := SprintBody(form);
      assert b.Body? ==> Texts(form, SprintKeys).Got? && FormValue(form, SprintKeys[6]) == Some(b.format.datatypeName);
      b
    else if kind == "interval_start" then IntervalBody(form)
    else NoBody
  }

  datatype PostError =
    | FormRefused(error: SettingsError)
    | NoDatatype                     // KeyError on "datatype"
    | UnboundBody                    // a datatype with no body: request_body is never assigned
    | NoRankedConfig                 // KeyError on "race_config_ranked" while logging the body
    | StoreRefused                   // the format service refused the update

  /** The competition formats the format service keeps, by id. */
  class FormatStore {
    var formats: map<string, CompetitionFormat>

    constructor (formats0: map<string, CompetitionFormat>)
      ensures formats == formats0
    {
      formats := formats0;
    }

    /** update_competition_format: the stored format with f's id becomes f;
        an unknown id is refused. */
    method Update(f: CompetitionFormat) returns (r: Outcome<PostError>)
      modifies this
      ensures r.Pass? <==> f.id in old(formats)
      ensures formats == if r.Pass? then old(formats)[f.id := f] else old(formats)
      ensures r.Fail? ==> r.error == StoreRefused
    {
      if f.id !in formats {
        return Fail(StoreRefused);
      }
      formats := formats[f.id := f];
      r := Pass;
    }
  }

  /** What the update branch does with a form: send a format, or raise. */
  datatype Decision = Send(format: CompetitionFormat) | Refuse(error: PostError)

  /** The update branch as written: once the body is built, its
      race_config_ranked entry is read for the log, which only a sprint
      body has. */
  function Decide(form: Form): (d: Decision)
    ensures d.Send? ==> d.format.Sprint?
  {
    if FormValue(form, "datatype").None? then Refuse(NoDatatype)
    else match UpdateBody(form)
      case BadForm(e) => Refuse(FormRefused(e))
      case NoBody => Refuse(UnboundBody)
      case Body(f) => if f.Sprint? then Send(f) else Refuse(NoRankedConfig)
  }

  /** As written, an interval-start update never reaches the store, however
      complete the form. */
  lemma IntervalStartNeverSent(form: Form)
    requires FormValue(form, "datatype") == Some("interval_start")
    ensures Decide(form).Refuse?
    ensures IntervalBody(form).Body? ==> Decide(form) == Refuse(NoRankedConfig)
  {
  }

  /** The update branch as intended: every body that was built is sent. */
  function DecideFixed(form: Form): (d: Decision)
    ensures d.Send? ==> Some(d.format.datatypeName) == FormValue(form, "datatype")
  {
    if FormValue(form, "datatype").None? then Refuse(NoDatatype)
    else match UpdateBody(form)
      case BadForm(e) => Refuse(FormRefused(e))
      case NoBody => Refuse(UnboundBody)
      case Body(f) => Send(f)
  }

  /** Corrected, a complete interval-start form is sent as an interval
      format, and sprint forms are treated as before. */
  lemma IntervalStartSent(form: Form)
    requires FormValue(form, "datatype") == Some("interval_start") && IntervalBody(form).Body?
    ensures DecideFixed(form) == Send(IntervalBody(form).format)
    ensures DecideFixed(form).format.Interval?
  {
  }

  /** The two agree on every form but a complete interval-start one. */
  lemma FixOnlyAffectsIntervalStart(form: Form)
    requires FormValue(form, "datatype") != Some("interval_start")
    ensures Decide(form) == DecideFixed(form)
  {
  }

  /** The update branch of Settings.post: the decided format is sent to the
      format service; a raised error changes nothing. */
  method PostUpdate(store: FormatStore, form: Form) returns (r: Outcome<PostError>)
    modifies store
    ensures match DecideFixed(form)
            case Refuse(e) => r == Fail(e) && store.formats == old(store.formats)
            case Send(f) =>
              if f.id in old(store.formats) then r == Pass && store.formats == old(store.formats)[f.id := f]
              else r == Fail(StoreRefused) && store.formats == old(store.formats)
  {
    match DecideFixed(form)
    case Refuse(e) => r := Fail(e);
    case Send(f) => r := store.Update(f);
  }
}

=== FILE: start_adapter.dfy ===
/** The start-list side of the console: reading a bib's start entries,
    deleting and creating single entries, and the round-2 shuffle that
    exchanges runners between neighbouring heats of unranked classes. */
module StartAdapter {
  import opened Common
  import opened Races
  import opened Classes

  // ---------------------------------------------------------------------
  // get_start_entries_by_bib

  /** A start list as the race service returns it. */
  datatype Startlist = Startlist(id: string, startEntries: seq<StartEntry>)

  /** The entries of the first start list in the service's reply to the
      bib query, exactly as returned, or none when the reply holds no start
      list. The reply is a parameter: which lists the service sends back for
      the bib is not part of this model. */
  function StartEntriesByBib(startlists: seq<Startlist>): (r: seq<StartEntry>)
    ensures startlists == [] ==> r == []
    ensures startlists != [] ==> r == startlists[0].startEntries
  {
    if |startlists| > 0 then startlists[0].startEntries else []
  }

  // ---------------------------------------------------------------------
  // delete_start / create_start

  /** delete_start: the entry named by the form's race id and entry id is
      deleted. */
  method DeleteStart(store: RaceStore, form: StartEntry) returns (text: string, r: Outcome<RaceError>)
    requires store.Valid()
    modifies store
    ensures store.Valid() && Skeleton(store.races) == Skeleton(old(store.races))
    ensures r.Pass? <==> exists i | 0 <= i < |old(store.races)| ::
                           old(store.races)[i].id == form.raceId &&
                           EntryIndex(old(store.races)[i].startEntries, form.id).Some?
    ensures r.Fail? ==> store.races == old(store.races)
    ensures r.Pass? ==> text == "Slettet start."
    ensures r.Pass? ==>
              forall i | 0 <= i < |store.races| ::
                store.races[i].startEntries ==
                  if old(store.races)[i].id == form.raceId
                  then WithoutEntry(old(store.races)[i].startEntries, form.id)
                  else old(store.races)[i].startEntries
  {
    r := store.DeleteStartEntry(form.raceId, form.id);
    text := if r.Pass? then "Slettet start." else "";
  }

  /** create_start: a new entry with the form's slot and runner; the service
      assigns its id. */
  method CreateStart(store: RaceStore, form: StartEntry) returns (text: string, r: Outcome<RaceError>)
    requires store.Valid()
    modifies store
    ensures store.Valid() && Skeleton(store.races) == Skeleton(old(store.races))
    ensures r.Pass? <==> exists i | 0 <= i < |old(store.races)| ::
                           old(store.races)[i].id == form.raceId &&
                           !PositionTaken(old(store.races)[i].startEntries, form.startingPosition)
    ensures r.Fail? ==> store.races == old(store.races)
    ensures r.Pass? ==> text == "Lagt til nr " + IntToString(form.bib)
    ensures r.Pass? ==>
              forall i | 0 <= i < |store.races| ::
                store.races[i].startEntries ==
                  if old(store.races)[i].id == form.raceId
                  then InsertByPosition(old(store.races)[i].startEntries, form.(id := old(store.nextEntryId)))
                  else old(store.races)[i].startEntries
  {
    r := store.CreateStartEntry(form);
    text := if r.Pass? then "Lagt til nr " + IntToString(form.bib) else "";
  }

  // ---------------------------------------------------------------------
  // swap_starts

  /** The part of an entry that belongs to its place in the race. */
  function SlotOf(e: StartEntry): (string, string, int, int) {
    (e.startlistId, e.raceId, e.startingPosition, e.scheduledStartTime)
  }

  /** The part of an entry that names the runner. */
  function RunnerOf(e: StartEntry): (int, string, string) {
    (e.bib, e.name, e.club)
  }

  /** The entry swap_starts files in `slot`'s place for `runner`'s runner. */
  function Rebuilt(slot: StartEntry, runner: StartEntry): (r: StartEntry)
    ensures SlotOf(r) == SlotOf(slot) && RunnerOf(r) == RunnerOf(runner)
  {
    slot.(bib := runner.bib, name := runner.name, club := runner.club)
  }

  /** The entry as filed under the id the service hands out. */
  function WithId(e: StartEntry, id: nat): (r: StartEntry)
    ensures r.id == id && SlotOf(r) == SlotOf(e) && RunnerOf(r) == RunnerOf(e)
  {
    e.(id := id)
  }

  /** Entry k of race i. */
  ghost predicate At(races: seq<Race>, e: StartEntry, i: nat, k: nat) {
    i < |races| && races[i].id == e.raceId &&
    k < |races[i].startEntries| && races[i].startEntries[k] == e
  }

  /** Deleting the entry at index k frees its starting position. */
  lemma Freed(es: seq<StartEntry>, k: nat, id: nat, pos: int)
    requires k < |es| && SortedByPosition(es)
    requires forall i, j | 0 <= i < j < |es| :: es[i].id != es[j].id
    requires es[k].id == id && es[k].startingPosition == pos
    ensures !PositionTaken(WithoutEntry(es, id), pos)
  {
    assert EntryIndex(es, id) == Some(k);
    var r := WithoutEntry(es, id);
    assert forall i | 0 <= i < |r| :: r[i] == if i < k then es[i] else es[i + 1];
  }

  /** After the two deletes of a swap_starts step, each race has a free
      position for the entry rebuilt from its own slot. */
  lemma ReadyToFile(races0: seq<Race>, races2: seq<Race>, s1: StartEntry, s2: StartEntry,
                    i1: nat, k1: nat, i2: nat, k2: nat, n: nat)
    requires At(races0, s1, i1, k1) && At(races0, s2, i2, k2) && i1 != i2
    requires EntriesValid(races0[i1].id, races0[i1].startEntries, n)
    requires EntriesValid(races0[i2].id, races0[i2].startEntries, n)
    requires Skeleton(races2) == Skeleton(races0)
    requires races2[i1].startEntries == WithoutEntry(races0[i1].startEntries, s1.id)
    requires races2[i2].startEntries == WithoutEntry(races0[i2].startEntries, s2.id)
    ensures Fileable(races2, i1, Rebuilt(s1, s2), i2, Rebuilt(s2, s1))
  {
    assert Skeleton(races2)[i1] == Skeleton(races0)[i1];
    assert Skeleton(races2)[i2] == Skeleton(races0)[i2];
    Freed(races0[i1].startEntries, k1, s1.id, s1.startingPosition);
    Freed(races0[i2].startEntries, k2, s2.id, s2.startingPosition);
  }

  /** Deleting entry `s`, found at index k of race i. */
  method Remove(store: RaceStore, s: StartEntry, ghost i: nat, ghost k: nat) returns (r: Outcome<RaceError>)
    requires store.Valid()
    modifies store
    ensures store.Valid() && Skeleton(store.races) == Skeleton(old(store.races))
    ensures store.nextEntryId == old(store.nextEntryId)
    ensures forall j | 0 <= j < |store.races| && old(store.races)[j].id != s.raceId ::
              store.races[j] == old(store.races)[j]
    ensures At(old(store.races), s, i, k) ==>
              r.Pass? &&
              store.races[i].startEntries == WithoutEntry(old(store.races)[i].startEntries, s.id)
  {
    ghost var races0 := store.races;
    if At(races0, s, i, k) {
      assert races0[i].startEntries[k].id == s.id;
    }
    r := store.DeleteStartEntry(s.raceId, s.id);
  }

  /** Filing entry `e` in race i, whose position is free. */
  method File(store: RaceStore, e: StartEntry, ghost i: nat) returns (r: Outcome<RaceError>)
    requires store.Valid()
    modifies store
    ensures store.Valid() && Skeleton(store.races) == Skeleton(old(store.races))
    ensures forall j | 0 <= j < |store.races| && old(store.races)[j].id != e.raceId ::
              store.races[j] == old(store.races)[j]
    ensures i < |old(store.races)| && old(store.races)[i].id == e.raceId &&
            !PositionTaken(old(store.races)[i].startEntries, e.startingPosition) ==>
              r.Pass? && store.nextEntryId == old(store.nextEntryId) + 1 &&
              store.races[i].startEntries ==
                InsertByPosition(old(store.races)[i].startEntries, WithId(e, old(store.nextEntryId)))
  {
    r := store.CreateStartEntry(e);
  }

  /** The two deletes of one swap_starts step. */
  method RemoveBoth(store: RaceStore, s1: StartEntry, s2: StartEntry,
                    ghost i1: nat, ghost k1: nat, ghost i2: nat, ghost k2: nat)
    returns (r: Outcome<RaceError>)
    requires store.Valid()
    modifies store
    ensures store.Valid() && Skeleton(store.races) == Skeleton(old(store.races))
    ensures store.nextEntryId == old(store.nextEntryId)
    ensures forall j | 0 <= j < |store.races| &&
                       old(store.races)[j].id != s1.raceId && old(store.races)[j].id != s2.raceId ::
              store.races[j] == old(store.races)[j]
    ensures At(old(store.races), s1, i1, k1) && At(old(store.races), s2, i2, k2) && i1 != i2 ==>
              r.Pass? &&
              store.races[i1].startEntries == WithoutEntry(old(store.races)[i1].startEntries, s1.id) &&
              store.races[i2].startEntries == WithoutEntry(old(store.races)[i2].startEntries, s2.id) &&
              Fileable(store.races, i1, Rebuilt(s1, s2), i2, Rebuilt(s2, s1))
  {
    ghost var races0 := store.races;
    ghost var hyp := At(races0, s1, i1, k1) && At(races0, s2, i2, k2) && i1 != i2;
    r := Remove(store, s1, i1, k1);
    if r.Fail? {
      return;
    }
    ghost var races1 := store.races;
    if hyp {
      assert races1[i2] == races0[i2];
    }
    r := Remove(store, s2, i2, k2);
    if hyp {
      assert store.races[i1] == races1[i1];
      ReadyToFile(races0, store.races, s1, s2, i1, k1, i2, k2, store.nextEntryId);
    }
  }

  /** Races i1 and i2 are distinct and have free positions for e1 and e2. */
  ghost predicate Fileable(races: seq<Race>, i1: nat, e1: StartEntry, i2: nat, e2: StartEntry) {
    i1 < |races| && races[i1].id == e1.raceId && !PositionTaken(races[i1].startEntries, e1.startingPosition) &&
    i2 < |races| && races[i2].id == e2.raceId && !PositionTaken(races[i2].startEntries, e2.startingPosition) &&
    i1 != i2
  }

  /** The two creates of one swap_starts step. */
  method FileBoth(store: RaceStore, e1: StartEntry, e2: StartEntry, ghost i1: nat, ghost i2: nat, ghost id2: nat)
    returns (r: Outcome<RaceError>)
    requires store.Valid() && id2 == store.nextEntryId + 1
    modifies store
    ensures store.Valid() && Skeleton(store.races) == Skeleton(old(store.races))
    ensures forall j | 0 <= j < |store.races| &&
                       old(store.races)[j].id != e1.raceId && old(store.races)[j].id != e2.raceId ::
              store.races[j] == old(store.races)[j]
    ensures Fileable(old(store.races), i1, e1, i2, e2) ==>
              r.Pass? && store.nextEntryId == old(store.nextEntryId) + 2 &&
              store.races[i1].startEntries ==
                InsertByPosition(old(store.races)[i1].startEntries, WithId(e1, old(store.nextEntryId))) &&
              store.races[i2].startEntries ==
                InsertByPosition(old(store.races)[i2].startEntries, WithId(e2, id2))
  {
    ghost var races0 := store.races;
    ghost var hyp := Fileable(races0, i1, e1, i2, e2);
    r := File(store, e1, i1);
    if r.Fail? {
      return;
    }
    ghost var races1 := store.races;
    if hyp {
      assert races1[i2] == races0[i2];
    }
    r := File(store, e2, i2);
    if hyp {
      assert store.races[i1] == races1[i1];
    }
  }

  /** One index of swap_starts: delete both entries, then file each slot with
      the other runner; an error ends the step where it occurs. When the two
      entries are where the caller found them, in two different races, all
      four calls go through: each race loses its entry and gains the rebuilt
      one under the next fresh id. */
  method ExchangeRunners(store: RaceStore, s1: StartEntry, s2: StartEntry,
                         ghost i1: nat, ghost k1: nat, ghost i2: nat, ghost k2: nat, ghost id2: nat)
    returns (r: Outcome<RaceError>)
    requires store.Valid() && id2 == store.nextEntryId + 1
    modifies store
    ensures store.Valid() && Skeleton(store.races) == Skeleton(old(store.races))
    ensures forall j | 0 <= j < |store.races| &&
                       old(store.races)[j].id != s1.raceId && old(store.races)[j].id != s2.raceId ::
              store.races[j] == old(store.races)[j]
    ensures At(old(store.races), s1, i1, k1) && At(old(store.races), s2, i2, k2) && i1 != i2 ==>
              r.Pass? && store.nextEntryId == old(store.nextEntryId) + 2 &&
              store.races[i1].startEntries ==
                InsertByPosition(WithoutEntry(old(store.races)[i1].startEntries, s1.id),
                                 WithId(Rebuilt(s1, s2), old(store.nextEntryId))) &&
              store.races[i2].startEntries ==
                InsertByPosition(WithoutEntry(old(store.races)[i2].startEntries, s2.id),
                                 WithId(Rebuilt(s2, s1), id2))
  {
    var e1, e2 := Rebuilt(s1, s2), Rebuilt(s2, s1);
    r := RemoveBoth(store, s1, s2, i1, k1, i2, k2);
    if r.Pass? {
      r := FileBoth(store, e1, e2, i1, i2, id2);
    }
  }

  /** The entries `a` of a race whose own entries were `a0`, after the runners
      at the indexes in `done` were exchanged with those at the same indexes
      of `b0`: an exchanged index keeps its slot and holds `b0`'s runner, every
      other entry is as it was. */
  ghost predicate Exchanged(a0: seq<StartEntry>, b0: seq<StartEntry>, done: seq<nat>, a: seq<StartEntry>) {
    |a| == |a0| &&
    forall k | 0 <= k < |a| ::
      if k in done && k < |b0| then SlotOf(a[k]) == SlotOf(a0[k]) && RunnerOf(a[k]) == RunnerOf(b0[k])
      else a[k] == a0[k]
  }

  /** The state of swap_starts between two indexes: both races in place, and
      each has exchanged the runners at the indexes done so far. */
  ghost predicate Progress(races: seq<Race>, fromId: string, toId: string, fi: nat, ti: nat,
                           a0: seq<StartEntry>, b0: seq<StartEntry>, done: seq<nat>) {
    fi < |races| && ti < |races| && fi != ti &&
    races[fi].id == fromId && races[ti].id == toId &&
    Exchanged(a0, b0, done, races[fi].startEntries) &&
    Exchanged(b0, a0, done, races[ti].startEntries)
  }

  lemma ExchangedStep(a0: seq<StartEntry>, b0: seq<StartEntry>, done: seq<nat>, a: seq<StartEntry>,
                      k: nat, e: StartEntry)
    requires Exchanged(a0, b0, done, a) && k !in done && k < |a0| && k < |b0|
    requires SlotOf(e) == SlotOf(a0[k]) && RunnerOf(e) == RunnerOf(b0[k])
    ensures Exchanged(a0, b0, done + [k], a[k := e])
  {
  }

  lemma ExchangedSkip(a0: seq<StartEntry>, b0: seq<StartEntry>, done: seq<nat>, a: seq<StartEntry>, k: nat)
    requires Exchanged(a0, b0, done, a) && (k >= |a0| || k >= |b0|)
    ensures Exchanged(a0, b0, done + [k], a)
  {
  }

  /** One index of swap_starts, on the entries read before the loop: an index
      past the end of either list is skipped, as the IndexError is. */
  method SwapAt(store: RaceStore, fromId: string, toId: string, a0: seq<StartEntry>, b0: seq<StartEntry>,
                k: nat, ghost fi: nat, ghost ti: nat, ghost done: seq<nat>)
    requires store.Valid()
    requires forall i | 0 <= i < |a0| :: a0[i].raceId == fromId
    requires forall i | 0 <= i < |b0| :: b0[i].raceId == toId
    modifies store
    ensures store.Valid() && Skeleton(store.races) == Skeleton(old(store.races))
    ensures forall j | 0 <= j < |store.races| && old(store.races)[j].id != fromId && old(store.races)[j].id != toId ::
              store.races[j] == old(store.races)[j]
    ensures Progress(old(store.races), fromId, toId, fi, ti, a0, b0, done) && k !in done ==>
              Progress(store.races, fromId, toId, fi, ti, a0, b0, done + [k])
  {
    ghost var races0, id1 := store.races, store.nextEntryId;
    ghost var id2 := id1 + 1;
    ghost var hyp := Progress(races0, fromId, toId, fi, ti, a0, b0, done) && k !in done;
    if k < |a0| && k < |b0| {
      var s1, s2 := a0[k], b0[k];
      var _ := ExchangeRunners(store, s1, s2, fi, k, ti, k, id2);
      if hyp {
        assert Skeleton(store.races)[fi] == Skeleton(races0)[fi];
        assert Skeleton(store.races)[ti] == Skeleton(races0)[ti];
        assert EntriesValid(races0[fi].id, races0[fi].startEntries, id1);
        assert EntriesValid(races0[ti].id, races0[ti].startEntries, id1);
        DeleteThenInsertReplaces(races0[fi].startEntries, k, WithId(Rebuilt(s1, s2), id1));
        DeleteThenInsertReplaces(races0[ti].startEntries, k, WithId(Rebuilt(s2, s1), id2));
        ExchangedStep(a0, b0, done, races0[fi].startEntries, k, WithId(Rebuilt(s1, s2), id1));
        ExchangedStep(b0, a0, done, races0[ti].startEntries, k, WithId(Rebuilt(s2, s1), id2));
      }
    } else if hyp {
      ExchangedSkip(a0, b0, done, races0[fi].startEntries, k);
      ExchangedSkip(b0, a0, done, races0[ti].startEntries, k);
    }
  }

  /** swap_starts: both races are read once; for each index the entries at
      that index of the two lists exchange their runners (bib, name, club)
      while every slot field stays put. An index missing from either list is
      skipped, and so is the rest of an index whose delete or create fails.
      With distinct indexes and two different races, the from-race ends with
      each listed index holding the to-race's runner and vice versa. */
  method SwapStarts(store: RaceStore, fromId: string, toId: string, indexes: seq<nat>)
    returns (text: string, r: Outcome<RaceError>)
    requires store.Valid()
    modifies store
    ensures store.Valid() && Skeleton(store.races) == Skeleton(old(store.races))
    ensures r.Pass? <==> IndexOfRace(old(store.races), fromId).Some? && IndexOfRace(old(store.races), toId).Some?
    ensures r.Pass? ==> text == "swapped_starts"
    ensures r.Fail? ==> store.races == old(store.races)
    ensures forall j | 0 <= j < |store.races| && old(store.races)[j].id != fromId && old(store.races)[j].id != toId ::
              store.races[j] == old(store.races)[j]
    ensures r.Pass? && fromId != toId && Distinct(indexes) ==>
              var fi, ti := IndexOfRace(old(store.races), fromId).value, IndexOfRace(old(store.races), toId).value;
              Exchanged(old(store.races)[fi].startEntries, old(store.races)[ti].startEntries, indexes,
                        store.races[fi].startEntries) &&
              Exchanged(old(store.races)[ti].startEntries, old(store.races)[fi].startEntries, indexes,
                        store.races[ti].startEntries)
  {
    var from, to := IndexOfRace(store.races, fromId), IndexOfRace(store.races, toId);
    if from.None? || to.None? {
      return "", Fail(RaceNotFound);
    }
    ghost var races0 := store.races;
    var fi, ti := from.value, to.value;
    var a0, b0 := store.races[fi].startEntries, store.races[ti].startEntries;
    assert EntriesValid(races0[fi].id, a0, store.nextEntryId);
    assert EntriesValid(races0[ti].id, b0, store.nextEntryId);
    ghost var hyp := fromId != toId && Distinct(indexes);
    var t := 0;
    while t < |indexes|
      invariant t <= |indexes|
      invariant store.Valid() && Skeleton(store.races) == Skeleton(races0)
      invariant forall j | 0 <= j < |store.races| && races0[j].id != fromId && races0[j].id != toId ::
                  store.races[j] == races0[j]
      invariant hyp ==> Progress(store.races, fromId, toId, fi, ti, a0, b0, indexes[..t])
    {
      if hyp {
        assert indexes[t] !in indexes[..t];
      }
      SwapAt(store, fromId, toId, a0, b0, indexes[t], fi, ti, indexes[..t]);
      assert indexes[..t + 1] == indexes[..t] + [indexes[t]];
      t := t + 1;
    }
    assert indexes[..t] == indexes;
    return "swapped_starts", Pass;
  }

  // ---------------------------------------------------------------------
  // shuffle_round2

  /** What shuffle_round2 notes about an R2 race: its heat, its id and the id
      of the race listed just before it in its class. */
  datatype R2Race = R2Race(heat: int, raceId: string, previousRaceId: string)

  /** The id of the race listed before race i, or "" for the first race. */
  function PreviousId(races: seq<Race>, i: nat): string
    requires i < |races|
  {
    if i == 0 then "" else races[i - 1].id
  }

  /** The R2 races of a class's race list, in list order. */
  function R2Info(races: seq<Race>): seq<R2Race>
  {
    if |races| == 0 then []
    else
      var n := |races| - 1;
      R2Info(races[..n]) +
      (if races[n].round == "R2" then [R2Race(races[n].heat, races[n].id, PreviousId(races, n))] else [])
  }

  function IdsOf(races: seq<Race>): set<string> {
    set i | 0 <= i < |races| :: races[i].id
  }

  /** Every noted race is an R2 race of the list, paired with the race listed
      before it. */
  lemma {:induction false} R2InfoSound(races: seq<Race>, m: nat)
    requires m < |R2Info(races)|
    ensures exists j | 0 <= j < |races| ::
              races[j].round == "R2" && R2Info(races)[m] == R2Race(races[j].heat, races[j].id, PreviousId(races, j))
  {
    var n := |races| - 1;
    if m < |R2Info(races[..n])| {
      R2InfoSound(races[..n], m);
      var j :| 0 <= j < |races[..n]| && races[..n][j].round == "R2" &&
               R2Info(races[..n])[m] == R2Race(races[..n][j].heat, races[..n][j].id, PreviousId(races[..n], j));
      assert R2Info(races)[m] == R2Info(races[..n])[m];
      assert races[j].round == "R2" && R2Info(races)[m] == R2Race(races[j].heat, races[j].id, PreviousId(races, j));
    } else {
      assert races[n].round == "R2" && R2Info(races)[m] == R2Race(races[n].heat, races[n].id, PreviousId(races, n));
    }
  }

  /** Every R2 race of the list is noted. */
  lemma {:induction false} R2InfoComplete(races: seq<Race>)
    ensures forall j | 0 <= j < |races| && races[j].round == "R2" ::
              R2Race(races[j].heat, races[j].id, PreviousId(races, j)) in R2Info(races)
  {
    if |races| > 0 {
      var n := |races| - 1;
      R2InfoComplete(races[..n]);
      forall j | 0 <= j < |races| && races[j].round == "R2"
        ensures R2Race(races[j].heat, races[j].id, PreviousId(races, j)) in R2Info(races)
      {
        if j < n {
          assert races[..n][j] == races[j];
          assert PreviousId(races[..n], j) == PreviousId(races, j);
        }
      }
    }
  }

  /** Only the first noted race can be paired with "" : every later one is
      paired with a race of the list. */
  lemma {:induction false} R2InfoPrevious(races: seq<Race>)
    ensures forall m | 0 <= m < |R2Info(races)| :: R2Info(races)[m].raceId in IdsOf(races)
    ensures forall m | 1 <= m < |R2Info(races)| :: R2Info(races)[m].previousRaceId in IdsOf(races)
  {
    if |races| > 0 {
      var n := |races| - 1;
      R2InfoPrevious(races[..n]);
      assert IdsOf(races[..n]) <= IdsOf(races) by {
        forall x | x in IdsOf(races[..n]) ensures x in IdsOf(races) {
          var i :| 0 <= i < n && races[..n][i].id == x;
          assert races[i].id == x;
        }
      }
      assert races[n].id in IdsOf(races);
      if races[n].round == "R2" && |R2Info(races[..n])| > 0 {
        assert n > 0;
        assert races[n - 1].id in IdsOf(races);
      }
    }
  }

  /** The R2 notes of shuffle_round2's first loop, with the previous race id
      carried from one race to the next. */
  method CollectR2(races: seq<Race>) returns (info: seq<R2Race>)
    ensures info == R2Info(races)
  {
    var previousRaceId := "";
    info := [];
    var t := 0;
    while t < |races|
      invariant t <= |races|
      invariant info == R2Info(races[..t])
      invariant previousRaceId == if t == 0 then "" else races[t - 1].id
    {
      assert races[..t + 1][..t] == races[..t];
      if races[t].round == "R2" {
        info := info + [R2Race(races[t].heat, races[t].id, previousRaceId)];
      }
      previousRaceId := races[t].id;
      t := t + 1;
    }
    assert races[..t] == races;
  }

  /** A swap_starts call: from-race, to-race, indexes. */
  datatype SwapCall = SwapCall(fromId: string, toId: string, indexes: seq<nat>)

  /** The call for one R2 race: an odd heat exchanges indexes 1 and 3 with the
      race before it, any other heat indexes 0, 2 and 4. */
  function SwapFor(r: R2Race): (c: SwapCall)
    ensures c.fromId == r.raceId && c.toId == r.previousRaceId
    ensures r.heat % 2 == 1 ==> c.indexes == [1, 3]
    ensures r.heat % 2 != 1 ==> c.indexes == [0, 2, 4]
  {
    SwapCall(r.raceId, r.previousRaceId, if r.heat % 2 == 1 then [1, 3] else [0, 2, 4])
  }

  /** The calls shuffle_round2 makes for a class's R2 races: one per race but
      the first. */
  function Plan(info: seq<R2Race>): seq<SwapCall>
  {
    if |info| <= 1 then [] else Plan(info[..|info| - 1]) + [SwapFor(info[|info| - 1])]
  }

  /** swap_count's growth for a class: 2 per odd heat and 3 per even heat,
      the first R2 race not counted. */
  function Moves(info: seq<R2Race>): nat
  {
    if |info| <= 1 then 0
    else Moves(info[..|info| - 1]) + (if info[|info| - 1].heat % 2 == 1 then 2 else 3)
  }

  /** The number of indexes named in a list of calls. */
  function IndexCount(calls: seq<SwapCall>): nat
  {
    if calls == [] then 0 else IndexCount(calls[..|calls| - 1]) + |calls[|calls| - 1].indexes|
  }

  /** The first R2 race is never a from-race: call m is for R2 race m + 1. */
  lemma {:induction false} PlanSkipsFirst(info: seq<R2Race>)
    ensures |Plan(info)| == if |info| == 0 then 0 else |info| - 1
    ensures forall m | 0 <= m < |Plan(info)| :: Plan(info)[m] == SwapFor(info[m + 1])
  {
    if |info| > 1 {
      var n := |info| - 1;
      PlanSkipsFirst(info[..n]);
    }
  }

  /** swap_count counts every index handed to swap_starts, whether or not the
      index could be swapped. */
  lemma {:induction false} MovesCountsIndexes(info: seq<R2Race>)
    ensures Moves(info) == IndexCount(Plan(info))
  {
    if |info| > 1 {
      var n := |info| - 1;
      MovesCountsIndexes(info[..n]);
      assert Plan(info)[..|Plan(info)| - 1] == Plan(info[..n]);
    }
  }

  /** A class moves runners exactly when it has two or more R2 races. */
  lemma {:induction false} MovesZero(info: seq<R2Race>)
    ensures Moves(info) == 0 <==> |info| <= 1
    ensures 2 * (|info| - 1) <= Moves(info) <= 3 * (|info| - 1) || |info| == 0
  {
    if |info| > 1 {
      MovesZero(info[..|info| - 1]);
    }
  }

  lemma SkeletonTail(a: seq<Race>)
    requires |a| > 0
    ensures Skeleton(a[1..]) == Skeleton(a)[1..]
  {
  }

  lemma SkeletonCons(x: Race, s: seq<Race>)
    ensures Skeleton([x] + s) == [x.(startEntries := [])] + Skeleton(s)
  {
  }

  /** Filtering by class commutes with dropping the start entries. */
  lemma {:induction false} OfClassSkeleton(a: seq<Race>, b: seq<Race>, name: string)
    requires Skeleton(a) == Skeleton(b)
    ensures Skeleton(OfClass(a, name)) == Skeleton(OfClass(b, name))
  {
    assert |a| == |Skeleton(a)| == |b|;
    if |a| > 0 {
      assert Skeleton(a)[0] == Skeleton(b)[0];
      SkeletonTail(a);
      SkeletonTail(b);
      OfClassSkeleton(a[1..], b[1..], name);
      if a[0].raceclass == name {
        SkeletonCons(a[0], OfClass(a[1..], name));
        SkeletonCons(b[0], OfClass(b[1..], name));
      }
    }
  }

  /** The R2 notes read only ids, rounds and heats, never the start entries. */
  lemma {:induction false} R2InfoSkeleton(a: seq<Race>, b: seq<Race>)
    requires Skeleton(a) == Skeleton(b)
    ensures R2Info(a) == R2Info(b)
  {
    assert |a| == |Skeleton(a)| == |b|;
    if |a| > 0 {
      var n := |a| - 1;
      assert Skeleton(a[..n]) == Skeleton(b[..n]) by {
        forall i | 0 <= i < n ensures Skeleton(a[..n])[i] == Skeleton(b[..n])[i] {
          assert Skeleton(a)[i] == Skeleton(b)[i];
        }
      }
      R2InfoSkeleton(a[..n], b[..n]);
      assert Skeleton(a)[n] == Skeleton(b)[n];
      if n > 0 {
        assert Skeleton(a)[n - 1] == Skeleton(b)[n - 1];
      }
    }
  }

  /** The races a class's shuffle works on do not change under the shuffle of
      any class. */
  lemma ClassR2Stable(a: seq<Race>, b: seq<Race>, name: string)
    requires Skeleton(a) == Skeleton(b)
    ensures R2Info(OfClass(a, name)) == R2Info(OfClass(b, name))
  {
    OfClassSkeleton(a, b, name);
    R2InfoSkeleton(OfClass(a, name), OfClass(b, name));
  }

  /** An id taken from a class's race list names a race of the store, and no
      race of another class. */
  lemma ClassRaceFound(races0: seq<Race>, cur: seq<Race>, name: string, x: string)
    requires Skeleton(cur) == Skeleton(races0)
    requires forall i, j | 0 <= i < j < |cur| :: cur[i].id != cur[j].id
    requires x in IdsOf(OfClass(races0, name))
    ensures IndexOfRace(cur, x).Some?
    ensures forall j | 0 <= j < |cur| && races0[j].raceclass != name :: cur[j].id != x
  {
    var oc := OfClass(races0, name);
    var i :| 0 <= i < |oc| && oc[i].id == x;
    assert oc[i] in races0;
    var j :| 0 <= j < |races0| && races0[j] == oc[i];
    assert |cur| == |Skeleton(cur)| == |races0|;
    assert Skeleton(cur)[j] == Skeleton(races0)[j];
    assert cur[j].id == x && cur[j].raceclass == name;
    forall j' | 0 <= j' < |cur| && races0[j'].raceclass != name ensures cur[j'].id != x {
      assert Skeleton(cur)[j'] == Skeleton(races0)[j'];
      assert j' != j;
    }
  }

  /** One more R2 race extends the plan by its call and the count by its
      weight, unless it is the first. */
  lemma PlanStep(info: seq<R2Race>, t: nat)
    requires t < |info|
    ensures t == 0 ==> Plan(info[..t + 1]) == [] && Moves(info[..t + 1]) == 0
    ensures t > 0 ==> Plan(info[..t + 1]) == Plan(info[..t]) + [SwapFor(info[t])]
    ensures t > 0 ==> Moves(info[..t + 1]) == Moves(info[..t]) + (if info[t].heat % 2 == 1 then 2 else 3)
  {
    assert info[..t + 1][..t] == info[..t];
  }

  /** What one swap_starts call does to the races: both races exist, nothing
      but their start entries changes, and each of the two exchanges the
      runners at the call's indexes with the other, as the two lists stood
      before the call. */
  ghost predicate SwapDone(before: seq<Race>, after: seq<Race>, c: SwapCall) {
    |after| == |before| && Skeleton(after) == Skeleton(before) &&
    IndexOfRace(before, c.fromId).Some? && IndexOfRace(before, c.toId).Some? &&
    (forall j | 0 <= j < |after| && before[j].id != c.fromId && before[j].id != c.toId :: after[j] == before[j]) &&
    var fi, ti := IndexOfRace(before, c.fromId).value, IndexOfRace(before, c.toId).value;
    Exchanged(before[fi].startEntries, before[ti].startEntries, c.indexes, after[fi].startEntries) &&
    Exchanged(before[ti].startEntries, before[fi].startEntries, c.indexes, after[ti].startEntries)
  }

  /** Call m of `calls` took the races from state m to state m + 1. */
  ghost predicate StepDone(states: seq<seq<Race>>, calls: seq<SwapCall>, m: nat)
    requires m < |calls| && |states| == |calls| + 1
  {
    SwapDone(states[m], states[m + 1], calls[m])
  }

  /** The races went through `states`, one swap_starts call of `calls` from
      each state to the next. */
  ghost predicate Performed(states: seq<seq<Race>>, calls: seq<SwapCall>) {
    |states| == |calls| + 1 &&
    forall m | 0 <= m < |calls| :: StepDone(states, calls, m)
  }

  /** One more call extends a run of calls. */
  lemma PerformedStep(states: seq<seq<Race>>, calls: seq<SwapCall>, after: seq<Race>, c: SwapCall)
    requires Performed(states, calls) && SwapDone(states[|states| - 1], after, c)
    ensures Performed(states + [after], calls + [c])
  {
    var s, cs := states + [after], calls + [c];
    forall m | 0 <= m < |cs| ensures StepDone(s, cs, m) {
      if m < |calls| {
        assert StepDone(states, calls, m);
        assert s[m] == states[m] && s[m + 1] == states[m + 1] && cs[m] == calls[m];
      }
    }
  }

  /** Two runs of calls, the second starting where the first ended, make one. */
  lemma PerformedConcat(s1: seq<seq<Race>>, c1: seq<SwapCall>, s2: seq<seq<Race>>, c2: seq<SwapCall>)
    requires Performed(s1, c1) && Performed(s2, c2) && s1[|s1| - 1] == s2[0]
    ensures Performed(s1 + s2[1..], c1 + c2)
  {
    var s, cs := s1 + s2[1..], c1 + c2;
    forall m | 0 <= m < |cs| ensures StepDone(s, cs, m) {
      if m < |c1| {
        assert StepDone(s1, c1, m);
        assert s[m] == s1[m] && s[m + 1] == s1[m + 1] && cs[m] == c1[m];
      } else {
        var m2 := m - |c1|;
        assert StepDone(s2, c2, m2);
        assert s[m] == s2[m2] && s[m + 1] == s2[m2 + 1] && cs[m] == c2[m2];
      }
    }
  }

  /** A class's race list has distinct ids when the whole list has. */
  lemma {:induction false} OfClassDistinct(races: seq<Race>, name: string)
    requires forall i, j | 0 <= i < j < |races| :: races[i].id != races[j].id
    ensures forall i, j | 0 <= i < j < |OfClass(races, name)| :: OfClass(races, name)[i].id != OfClass(races, name)[j].id
  {
    if races != [] {
      OfClassDistinct(races[1..], name);
      var rest := OfClass(races[1..], name);
      forall i | 0 <= i < |rest| ensures rest[i].id != races[0].id {
        var j :| 0 <= j < |races[1..]| && races[1..][j] == rest[i];
        assert races[j + 1] == rest[i];
      }
    }
  }

  /** With distinct ids, every noted R2 race but the first is paired with
      another race. */
  lemma {:induction false} R2InfoPairsDistinct(races: seq<Race>)
    requires forall i, j | 0 <= i < j < |races| :: races[i].id != races[j].id
    ensures forall m | 1 <= m < |R2Info(races)| :: R2Info(races)[m].raceId != R2Info(races)[m].previousRaceId
  {
    if |races| > 0 {
      var n := |races| - 1;
      R2InfoPairsDistinct(races[..n]);
      forall m | 1 <= m < |R2Info(races)|
        ensures R2Info(races)[m].raceId != R2Info(races)[m].previousRaceId
      {
        if m < |R2Info(races[..n])| {
          assert R2Info(races)[m] == R2Info(races[..n])[m];
        } else {
          assert n > 0;
          assert R2Info(races)[m] == R2Race(races[n].heat, races[n].id, races[n - 1].id);
        }
      }
    }
  }

  /** The swap_starts call for one R2 race of a class after the first: both
      races are found and exchange the runners at SwapFor's indexes, races of
      other classes are left alone, and swap_count grows by 2 for an odd heat
      and by 3 otherwise. */
  method SwapWithPrevious(store: RaceStore, name: string, ghost races0: seq<Race>, race: R2Race)
    returns (r: Outcome<RaceError>, moves: nat)
    requires store.Valid() && Skeleton(store.races) == Skeleton(races0)
    requires race.raceId in IdsOf(OfClass(races0, name)) && race.previousRaceId in IdsOf(OfClass(races0, name))
    requires race.raceId != race.previousRaceId
    requires forall j | 0 <= j < |store.races| && races0[j].raceclass != name :: store.races[j] == races0[j]
    modifies store
    ensures store.Valid() && Skeleton(store.races) == Skeleton(races0)
    ensures r.Pass? && SwapDone(old(store.races), store.races, SwapFor(race))
    ensures moves == if race.heat % 2 == 1 then 2 else 3
    ensures forall j | 0 <= j < |store.races| && races0[j].raceclass != name :: store.races[j] == races0[j]
  {
    ClassRaceFound(races0, store.races, name, race.raceId);
    ClassRaceFound(races0, store.races, name, race.previousRaceId);
    var text;
    if race.heat % 2 == 1 {
      assert Distinct([1, 3]);
      text, r := SwapStarts(store, race.raceId, race.previousRaceId, [1, 3]);
      moves := 2;
    } else {
      assert Distinct([0, 2, 4]);
      text, r := SwapStarts(store, race.raceId, race.previousRaceId, [0, 2, 4]);
      moves := 3;
    }
  }

  /** One pass of shuffle_round2's second loop, at R2 note t: the first note
      only clears the flag, every later one is swapped with the race before
      it, which extends the run of calls by that call. */
  method SwapR2Step(store: RaceStore, name: string, ghost races0: seq<Race>, info: seq<R2Race>, t: nat,
                    first: bool, count: nat, ghost states: seq<seq<Race>>)
    returns (first': bool, count': nat, r: Outcome<RaceError>, ghost states': seq<seq<Race>>)
    requires t < |info| && first == (t == 0)
    requires store.Valid() && Skeleton(store.races) == Skeleton(races0)
    requires info[t].raceId in IdsOf(OfClass(races0, name))
    requires t > 0 ==> info[t].previousRaceId in IdsOf(OfClass(races0, name))
    requires t > 0 ==> info[t].raceId != info[t].previousRaceId
    requires forall j | 0 <= j < |store.races| && races0[j].raceclass != name :: store.races[j] == races0[j]
    requires Performed(states, Plan(info[..t])) && states[|states| - 1] == store.races
    requires count == Moves(info[..t])
    modifies store
    ensures !first' && r.Pass?
    ensures store.Valid() && Skeleton(store.races) == Skeleton(races0)
    ensures forall j | 0 <= j < |store.races| && races0[j].raceclass != name :: store.races[j] == races0[j]
    ensures Performed(states', Plan(info[..t + 1])) && states'[0] == states[0] && states'[|states'| - 1] == store.races
    ensures count' == Moves(info[..t + 1])
  {
    PlanStep(info, t);
    first', count', r, states' := false, count, Pass, states;
    if !first {
      var moves;
      r, moves := SwapWithPrevious(store, name, races0, info[t]);
      count' := count + moves;
      PerformedStep(states, Plan(info[..t]), store.races, SwapFor(info[t]));
      states' := states + [store.races];
    }
  }

  /** shuffle_round2's second loop over a class's R2 notes: the first is
      skipped, every later one is swapped with the race before it, in note
      order, each call on the entries the previous one left. */
  method SwapR2Races(store: RaceStore, name: string, ghost races0: seq<Race>, info: seq<R2Race>)
    returns (count: nat, r: Outcome<RaceError>, ghost states: seq<seq<Race>>)
    requires store.Valid() && Skeleton(store.races) == Skeleton(races0)
    requires forall m | 0 <= m < |info| :: info[m].raceId in IdsOf(OfClass(races0, name))
    requires forall m | 1 <= m < |info| :: info[m].previousRaceId in IdsOf(OfClass(races0, name))
    requires forall m | 1 <= m < |info| :: info[m].raceId != info[m].previousRaceId
    requires forall j | 0 <= j < |store.races| && races0[j].raceclass != name :: store.races[j] == races0[j]
    modifies store
    ensures store.Valid() && Skeleton(store.races) == Skeleton(races0)
    ensures r.Pass? && count == Moves(info)
    ensures Performed(states, Plan(info)) && states[0] == old(store.races) && states[|states| - 1] == store.races
    ensures forall j | 0 <= j < |store.races| && races0[j].raceclass != name :: store.races[j] == races0[j]
  {
    count, r, states := 0, Pass, [store.races];
    var first := true;
    var t := 0;
    while t < |info|
      invariant t <= |info| && first == (t == 0)
      invariant store.Valid() && Skeleton(store.races) == Skeleton(races0)
      invariant r.Pass? && count == Moves(info[..t])
      invariant Performed(states, Plan(info[..t])) && states[0] == old(store.races) && states[|states| - 1] == store.races
      invariant forall j | 0 <= j < |store.races| && races0[j].raceclass != name :: store.races[j] == races0[j]
    {
      first, count, r, states := SwapR2Step(store, name, races0, info, t, first, count, states);
      t := t + 1;
    }
    assert info[..t] == info;
  }

  /** shuffle_round2's work on one unranked class: every R2 race but the first
      exchanges runners with the race listed before it (indexes 1 and 3 for an
      odd heat, 0, 2 and 4 otherwise), in list order, each exchange on the
      entries the previous one left; races of other classes are untouched. */
  method ShuffleClass(store: RaceStore, name: string)
    returns (count: nat, r: Outcome<RaceError>, ghost states: seq<seq<Race>>)
    requires store.Valid()
    modifies store
    ensures store.Valid() && Skeleton(store.races) == Skeleton(old(store.races))
    ensures r.Pass?
    ensures Performed(states, Plan(R2Info(OfClass(old(store.races), name))))
    ensures states[0] == old(store.races) && states[|states| - 1] == store.races
    ensures count == Moves(R2Info(OfClass(old(store.races), name)))
    ensures forall j | 0 <= j < |store.races| && old(store.races)[j].raceclass != name ::
              store.races[j] == old(store.races)[j]
  {
    ghost var races0 := store.races;
    var races := OfClass(store.races, name);
    var info := CollectR2(races);
    R2InfoPrevious(races);
    OfClassDistinct(races0, name);
    R2InfoPairsDistinct(races);
    count, r, states := SwapR2Races(store, name, races0, info);
  }

  /** The names of the first u classes that shuffle_round2 works on: the
      unranked ones. */
  function UnrankedNames(classes: seq<Raceclass>, u: nat): set<string>
    requires u <= |classes|
  {
    set i | 0 <= i < u && !classes[i].ranking :: classes[i].name
  }

  /** swap_count after shuffle_round2 has passed the first u classes: the
      moves of every unranked class among them, in class order. */
  function UnrankedMoves(classes: seq<Raceclass>, u: nat, races: seq<Race>): nat
    requires u <= |classes|
  {
    if u == 0 then 0
    else
      UnrankedMoves(classes, u - 1, races) +
      (if classes[u - 1].ranking then 0 else Moves(R2Info(OfClass(races, classes[u - 1].name))))
  }

  /** The swap_starts calls shuffle_round2 makes for the first u classes:
      those of every unranked class among them, in class order. */
  function UnrankedPlan(classes: seq<Raceclass>, u: nat, races: seq<Race>): seq<SwapCall>
    requires u <= |classes|
  {
    if u == 0 then []
    else
      UnrankedPlan(classes, u - 1, races) +
      (if classes[u - 1].ranking then [] else Plan(R2Info(OfClass(races, classes[u - 1].name))))
  }

  lemma {:induction false} IndexCountAppend(a: seq<SwapCall>, b: seq<SwapCall>)
    ensures IndexCount(a + b) == IndexCount(a) + IndexCount(b)
  {
    if b != [] {
      var n := |b| - 1;
      assert (a + b)[..|a + b| - 1] == a + b[..n];
      IndexCountAppend(a, b[..n]);
    } else {
      assert a + b == a;
    }
  }

  /** A class's calls add its moves to the indexes counted so far. */
  lemma ClassCountStep(calls: seq<SwapCall>, info: seq<R2Race>)
    ensures IndexCount(calls + Plan(info)) == IndexCount(calls) + Moves(info)
  {
    IndexCountAppend(calls, Plan(info));
    MovesCountsIndexes(info);
  }

  /** The reported swap_count is the number of indexes handed to swap_starts
      over the whole shuffle. */
  lemma {:induction false} UnrankedMovesCountsIndexes(classes: seq<Raceclass>, u: nat, races: seq<Race>)
    requires u <= |classes|
    ensures UnrankedMoves(classes, u, races) == IndexCount(UnrankedPlan(classes, u, races))
  {
    if u > 0 {
      var n := u - 1;
      UnrankedMovesCountsIndexes(classes, n, races);
      if classes[n].ranking {
        RankedSkipped(classes, n, races);
      } else {
        ClassCountStep(UnrankedPlan(classes, n, races), R2Info(OfClass(races, classes[n].name)));
      }
    }
  }

  /** The information text of shuffle_round2: empty unless runners were moved. */
  function ShuffleText(swapCount: nat): (text: string)
    ensures text == "" <==> swapCount == 0
  {
    if swapCount > 0 then " R2 for urangerte er stokket - " + NatToString(swapCount) + " flyttinger." else ""
  }

  /** shuffle_round2 reports moves exactly when some unranked class has two or
      more R2 races. */
  lemma {:induction false} UnrankedMovesZero(classes: seq<Raceclass>, u: nat, races: seq<Race>)
    requires u <= |classes|
    ensures UnrankedMoves(classes, u, races) == 0 <==>
              forall i | 0 <= i < u && !classes[i].ranking :: |R2Info(OfClass(races, classes[i].name))| <= 1
  {
    if u > 0 {
      UnrankedMovesZero(classes, u - 1, races);
      MovesZero(R2Info(OfClass(races, classes[u - 1].name)));
    }
  }

  lemma UnrankedNamesStep(classes: seq<Raceclass>, u: nat)
    requires u < |classes|
    ensures UnrankedNames(classes, u + 1) ==
              UnrankedNames(classes, u) + (if classes[u].ranking then {} else {classes[u].name})
  {
    if !classes[u].ranking {
      assert classes[u].name in UnrankedNames(classes, u + 1);
    }
  }

  /** The calls for one more unranked class continue the run of calls. */
  lemma UnrankedPlanExtends(classes: seq<Raceclass>, u: nat, races0: seq<Race>,
                            states: seq<seq<Race>>, classStates: seq<seq<Race>>)
    requires u < |classes| && !classes[u].ranking
    requires Performed(states, UnrankedPlan(classes, u, races0))
    requires Performed(classStates, Plan(R2Info(OfClass(races0, classes[u].name))))
    requires states[|states| - 1] == classStates[0]
    ensures Performed(states + classStates[1..], UnrankedPlan(classes, u + 1, races0))
    ensures (states + classStates[1..])[0] == states[0]
    ensures (states + classStates[1..])[|states + classStates[1..]| - 1] == classStates[|classStates| - 1]
  {
    PerformedConcat(states, UnrankedPlan(classes, u, races0),
                    classStates, Plan(R2Info(OfClass(races0, classes[u].name))));
  }

  /** One pass of shuffle_round2's loop over the classes, at class u: an
      unranked class is shuffled and its moves are added to swap_count, a
      ranked one is passed over. */
  method ShuffleStep(store: RaceStore, classes: seq<Raceclass>, u: nat, ghost races0: seq<Race>,
                     swapCount: nat, ghost states: seq<seq<Race>>)
    returns (swapCount': nat, ghost states': seq<seq<Race>>)
    requires u < |classes|
    requires store.Valid() && Skeleton(store.races) == Skeleton(races0)
    requires swapCount == UnrankedMoves(classes, u, races0)
    requires Performed(states, UnrankedPlan(classes, u, races0))
    requires states[0] == races0 && states[|states| - 1] == store.races
    requires forall j | 0 <= j < |store.races| && races0[j].raceclass !in UnrankedNames(classes, u) ::
               store.races[j] == races0[j]
    modifies store
    ensures store.Valid() && Skeleton(store.races) == Skeleton(races0)
    ensures swapCount' == UnrankedMoves(classes, u + 1, races0)
    ensures Performed(states', UnrankedPlan(classes, u + 1, races0))
    ensures states'[0] == races0 && states'[|states'| - 1] == store.races
    ensures forall j | 0 <= j < |store.races| && races0[j].raceclass !in UnrankedNames(classes, u + 1) ::
              store.races[j] == races0[j]
  {
    if classes[u].ranking {
      RankedSkipped(classes, u, races0);
      swapCount', states' := swapCount, states;
    } else {
      ghost var before := store.races;
      ClassR2Stable(before, races0, classes[u].name);
      var count, r;
      ghost var classStates;
      count, r, classStates := ShuffleClass(store, classes[u].name);
      swapCount' := swapCount + count;
      states' := states + classStates[1..];
      UnrankedPlanExtends(classes, u, races0, states, classStates);
      UnrankedFrameStep(classes, u, races0, before, store.races);
    }
  }

  /** A ranked class adds no call, no move and no name. */
  lemma RankedSkipped(classes: seq<Raceclass>, u: nat, races0: seq<Race>)
    requires u < |classes| && classes[u].ranking
    ensures UnrankedMoves(classes, u + 1, races0) == UnrankedMoves(classes, u, races0)
    ensures UnrankedPlan(classes, u + 1, races0) == UnrankedPlan(classes, u, races0)
    ensures UnrankedNames(classes, u + 1) == UnrankedNames(classes, u)
  {
    UnrankedNamesStep(classes, u);
    assert UnrankedPlan(classes, u + 1, races0) == UnrankedPlan(classes, u, races0) + [];
  }

  /** Shuffling unranked class u keeps every race outside the unranked
      classes so far as it was. */
  lemma UnrankedFrameStep(classes: seq<Raceclass>, u: nat, races0: seq<Race>, before: seq<Race>, after: seq<Race>)
    requires u < |classes| && !classes[u].ranking
    requires Skeleton(before) == Skeleton(races0) && |after| == |before|
    requires forall j | 0 <= j < |before| && races0[j].raceclass !in UnrankedNames(classes, u) ::
               before[j] == races0[j]
    requires forall j | 0 <= j < |after| && before[j].raceclass != classes[u].name :: after[j] == before[j]
    ensures forall j | 0 <= j < |after| && races0[j].raceclass !in UnrankedNames(classes, u + 1) ::
              after[j] == races0[j]
  {
    UnrankedNamesStep(classes, u);
    forall j | 0 <= j < |after| && races0[j].raceclass !in UnrankedNames(classes, u + 1)
      ensures after[j] == races0[j]
    {
      assert Skeleton(before)[j] == Skeleton(races0)[j];
    }
  }

  /** shuffle_round2: the R2 races of every unranked class are shuffled, class
      after class, by the calls UnrankedPlan lists, each on the races as the
      previous call left them, and the text reports the total number of
      moves. */
  method ShuffleRound2(store: RaceStore, classes: seq<Raceclass>)
    returns (informasjon: string, ghost states: seq<seq<Race>>)
    requires store.Valid()
    modifies store
    ensures store.Valid() && Skeleton(store.races) == Skeleton(old(store.races))
    ensures Performed(states, UnrankedPlan(classes, |classes|, old(store.races)))
    ensures states[0] == old(store.races) && states[|states| - 1] == store.races
    ensures informasjon == ShuffleText(UnrankedMoves(classes, |classes|, old(store.races)))
    ensures forall j | 0 <= j < |store.races| && old(store.races)[j].raceclass !in UnrankedNames(classes, |classes|) ::
              store.races[j] == old(store.races)[j]
  {
    ghost var races0 := store.races;
    states := [store.races];
    var swapCount := 0;
    var u := 0;
    while u < |classes|
      invariant u <= |classes|
      invariant store.Valid() && Skeleton(store.races) == Skeleton(races0)
      invariant swapCount == UnrankedMoves(classes, u, races0)
      invariant Performed(states, UnrankedPlan(classes, u, races0))
      invariant states[0] == races0 && states[|states| - 1] == store.races
      invariant forall j | 0 <= j < |store.races| && races0[j].raceclass !in UnrankedNames(classes, u) ::
                  store.races[j] == races0[j]
    {
      swapCount, states := ShuffleStep(store, classes, u, races0, swapCount, states);
      u := u + 1;
    }
    informasjon := ShuffleText(swapCount);
  }
}

=== FILE: tasks.dfy ===
/** The event-preparation checklist (get_task_status) and the two bulk
    deletions of the tasks page (delete_start_lists, delete_time_events). */
module Tasks {
  import opened Common
  import opened ContestantsAdapter
  import Classes
  import Races
  import ViewUtils

  // ---------------------------------------------------------------------
  // Counting

  /** Contestants without a bib. */
  function NoBibCount(cs: seq<Contestant>): (n: nat)
    ensures n <= |cs|
  {
    if cs == [] then 0 else NoBibCount(cs[..|cs| - 1]) + if cs[|cs| - 1].bib.None? then 1 else 0
  }

  /** No bib is missing exactly when every contestant has one. */
  lemma {:induction false} NoBibCountZero(cs: seq<Contestant>)
    ensures NoBibCount(cs) == 0 <==> forall i | 0 <= i < |cs| :: cs[i].bib.Some?
  {
    if cs != [] {
      var front := cs[..|cs| - 1];
      NoBibCountZero(front);
      assert forall i | 0 <= i < |front| :: front[i] == cs[i];
    }
  }

  /** Race classes without a start order. */
  function NoOrderCount(cs: seq<Classes.Raceclass>): (n: nat)
    ensures n <= |cs|
  {
    if cs == [] then 0 else NoOrderCount(cs[..|cs| - 1]) + if cs[|cs| - 1].order.None? then 1 else 0
  }

  /** No start order is missing exactly when every class has one. */
  lemma {:induction false} NoOrderCountZero(cs: seq<Classes.Raceclass>)
    ensures NoOrderCount(cs) == 0 <==> forall i | 0 <= i < |cs| :: cs[i].order.Some?
  {
    if cs != [] {
      var front := cs[..|cs| - 1];
      NoOrderCountZero(front);
      assert forall i | 0 <= i < |front| :: front[i] == cs[i];
    }
  }

  /** The time events at the "Template" timing point, in order. */
  function Templates(events: seq<ViewUtils.TimeEvent>): (r: seq<ViewUtils.TimeEvent>)
    ensures |r| <= |events|
    ensures forall e | e in r :: e in events && e.timingPoint == "Template"
    ensures forall e | e in events && e.timingPoint == "Template" :: e in r
  {
    if events == [] then []
    else
      var last := events[|events| - 1];
      Templates(events[..|events| - 1]) + if last.timingPoint == "Template" then [last] else []
  }

  // ---------------------------------------------------------------------
  // get_task_status

  /** The checklist shown on the tasks page; optional entries are the keys
      the page sets only in some cases. */
  datatype TaskStatus = TaskStatus(
    noOfContestants: nat,
    done2: bool,
    bibMissing: nat,
    done5: bool,
    noOfRaceclasses: nat,
    done3: bool,
    noOfStartorderMissing: nat,
    done4: bool,
    noOfRaces: nat,
    done6: bool,
    raceplanValidation: Option<string>,
    noOfStarts: Option<nat>,
    done8: bool,
    noOfNextRace: Option<nat>,
    done9: bool)

  datatype Startlist = Startlist(id: string, startEntries: seq<Races.StartEntry>)

  /** get_task_status over the snapshots the services return; `validate`
      stands for the raceplan service's validation of one raceplan. */
  method TaskStatusOf(contestants: seq<Contestant>, raceclasses: seq<Classes.Raceclass>, races: seq<Races.Race>,
                      raceplanIds: seq<string>, validate: string -> string, startlists: seq<Startlist>,
                      timeEvents: seq<ViewUtils.TimeEvent>)
    returns (status: TaskStatus)
    ensures status.noOfContestants == |contestants| && status.bibMissing == NoBibCount(contestants)
    ensures status.done2 <==> |contestants| > 0
    ensures status.done5 <==> |contestants| > 0 && forall i | 0 <= i < |contestants| :: contestants[i].bib.Some?
    ensures status.noOfRaceclasses == |raceclasses| && status.noOfStartorderMissing == NoOrderCount(raceclasses)
    ensures status.done3 <==> |raceclasses| > 0
    ensures status.done4 <==> |raceclasses| > 0 && forall i | 0 <= i < |raceclasses| :: raceclasses[i].order.Some?
    ensures status.noOfRaces == |races|
    ensures status.done6 <==> |races| > 0
    ensures status.raceplanValidation.Some? <==> |races| > 0 && |raceplanIds| == 1
    ensures status.raceplanValidation.Some? ==> status.raceplanValidation.value == validate(raceplanIds[0])
    ensures status.done8 <==> |startlists| > 0
    ensures status.noOfStarts == if |startlists| > 0 then Some(|startlists[0].startEntries|) else None
    ensures status.done9 <==> exists e | e in timeEvents :: e.timingPoint == "Template"
    ensures status.noOfNextRace == if status.done9 then Some(|Templates(timeEvents)|) else None
  {
    var missingBib := CountNoBib(contestants);
    NoBibCountZero(contestants);
    var missingOrder := CountNoOrder(raceclasses);
    NoOrderCountZero(raceclasses);
    var validation: Option<string> := None;
    if |races| > 0 && |raceplanIds| == 1 {
      validation := Some(validate(raceplanIds[0]));
    }
    var noOfStarts: Option<nat> := None;
    if |startlists| > 0 {
      noOfStarts := Some(|startlists[0].startEntries|);
    }
    var templates := CollectTemplates(timeEvents);
    var noOfNextRace: Option<nat> := None;
    if |templates| > 0 {
      assert templates[0] in templates;
      noOfNextRace := Some(|templates|);
    }
    status := TaskStatus(
      |contestants|, |contestants| > 0, missingBib, missingBib == 0 && |contestants| > 0,
      |raceclasses|, |raceclasses| > 0, missingOrder, missingOrder == 0 && |raceclasses| > 0,
      |races|, |races| > 0, validation, noOfStarts, |startlists| > 0, noOfNextRace, |templates| > 0);
  }

  /** The i_missing_bib loop. */
  method CountNoBib(contestants: seq<Contestant>) returns (n: nat)
    ensures n == NoBibCount(contestants)
  {
    n := 0;
    for i := 0 to |contestants|
      invariant n == NoBibCount(contestants[..i])
    {
      assert contestants[..i + 1][..i] == contestants[..i];
      if contestants[i].bib.None? {
        n := n + 1;
      }
    }
    assert contestants[..|contestants|] == contestants;
  }

  /** The i_missing_startorder loop. */
  method CountNoOrder(raceclasses: seq<Classes.Raceclass>) returns (n: nat)
    ensures n == NoOrderCount(raceclasses)
  {
    n := 0;
    for i := 0 to |raceclasses|
      invariant n == NoOrderCount(raceclasses[..i])
    {
      assert raceclasses[..i + 1][..i] == raceclasses[..i];
      if raceclasses[i].order.None? {
        n := n + 1;
      }
    }
    assert raceclasses[..|raceclasses|] == raceclasses;
  }

  /** The loop gathering the next-race templates. */
  method CollectTemplates(events: seq<ViewUtils.TimeEvent>) returns (templates: seq<ViewUtils.TimeEvent>)
    ensures templates == Templates(events)
  {
    templates := [];
    for i := 0 to |events|
      invariant templates == Templates(events[..i])
    {
      assert events[..i + 1][..i] == events[..i];
      if events[i].timingPoint == "Template" {
        templates := templates + [events[i]];
      }
    }
    assert events[..|events|] == events;
  }

  // ---------------------------------------------------------------------
  // delete_start_lists, delete_time_events

  /** The ids left of `ids` once every id in `gone` is deleted. */
  function Remaining(ids: seq<string>, gone: seq<string>): (r: seq<string>)
    ensures forall x | x in r :: x in ids && x !in gone
    ensures forall x | x in ids && x !in gone :: x in r
  {
    if ids == [] then []
    else (if ids[0] in gone then [] else [ids[0]]) + Remaining(ids[1..], gone)
  }

  /** Deleting one more id removes it from what remains. */
  lemma {:induction false} RemainingStep(ids: seq<string>, gone: seq<string>, id: string)
    ensures Remaining(ids, gone + [id]) == Without(Remaining(ids, gone), id)
  {
    if ids != [] {
      RemainingStep(ids[1..], gone, id);
      var rest := Remaining(ids[1..], gone);
      assert ids[0] in gone + [id] <==> ids[0] in gone || ids[0] == id;
      var later := Remaining(ids[1..], gone + [id]);
      assert Remaining(ids, gone + [id]) == (if ids[0] in gone + [id] then [] else [ids[0]]) + later;
      if ids[0] !in gone {
        assert Remaining(ids, gone) == [ids[0]] + rest;
        assert ([ids[0]] + rest)[1..] == rest;
        assert Without([ids[0]] + rest, id) == (if ids[0] == id then [] else [ids[0]]) + Without(rest, id);
      } else {
        assert Remaining(ids, gone) == [] + rest;
        assert [] + rest == rest;
      }
    }
  }

  /** Before any deletion everything remains. */
  lemma {:induction false} RemainingAll(ids: seq<string>)
    ensures Remaining(ids, []) == ids
  {
    if ids != [] {
      RemainingAll(ids[1..]);
    }
  }

  /** Nothing remains once every id has been deleted. */
  lemma {:induction false} RemainingNone(ids: seq<string>, gone: seq<string>)
    requires forall x | x in ids :: x in gone
    ensures Remaining(ids, gone) == []
  {
    if ids != [] {
      RemainingNone(ids[1..], gone);
    }
  }

  /** A backend collection of records known by id (start lists or time events). */
  class Collection {
    var ids: seq<string>

    constructor (ids0: seq<string>)
      ensures ids == ids0
    {
      ids := ids0;
    }

    /** Deleting one record by id. */
    method Delete(id: string)
      modifies this
      ensures ids == Without(old(ids), id)
    {
      ids := Without(ids, id);
    }
  }

  /** The ids with every copy of id left out. */
  function Without(ids: seq<string>, id: string): (r: seq<string>)
    ensures id !in r
    ensures forall x | x in ids && x != id :: x in r
  {
    if ids == [] then [] else (if ids[0] == id then [] else [ids[0]]) + Without(ids[1..], id)
  }

  /** The delete loop shared by both helpers: every record listed at the
      start is deleted, and the count is the number of records listed. */
  method DeleteEach(store: Collection) returns (count: nat)
    modifies store
    ensures count == |old(store.ids)|
    ensures store.ids == []
  {
    var listed := store.ids;
    RemainingAll(listed);
    count := 0;
    for i := 0 to |listed|
      invariant store.ids == Remaining(listed, listed[..i])
      invariant count == i
    {
      assert listed[..i + 1] == listed[..i] + [listed[i]];
      RemainingStep(listed, listed[..i], listed[i]);
      store.Delete(listed[i]);
      count := count + 1;
    }
    assert listed[..|listed|] == listed;
    RemainingNone(listed, listed);
  }

  /** delete_start_lists. */
  method DeleteStartLists(startlists: Collection) returns (informasjon: string)
    modifies startlists
    ensures startlists.ids == []
    ensures informasjon == "Slettet " + NatToString(|old(startlists.ids)|) + " start lister."
  {
    var count := DeleteEach(startlists);
    informasjon := "Slettet " + NatToString(count) + " start lister.";
  }

  /** delete_time_events. */
  method DeleteTimeEvents(timeEvents: Collection) returns (informasjon: string)
    modifies timeEvents
    ensures timeEvents.ids == []
    ensures informasjon == "Slettet " + NatToString(|old(timeEvents.ids)|) + " time_events."
  {
    var count := DeleteEach(timeEvents);
    informasjon := "Slettet " + NatToString(count) + " time_events.";
  }
}

=== FILE: view_utils.dfy ===
/** The smaller helpers of the console's view utilities: the countdown colour
    of a race header, the qualification text of a race, the "next race" rows
    of a start list, the selection and heat markers of a list of passings, and
    the checks and labels of a start created by hand. */
module ViewUtils {
  import opened Common
  import opened Races
  import ContestantsAdapter
  import StartAdapter

  // ---------------------------------------------------------------------
  // get_display_style

  const RedStyle := "table_header_red"
  const OrangeStyle := "table_header_orange"
  const GreenStyle := "table_header_green"

  /** The header style of a race starting at startTime, seen at now (whole
      seconds): red under five minutes to go, orange under ten, else green. */
  function DisplayStyle(startTime: int, now: int): (style: string)
    ensures style == RedStyle <==> startTime - now < 300
    ensures style == OrangeStyle <==> 300 <= startTime - now < 600
    ensures style == GreenStyle <==> 600 <= startTime - now
  {
    var delta := startTime - now;
    if delta < 300 then RedStyle else if delta < 600 then OrangeStyle else GreenStyle
  }

  /** How pressing a header style is: green 0, orange 1, red 2. */
  function Urgency(style: string): nat {
    if style == RedStyle then 2 else if style == OrangeStyle then 1 else 0
  }

  /** As the clock runs towards the start, a header never calms down. */
  lemma StyleEscalates(startTime: int, now1: int, now2: int)
    requires now1 <= now2
    ensures Urgency(DisplayStyle(startTime, now1)) <= Urgency(DisplayStyle(startTime, now2))
  {
  }

  // ---------------------------------------------------------------------
  // get_qualification_text

  /** A value in a race's rule table: a word such as "REST" or "ALL", or a
      number of contestants. */
  datatype RuleValue = Word(word: string) | Number(n: int)

  /** race["rule"]: for each key ("S" semifinals, "F" finals, others ignored)
      its targets and what goes there, in dict order. */
  type Rule = seq<(string, seq<(string, RuleValue)>)>

  /** The text, or the TypeError Python raises when it compares a word other
      than the ones it knows with 0. */
  datatype Qualification = Text(text: string) | TypeError

  /** A value the comparison y > 0 cannot read: a word the branch does not
      name. Semifinal targets know "REST"; final targets "ALL" and "REST". */
  predicate Unreadable(semi: bool, y: RuleValue) {
    y.Word? && y.word != "REST" && (semi || y.word != "ALL")
  }

  /** A value that adds a line: a known word or a positive number. */
  predicate Counted(semi: bool, y: RuleValue) {
    (y.Word? && !Unreadable(semi, y)) || (y.Number? && y.n > 0)
  }

  /** The line for one target. */
  function TargetText(semi: bool, x: string, y: RuleValue): (q: Qualification)
    ensures q.TypeError? <==> Unreadable(semi, y)
    ensures q.Text? ==> (q.text != "" <==> Counted(semi, y))
  {
    var kind := if semi then "semi " else "finale ";
    if y == Word("REST") then Text("Resten til " + kind + x + ". ")
    else if !semi && y == Word("ALL") then Text("Alle til " + kind + x + ". ")
    else if y.Word? then TypeError
    else if y.n > 0 then Text(IntToString(y.n) + " til " + kind + x + ". ")
    else Text("")
  }

  /** Appending a line; an error stops the text. */
  function Then(q: Qualification, next: Qualification): Qualification {
    if q.TypeError? || next.TypeError? then TypeError else Text(q.text + next.text)
  }

  /** The lines of one key's targets, in order. */
  function TargetsText(semi: bool, targets: seq<(string, RuleValue)>): Qualification {
    if targets == [] then Text("")
    else
      var n := |targets| - 1;
      Then(TargetsText(semi, targets[..n]), TargetText(semi, targets[n].0, targets[n].1))
  }

  /** The lines of the whole rule table, key by key. */
  function RuleText(rule: Rule): Qualification {
    if rule == [] then Text("")
    else
      var n := |rule| - 1;
      var (key, targets) := rule[n];
      Then(RuleText(rule[..n]),
           if key == "S" then TargetsText(true, targets)
           else if key == "F" then TargetsText(false, targets)
           else Text(""))
  }

  /** get_qualification_text: first round heats all go on to round 2, round 2
      and finals have no text, other rounds spell out their rule table. */
  function QualificationText(round: string, rule: Rule): (q: Qualification)
    ensures round == "R1" ==> q == Text("Alle til runde 2")
    ensures round == "R2" || round == "F" ==> q == Text("")
  {
    if round == "R1" then Text("Alle til runde 2")
    else if round == "R2" || round == "F" then Text("")
    else RuleText(rule)
  }

  /** Some target of the table has a value its branch cannot read. */
  predicate RuleUnreadable(rule: Rule) {
    exists i, j | 0 <= i < |rule| && 0 <= j < |rule[i].1| ::
      (rule[i].0 == "S" || rule[i].0 == "F") && Unreadable(rule[i].0 == "S", rule[i].1[j].1)
  }

  /** Some target of the table adds a line. */
  predicate RuleCounts(rule: Rule) {
    exists i, j | 0 <= i < |rule| && 0 <= j < |rule[i].1| ::
      (rule[i].0 == "S" || rule[i].0 == "F") && Counted(rule[i].0 == "S", rule[i].1[j].1)
  }

  lemma {:induction false} TargetsTextMeaning(semi: bool, targets: seq<(string, RuleValue)>)
    ensures TargetsText(semi, targets).TypeError? <==> exists j | 0 <= j < |targets| :: Unreadable(semi, targets[j].1)
    ensures TargetsText(semi, targets).Text? ==>
              (TargetsText(semi, targets).text != "" <==> exists j | 0 <= j < |targets| :: Counted(semi, targets[j].1))
  {
    if targets != [] {
      var n := |targets| - 1;
      TargetsTextMeaning(semi, targets[..n]);
      assert forall j | 0 <= j < n :: targets[..n][j] == targets[j];
      assert TargetsText(semi, targets) ==
             Then(TargetsText(semi, targets[..n]), TargetText(semi, targets[n].0, targets[n].1));
    }
  }

  /** The text raises exactly when a semifinal or final target holds a word
      its branch does not know. */
  lemma {:induction false} RuleTextRaises(rule: Rule)
    ensures RuleText(rule).TypeError? <==> RuleUnreadable(rule)
  {
    if rule != [] {
      var n := |rule| - 1;
      RuleTextRaises(rule[..n]);
      TargetsTextMeaning(rule[n].0 == "S", rule[n].1);
      if RuleUnreadable(rule) {
        var i, j :| 0 <= i < |rule| && 0 <= j < |rule[i].1| &&
          (rule[i].0 == "S" || rule[i].0 == "F") && Unreadable(rule[i].0 == "S", rule[i].1[j].1);
        if i < n {
          assert rule[..n][i] == rule[i];
        }
      }
      if RuleUnreadable(rule[..n]) {
        var i, j :| 0 <= i < n && 0 <= j < |rule[..n][i].1| &&
          (rule[..n][i].0 == "S" || rule[..n][i].0 == "F") && Unreadable(rule[..n][i].0 == "S", rule[..n][i].1[j].1);
        assert rule[..n][i] == rule[i];
      }
    }
  }

  /** A readable table gives an empty text exactly when no target is a known
      word or a positive number. */
  lemma {:induction false} RuleTextEmpty(rule: Rule)
    ensures RuleText(rule).Text? ==> (RuleText(rule).text != "" <==> RuleCounts(rule))
  {
    if rule != [] {
      var n := |rule| - 1;
      RuleTextEmpty(rule[..n]);
      TargetsTextMeaning(rule[n].0 == "S", rule[n].1);
      if RuleCounts(rule) {
        var i, j :| 0 <= i < |rule| && 0 <= j < |rule[i].1| &&
          (rule[i].0 == "S" || rule[i].0 == "F") && Counted(rule[i].0 == "S", rule[i].1[j].1);
        if i < n {
          assert rule[..n][i] == rule[i];
        }
      }
      if RuleCounts(rule[..n]) {
        var i, j :| 0 <= i < n && 0 <= j < |rule[..n][i].1| &&
          (rule[..n][i].0 == "S" || rule[..n][i].0 == "F") && Counted(rule[..n][i].0 == "S", rule[..n][i].1[j].1);
        assert rule[..n][i] == rule[i];
      }
    }
  }

  // ---------------------------------------------------------------------
  // Time events

  /** A time event with the fields the views read and write. Registration
      times are whole seconds. */
  datatype TimeEvent = TimeEvent(
    id: string,
    bib: int,
    race: string,
    timingPoint: string,
    status: string,
    rank: int,
    nextRace: string,
    nextRaceId: string,
    nextRacePosition: int,
    registrationTime: int)

  // ---------------------------------------------------------------------
  // get_next_race_info

  /** One simulated row of a start list: the place and where it goes next. */
  datatype NextRaceRow = NextRaceRow(raceId: string, startingPosition: int, nextRace: string)

  predicate IsTemplate(t: TimeEvent) {
    t.timingPoint == "Template"
  }

  /** Where a template sends its place: any "Ute..." (out) reads "Ute". */
  function NextRaceOf(t: TimeEvent): (next: string)
    ensures StartsWith(t.nextRace, "Ute") ==> next == "Ute"
    ensures !StartsWith(t.nextRace, "Ute") ==> next == t.nextRace
  {
    if StartsWith(t.nextRace, "Ute") then "Ute" else t.nextRace
  }

  /** The rows for simulated place x: one per template of that rank, in list
      order. */
  function RowsFor(templates: seq<TimeEvent>, raceId: string, x: int): seq<NextRaceRow> {
    if templates == [] then []
    else
      var n := |templates| - 1;
      RowsFor(templates[..n], raceId, x) +
      (if IsTemplate(templates[n]) && templates[n].rank == x
       then [NextRaceRow(raceId, x, NextRaceOf(templates[n]))] else [])
  }

  /** The rows for places 1 to k, place by place. */
  function RowsUpTo(templates: seq<TimeEvent>, raceId: string, k: nat): seq<NextRaceRow> {
    if k == 0 then [] else RowsUpTo(templates, raceId, k - 1) + RowsFor(templates, raceId, k)
  }

  /** The inner loop of get_next_race_info: the rows for place x are
      appended to the start list. */
  method AppendRows(startlist: seq<NextRaceRow>, templates: seq<TimeEvent>, raceId: string, x: int)
    returns (extended: seq<NextRaceRow>)
    ensures extended == startlist + RowsFor(templates, raceId, x)
  {
    extended := startlist;
    for j := 0 to |templates|
      invariant extended == startlist + RowsFor(templates[..j], raceId, x)
    {
      assert templates[..j + 1][..j] == templates[..j];
      var template := templates[j];
      if template.timingPoint == "Template" && template.rank == x {
        var nextRace := if StartsWith(template.nextRace, "Ute") then "Ute" else template.nextRace;
        extended := extended + [NextRaceRow(raceId, x, nextRace)];
      }
    }
    assert templates[..|templates|] == templates;
  }

  /** get_next_race_info: places 1 to 8, each scanned over all templates. */
  method NextRaceInfo(templates: seq<TimeEvent>, raceId: string) returns (startlist: seq<NextRaceRow>)
    ensures startlist == RowsUpTo(templates, raceId, 8)
  {
    startlist := [];
    for x := 1 to 9
      invariant startlist == RowsUpTo(templates, raceId, x - 1)
    {
      startlist := AppendRows(startlist, templates, raceId, x);
    }
  }

  /** The number of templates whose rank is a place from 1 to k. */
  function PlacedTemplates(templates: seq<TimeEvent>, k: nat): nat {
    if templates == [] then 0
    else
      var n := |templates| - 1;
      PlacedTemplates(templates[..n], k) +
      (if IsTemplate(templates[n]) && 1 <= templates[n].rank <= k then 1 else 0)
  }

  lemma {:induction false} RowsForShape(templates: seq<TimeEvent>, raceId: string, x: int)
    ensures forall m | 0 <= m < |RowsFor(templates, raceId, x)| ::
              RowsFor(templates, raceId, x)[m].raceId == raceId && RowsFor(templates, raceId, x)[m].startingPosition == x
    ensures forall t | t in templates && IsTemplate(t) && t.rank == x ::
              NextRaceRow(raceId, x, NextRaceOf(t)) in RowsFor(templates, raceId, x)
  {
    if templates != [] {
      var n := |templates| - 1;
      RowsForShape(templates[..n], raceId, x);
      forall t | t in templates && IsTemplate(t) && t.rank == x
        ensures NextRaceRow(raceId, x, NextRaceOf(t)) in RowsFor(templates, raceId, x)
      {
        var i :| 0 <= i < |templates| && templates[i] == t;
        if i < n {
          assert templates[..n][i] == t;
        }
      }
    }
  }

  lemma {:induction false} PlacedStep(templates: seq<TimeEvent>, raceId: string, k: nat)
    requires k > 0
    ensures PlacedTemplates(templates, k) == PlacedTemplates(templates, k - 1) + |RowsFor(templates, raceId, k)|
  {
    if templates != [] {
      PlacedStep(templates[..|templates| - 1], raceId, k);
    }
  }

  /** There is one row per template whose rank is a place from 1 to k. */
  lemma {:induction false} RowsUpToCount(templates: seq<TimeEvent>, raceId: string, k: nat)
    ensures |RowsUpTo(templates, raceId, k)| == PlacedTemplates(templates, k)
  {
    if k == 0 {
      PlacedNone(templates);
    } else {
      RowsUpToCount(templates, raceId, k - 1);
      PlacedStep(templates, raceId, k);
    }
  }

  /** The rows are all of this race, for places 1 to k, in place order. */
  lemma {:induction false} RowsUpToOrdered(templates: seq<TimeEvent>, raceId: string, k: nat)
    ensures forall m | 0 <= m < |RowsUpTo(templates, raceId, k)| ::
              RowsUpTo(templates, raceId, k)[m].raceId == raceId &&
              1 <= RowsUpTo(templates, raceId, k)[m].startingPosition <= k
    ensures forall m, m' | 0 <= m < m' < |RowsUpTo(templates, raceId, k)| ::
              RowsUpTo(templates, raceId, k)[m].startingPosition <= RowsUpTo(templates, raceId, k)[m'].startingPosition
  {
    if k > 0 {
      RowsUpToOrdered(templates, raceId, k - 1);
      RowsForShape(templates, raceId, k);
      var a, b := RowsUpTo(templates, raceId, k - 1), RowsFor(templates, raceId, k);
      assert RowsUpTo(templates, raceId, k) == a + b;
      assert forall m | 0 <= m < |a + b| :: (a + b)[m] == if m < |a| then a[m] else b[m - |a|];
    }
  }

  /** Every template whose rank is a place from 1 to k has its row. */
  lemma {:induction false} RowsUpToComplete(templates: seq<TimeEvent>, raceId: string, k: nat)
    ensures forall t | t in templates && IsTemplate(t) && 1 <= t.rank <= k ::
              NextRaceRow(raceId, t.rank, NextRaceOf(t)) in RowsUpTo(templates, raceId, k)
  {
    if k > 0 {
      RowsUpToComplete(templates, raceId, k - 1);
      RowsForShape(templates, raceId, k);
    }
  }

  lemma {:induction false} PlacedNone(templates: seq<TimeEvent>)
    ensures PlacedTemplates(templates, 0) == 0
  {
    if templates != [] {
      PlacedNone(templates[..|templates| - 1]);
    }
  }

  // ---------------------------------------------------------------------
  // get_passeringer

  /** Python's `sub in s` on strings. */
  predicate Contains(s: string, sub: string)
    decreases |s|
  {
    StartsWith(s, sub) || (|s| > 0 && Contains(s[1..], sub))
  }

  /** Which time events a passing list shows: for "control" the errors of
      the chosen class (any class when none is chosen), for "Template" the
      chosen class's templates, otherwise every event that is not a template. */
  predicate Shown(action: string, klasse: string, t: TimeEvent) {
    if action == "control" then (klasse == "" || Contains(t.race, klasse)) && t.status == "Error" && !IsTemplate(t)
    else if action == "Template" then Contains(t.race, klasse) && IsTemplate(t)
    else !IsTemplate(t)
  }

  function Reversed(s: seq<TimeEvent>): (r: seq<TimeEvent>)
    ensures |r| == |s| && forall i | 0 <= i < |s| :: r[i] == s[|s| - 1 - i]
  {
    if s == [] then [] else [s[|s| - 1]] + Reversed(s[..|s| - 1])
  }

  function ShownOf(action: string, klasse: string, events: seq<TimeEvent>): seq<TimeEvent> {
    if events == [] then []
    else
      var n := |events| - 1;
      ShownOf(action, klasse, events[..n]) + (if Shown(action, klasse, events[n]) then [events[n]] else [])
  }

  /** The passings an action lists, the control list newest first. */
  function Selected(action: string, klasse: string, events: seq<TimeEvent>): seq<TimeEvent> {
    ShownOf(action, klasse, if action == "control" then Reversed(events) else events)
  }

  lemma {:induction false} ShownOfMembers(action: string, klasse: string, events: seq<TimeEvent>)
    ensures forall t :: t in ShownOf(action, klasse, events) <==> t in events && Shown(action, klasse, t)
  {
    if events != [] {
      var n := |events| - 1;
      ShownOfMembers(action, klasse, events[..n]);
      assert events == events[..n] + [events[n]];
    }
  }

  /** A listed passing is an event the action shows, and every such event is
      listed. */
  lemma SelectedMembers(action: string, klasse: string, events: seq<TimeEvent>)
    ensures forall t :: t in Selected(action, klasse, events) <==> t in events && Shown(action, klasse, t)
  {
    var source := if action == "control" then Reversed(events) else events;
    ShownOfMembers(action, klasse, source);
    forall t ensures t in source <==> t in events {
      if t in source {
        var i :| 0 <= i < |source| && source[i] == t;
        if action == "control" {
          assert events[|events| - 1 - i] == t;
        }
      }
      if t in events {
        var i :| 0 <= i < |events| && events[i] == t;
        if action == "control" {
          assert source[|events| - 1 - i] == t;
        }
      }
    }
  }

  /** A listed passing with the heat markers the view sets. */
  datatype Passing = Passing(event: TimeEvent, firstInHeat: bool, lastInHeat: bool)

  /** Passing i is the first of its race in the list. */
  predicate StartsHeat(ps: seq<Passing>, i: int)
    requires 0 <= i < |ps|
  {
    i == 0 || ps[i - 1].event.race != ps[i].event.race
  }

  /** Passing i is the last of its race in the list. */
  predicate EndsHeat(ps: seq<Passing>, i: int)
    requires 0 <= i < |ps|
  {
    i == |ps| - 1 || ps[i + 1].event.race != ps[i].event.race
  }

  /** Passing i after the marker pass: marked where a race starts or ends,
      never cleared. */
  function MarkOne(ps: seq<Passing>, i: int): (p: Passing)
    requires 0 <= i < |ps|
    ensures p.event == ps[i].event
  {
    ps[i].(firstInHeat := ps[i].firstInHeat || StartsHeat(ps, i),
           lastInHeat := ps[i].lastInHeat || EndsHeat(ps, i))
  }

  /** The marker pass over the list: the first passing opens a heat, a change
      of race closes the previous heat and opens the next, the last passing
      closes its heat. */
  method MarkHeats(ps: seq<Passing>) returns (passeringer: seq<Passing>)
    ensures |passeringer| == |ps|
    ensures forall k | 0 <= k < |ps| :: passeringer[k] == MarkOne(ps, k)
  {
    passeringer := ps;
    var lastRace := "";
    for i := 0 to |ps|
      invariant |passeringer| == |ps|
      invariant forall k | 0 <= k < i - 1 :: passeringer[k] == MarkOne(ps, k)
      invariant i > 0 ==> passeringer[i - 1] == MarkOne(ps, i - 1).(lastInHeat := ps[i - 1].lastInHeat || i == |ps|)
      invariant forall k | i <= k < |ps| :: passeringer[k] == ps[k]
      invariant i > 0 ==> lastRace == ps[i - 1].event.race
    {
      var passing := passeringer[i];
      if i == 0 {
        passing := passing.(firstInHeat := true);
      } else if lastRace != passing.event.race {
        passeringer := passeringer[i - 1 := passeringer[i - 1].(lastInHeat := true)];
        passing := passing.(firstInHeat := true);
      }
      if i == |ps| - 1 {
        passing := passing.(lastInHeat := true);
      }
      passeringer := passeringer[i := passing];
      lastRace := passing.event.race;
    }
  }

  /** On an unmarked list every heat gets exactly its two ends: the list
      opens and closes a heat, and one heat closes right where the next
      opens. */
  lemma MarkersPair(ps: seq<Passing>)
    requires forall i | 0 <= i < |ps| :: !ps[i].firstInHeat && !ps[i].lastInHeat
    ensures |ps| > 0 ==> MarkOne(ps, 0).firstInHeat && MarkOne(ps, |ps| - 1).lastInHeat
    ensures forall i | 0 <= i < |ps| - 1 :: MarkOne(ps, i).lastInHeat == MarkOne(ps, i + 1).firstInHeat
    ensures forall i | 0 <= i < |ps| - 1 :: MarkOne(ps, i).lastInHeat <==> ps[i].event.race != ps[i + 1].event.race
  {
  }

  /** get_passeringer: the selected events, unmarked, then the marker pass. */
  method Passeringer(action: string, klasse: string, events: seq<TimeEvent>) returns (passeringer: seq<Passing>)
    ensures |passeringer| == |Selected(action, klasse, events)|
    ensures forall k | 0 <= k < |passeringer| ::
              passeringer[k] == MarkOne(Unmarked(Selected(action, klasse, events)), k)
  {
    var selected := Selected(action, klasse, events);
    passeringer := MarkHeats(Unmarked(selected));
  }

  /** The time events as passings without markers. */
  function Unmarked(ts: seq<TimeEvent>): (ps: seq<Passing>)
    ensures |ps| == |ts|
    ensures forall i | 0 <= i < |ts| :: ps[i] == Passing(ts[i], false, false)
  {
    if ts == [] then [] else Unmarked(ts[..|ts| - 1]) + [Passing(ts[|ts| - 1], false, false)]
  }

  // ---------------------------------------------------------------------
  // create_start

  /** The fields of the create-start form. The start time arrives as text
      and stands for startTime seconds. */
  datatype StartForm = StartForm(
    bibText: string,
    startlistId: string,
    raceId: string,
    startingPosition: int,
    startTime: int,
    startTimeText: string)

  datatype CreateStartError =
    | BibNotANumber
    | RaceMissing(raceId: string)
    | BibInRound(reason: string)
    | Refused(error: RaceError)

  /** The race a listed start belongs to, looked up in the race plan. */
  function RaceOf(races: seq<Race>, e: StartEntry): (r: Option<Race>)
    ensures r.Some? <==> IndexOfRace(races, e.raceId).Some?
    ensures r.Some? ==> r.value in races && r.value.id == e.raceId
  {
    match IndexOfRace(races, e.raceId)
    case None => None
    case Some(i) => Some(races[i])
  }

  /** The same-round check: every entry of the first start list the start
      service returns for the bib is looked up race by race, in list order. The first whose race the plan lacks stops the check, as the
      race lookup fails; the first in a race of the new race's round is
      refused. */
  function RoundCheck(races: seq<Race>, listed: seq<StartEntry>, round: string): (r: Outcome<CreateStartError>)
    ensures r.Pass? <==> forall k | 0 <= k < |listed| ::
              RaceOf(races, listed[k]).Some? && RaceOf(races, listed[k]).value.round != round
    ensures r.Fail? ==> r.error.RaceMissing? || r.error == BibInRound("405 Bib already exists in round - " + round)
    ensures r.Fail? && (forall k | 0 <= k < |listed| :: RaceOf(races, listed[k]).Some?) ==>
              r.error == BibInRound("405 Bib already exists in round - " + round)
  {
    if listed == [] then Pass
    else
      var race := RaceOf(races, listed[0]);
      if race.None? then Fail(RaceMissing(listed[0].raceId))
      else if race.value.round == round then Fail(BibInRound("405 Bib already exists in round - " + round))
      else RoundCheck(races, listed[1..], round)
  }

  /** s[-8:]: the last eight characters, or all of a shorter text. */
  function Last8(s: string): (r: string)
    ensures |r| == if |s| < 8 then |s| else 8
    ensures s == s[..|s| - |r|] + r
  {
    if |s| <= 8 then s else s[|s| - 8..]
  }

  predicate IsFinishOf(t: TimeEvent, bib: int) {
    t.timingPoint == "Finish" && t.bib == bib
  }

  /** The latest finish of the bib: a later registration replaces the one
      kept, an equal one does not. */
  function LatestFinishOf(events: seq<TimeEvent>, bib: int): Option<TimeEvent> {
    if events == [] then None
    else
      var n := |events| - 1;
      var prev := LatestFinishOf(events[..n], bib);
      if IsFinishOf(events[n], bib) && (prev.None? || events[n].registrationTime > prev.value.registrationTime)
      then Some(events[n]) else prev
  }

  /** The loop over the bib's time events. */
  method LatestFinish(events: seq<TimeEvent>, bib: int) returns (latest: Option<TimeEvent>)
    ensures latest == LatestFinishOf(events, bib)
  {
    latest := None;
    for i := 0 to |events|
      invariant latest == LatestFinishOf(events[..i], bib)
    {
      assert events[..i + 1][..i] == events[..i];
      var t := events[i];
      if t.timingPoint == "Finish" && t.bib == bib &&
         (latest.None? || t.registrationTime > latest.value.registrationTime) {
        latest := Some(t);
      }
    }
    assert events[..|events|] == events;
  }

  /** There is a latest finish exactly when the bib has a finish, and it is
      one of the bib's finishes. */
  lemma {:induction false} LatestFinishFound(events: seq<TimeEvent>, bib: int)
    ensures LatestFinishOf(events, bib).None? <==> forall i | 0 <= i < |events| :: !IsFinishOf(events[i], bib)
    ensures LatestFinishOf(events, bib).Some? ==>
              LatestFinishOf(events, bib).value in events && IsFinishOf(LatestFinishOf(events, bib).value, bib)
  {
    if events != [] {
      var n := |events| - 1;
      LatestFinishFound(events[..n], bib);
      assert forall j | 0 <= j < n :: events[..n][j] == events[j];
    }
  }

  /** Where in the list the latest finish sits. */
  function LatestFinishAt(events: seq<TimeEvent>, bib: int): nat
    requires LatestFinishOf(events, bib).Some?
  {
    var n := |events| - 1;
    var prev := LatestFinishOf(events[..n], bib);
    if IsFinishOf(events[n], bib) && (prev.None? || events[n].registrationTime > prev.value.registrationTime)
    then n else LatestFinishAt(events[..n], bib)
  }

  /** The latest finish kept is the first of the bib's finishes with the
      highest registration time: every finish before it is strictly earlier,
      none after it is later. */
  lemma {:induction false} LatestFinishIsLatest(events: seq<TimeEvent>, bib: int)
    requires LatestFinishOf(events, bib).Some?
    ensures LatestFinishAt(events, bib) < |events|
    ensures events[LatestFinishAt(events, bib)] == LatestFinishOf(events, bib).value
    ensures forall j | 0 <= j < LatestFinishAt(events, bib) && IsFinishOf(events[j], bib) ::
              events[j].registrationTime < LatestFinishOf(events, bib).value.registrationTime
    ensures forall j | LatestFinishAt(events, bib) < j < |events| && IsFinishOf(events[j], bib) ::
              events[j].registrationTime <= LatestFinishOf(events, bib).value.registrationTime
  {
    var n := |events| - 1;
    var prev := LatestFinishOf(events[..n], bib);
    assert forall j | 0 <= j < n :: events[..n][j] == events[j];
    if prev.Some? {
      LatestFinishIsLatest(events[..n], bib);
    } else {
      LatestFinishFound(events[..n], bib);
    }
  }

  /** The "videre til" label of a race: round and index for a final, round,
      index and heat otherwise. */
  function NextRaceLabel(race: Race): (tag: string)
    ensures StartsWith(tag, race.round + race.index)
    ensures race.round == "F" ==> tag == race.round + race.index
    ensures race.round != "F" ==> tag == race.round + race.index + IntToString(race.heat)
  {
    if race.round == "F" then race.round + race.index
    else race.round + race.index + IntToString(race.heat)
  }

  /** The start entry the form describes, before the store gives it an id. */
  function NewStart(form: StartForm, bib: int, c: ContestantsAdapter.Contestant): StartEntry {
    StartEntry(0, form.startlistId, form.raceId, bib, form.startingPosition, form.startTime,
               c.firstName + " " + c.lastName, c.club)
  }

  /** The bib's latest finish, pointed at the new race and position. */
  function Forwarded(t: TimeEvent, race: Race, position: int): (u: TimeEvent)
    ensures u.id == t.id && u.bib == t.bib && u.registrationTime == t.registrationTime
  {
    t.(nextRaceId := race.id, nextRace := NextRaceLabel(race), nextRacePosition := position)
  }

  /** The starts the same-round check walks: every entry of the first start
      list the start service returns for the bib. */
  function Listed(startlists: seq<StartAdapter.Startlist>): seq<StartEntry> {
    StartAdapter.StartEntriesByBib(startlists)
  }

  /** create_start files a start: the bib is a number, the contestant is
      known, the race is in the plan, the same-round check passes and the
      store finds the starting position free. */
  predicate Accepted(races: seq<Race>, form: StartForm, contestant: Option<ContestantsAdapter.Contestant>,
                     startlists: seq<StartAdapter.Startlist>)
  {
    ParseInt(form.bibText).Some? && contestant.Some? && IndexOfRace(races, form.raceId).Some? &&
    var race := races[IndexOfRace(races, form.raceId).value];
    RoundCheck(races, Listed(startlists), race.round).Pass? &&
    !PositionTaken(race.startEntries, form.startingPosition)
  }

  /** The races with start e filed, by starting position, in the race named
      raceId. */
  function WithStart(races: seq<Race>, raceId: string, e: StartEntry): (r: seq<Race>)
    ensures |r| == |races| && Skeleton(r) == Skeleton(races)
    ensures forall j | 0 <= j < |races| && races[j].id != raceId :: r[j] == races[j]
    ensures forall j | 0 <= j < |races| && races[j].id == raceId ::
              e in r[j].startEntries && multiset(r[j].startEntries) == multiset(races[j].startEntries) + multiset{e}
  {
    seq(|races|, j requires 0 <= j < |races| =>
      if races[j].id == raceId then races[j].(startEntries := InsertByPosition(races[j].startEntries, e))
      else races[j])
  }

  /** The start create_start files for the form, once the store has given it
      the id nextId. */
  function FiledStart(form: StartForm, contestant: Option<ContestantsAdapter.Contestant>, nextId: nat): StartEntry
    requires ParseInt(form.bibText).Some? && contestant.Some?
  {
    NewStart(form, ParseInt(form.bibText).value, contestant.value).(id := nextId)
  }

  /** The races after one create_start on the form, with nextId the store's
      next entry id: the start filed in its race if accepted, else the races
      as they were. */
  function AfterCreate(races: seq<Race>, nextId: nat, form: StartForm,
                       contestant: Option<ContestantsAdapter.Contestant>,
                       startlists: seq<StartAdapter.Startlist>): seq<Race>
  {
    if Accepted(races, form, contestant, startlists)
    then WithStart(races, form.raceId, FiledStart(form, contestant, nextId))
    else races
  }

  /** The store after one create_start: its races and its next entry id,
      which moves on only when the start is filed. */
  function CreateStep(races: seq<Race>, nextId: nat, form: StartForm,
                      contestant: Option<ContestantsAdapter.Contestant>,
                      startlists: seq<StartAdapter.Startlist>): (seq<Race>, nat)
  {
    (AfterCreate(races, nextId, form, contestant, startlists),
     if Accepted(races, form, contestant, startlists) then nextId + 1 else nextId)
  }

  /** An accepted start is in its race afterwards, with the bib, position and
      name the form and the contestant give it, and no other race changes; a
      start not accepted changes no race. */
  lemma AfterCreateFiles(races: seq<Race>, nextId: nat, form: StartForm,
                         contestant: Option<ContestantsAdapter.Contestant>,
                         startlists: seq<StartAdapter.Startlist>)
    ensures !Accepted(races, form, contestant, startlists) ==> AfterCreate(races, nextId, form, contestant, startlists) == races
    ensures Accepted(races, form, contestant, startlists) ==>
              var after := AfterCreate(races, nextId, form, contestant, startlists);
              var i := IndexOfRace(races, form.raceId).value;
              |after| == |races| &&
              (forall j | 0 <= j < |races| && races[j].id != form.raceId :: after[j] == races[j]) &&
              exists e | e in after[i].startEntries ::
                e.id == nextId && e.raceId == form.raceId && e.bib == ParseInt(form.bibText).value &&
                e.startingPosition == form.startingPosition &&
                e.name == contestant.value.firstName + " " + contestant.value.lastName
  {
    if Accepted(races, form, contestant, startlists) {
      var i := IndexOfRace(races, form.raceId).value;
      var after := AfterCreate(races, nextId, form, contestant, startlists);
      assert FiledStart(form, contestant, nextId) in after[i].startEntries;
    }
  }

  /** create_start (the view helper): the bib must be a number and belong to
      a contestant; the race must exist and the bib must not already start in
      a race of its round (startlists is the start service's answer to the
      bib query); the store then files the start. The bib's latest finish, if
      any, is pointed at the new race. */
  method CreateStart(store: RaceStore, form: StartForm, contestant: Option<ContestantsAdapter.Contestant>,
                     timeEvents: seq<TimeEvent>, startlists: seq<StartAdapter.Startlist>)
    returns (informasjon: string, r: Outcome<CreateStartError>, updated: Option<TimeEvent>)
    requires store.Valid()
    modifies store
    ensures store.Valid()
    ensures (store.races, store.nextEntryId) ==
              CreateStep(old(store.races), old(store.nextEntryId), form, contestant, startlists)
    ensures r.Pass? && contestant.Some? <==> Accepted(old(store.races), form, contestant, startlists)
    ensures ParseInt(form.bibText).None? ==> r == Fail(BibNotANumber)
    ensures ParseInt(form.bibText).Some? && contestant.None? ==>
              r.Pass? && updated.None? && informasjon == "Error. Fant ikke deltaker med startnr " + form.bibText + "."
    ensures ParseInt(form.bibText).Some? && contestant.Some? && IndexOfRace(old(store.races), form.raceId).None? ==>
              r == Fail(RaceMissing(form.raceId))
    ensures ParseInt(form.bibText).Some? && contestant.Some? && IndexOfRace(old(store.races), form.raceId).Some? ==>
              var race := old(store.races)[IndexOfRace(old(store.races), form.raceId).value];
              var check := RoundCheck(old(store.races), Listed(startlists), race.round);
              (check.Fail? ==> r == check) &&
              (check.Pass? && PositionTaken(race.startEntries, form.startingPosition) ==>
                 r.Fail? && r.error.Refused?)
    ensures r.Fail? ==> updated.None?
    ensures Accepted(old(store.races), form, contestant, startlists) ==>
              var i := IndexOfRace(old(store.races), form.raceId).value;
              var latest := LatestFinishOf(timeEvents, ParseInt(form.bibText).value);
              informasjon == " Start kl " + Last8(form.startTimeText) +
                             (if latest.Some? then " Oppdatert videre til fra forrige runde." else "") &&
              updated == (if latest.Some? then Some(Forwarded(latest.value, old(store.races)[i], form.startingPosition))
                          else None)
  {
    var parsed := ParseInt(form.bibText);
    if parsed.None? {
      return "", Fail(BibNotANumber), None;
    }
    var bib := parsed.value;
    if contestant.None? {
      return "Error. Fant ikke deltaker med startnr " + form.bibText + ".", Pass, None;
    }
    var newStart := NewStart(form, bib, contestant.value);
    var newRace := store.Get(form.raceId);
    if newRace.None? {
      return "", Fail(RaceMissing(form.raceId)), None;
    }
    var check := RoundCheck(store.races, Listed(startlists), newRace.value.round);
    if check.Fail? {
      return "", check, None;
    }
    ghost var races0 := store.races;
    var created := store.CreateStartEntry(newStart);
    if created.Fail? {
      return "", Fail(Refused(created.error)), None;
    }
    assert store.races == WithStart(races0, form.raceId, newStart.(id := store.nextEntryId - 1));
    informasjon, updated := ForwardFinish(form, bib, newRace.value, timeEvents);
    r := Pass;
  }

  /** The tail of create_start once the start is filed: the notice names the
      start time and, when the bib has a finish, the latest finish is pointed
      at the new race and the notice says so. */
  method ForwardFinish(form: StartForm, bib: int, race: Race, timeEvents: seq<TimeEvent>)
    returns (informasjon: string, updated: Option<TimeEvent>)
    ensures var latest := LatestFinishOf(timeEvents, bib);
            informasjon == " Start kl " + Last8(form.startTimeText) +
                           (if latest.Some? then " Oppdatert videre til fra forrige runde." else "") &&
            updated == (if latest.Some? then Some(Forwarded(latest.value, race, form.startingPosition)) else None)
  {
    informasjon := " Start kl " + Last8(form.startTimeText);
    var latest := LatestFinish(timeEvents, bib);
    updated := None;
    if latest.Some? {
      updated := Some(Forwarded(latest.value, race, form.startingPosition));
      informasjon := informasjon + " Oppdatert videre til fra forrige runde.";
    }
  }
}

=== FILE: xml_import.dfy ===
/** Reading an event's entry file: the age classes with their derived
    raceclass names, the contestants, and the event's own details. The XML
    is taken as already parsed into the elements below. */
module XmlImport {
  import opened Common

  // ---------------------------------------------------------------------
  // Age classes

  /** The spelling of "år" (years) removed from raceclass names: correct in
      the XML reader, mis-decoded in the reader of pre-parsed entries. */
  const Year := "år"
  const MisdecodedYear := "Ã¥r"

  /** An Entry element: its EntryClass shortName and its Exercise name. */
  datatype Entry = Entry(shortName: string, exercise: string, competitors: seq<Person>)

  datatype Ageclass = Ageclass(name: string, order: nat, raceclass: string, eventId: string, distance: string)

  /** The raceclass name of an age class: spaces removed, then Menn, Kvinner,
      junior, Junior and Felles shortened to M, K, J, J and F, then the year
      word removed, in that order. */
  function RaceclassName(name: string, yearWord: string): (r: string)
    requires yearWord != []
    ensures ' ' !in r
  {
    var r0 := Replace(name, " ", "");
    var r1 := Replace(r0, "Menn", "M");
    var r2 := Replace(r1, "Kvinner", "K");
    var r3 := Replace(r2, "junior", "J");
    var r4 := Replace(r3, "Junior", "J");
    var r5 := Replace(r4, "Felles", "F");
    ReplaceDeletesChar(name, ' ', "");
    ReplaceKeepsOut(r0, "Menn", "M", ' ');
    ReplaceKeepsOut(r1, "Kvinner", "K", ' ');
    ReplaceKeepsOut(r2, "junior", "J", ' ');
    ReplaceKeepsOut(r3, "Junior", "J", ' ');
    ReplaceKeepsOut(r4, "Felles", "F", ' ');
    ReplaceKeepsOut(r5, yearWord, "", ' ');
    Replace(r5, yearWord, "")
  }

  /** A name without spaces and without the first letter of any shortened
      word only loses its year word. */
  lemma PlainName(s: string, yearWord: string)
    requires yearWord != []
    requires ' ' !in s && 'M' !in s && 'K' !in s && 'j' !in s && 'J' !in s && 'F' !in s
    ensures RaceclassName(s, yearWord) == Replace(s, yearWord, "")
  {
    ReplaceIdentity(s, " ", "");
    ReplaceIdentity(s, "Menn", "M");
    ReplaceIdentity(s, "Kvinner", "K");
    ReplaceIdentity(s, "junior", "J");
    ReplaceIdentity(s, "Junior", "J");
    ReplaceIdentity(s, "Felles", "F");
  }

  /** The XML reader removes a correctly decoded "år" that ends a name
      without spaces and without words it shortens: "G12år" becomes "G12". */
  lemma YearRemoved(s: string)
    requires ' ' !in s && 'M' !in s && 'K' !in s && 'j' !in s && 'J' !in s && 'F' !in s && 'å' !in s
    ensures RaceclassName(s + Year, Year) == s
  {
    PlainName(s + Year, Year);
    ReplaceAfter(s, Year, Year, "");
    assert Replace(Year, Year, "") == "" + Replace("", Year, "");
  }

  /** The reader of pre-parsed entries keeps such a correctly decoded "år":
      it only removes the mis-decoded spelling. */
  lemma MisdecodedYearKept(s: string)
    requires ' ' !in s && 'M' !in s && 'K' !in s && 'j' !in s && 'J' !in s && 'F' !in s && 'Ã' !in s
    ensures RaceclassName(s + Year, MisdecodedYear) == s + Year
  {
    PlainName(s + Year, MisdecodedYear);
    ReplaceIdentity(s + Year, MisdecodedYear, "");
  }

  /** get_ageclasses_from_xml: one age class per entry, numbered 1, 2, 3, ...
      in document order, with name and distance copied. */
  method AgeclassesFromEntries(eventId: string, entries: seq<Entry>, yearWord: string)
    returns (ageclasses: seq<Ageclass>)
    requires yearWord != []
    ensures |ageclasses| == |entries|
    ensures forall i | 0 <= i < |entries| ::
              ageclasses[i].order == i + 1 && ageclasses[i].name == entries[i].shortName &&
              ageclasses[i].distance == entries[i].exercise && ageclasses[i].eventId == eventId &&
              ageclasses[i].raceclass == RaceclassName(entries[i].shortName, yearWord)
  {
    ageclasses := [];
    var order := 0;
    for i := 0 to |entries|
      invariant |ageclasses| == i && order == i
      invariant forall j | 0 <= j < i ::
                  ageclasses[j].order == j + 1 && ageclasses[j].name == entries[j].shortName &&
                  ageclasses[j].distance == entries[j].exercise && ageclasses[j].eventId == eventId &&
                  ageclasses[j].raceclass == RaceclassName(entries[j].shortName, yearWord)
    {
      order := order + 1;
      var name := entries[i].shortName;
      var ageclass := Ageclass(name, order, RaceclassName(name, yearWord), eventId, entries[i].exercise);
      ageclasses := ageclasses + [ageclass];
    }
  }

  // ---------------------------------------------------------------------
  // Contestants

  /** A Person element: `found` names the sub-elements it has (Name, with
      Family and Given inside it, BirthDate, Team, District, Email and
      Identity); the texts and attributes are None where an element that is
      there has none. */
  datatype Person = Person(
    found: set<string>,
    family: Option<string>,
    given: Option<string>,
    birthYear: Option<string>,
    birthMonth: Option<string>,
    birthDay: Option<string>,
    sex: Option<string>,
    clubName: Option<string>,
    team: Option<string>,
    district: Option<string>,
    email: Option<string>,
    identity: Option<string>)

  /** The contestant request body read from a person. */
  datatype ContestantInfo = ContestantInfo(
    bib: string,
    firstName: Option<string>,
    lastName: Option<string>,
    birthDate: string,
    gender: Option<string>,
    ageClass: string,
    club: Option<string>,
    team: Option<string>,
    region: Option<string>,
    eventId: string,
    minidrettId: Option<string>,
    email: Option<string>)

  /** How an f-string renders an optional text: None prints as "None". */
  function Shown(t: Option<string>): string {
    if t.Some? then t.value else "None"
  }

  /** f"{year}-{month}-{day}", with no padding. */
  function BirthDate(p: Person): string {
    Shown(p.birthYear) + "-" + Shown(p.birthMonth) + "-" + Shown(p.birthDay)
  }

  /** The birth date splits back into its three parts when none holds a '-'. */
  lemma BirthDateSplits(p: Person)
    requires '-' !in Shown(p.birthYear) && '-' !in Shown(p.birthMonth) && '-' !in Shown(p.birthDay)
    ensures Split(BirthDate(p), '-') == [Shown(p.birthYear), Shown(p.birthMonth), Shown(p.birthDay)]
  {
    var parts := [Shown(p.birthYear), Shown(p.birthMonth), Shown(p.birthDay)];
    assert parts[1..] == [parts[1], parts[2]] && parts[1..][1..] == [parts[2]];
    assert Join(parts[1..], '-') == parts[1] + "-" + parts[2];
    assert Join(parts, '-') == BirthDate(p);
    SplitJoin(parts, '-');
  }

  /** The sub-elements of a Person that the reader finds and then reads
      from; find gives None for a missing one, and reading its text or
      attributes raises AttributeError. */
  const PersonReads: set<string> := {"Name", "Family", "Given", "BirthDate", "Team", "District", "Email", "Identity"}

  /** get_one_contestant_info_from_xml: None (AttributeError) when a
      sub-element it reads is missing; otherwise the bib is always empty, the
      age class is the one passed in, and every other field is copied from
      the person. */
  function ContestantInfoOf(p: Person, ageclass: string, eventId: string): (c: Option<ContestantInfo>)
    ensures c.Some? <==> PersonReads <= p.found
    ensures c.Some? ==> c.value.bib == "" && c.value.ageClass == ageclass && c.value.eventId == eventId
    ensures c.Some? ==> c.value.firstName == p.given && c.value.lastName == p.family &&
                        c.value.birthDate == BirthDate(p) && c.value.gender == p.sex
    ensures c.Some? ==> c.value.club == p.clubName && c.value.team == p.team && c.value.region == p.district &&
                        c.value.email == p.email && c.value.minidrettId == p.identity
  {
    if !(PersonReads <= p.found) then None
    else Some(ContestantInfo("", p.given, p.family, BirthDate(p), p.sex, ageclass, p.clubName, p.team, p.district,
                             eventId, p.identity, p.email))
  }

  /** What get_one_contestant_info_from_xml is handed: the Person element, or
      a text. On a text, find("Name") is str.find and gives a number, whose
      find raises AttributeError. */
  datatype Handed = Element(person: Person) | Text(text: string)

  function ContestantFrom(h: Handed, ageclass: string, eventId: string): (c: Option<ContestantInfo>)
    ensures c.Some? <==> h.Element? && PersonReads <= h.person.found
    ensures h.Element? ==> c == ContestantInfoOf(h.person, ageclass, eventId)
  {
    match h
    case Element(p) => ContestantInfoOf(p, ageclass, eventId)
    case Text(_) => None
  }

  /** The competitors of the entries in document order, each with its
      entry's age class. */
  function Listed(entries: seq<Entry>): (r: seq<(Person, string)>)
    ensures forall i | 0 <= i < |r| :: exists e | e in entries :: r[i].1 == e.shortName && r[i].0 in e.competitors
  {
    if entries == [] then []
    else
      var last := entries[|entries| - 1];
      Listed(entries[..|entries| - 1]) +
      seq(|last.competitors|, k requires 0 <= k < |last.competitors| => (last.competitors[k], last.shortName))
  }

  /** The loop of get_all_contestant_info_from_xml, with `hand` choosing what
      each call is given; None stands for the first error raised. */
  function ReadAll(listed: seq<(Person, string)>, eventId: string, hand: Person -> Handed)
    : Option<seq<ContestantInfo>>
  {
    if listed == [] then Some([])
    else
      var last := listed[|listed| - 1];
      match ReadAll(listed[..|listed| - 1], eventId, hand)
      case None => None
      case Some(cs) =>
        match ContestantFrom(hand(last.0), last.1, eventId)
        case None => None
        case Some(c) => Some(cs + [c])
  }

  /** str(contestant.find("Person")): the text of the element. */
  function AsText(p: Person): Handed { Text("<Element 'Person'>") }

  /** The Person element itself. */
  function AsElement(p: Person): Handed { Element(p) }

  /** As written, the import raises as soon as the file lists one competitor. */
  lemma {:induction false} AsWrittenRaises(listed: seq<(Person, string)>, eventId: string)
    ensures ReadAll(listed, eventId, AsText).Some? <==> listed == []
  {
    if listed != [] {
      AsWrittenRaises(listed[..|listed| - 1], eventId);
    }
  }

  /** As intended, the import succeeds exactly when every competitor has
      the sub-elements the reader reads, and then every competitor is read,
      in order, under its age class. */
  lemma {:induction false} AsIntendedReadsAll(listed: seq<(Person, string)>, eventId: string)
    ensures ReadAll(listed, eventId, AsElement).Some? <==>
            forall i | 0 <= i < |listed| :: PersonReads <= listed[i].0.found
    ensures ReadAll(listed, eventId, AsElement).Some? ==>
              |ReadAll(listed, eventId, AsElement).value| == |listed| &&
              forall i | 0 <= i < |listed| ::
                Some(ReadAll(listed, eventId, AsElement).value[i]) == ContestantInfoOf(listed[i].0, listed[i].1, eventId)
  {
    if listed != [] {
      var front := listed[..|listed| - 1];
      AsIntendedReadsAll(front, eventId);
      assert forall i | 0 <= i < |front| :: front[i] == listed[i];
    }
  }

  // ---------------------------------------------------------------------
  // The event

  /** The Competition element: `found` names the sub-elements it has
      (EventName, EventId, OrganizerName and CompetitionVenue); the fields
      are None where an element that is there has no such text or
      attribute. */
  datatype Competition = Competition(
    found: set<string>,
    eventName: Option<string>,
    eventId: Option<string>,
    startDate: Option<string>,
    organizerName: Option<string>,
    startingVenue: Option<string>)

  /** The event request body: exactly name, nifid, date, organiser and venue. */
  datatype EventInfo = EventInfo(
    name: Option<string>,
    nifid: Option<string>,
    date: Option<string>,
    organiser: Option<string>,
    venue: Option<string>)

  /** The sub-elements of Competition the event reader finds and reads from. */
  const CompetitionReads: set<string> := {"EventName", "EventId", "OrganizerName", "CompetitionVenue"}

  /** get_event_info_from_xml over the document's Competition element, None
      when it has none: a missing Competition element, or a missing
      sub-element of it that the reader reads, raises AttributeError (None
      here); otherwise the body carries the competition's fields. */
  function EventInfoOf(competition: Option<Competition>): (e: Option<EventInfo>)
    ensures e.Some? <==> competition.Some? && CompetitionReads <= competition.value.found
    ensures e.Some? ==>
              var c := competition.value;
              e.value.name == c.eventName && e.value.nifid == c.eventId && e.value.date == c.startDate &&
              e.value.organiser == c.organizerName && e.value.venue == c.startingVenue
  {
    match competition
    case None => None
    case Some(c) =>
      if !(CompetitionReads <= c.found) then None
      else Some(EventInfo(c.eventName, c.eventId, c.startDate, c.organizerName, c.startingVenue))
  }
}
